=== FILE: README.md ===
# lemoneval scoring engine, modelled in Dafny

lemoneval grades programming exercises. A grading rubric is a **test graph**:
constants, operator nodes that combine the scores of their dependencies,
lottery nodes that award a score when a random sample falls below a
threshold, tests that look at the submitted data, and leaves that run a
candidate's function or program and hand its output to a checker. A result
object scores the graph by a memoised depth-first traversal from the root; a
memo entry of `None` marks a node still in progress, so re-entering it is
reported as a cycle with `ValueError`.

Around that engine the repository has:

- older **tree scorers** (`core/testcase.py`, `core.bkup/testcase.py`) that
  score by plain structural recursion, the latter writing a report line per
  node;
- **checkers** that compare a candidate's output file with the expected one,
  byte for byte or as a stream of words with one end-of-line token per line;
- **parameters**, **validators** and **typed descriptors**: write-once
  attributes that check a value's class, its validators and, for sequences,
  a length bound;
- **frameworks** whose metaclass accumulates parameter names along the class
  hierarchy and whose constructor assigns and validates them, the
  ready-made multiple-choice frameworks, and the field-based exercises;
- **phase decorators** (stage sequences and a state machine) that split a
  framework's `resume_session` into steps, and **sessions** that drive them
  until `StopIteration(summary)`;
- the PEP 257 **docstring trimmer** and the **report** trees flattened in
  pre-order.

The model is one Dafny module per concept:

| module | file | models |
|---|---|---|
| `Outcomes` | outcomes.dfy | exceptions as values: `Outcome<T>` is a result or a raised `Error` |
| `PyValues` | pyvalues.dfy | the dynamically typed values, `isinstance`, truthiness, `==` |
| `PyText` | pytext.dfy | whitespace, `str.split()`, text-file line iteration, `splitlines`, `strip`, `expandtabs`, `join`, `str(int)` |
| `Ops` | ops.dfy | the closed set of score operators over integer scores |
| `TestGraph`, `TestGraphProofs`, `TestGraphFacts` | graph.dfy, graph_proofs.dfy, graph_facts.dfy | the three generations of the memoised traversal, what it guarantees, and how the generations relate |
| `ProgramNodes` | program_nodes.dfy | the two program-running leaves, over an opaque sandbox |
| `Checkers` | checkers.dfy | the file checkers and check scripts |
| `TestCases`, `TestTree` | testcases.dfy, testtree.dfy | the two tree scorers |
| `Reports` | reports.dfy | reporter trees and their flattening |
| `Validators`, `Parameters`, `LegacyParameters`, `Descriptors` | validators.dfy, parameters.dfy, legacy_parameters.dfy, descriptors.dfy | validator chains and the write-once and typed descriptors, newer and older |
| `Frameworks`, `Assembled`, `Exercises` | frameworks.dfy, assembled.dfy, exercises.dfy | parameter-name accumulation, construction, the ready-made frameworks and the field-based exercises |
| `Phases`, `Sessions` | phases.dfy, sessions.dfy | the phase decorators and both session classes |
| `Docstrings` | docstrings.dfy | the docstring trimmer |

Python's dynamic behaviour is made explicit: every operation that can raise
returns an `Outcome`, the random sample of a lottery node and the behaviour
of a candidate program are inputs (the `World` record of `TestGraph`), and a
phase method or framework callback is a function parameter. Verbatim copies
in the repository (`utils/dispatches.py` of `backbones/phases.py`,
`core.bkup/checkscript.py` and `core.bkup/report.py` of their `core/`
originals, `unused/core/testcase.py` of `core.bkup/testcase.py`,
`old/lemoneval/core/descriptors.py` of `core/descriptors.py`) share one model
with their originals.

## Model

| member | source | states |
|---|---|---|
| `Ops.MaxOf` | lemoneval/core/testcase.py:101 | the largest of a non-empty list is one of its elements and no element exceeds it, as the builtin `max` |
| `Ops.MinOf` | lemoneval/core/testcase.py:111 | the smallest of a non-empty list is one of its elements and no element is below it, as the builtin `min` |
| `Ops.SumOfAppend` | core.bkup/testcase.py:123 | `sum` over a concatenation is the sum of the two parts' sums |
| `Ops.FloorDivision` | lemoneval/core/testgraph.py:85-93 | `//` and `%` on integers round towards negative infinity: `a == b * (a // b) + a % b`, and the remainder takes the divisor's sign |
| `Ops.Apply` | lemoneval/core/testgraph.py:65-130 | `op(*args)` on integers: the binary operators need exactly two arguments and the unary ones one (else `TypeError`); `//` and `%` fail exactly on a zero divisor; builtin `max`/`min` called on separate arguments need at least two, and reduced over one sequence need at least one (an empty one is a `ValueError`); the result is an element and an upper or lower bound; `sum` always succeeds |
| `Ops.Numbers` | lemoneval/core/testgraph.py:181 | the integers behind recorded scores that are all numbers, position by position |
| `Ops.ApplyScores` | lemoneval/core/testgraph.py:181-182 | applying an operator to recorded scores: a `None` among them is a `TypeError`, otherwise the operator on their numbers |
| `Ops.SumOfPair` | core.bkup/testcase.py:123 | the sum operator on two scores adds them |
| `Ops.SumOfTwelve` | core.bkup/testcase.py:118-144 | example values of `sum`, variadic `max`/`min` and `sum` of nothing |
| `TestGraph.CallsOf` | lemoneval/prog/graph.py:49 | what calling `data[key]` does for each key: present exactly when data is, with the same keys, and a key with no behaviour raises `TypeError` |
| `TestGraph.AsScore` | lemoneval/prog/graph.py:44-61 | a leaf's integer verdict becomes a numeric score and its error passes through unchanged |
| `TestGraph.History` | lemoneval/core/testgraph.py:181 | `[history[p] for p in dependencies]`: succeeds exactly when every dependency has an entry, giving the entries in order; otherwise `KeyError` |
| `TestGraph.Score` | lemoneval/core/testgraph.py:148-235 | one node's `evaluate`: a constant gives its value whatever the data; a lottery gives its score exactly when the sample is below the threshold (or the score is 0), else 0; a predicate test scores exactly when its key is in the data and the predicate holds, 0 for a missing key, fails on `None` data, and raises whatever its predicate raises; an equality test (lemoneval/core/graph.py:171-181) needs its key in the data and scores exactly when the stored value equals the solution; program and file leaves score what their evaluations give; the abstract base raises `NotImplementedError` |
| `TestGraph.DepsOf` | lemoneval/core/result.py:58 | reading `node.dependencies`: the node's dependencies when present; `AttributeError` exactly for a non-node or a file leaf under traversal, and for any operator under the evaluator as written (`node.children`) |
| `TestGraph.EvalNode` | lemoneval/core/evaluator.py:35-47 | the score recorded for a node: an operator applies its op to its dependencies' scores in order; under the evaluator a non-node or a testgraph-only kind raises the invalid-node `ValueError`; everything else is scored by its own `evaluate` |
| `TestGraph.Traverse` | lemoneval/core/testgraph.py:261-286 | `traverse(node)`: a node found in the memo raises the cycle error when it is in progress and otherwise returns without change; a successful traversal only adds entries, keeps every earlier entry, records the node and logs it last |
| `TestGraph.TraverseAll` | lemoneval/core/testgraph.py:281-282 | the dependency loop: on success every dependency has an entry, earlier entries are kept and the log only grows |
| `TestGraph.Run` | lemoneval/core/testgraph.py:252-259 | a run from a fresh memo: the final score is the root's recorded score, and only nodes of the graph are recorded |
| `TestGraph.GradingResult` | lemoneval/core/testgraph.py:252-259 | `GradingResult(graph, data)`: the final score is the root's entry in the recorded scores |
| `TestGraph.NormalizeData` | lemoneval/core/result.py:31 | `data if data else {}`: present data is kept, missing data becomes the empty dictionary |
| `TestGraph.BaseResult` | lemoneval/core/result.py:29-36 | `BaseResult(graph, data)`: the final score is the root's entry in the recorded scores |
| `TestGraph.WrapOperands` | lemoneval/core/testgraph.py:167-176 | `OperatorNode.__init__`'s loop: succeeds exactly when no argument is foreign (else `TypeError`); dependencies keep the arguments' order and count, a node argument is kept and a number becomes a new constant node, and existing nodes are unchanged |
| `TestGraph.MakeOperator` | lemoneval/core/graph.py:118-127 | `OperatorNode(op, *args)`: built exactly when no argument is foreign, with each argument at its position as the node itself or a new constant, and the rest of the graph unchanged |
| `TestGraph.Forward` | lemoneval/core/graph.py:27-33 | `node <op> other` builds an operator with the node first and the other operand second; a foreign operand is a `TypeError` |
| `TestGraph.Reflected` | lemoneval/core/graph.py:29-35 | `other <op> node` builds an operator with the other operand first and the node second; a foreign operand is a `TypeError` |
| `TestGraph.Unary` | lemoneval/core/graph.py:87-92 | `-node`, `+node` and `abs(node)` build an operator over the node alone, leaving the graph otherwise unchanged |
| `TestGraphProofs.EvalFrame` | lemoneval/core/testgraph.py:181 | a node's score depends on the memo only through its own dependencies' entries |
| `TestGraphProofs.MarkPreserves` | lemoneval/core/testgraph.py:278 | marking a fresh node in progress keeps the traversal invariant, with the node pushed on the stack of in-progress nodes |
| `TestGraphProofs.RecordPreserves` | lemoneval/core/testgraph.py:285-286 | recording the score of the node in progress after its dependencies pops it and keeps the invariant |
| `TestGraphProofs.MarkShrinks` | lemoneval/core/testgraph.py:278 | marking a node leaves one node fewer without an entry, the measure traversal terminates on |
| `TestGraphProofs.TraverseUnfold` | lemoneval/core/testgraph.py:277-286 | one step of `traverse` on a fresh node: mark it, traverse its dependencies, evaluate it, record the score and log it, with each failure passed on |
| `TestGraphProofs.TraverseSound` | lemoneval/core/testgraph.py:271-286 | a successful `traverse` keeps the invariant: no node logged twice, memo entries are exactly the in-progress and logged nodes, dependencies are logged first, and each recorded score is the node's evaluation on the recorded scores |
| `TestGraphProofs.TraverseAllSound` | lemoneval/core/testgraph.py:281-282 | the dependency loop keeps the same invariant |
| `TestGraphProofs.RunSound` | lemoneval/core/testgraph.py:252-286 | a successful run evaluates each node at most once, scores every dependency before its node, records for each node its evaluation on the recorded scores, and scores the root last |
| `TestGraphProofs.InvConsequences` | lemoneval/core/testgraph.py:271-286 | the invariant with nothing in progress: each recorded node is logged once, after its dependencies, with its evaluation as score |
| `TestGraphProofs.IndexOf` | lemoneval/core/testgraph.py:281-282 | the position of a logged node in the evaluation order |
| `TestGraphProofs.PathDescends` | lemoneval/core/testgraph.py:281-282 | along a dependency path from a logged node every node is logged, strictly earlier than the one before it |
| `TestGraphProofs.RunScoresReachable` | lemoneval/core/testgraph.py:252-259 | after a successful run every node reachable from the root has an entry |
| `TestGraphProofs.RunOkAcyclic` | lemoneval/core/testgraph.py:271-273 | a run never succeeds when a cycle is reachable from the root |
| `TestGraphProofs.RankedAcyclic` | lemoneval/core/testgraph.py:281-282 | no cycle is reachable when a rank strictly falls along every dependency edge |
| `TestGraphFacts.PredicateErrorPropagates` | lemoneval/core/testgraph.py:229-235 | an exception raised by a test's predicate is not caught: under any operator it ends the whole grading with that exception |
| `TestGraphProofs.TraverseTotal` | lemoneval/core/testgraph.py:271-286 | on a graph whose nodes all evaluate to numbers and whose operators succeed on every pair of numbers (so no `//` or `%` node) the only error a traversal can raise is the cycle error, and every recorded score is a number |
| `TestGraphProofs.TraverseAcyclic` | lemoneval/core/testgraph.py:271-286 | with no cycle reachable, a traversal never meets a node in progress, so on such a graph it succeeds |
| `TestGraphProofs.RunTotal` | lemoneval/core/testgraph.py:252-286 | on a graph whose nodes all evaluate to numbers and whose operators succeed on every pair of numbers (so no `//` or `%` node), the run succeeds exactly when no cycle is reachable from the root, fails only with the cycle error, and ends with a numeric final score |
| `TestGraphFacts.EvaluatorAsWrittenRejectsOperators` | lemoneval/core/evaluator.py:38-40 | the evaluator as written raises `AttributeError` on an operator root, and a successful run touched no operator |
| `TestGraphFacts.TraverseAgree` | lemoneval/core/evaluator.py:26-50 | with operator children read as dependencies, the evaluator's traversal equals `GradingResult`'s on any graph of core/graph.py node kinds |
| `TestGraphFacts.TraverseAllAgree` | lemoneval/core/evaluator.py:40-42 | the same for the loop over an operator's children |
| `TestGraphFacts.EvaluatorAgreesWithGrading` | lemoneval/core/evaluator.py:18-55 | on graphs of core/graph.py node kinds the corrected evaluator succeeds exactly when `GradingResult` does, with the same final score or the same error |
| `TestGraphFacts.LeafStep` | lemoneval/core/testgraph.py:277-286 | traversing a fresh node without dependencies records exactly its evaluation |
| `TestGraphFacts.NodeStep` | lemoneval/core/testgraph.py:277-286 | traversing a fresh node whose dependencies succeed records its evaluation and logs it last |
| `TestGraphFacts.SharedNodeScoredOnce` | lemoneval/core/testgraph.py:271-275 | example: a sum over one node listed twice scores that node once, before its parent, and counts its score twice |
| `TestGraphFacts.NoneScoreLooksLikeCycle` | lemoneval/core/result.py:49-50 | example: a constant `None` reached a second time raises the cycle error although no cycle exists |
| `TestGraphFacts.MissingDataExample` | lemoneval/core/result.py:31 | example: a test on missing data raises under `GradingResult` and scores 0 under `BaseResult` |
| `TestGraphFacts.BaseResultNormalises` | lemoneval/core/result.py:31 | `BaseResult` on missing data is `GradingResult` on the empty dictionary, and on given data is `GradingResult` itself |
| `TestGraphFacts.EvaluatorRefusesTestGraphNodes` | lemoneval/core/evaluator.py:44-47 | under the evaluator a root of a testgraph-only kind raises the invalid-node `ValueError`, and a successful run scored no such node |
| `TestGraphFacts.FileLeafBreaksTraversal` | lemoneval/files/graph.py:25-30 | a file leaf has no `dependencies`, so both traversals raise `AttributeError` at it |
| `TestGraphFacts.FailingLeafPropagates` | lemoneval/core/testgraph.py:281-286 | a leaf whose evaluation raises makes the run of an operator over it raise the same error |
| `TestGraphFacts.ProgramLeafFailsInSum` | lemoneval/prog/graph.py:49 | a program leaf in a sum: with no data, `data[program_id]` raises `TypeError`; with the empty dictionary `BaseResult` substitutes, it raises `KeyError` |
| `ProgramNodes.NewFileNode` | lemoneval/files/graph.py:25-35 | `FunctionalFileTestNode(...)` is built exactly when both paths are absolute and exist, keeping its arguments; otherwise `AssertionError` |
| `ProgramNodes.EvaluateFileNode` | lemoneval/files/graph.py:37-61 | the input is staged and the output prepared first; with no data or no function under the id it scores 0 without calling anything; a function that raises scores 0 and neither the solution is staged nor the checker called; a function that returns, whatever it returns, scores exactly what the checker gives; the solution is staged exactly when the checker is called |
| `ProgramNodes.NewProgramNode` | lemoneval/prog/graph.py:23-35 | `EvaluateProgramNode(...)` is built exactly when both paths are absolute and exist, with no dependencies and its arguments kept; otherwise `AssertionError` |
| `ProgramNodes.EvaluateProgramNode` | lemoneval/prog/graph.py:37-64 | `data[program_id]` on no data is a `TypeError` and on a missing id a `KeyError`, both before any call; a program that raises passes its exception on; a falsy return scores 0 and a truthy one exactly what the check script gives; the check script runs exactly on a truthy return |
| `ProgramNodes.LeavesAgreeOnSuccess` | lemoneval/prog/graph.py:53-59 | on a candidate returning a truthy value the two leaves built from the same arguments take the same steps and score exactly the checker's verdict |
| `ProgramNodes.LeavesDifferOnFailure` | lemoneval/files/graph.py:47-61 | where the two leaves part: a missing candidate scores 0 in the file leaf and raises in the program leaf; a raising candidate scores 0 against the exception passed on; a falsy return is checked by the file leaf and scores 0 in the program leaf |
| `Checkers.Award` | lemoneval/files/checker.py:27-30 | `BaseChecker.__call__`: the full score when the answer checks, else 0 |
| `Checkers.ZipLongestAll` | lemoneval/files/checker.py:76-79 | `all(a == b for a, b in zip_longest(...))` holds exactly when the two streams are equal: the `None` padding fails any extra token |
| `Checkers.WordCheck` | lemoneval/files/checker.py:51-79 | `WordChecker.check_answer` passes exactly when the two files' word streams are equal; `Checkers.WordStream` is `word_stream` on the file's text: each line's words followed by the end-of-line token |
| `Checkers.ZipAny` | lemoneval/core/checkscript.py:57-58 | `any` over the `zip` of two streams finds a mismatch exactly when their paired prefixes differ; otherwise the shorter stream is used up, and when `b` is the shorter, `a` has lost the one token drawn before `b` ran out |
| `Checkers.ZipThenLeftoversCharacterized` | lemoneval/core/checkscript.py:56-72 | the zip-then-leftover procedure passes exactly when the streams are equal or the first has exactly one token more after an equal prefix |
| `Checkers.StandardCheckAsWritten` | lemoneval/core/checkscript.py:39-72 | `StandardCheckScript.check_answer` as written passes exactly on equal word streams or when the output's stream is the solution's plus one token |
| `Checkers.ZipKeepCharacterized` | lemoneval/core/checkscript.py:57-72 | pairing that keeps the token a stream ran out on finds no mismatch and no leftovers exactly when the streams are equal |
| `Checkers.StandardCheck` | lemoneval/core/checkscript.py:45-72 | the standard check script, with the leftover checks as intended, passes exactly when `WordChecker` does |
| `Checkers.WordIsNotEndOfLine` | lemoneval/files/checker.py:69-71 | a word of a line is never the end-of-line token, so line ends cannot be forged |
| `Checkers.SplitAtEndOfLine` | lemoneval/files/checker.py:68-71 | two streams that agree through a line's end-of-line token agree on that line's words and on the rest |
| `Checkers.StreamOfEqual` | lemoneval/files/checker.py:67-71 | two texts have the same word stream exactly when they have as many lines and each line has the same words |
| `Checkers.WordCheckLineByLine` | lemoneval/files/checker.py:67-79 | `WordChecker` passes exactly when the files have as many lines and corresponding lines split into the same words |
| `Checkers.WordCheckReflexive` | lemoneval/files/checker.py:76-79 | both word checks accept a file compared with itself |
| `Checkers.WordCheckSymmetric` | lemoneval/files/checker.py:44-45 | the word checks and byte equality do not care which file is the output and which the solution |
| `Checkers.SameContentsPassesWordCheck` | lemoneval/files/checker.py:44-45 | byte-identical files also pass both word checks |
| `Checkers.SpacingDoesNotMatter` | lemoneval/files/checker.py:67-79 | for any words `a`, `b`, `c`, `"a  b\nc"` matches `"a b\n c"`: spacing within a line and leading spaces do not matter |
| `Checkers.MissingWordMatters` | lemoneval/files/checker.py:67-79 | for any words `a`, `b`, `c`, `"a b c"` does not match `"a b"` under either word check |
| `Checkers.TwoWordLine` | lemoneval/files/checker.py:69-70 | a line holding two words separated by any non-empty whitespace splits into exactly those two words |
| `Checkers.TwoWordsThenWord` | lemoneval/files/checker.py:68 | two words, a newline-free separator, a newline and a non-empty newline-free tail iterate as exactly two lines, the first ending in the newline |
| `Checkers.SpacedWords` | lemoneval/files/checker.py:68-70 | two words joined by one space are one line without newline, and split back into the two words |
| `Checkers.SpacedThreeWords` | lemoneval/files/checker.py:68-70 | three words joined by single spaces are one line, and split back into the three words |
| `Checkers.ThreeWordsSplitAll` | lemoneval/files/checker.py:69-70 | three words joined by single spaces split into exactly those three words |
| `Checkers.ThreeWordsOneLine` | lemoneval/files/checker.py:68 | a non-empty newline-free text, a space and a word iterate as a single line |
| `Checkers.ThreeWordsSplit` | lemoneval/files/checker.py:69-70 | a word followed by a space splits off as the first word, and the rest splits as before |
| `Checkers.TrailingBlankLineStreams` | lemoneval/core/checkscript.py:50-53 | `"a\n\n"` streams as `a`, end of line, end of line, and `"a\n"` as `a`, end of line |
| `Checkers.StandardAsWrittenAcceptsExtraLine` | lemoneval/core/checkscript.py:57-72 | an output with one blank line more than the solution passes the check script as written, and fails both `WordChecker` and the corrected script |
| `Checkers.CheckerScore` | lemoneval/files/checker.py:14-45 | a checker's score is the full score or 0, and (for a non-zero full score) it is the full score exactly when the answer checks; `Checkers.CheckAnswer` is `check_answer` of the two checkers: byte equality for `BaseChecker`, the word check for `WordChecker` |
| `Checkers.Evaluate` | lemoneval/core/checkscript.py:14-23 | `evaluate` returns the score limit with `'Correct'` exactly when the script accepts, and 0 with `'Incorrect'` otherwise |
| `Checkers.ScriptAgreesWithChecker` | lemoneval/core/checkscript.py:25-72 | the corrected standard script scores as `WordChecker` and the base script as `BaseChecker` on the same files; `Checkers.ScriptAccepts` is `check_answer` of the three script kinds (base, standard as written, standard corrected) |
| `PyText.LineBoundaryIsSpace` | lemoneval/utils/docstrings.py:14-18 | every character `splitlines` breaks at is also whitespace to `strip`, so a line boundary never survives stripping |
| `PyText.Concat` | lemoneval/core/report.py:74 | `''.join` of a single part is that part |
| `PyText.ConcatAppend` | lemoneval/core/report.py:72-74 | joining a list built in two halves is the join of the first half followed by the join of the second |
| `PyText.Word` | lemoneval/files/checker.py:69 | the first word of a text is its longest space-free prefix: it contains no whitespace and is followed by whitespace or the end |
| `PyText.Split` | lemoneval/files/checker.py:69 | every word `str.split()` yields is non-empty and contains no whitespace |
| `PyText.SplitAfterWord` | lemoneval/core/checkscript.py:51 | a word followed by whitespace or the end splits off as the first word, and the rest splits as before |
| `PyText.SplitAfterSpaces` | lemoneval/core/checkscript.py:51 | leading whitespace contributes no words |
| `PyText.SplitWordThenSpaces` | lemoneval/files/checker.py:69 | a word and a run of whitespace split into that word followed by the words of the rest |
| `PyText.SplitWord` | lemoneval/files/checker.py:69 | a single non-empty space-free word splits into exactly itself |
| `PyText.NewlineIndex` | lemoneval/files/checker.py:68 | the position of the first `'\n'` (or the length, if none): no newline before it and a newline at it |
| `PyText.Lines` | lemoneval/files/checker.py:68 | iterating a text file: the lines put back together are the file's text, every line is non-empty, every line but the last ends in `'\n'`, and no line has a `'\n'` anywhere else |
| `PyText.LastLine` | lemoneval/core/checkscript.py:50 | a non-empty text without newline is one line |
| `PyText.TwoLines` | lemoneval/core/checkscript.py:50 | `l1 + "\n" + l2` reads as the two lines `l1 + "\n"` and `l2` |
| `PyText.LineThenRest` | lemoneval/files/checker.py:68 | a newline-free line followed by `'\n'` is read first, then the rest of the file line by line |
| `PyText.BoundaryIndex` | lemoneval/utils/docstrings.py:14 | the position of the first line boundary `splitlines` recognises (or the length): none before it, one at it |
| `PyText.SplitLines` | lemoneval/utils/docstrings.py:14 | `splitlines()` gives no lines exactly for the empty text, and no line contains a line boundary |
| `PyText.LStrip` | lemoneval/utils/docstrings.py:18 | `lstrip()` removes exactly the leading whitespace: the result is a suffix, starts with a non-space, and everything cut off is whitespace |
| `PyText.RStrip` | lemoneval/utils/docstrings.py:25 | `rstrip()` removes exactly the trailing whitespace: the result is a prefix, ends with a non-space, and everything cut off is whitespace; `PyText.Strip` (`strip()`) is `rstrip()` after `lstrip()`, so it has both properties |
| `PyText.DropPrefix` | lemoneval/utils/docstrings.py:25 | the slice `line[indent:]`, which is empty when `indent` exceeds the length instead of failing |
| `PyText.Spaces` | lemoneval/utils/docstrings.py:14 | the padding `expandtabs` inserts: exactly `n` spaces |
| `PyText.ExpandTabsFrom` | lemoneval/utils/docstrings.py:14 | `expandtabs(4)` leaves no tab character in the text; `PyText.ExpandTabs` is this from column 0 |
| `PyText.Join` | lemoneval/utils/docstrings.py:32 | `"\n".join` of no lines is empty and of one line is that line |
| `PyText.NatToString` | lemoneval/backbones/stages.py:28 | `str(n)` of a natural number is never empty |
| `PyText.IntToString` | lemoneval/backbones/stages.py:28 | `str(n)` of an integer is never empty and starts with `'-'` exactly when `n` is negative |
| `PyText.NatToStringStartsWithDigit` | lemoneval/backbones/stages.py:28 | `str(n)` of a natural number starts with a decimal digit |
| `Docstrings.Indentation` | lemoneval/utils/docstrings.py:18-20 | `len(line) - len(line.lstrip())`: the leading characters up to it are whitespace and the one at it is not |
| `Docstrings.MinIndent` | lemoneval/utils/docstrings.py:16-20 | the running minimum over `lines[1:]`: stays at infinity (`None`) exactly when every line is blank, and otherwise is at most the indentation of every non-blank line |
| `Docstrings.MinIndentAttained` | lemoneval/utils/docstrings.py:16-20 | the minimum is attained by some non-blank line |
| `Docstrings.Dedent` | lemoneval/utils/docstrings.py:24-25 | every line becomes `line[indent:].rstrip()`, with as many lines as before |
| `Docstrings.DropTrailingBlank` | lemoneval/utils/docstrings.py:27-28 | the first `while` loop keeps a prefix ending in a non-empty line and pops only empty lines |
| `Docstrings.DropLeadingBlank` | lemoneval/utils/docstrings.py:29-30 | the second `while` loop keeps a suffix starting with a non-empty line and pops only empty lines |
| `Docstrings.RawLines` | lemoneval/utils/docstrings.py:14 | the tab-expanded docstring has lines exactly when it is non-empty |
| `Docstrings.ExpandedNonEmpty` | lemoneval/utils/docstrings.py:14 | `expandtabs` never empties a non-empty text |
| `Docstrings.Trimmed` | lemoneval/utils/docstrings.py:22-25 | the list `trimmed` before blank lines are dropped always holds at least the stripped first line |
| `Docstrings.StripBlankEnds` | lemoneval/utils/docstrings.py:27-30 | after both loops the list is empty or begins and ends with non-empty lines |
| `Docstrings.TrimLines` | lemoneval/utils/docstrings.py:10-30 | a missing or empty docstring gives no lines; otherwise the lines kept begin and end non-empty |
| `Docstrings.Trim` | lemoneval/utils/docstrings.py:8-11 | a falsy docstring (missing or empty) trims to `""` |
| `Docstrings.StripBlankEndsBounds` | lemoneval/utils/docstrings.py:27-30 | what the loops keep is a slice `ls[a..b]`, and every line dropped before `a` or after `b` is empty |
| `Docstrings.StripBlankEndsIsRun` | lemoneval/utils/docstrings.py:27-30 | the same as an existence statement: one contiguous run is kept, and only empty lines are dropped on either side |
| `Docstrings.TrimLinesAreRun` | lemoneval/utils/docstrings.py:22-30 | the trimmed docstring's lines are a contiguous run of `trimmed` with only empty lines dropped around them |
| `Docstrings.SplitLinesFirst` | lemoneval/utils/docstrings.py:14 | `splitlines` takes off the text up to the first boundary as the first line and continues after the boundary |
| `Docstrings.SplitLinesKeepNoTab` | lemoneval/utils/docstrings.py:14 | the lines of a tab-free text are tab-free and contain no line boundary |
| `Docstrings.RawLinesRaw` | lemoneval/utils/docstrings.py:14 | every line of the expanded docstring is tab-free and boundary-free |
| `Docstrings.StrippedClean` | lemoneval/utils/docstrings.py:22 | the stripped first line is a clean output line: no tab, no boundary, no trailing whitespace |
| `Docstrings.DedentedClean` | lemoneval/utils/docstrings.py:25 | a dedented, right-stripped line is clean |
| `Docstrings.DedentAllClean` | lemoneval/utils/docstrings.py:24-25 | every dedented line is clean |
| `Docstrings.TrimmedClean` | lemoneval/utils/docstrings.py:22-25 | every line of `trimmed` is clean |
| `Docstrings.StripKeepsClean` | lemoneval/utils/docstrings.py:27-30 | dropping blank lines keeps the remaining lines clean |
| `Docstrings.TrimLinesClean` | lemoneval/utils/docstrings.py:8-30 | every line of the trimmed docstring is clean, and the first and last lines are non-empty |
| `Docstrings.DedentLine` | lemoneval/utils/docstrings.py:24-25 | dedenting a non-blank line by at most its indentation removes only whitespace |
| `Docstrings.DedentByMinimum` | lemoneval/utils/docstrings.py:16-25 | dedenting by the minimum indentation removes exactly `indent` whitespace characters from every non-blank line, and at least one line becomes flush left |
| `Docstrings.FlushLeft` | lemoneval/utils/docstrings.py:25 | a non-blank line dedented by exactly its indentation starts with a non-space |
| `Docstrings.DedentRemovesCommonIndent` | lemoneval/utils/docstrings.py:14-25 | at the docstring level: the first line is stripped, the lines after it lose exactly their common indentation, and at least one of them becomes flush left |
| `Docstrings.BoundaryAfterLine` | lemoneval/utils/docstrings.py:32 | after joining, the first boundary sits right after the first line |
| `Docstrings.SplitCons` | lemoneval/utils/docstrings.py:32 | splitting `l + "\n" + rest` gives `l` followed by the lines of `rest` |
| `Docstrings.SplitJoin` | lemoneval/utils/docstrings.py:32 | `"\n".join` then `splitlines()` gives back boundary-free lines whose last is non-empty |
| `Docstrings.TrimSplitsBack` | lemoneval/utils/docstrings.py:8-32 | `trim(d).splitlines()` gives back exactly the trimmed lines |
| `Docstrings.JoinNoTab` | lemoneval/utils/docstrings.py:32 | joining tab-free lines gives a tab-free text |
| `Docstrings.TrimHasNoTab` | lemoneval/utils/docstrings.py:8-32 | the trimmed docstring contains no tab |
| `Docstrings.ExpandNoTab` | lemoneval/utils/docstrings.py:14 | `expandtabs` leaves a tab-free text unchanged |
| `Docstrings.RawLinesOfJoin` | lemoneval/utils/docstrings.py:14 | re-reading joined raw lines gives them back |
| `Docstrings.FirstPass` | lemoneval/utils/docstrings.py:8-32 | `"\n" + n spaces + x + "\n" + (n+k) spaces + y` trims to `x + "\n" + k spaces + y` |
| `Docstrings.SecondPass` | lemoneval/utils/docstrings.py:8-32 | `x + "\n" + k spaces + y` trims to `x + "\n" + y`, because the first line never counts towards the indentation |
| `Docstrings.TrimNotIdempotent` | lemoneval/utils/docstrings.py:15-25 | trimming is not idempotent: for every such docstring with `k > 0`, trimming the trimmed text changes it again |
| `Docstrings.TrimTwiceDiffers` | lemoneval/utils/docstrings.py:8-32 | example: `"\n    a\n      b"` trims to `"a\n  b"`, which trims again to `"a\nb"` |
| `TestCases.IntsOf` | lemoneval/core/testcase.py:89-92 | the integer scores of an all-integer argument list, position by position |
| `TestCases.ApplyPlain` | lemoneval/core/testcase.py:93 | `self.op(*scores)`: a non-integer argument makes the operator raise `TypeError`; integer arguments are handed to the operator unchanged |
| `TestCases.Score` | lemoneval/core/testcase.py:71-75 | `get_score()`: the base test case scores 0 and a simple test case its value, and every call scores the case itself first |
| `TestCases.ScoreAtom` | lemoneval/core/testcase.py:89-92 | one comprehension element: a plain value is passed through with no scoring; a test case contributes its own score or its own error, after scoring the same sub-cases |
| `TestCases.ScoreAtoms` | lemoneval/core/testcase.py:89-92 | the comprehension: on success one score per expression, each the score of that expression; on failure the error one of the expressions raised |
| `TestCases.OperationScore` | lemoneval/core/testcase.py:88-93 | an operation scores its operator over its expressions' scores, in order |
| `TestCases.OperationPropagates` | lemoneval/core/testcase.py:88-93 | the first expression that raises decides the operation's error |
| `TestCases.ScoreAtomsStops` | lemoneval/core/testcase.py:89-92 | the comprehension stops at the first error |
| `TestCases.Forward` | lemoneval/core/testcase.py:12-35 | `self <op> other` builds a two-operand operation with the test case first |
| `TestCases.Reflected` | lemoneval/core/testcase.py:37-60 | `other <op> self` builds a two-operand operation with the other operand first |
| `TestCases.Unary` | lemoneval/core/testcase.py:62-67 | `-self`, `+self`, `abs(self)` build a one-operand operation |
| `TestCases.PairScore` | lemoneval/core/testcase.py:88-93 | a two-operand operation scores `op` over its two operands' scores |
| `TestCases.ForwardAndReflected` | lemoneval/core/testcase.py:14-15 | `a - k` scores `x - k` and `k - a` scores `k - x`: the reflected builder keeps Python's operand order |
| `TestCases.ForwardScore` | lemoneval/core/testcase.py:14-15 | `a - k` scores `x - k` |
| `TestCases.ReflectedScore` | lemoneval/core/testcase.py:39-40 | `k - a` scores `k - x` |
| `TestCases.ExtremeAsWritten` | lemoneval/core/testcase.py:95-113 | `max`/`min` as written: with further arguments, one operation over all of them; with none, the first argument is spread as the operand list, and a non-iterable first argument raises `TypeError` |
| `TestCases.Extreme` | lemoneval/core/testcase.py:95-113 | the corrected builders: the same with further arguments, and a spread sequence reduced over as a whole |
| `TestCases.ExtremeOfOneAsWritten` | lemoneval/core/testcase.py:103 | as written, `max([k])` builds but scoring it raises `TypeError` (builtin `max` of one integer); the corrected one scores `k` |
| `TestCases.ExtremeReduces` | lemoneval/core/testcase.py:95-113 | the corrected spread form scores the largest (smallest) element, and `ValueError` for an empty sequence; with two or more elements it agrees with the code as written |
| `TestCases.ExtremeOfSeveral` | lemoneval/core/testcase.py:100-101 | `max(first, *rest)` with further arguments scores an element that bounds all the operands' scores |
| `TestCases.SharedCaseScoredTwice` | lemoneval/core/testcase.py:88-93 | there is no memo: a sub-case used twice is scored once per occurrence |
| `TestTree.Wrap` | core.bkup/testcase.py:101-104 | a test is kept and any other operand is wrapped in `TestConstant` |
| `TestTree.WrapAll` | core.bkup/testcase.py:101-104 | every operand is wrapped that way, in order |
| `TestTree.MakeOperation` | core.bkup/testcase.py:98-104 | `TestOperation(op, *args, name=name)`: the wrapped operands in order, named `name` when given and `op.__name__` otherwise |
| `TestTree.Forward` | core.bkup/testcase.py:13-36 | `self <op> other`, for every binary overload and every operand: an operation named after the operator whose operands are the test first and the other operand second, a bare value wrapped in `TestConstant` |
| `TestTree.Reflected` | core.bkup/testcase.py:38-61 | `other <op> self`, through the reflected overload: the same operation with the other operand (wrapped) first and the test second, so Python's operand order is kept |
| `TestTree.Unary` | core.bkup/testcase.py:63-68 | `-self`, `+self` and `abs(self)`: an operation named after the operator over the test alone |
| `TestTree.ApplyValues` | core.bkup/testcase.py:116 | `self.op(*scores)`: a non-integer value makes it raise `TypeError`, and a result is always an integer |
| `TestTree.ApplyNumbers` | core.bkup/testcase.py:116 | on integer values the operator is applied to the integers |
| `TestTree.Written` | core.bkup/testcase.py:76-77 | `reporter.write(text)` happens exactly when there is a reporter and replaces its message |
| `TestTree.ChildOf` | core.bkup/testcase.py:109-113 | each operand receives a new sub-report exactly when there is a reporter |
| `TestTree.Evaluate` | core.bkup/testcase.py:72-116 | `evaluate`: `BaseTest` writes `''` and scores 0; a constant writes its value and scores it; an operation writes `Operation "<name>"` and, on success, adds one sub-report per operand; the reporter keeps its indentation |
| `TestTree.EvaluateAll` | core.bkup/testcase.py:112-115 | the operands are evaluated in order, each adding a sub-report: all of them on success, at least one and at most all before the first error |
| `TestTree.StepExtends` | core.bkup/testcase.py:112-115 | two successive reporting steps compose: the reporter only grows |
| `TestTree.ScoreIgnoresReporter` | core.bkup/testcase.py:72-116 | passing a reporter never changes the score |
| `TestTree.AllIgnoresReporter` | core.bkup/testcase.py:112-115 | the same for the operand list |
| `TestTree.OperandsInOrder` | core.bkup/testcase.py:112-115 | the operands all succeed exactly when each does; the values are their scores in order, and otherwise the first error wins |
| `TestTree.OperationScore` | core.bkup/testcase.py:106-116 | with integer operands the operation scores `op` over them |
| `TestTree.OperandReports` | core.bkup/testcase.py:113 | one report per operand |
| `TestTree.SubreportsAreOperands` | core.bkup/testcase.py:109-115 | the new sub-reports are, in order, what each operand wrote into a fresh reporter |
| `TestTree.EvaluateAllStep` | core.bkup/testcase.py:112-115 | one successful step: the first operand's report becomes the next sub-report |
| `TestTree.SumScoresSum` | core.bkup/testcase.py:118-124 | `TestOperation.sum` scores the arithmetic sum of its operands, and 0 with none |
| `TestTree.AsArgument` | core.bkup/testcase.py:132 | an iterable first argument handed on as one operand becomes a constant that no operator accepts |
| `TestTree.ExtremeAsWritten` | core.bkup/testcase.py:126-144 | `max`/`min` as written: with further arguments, one operation named `max`/`min` over all of them; with none, the first argument is spread, and a non-iterable first argument raises `TypeError` |
| `TestTree.Extreme` | core.bkup/testcase.py:126-144 | the corrected builders: the same with further arguments, a single iterable reduced over as a whole |
| `TestTree.ExtremeOfOneAsWritten` | core.bkup/testcase.py:134 | as written, `max([k])` builds but scores `TypeError`; the corrected one scores `k` |
| `TestTree.ExtremeReduces` | core.bkup/testcase.py:126-144 | the corrected spread form scores the largest (smallest) operand, and `ValueError` for none |
| `TestTree.ReflectedOrder` | core.bkup/testcase.py:13-64 | `a + 3` builds `add(a, 3)`, `3 + a` builds `add(3, a)` and `-a` builds `neg(a)` |
| `TestTree.ScoreExamples` | core.bkup/testcase.py:38-41 | example: `2 - BaseTest()` scores 2, and adding a string constant raises `TypeError` |
| `Reports.NewReporter` | lemoneval/core/report.py:13-16 | `Reporter()` starts with an empty message, no sub-reports and no indent (the base class cannot export) |
| `Reports.NewStringReporter` | lemoneval/core/report.py:47-50 | `StringReporter(indent)` starts empty and keeps its indent |
| `Reports.Write` | lemoneval/core/report.py:26-33 | `write(message, append)` appends the text when `append` is set and replaces the message otherwise; kind and sub-reports are untouched |
| `Reports.Fresh` | lemoneval/core/report.py:15-49 | the factory makes an empty reporter of the same kind, with the same indent |
| `Reports.Adopt` | lemoneval/core/report.py:22-24 | the child handed out becomes the last sub-report; the parent's own message is unchanged |
| `Reports.Subreport` | lemoneval/core/report.py:18-24 | `subreport()` keeps the existing sub-reports and adds exactly one new empty one made by the factory, after them |
| `Reports.ExtendsByAdopting` | lemoneval/core/report.py:22-24 | adopting a child only adds one sub-report after the existing ones |
| `Reports.ExtendsKeeps` | lemoneval/core/report.py:23 | sub-reports already present are never changed by later appends |
| `Reports.ExtendsTransitive` | lemoneval/core/report.py:23 | appending sub-reports in two steps is appending them |
| `Reports.Repeat` | lemoneval/core/report.py:56 | `self.indent * num_indents` has `n` times the indent's length |
| `Reports.Export` | lemoneval/core/report.py:35-58 | `export` of a base `Reporter` raises `NotImplementedError`; a string reporter's first line written is its own message at its depth, before any sub-report's |
| `Reports.ExportString` | lemoneval/core/report.py:68-74 | `export_string()` succeeds exactly when `export` does and is the concatenation of the written chunks |
| `Reports.ExportCovers` | lemoneval/core/report.py:52-58 | a string reporter whose sub-reports came from its factory exports successfully, one line per reporter in the tree |
| `Reports.ExportAllCovers` | lemoneval/core/report.py:57-58 | the same for a list of sibling sub-reports; `Reports.ExportAll` is the loop over the sub-reports, their lines concatenated in order |
| `Reports.ExportAllAppend` | lemoneval/core/report.py:57-58 | exporting siblings with one more appended adds that one's lines at the end (pre-order) |
| `Reports.WriteChangesOneChunk` | lemoneval/core/report.py:26-56 | writing changes only the writer's own line in the export |
| `Reports.SubreportAddsChunk` | lemoneval/core/report.py:18-58 | a new sub-report adds one empty line at the end, one level deeper |
| `Reports.FreshExport` | lemoneval/core/report.py:56 | a fresh reporter exports only its own empty line |
| `Reports.SubreportUniform` | lemoneval/core/report.py:18-24 | sub-reports made by the factory keep the whole tree of one kind and one indent |
| `Reports.ExportExample` | lemoneval/core/report.py:52-74 | example: a root with one child exports `"root\n\tleaf\n"` |
| `Parameters.ResolveLengths` | lemoneval/backbones/parameters.py:190-237 | `_resolve_lengths`: an integer `n >= 0` fixes the length at `n` and a negative one is a `ValueError`; something without `len`/`tuple` raises `TypeError` from the original; an iterable is accepted exactly when it holds one or two integers, the first non-negative and not above the second, giving that lower bound and the second (or infinity) as upper bound; every accepted result has its bounds in order |
| `Parameters.DefaultLengths` | lemoneval/backbones/parameters.py:172 | the default `length=(0,)` resolves to `0..inf`, which admits every length (also lines 230-231) |
| `Parameters.LengthErrors` | lemoneval/backbones/parameters.py:201-236 | examples: `-1`, `()` and `(3, 2)` are `ValueError`s, `("a",)` is a `TypeError`, `None` is a `TypeError` raised from another, and `True` counts as the integer 1 |
| `Parameters.ResolvedName` | lemoneval/backbones/parameters.py:24-25 | `self.name or name`: a non-empty declared name wins, and otherwise the attribute name is used |
| `Parameters.NewParameter` | lemoneval/backbones/parameters.py:56-62 | `Parameter(...)` fails exactly when `dtype` is given but not a class, with `TypeError`; otherwise it has the resolved name, the default, no validators and the `dtype` only when one was given (also lines 80-91, 143-145) |
| `Parameters.NewSequenceParameter` | lemoneval/backbones/parameters.py:171-174 | `SequenceParameter(...)`: a bad `dtype` fails first; otherwise it is built exactly when `length` resolves, and is the single parameter with those length bounds |
| `Parameters.AddParamValidators` | lemoneval/backbones/parameters.py:93-113 | `add_validators` on a parameter changes only its validator list, as the attachment loop does |
| `Parameters.CheckOne` | lemoneval/backbones/parameters.py:64-74 | `check_dtype` then `check_with_validators`: succeeds exactly when the value has the type and passes every validator; a wrong type is a `TypeError` (also lines 126-136, 147-150) |
| `Parameters.CheckItems` | lemoneval/backbones/parameters.py:179-187 | the item loop succeeds exactly when every item passes, and otherwise raises `ValueError` from the first failing item's error, naming its index |
| `Parameters.Validate` | lemoneval/backbones/parameters.py:176-188 | `parameter_validate`: a single value is stored unchanged exactly when it passes; a sequence that is not a finite iterable raises `TypeError` from the original, one of the wrong length raises `ValueError`, and a sequence is accepted exactly when it meets the independent `SequenceOk` description, then stored as a tuple (also lines 147-150, 239-269) |
| `Parameters.SequenceNamesFirstFailure` | lemoneval/backbones/parameters.py:179-187 | a rejected sequence of allowed length names the first item that failed |
| `Parameters.Assign` | lemoneval/backbones/parameters.py:32-35 | `__set__`: an already present entry raises `AttributeError`; otherwise it succeeds exactly when validation does, and stores the validated value under the name, leaving the rest |
| `Parameters.Delete` | lemoneval/backbones/parameters.py:37-38 | `__delete__` always raises `AttributeError` |
| `Parameters.WriteOnce` | lemoneval/backbones/parameters.py:27-38 | after one successful assignment, reading gives the validated value, any second assignment raises `AttributeError`, and no other entry changed |
| `Parameters.StringBecomesTuple` | lemoneval/backbones/parameters.py:239-250 | a sequence parameter stores a tuple whatever iterable it was given: `"ab"` becomes `("a", "b")` |
| `LegacyParameters.NewLegacyParameter` | lemoneval/backbone/parameter.py:16-55 | the older `Parameter(dtype, name)` keeps `dtype` as given, starts with no validators and resolves its name the same way |
| `LegacyParameters.LegacyResolveLengths` | lemoneval/backbone/parameter.py:168-208 | the older `_resolve_lengths` accepts and rejects exactly the same lengths as the newer one, giving the same bounds, except that a non-iterable is a plain `TypeError` (re-raised with extra text) |
| `LegacyParameters.NewLegacySequence` | lemoneval/backbone/parameter.py:124-126 | the older `SequenceParameter` resolves the lengths before anything else and fails exactly as that does |
| `LegacyParameters.LegacyAddValidators` | lemoneval/backbone/parameter.py:57-77 | the same attachment loop as the newer one; with all candidates callable every one of them is attached |
| `LegacyParameters.InstanceCheck` | lemoneval/backbone/parameter.py:91 | `isinstance(value, dtype)` raises `TypeError` when `dtype` is not a class |
| `LegacyParameters.CheckValue` | lemoneval/backbone/parameter.py:90-103 | one value passes exactly when its type matches and every validator passes it; a wrong type is a `TypeError`, naming the index inside a sequence (also lines 153-165) |
| `LegacyParameters.CheckItems` | lemoneval/backbone/parameter.py:153-165 | the item loop succeeds exactly when every item passes, and otherwise raises the first failing item's error |
| `LegacyParameters.LegacyValidate` | lemoneval/backbone/parameter.py:90-103 | the older `parameter_validate`: a single value is kept exactly when it passes; a non-iterable is a `TypeError`, a wrong length a `ValueError`, and an accepted sequence is stored as a tuple (also lines 128-166) |
| `LegacyParameters.LegacyAssign` | lemoneval/backbone/parameter.py:27-30 | the older `__set__`: a present entry raises `AttributeError`; otherwise it succeeds exactly when validation does and stores the validated value |
| `LegacyParameters.SameItemChecks` | lemoneval/backbone/parameter.py:90-103 | with the same type and validators, the older item check passes exactly the values the newer one passes |
| `LegacyParameters.SameAcceptance` | lemoneval/backbone/parameter.py:128-166 | both generations accept exactly the same values and then store the same thing |
| `LegacyParameters.NotATypeRejectsAll` | lemoneval/backbone/parameter.py:52-91 | a `dtype` that is not a class is accepted by the older constructor but then rejects every assignment with `TypeError`, while the newer constructor refuses it at once |
| `Validators.Run` | lemoneval/backbones/validators.py:14-47 | `validator(value, target)`: a predicate validator is true exactly when the predicate returns a truthy value, and otherwise raises `ValueError` from the predicate's exception (or from a `ValueError` for a falsy answer), never returning false; another validator's answer and exceptions come through unchanged |
| `Validators.CheckAll` | lemoneval/backbones/parameters.py:126-136 | `check_with_validators`: true exactly when every validator passes; false only when errors are not raised; an error means some validator failed |
| `Validators.FailingIndex` | lemoneval/backbones/parameters.py:128-129 | the first validator the value does not pass |
| `Validators.CheckAllStopsAtFirst` | lemoneval/backbones/parameters.py:128-135 | a failed check is decided by the first failing validator: its own exception if it raised, and otherwise `ValueError` or `False` |
| `Validators.CallablePrefix` | lemoneval/backbones/parameters.py:104-113 | how many candidates from the front are callable; the next one, if any, is not |
| `Validators.ConvertAll` | lemoneval/backbones/parameters.py:105-108 | validators are kept and other callables wrapped in `PredicateValidator`, one for one |
| `Validators.AddValidators` | lemoneval/backbones/parameters.py:93-113 | `add_validators`: it fails exactly when some candidate is not callable, with `TypeError`, and the candidates before the first such one stay attached |
| `Validators.AttachOne` | lemoneval/backbones/parameters.py:104-108 | attaching one callable and then the rest is attaching the whole callable prefix |
| `Validators.AddOneCallable` | lemoneval/backbones/parameters.py:115-124 | `add_validator(f)` attaches `PredicateValidator(f)`, which passes exactly the values on which `f` returns a truthy value |
| `Validators.BaseValidatorFails` | lemoneval/backbones/validators.py:14-22 | the plain base validator returns `None`, so every value fails it and the check raises `ValueError` |
| `Descriptors.NewDescriptorAsWritten` | lemoneval/core/descriptors.py:14-21 | the constructor as written: a non-class `value_type` reaches a message naming an undefined variable, so it raises `NameError`; a non-callable predicate raises `TypeError`; otherwise the descriptor holds the class and the predicate, or `lambda x: True` for a falsy one |
| `Descriptors.NewDescriptor` | lemoneval/core/descriptors.py:14-21 | the constructor as intended: both bad arguments raise `TypeError`, and it succeeds exactly on a class and a callable or falsy predicate |
| `Descriptors.ConstructorFinding` | lemoneval/core/descriptors.py:18-19 | the two constructors differ only on a non-class `value_type`: `NameError` as written, `TypeError` intended |
| `Descriptors.Assign` | lemoneval/core/descriptors.py:29-35 | `__set__` succeeds exactly when the value is an instance and the predicate answers truthily, storing it; the type is checked first (`TypeError`), a falsy answer is a `ValueError` and the predicate's own exception passes through |
| `Descriptors.ReassignAndDelete` | lemoneval/core/descriptors.py:29-38 | unlike a parameter, the attribute may be reassigned (the last value wins), and after deletion it is gone |
| `Descriptors.DefaultPredicateAdmitsInstances` | lemoneval/core/descriptors.py:16 | without a predicate the descriptor admits exactly the instances of its class |
| `Exercises.NameField` | lemoneval/graph/base.py:20-23 | `__set_name__` succeeds exactly when the owner is an exercise class, naming the field after its attribute, and otherwise raises `TypeError` |
| `Exercises.FieldAssign` | lemoneval/graph/base.py:12-15 | `__set__` stores the value exactly when the field's `check_valid` accepts it (a base field anything, a text field a `str`, an integer field an `int` or `bool`), and otherwise raises `ValueError` |
| `Exercises.FieldReassign` | lemoneval/graph/field.py:10-18 | a field may be reassigned (the new value replaces the old one), and a rejected value leaves the old one in place |
| `Exercises.FieldNames` | lemoneval/graph/base.py:31-34 | `_field_names` lists at most as many names as the class body has entries |
| `Exercises.FieldNamesMembers` | lemoneval/graph/base.py:31-34 | a name is listed exactly when the class body binds it to a field |
| `Exercises.FieldNamesAppend` | lemoneval/graph/base.py:31-34 | the field list keeps declaration order across a split of the class body |
| `Exercises.AssignAll` | lemoneval/graph/base.py:44-47 | the keyword loop of `__init__` succeeds exactly when every keyword, in order, names a field that accepts its value, and otherwise raises `ValueError` |
| `Exercises.AssignAllStores` | lemoneval/graph/base.py:44-47 | with distinct acceptable keywords every value is stored under its name, nothing else is added and other entries are kept |
| `Exercises.AssignAllWellTyped` | lemoneval/graph/base.py:44-47 | fields only ever hold values they accept |
| `Exercises.FiveChoicesFields` | lemoneval/graph/exercise.py:9-18 | the five-choice exercise's fields are `question, answer, score, choice_a … choice_e` in that order; the `choices` list is not a field |
| `Exercises.FieldStep` | lemoneval/graph/base.py:31-34 | a field at one position puts its name in front of the names found after it |
| `Exercises.FiveChoicesIntegerFields` | lemoneval/graph/exercise.py:10-11 | `answer` and `score` are integer fields |
| `Exercises.RunSelfCheck` | lemoneval/graph/exercise.py:20-24 | `selfcheck_valid`: the base check accepts everything; the five-choice check reads `answer` first (unset is `KeyError`, out of `0 .. 4` is `ValueError`) and then `score`, and passes exactly when the answer is in range and the score is positive |
| `Exercises.Construct` | lemoneval/graph/base.py:41-48 | `cls(*args, **kwargs)`: any positional argument raises `ValueError`, then the keywords are assigned, then the self-check decides the outcome on the assigned fields |
| `Exercises.Given` | lemoneval/graph/base.py:44 | the value the keywords give to a name, present exactly when some keyword has that name |
| `Exercises.FiveChoicesValid` | lemoneval/graph/exercise.py:8-24 | a five-choice exercise is built exactly when nothing is positional, every keyword names a field with a value of its type, and an integer answer in `0 .. 4` and a positive integer score are given; it then holds exactly the given fields |
| `Exercises.GivenIsAccepted` | lemoneval/graph/base.py:44-47 | a given value for a field was accepted by that field |
| `Exercises.GivenIsStored` | lemoneval/graph/base.py:47 | the stored value of a field is the one the keywords gave |
| `Exercises.AnswerCheckedFirst` | lemoneval/graph/framework.py:30-39 | the answer is checked before the score: an out-of-range answer alone is a `ValueError`, never the `KeyError` of the missing score |
| `Exercises.AssignSingle` | lemoneval/graph/base.py:44-47 | a single keyword naming a field that accepts its value is stored |
| `Exercises.WrongTypeIsValueError` | lemoneval/graph/base.py:13-14 | a wrongly typed field value surfaces as `ValueError`, not `TypeError` |
| `Exercises.ParameterValidate` | lemoneval/graph/parameter.py:8-50 | the text, number and integer parameters accept exactly the `str`, real and `int` values and raise `TypeError` otherwise; the positive-integer one accepts exactly the integers above 0, raising `ValueError` for the others |
| `Exercises.PositiveRefinesInteger` | lemoneval/graph/parameter.py:41-50 | the positive-integer check is the integer check plus a sign check: it raises the same `TypeError` and accepts only what that one accepts; `True` passes and `False` is a `ValueError` |
| `Frameworks.NewNames` | lemoneval/backbones/frameworks.py:22-36 | the names a class body adds are never already inherited |
| `Frameworks.NewNamesMembers` | lemoneval/backbones/frameworks.py:24-36 | a name is added exactly when the body binds it to a parameter and it is not inherited |
| `Frameworks.CollectNames` | lemoneval/backbones/frameworks.py:24-36 | the loop over the class body succeeds exactly when no entry offends (an inherited parameter rebound to a plain attribute, or a new parameter whose name starts with `_`), giving the new names in declaration order |
| `Frameworks.CollectStopsAtFirstOffence` | lemoneval/backbones/frameworks.py:24-35 | the loop stops at the first offending entry and raises its error |
| `Frameworks.ExtractParameterNames` | lemoneval/backbones/frameworks.py:19-37 | `_extract_parameter_names`: `parameter_names` becomes the inherited names followed by the new ones, exactly when no entry offends |
| `Frameworks.RaisesFirstOffence` | lemoneval/backbones/frameworks.py:25-35 | class creation fails with the first offending entry's error: `TypeError` for an overridden inherited parameter, `NameError` for a private parameter name |
| `Frameworks.NewNamesDistinct` | lemoneval/backbone/framework.py:20-32 | the names a body adds are distinct |
| `Frameworks.NamesStayDistinct` | lemoneval/backbone/framework.py:17-35 | parameter names never repeat down a class hierarchy, and a body that only redeclares inherited parameters leaves `parameter_names` unchanged |
| `Frameworks.SetParameters` | lemoneval/backbones/frameworks.py:82-94 | `_validate_and_set_parameters`: success means every parameter name was given, and a missing first name raises `ValueError` naming it |
| `Frameworks.SetParametersSplit` | lemoneval/backbone/framework.py:82-85 | assigning the names in order is assigning a front part and then the rest from where it left off |
| `Frameworks.AllStoredAsGiven` | lemoneval/backbone/framework.py:82-85 | when every descriptor stores its argument as given, all parameters end up stored with their arguments, and earlier entries are kept |
| `Frameworks.FirstMissingRaises` | lemoneval/backbones/frameworks.py:91-93 | the missing-parameter error names the first missing name in `parameter_names` order |
| `Frameworks.ExtrasIgnored` | lemoneval/backbones/frameworks.py:89-94 | keyword arguments that name no parameter are ignored |
| `Frameworks.Construct` | lemoneval/backbones/frameworks.py:67-73 | `Framework(**kwargs)` succeeds exactly when all parameters are set and `framework_validate` then passes; it raises the parameter error first and otherwise the validation error |
| `Assembled.MultipleChoicesDeclarations` | lemoneval/assembled/standard/multiplechoices.py:15-24 | the class attributes are exactly the descriptors their declarations build: `str` question, `str` choices of any length, `int` answer and `int` score with the `positive_score` validator attached |
| `Assembled.MultipleChoicesNewNames` | lemoneval/assembled/standard/multiplechoices.py:15-18 | the multiple-choice body adds `question, choices, answer, score` in that order |
| `Assembled.MultipleChoicesNoOffence` | lemoneval/assembled/standard/multiplechoices.py:15-26 | none of its entries offends the metaclass |
| `Assembled.MultipleChoicesParameterNames` | lemoneval/assembled/standard/multiplechoices.py:6-18 | its `parameter_names` are `question, choices, answer, score`; the validator function and the methods are not parameters |
| `Assembled.FiveChoicesParameterNames` | lemoneval/assembled/standard/multiplechoices.py:49-52 | the five-choice subclass redeclares `choices` and keeps the same four names in place |
| `Assembled.MultipleChoicesValidate` | lemoneval/assembled/standard/multiplechoices.py:26-32 | `framework_validate` passes exactly when the answer indexes the choices, and an integer answer out of range is a `ValueError` |
| `Assembled.NewFiveChoicesFramework` | lemoneval/assembled/standard/multiplechoices.py:49-52 | a built five-choice framework was given all four parameters |
| `Assembled.QuestionAccepts` | lemoneval/assembled/standard/multiplechoices.py:15 | the question accepts exactly a `str`, stored as given, and refuses anything else with `TypeError` |
| `Assembled.AnswerAccepts` | lemoneval/assembled/standard/multiplechoices.py:17 | the answer accepts exactly an `int` (or `bool`), stored as given |
| `Assembled.ScoreAccepts` | lemoneval/assembled/standard/multiplechoices.py:18-24 | the score accepts exactly a positive integer; a non-positive one is a `ValueError` raised from the validator's |
| `Assembled.ChoicesAccepts` | lemoneval/assembled/standard/multiplechoices.py:52 | the five-choice `choices` accept exactly an iterable of five strings, stored as a tuple |
| `Assembled.FiveChoicesFrameworkValid` | lemoneval/assembled/standard/multiplechoices.py:15-52 | the five-choice framework is built exactly when the question is a string, the choices five strings, the answer an integer in `0 .. 4` and the score a positive integer; it then stores exactly those, the choices as a tuple |
| `Assembled.AssignScore` | lemoneval/assembled/standard/multiplechoices.py:18 | assigning the score alone succeeds exactly when it is given as a positive integer, and stores it |
| `Assembled.AssignAnswer` | lemoneval/assembled/standard/multiplechoices.py:17-18 | assigning answer then score succeeds exactly when both are acceptable, and stores both |
| `Assembled.AssignChoices` | lemoneval/assembled/standard/multiplechoices.py:16-18 | the same from the choices on |
| `Assembled.AssignQuestion` | lemoneval/assembled/standard/multiplechoices.py:15-18 | the same for all four parameters |
| `Assembled.ScoreHasNoDefaultAsWritten` | lemoneval/assembled/standard/multiplechoices.py:18 | as written, the score declares no default, so keywords that are acceptable but omit `score` raise `ValueError` for the missing `score` |
| `Assembled.NewFiveChoicesFrameworkDefaulted` | test/test_multiplechoices.py:58-70 | with `score` given, the defaulted constructor is the constructor as written |
| `Assembled.DefaultScoreApplies` | test/test_multiplechoices.py:58-70 | with a default of 10, the keywords the unit test uses build the framework, whose score is 10 and whose question and answer are as given |
| `Assembled.ProgressSession` | lemoneval/assembled/standard/multiplechoices.py:34-47 | `progress_session`: the first call sets stage 0 and shows question and choices; the call at stage 0 moves to stage 1, records the choice and finishes correct exactly when the choice equals the answer, with the full score or 0; later calls change nothing and return `None` |
| `Assembled.ChoiceLifecycle` | lemoneval/assembled/standard/multiplechoices.py:34-47 | a fresh session shows the question, then judges one choice, then returns `None` for good; the score is the full score or nothing |
| `Assembled.FiveFieldsValidate` | lemoneval/assembled/framework.py:29-34 | the older `framework_validate` passes exactly when the answer is in `0 .. 4`; an integer out of range is a `ValueError` |
| `Assembled.NewFiveFieldFramework` | lemoneval/assembled/framework.py:6-34 | a built older framework was given all eight parameters |
| `Assembled.NonPositiveScoreRefused` | lemoneval/assembled/framework.py:20 | `lambda x: x > 0` refuses a non-positive score, wrapped into `ValueError` by the predicate validator |
| `Assembled.FiveFieldStep` | lemoneval/assembled/framework.py:17-26 | each of the eight parameters stores a well-typed argument unchanged |
| `Assembled.FiveFieldAnswerDecides` | lemoneval/assembled/framework.py:17-34 | with all eight parameters well typed and present, the older framework is built exactly when the answer is in `0 .. 4` |
| `PyValues.Lookup` | lemoneval/core/descriptors.py:23-27 | `__get__` on an instance reads the entry from the instance dictionary, and a missing one is a `KeyError`; the parameters (lemoneval/backbones/parameters.py:27-30) and fields (lemoneval/graph/base.py:7-10) read the same way |
| `PyValues.Remove` | lemoneval/core/descriptors.py:37-38 | `__delete__` removes the entry exactly when it exists, and otherwise raises `KeyError`; a field's `__delete__` (lemoneval/graph/base.py:17-18) does the same |
| `PyValues.InRange` | lemoneval/assembled/standard/multiplechoices.py:28 | `0 <= x < n` succeeds exactly on numbers (`bool`, `int`, `float`), comparing an integer by its value, and raises `TypeError` on anything else |
| `PyValues.Positive` | lemoneval/assembled/standard/multiplechoices.py:22 | `x > 0` succeeds exactly on numbers, is the integer comparison on `int` and `bool`, and raises `TypeError` otherwise |
| `PyValues.EqualsIntAgrees` | lemoneval/assembled/standard/multiplechoices.py:43 | comparing the chosen value with the integer answer is exactly Python's `==` against that integer |
| `PyValues.EqualReflexive` | lemoneval/assembled/standard/multiplechoices.py:43 | Python's `==` relates every value, tuples included, to itself |
| `PyValues.EqualSymmetric` | lemoneval/assembled/standard/multiplechoices.py:43 | Python's `==` is symmetric on these values |
| `PyValues.EqualAcrossNumbers` | lemoneval/assembled/standard/multiplechoices.py:43 | `1 == True` and `2 == 2.0` hold while `1 == "1"` does not |
| `Phases.PyIndex` | lemoneval/backbones/phases.py:98 | indexing a list of length `n` succeeds exactly for `-n <= i < n`, a negative index counting from the end |
| `Phases.DigitValue` | lemoneval/backbones/stages.py:28 | a decimal digit's value is below ten |
| `Phases.ParseInt` | lemoneval/backbones/stages.py:28 | `int(text)` on a string fails only with `ValueError` |
| `Phases.IntCast` | lemoneval/backbones/stages.py:28 | `int(flag)`: an `int` or `bool` gives its integer, a `float` truncates toward zero, a string is parsed, and `None`, tuples and callables raise `TypeError` |
| `Phases.DigitsOfNat` | lemoneval/backbones/stages.py:28 | the decimal text of a natural number is all digits and reads back as that number |
| `Phases.NatTextHasNoSpace` | lemoneval/backbones/stages.py:28 | the decimal text of a number holds no whitespace |
| `Phases.ParseIntOfText` | lemoneval/backbones/stages.py:28 | `int(str(n)) == n` for every integer, negatives included |
| `Phases.Increment` | lemoneval/backbones/phases.py:75 | the stage flag moves the counter by `int(bool(flag))` in `backbones/phases.py` and by `int(flag)` in `backbones/stages.py` (stages.py:28) |
| `Phases.MissingStage` | lemoneval/backbones/phases.py:99-102 | a missing stage is `AttributeError` exactly when the counter equals the number of stages (and always in `backbones/stages.py`, stages.py:51-52); otherwise the bare `IndexError` is re-raised |
| `Phases.NewStages` | lemoneval/backbones/phases.py:63-65 | the decorated setup method is the one and only stage |
| `Phases.AddStage` | lemoneval/backbones/phases.py:85-90 | `add_stage` appends the method after the existing stages, which stay as they were |
| `Phases.CallStages` | lemoneval/backbones/phases.py:67-78 | the counter is stored on the session; an index out of range runs no stage and raises the dialect's error; a yielding call leaves the counter short of the end, and a call that moves the counter and ends the session leaves it exactly at the end |
| `Phases.FirstCallRunsSetup` | lemoneval/backbones/phases.py:96 | a session without a counter behaves as one at counter 0 and runs the setup method |
| `Phases.PhasesAdvance` | lemoneval/backbones/phases.py:75-78 | from a valid counter the flag's truthiness moves the counter by one or none, and the session ends, with the stage's result, exactly when the counter reaches the number of stages |
| `Phases.PhasesCounterBounded` | lemoneval/backbones/phases.py:75-102 | a counter between 0 and the number of stages stays in that range, and a call at the end raises `AttributeError` chained to the `IndexError` |
| `Phases.PhasesNegativeCounter` | lemoneval/backbones/phases.py:98-102 | counter `-1` runs the last stage, and a counter below minus the number of stages raises the bare `IndexError` |
| `Phases.StagesOutOfRange` | lemoneval/backbones/stages.py:48-53 | under `backbones/stages.py` every counter out of range raises `AttributeError` without running a stage |
| `Phases.StagesIntegerFlag` | lemoneval/backbones/stages.py:22-31 | an integer flag moves the counter by its own value, and the session ends only when the counter lands exactly on the number of stages |
| `Phases.DialectsAgreeOnBooleans` | lemoneval/backbones/stages.py:28 | when every stage returns a boolean flag, the two stage sequences behave identically |
| `Phases.AdvancingStagesFinish` | lemoneval/backbones/phases.py:67-78 | when every stage advances, calls from counter `c` yield until the last stage, which ends the session with the counter at the number of stages |
| `Phases.KeyOf` | lemoneval/backbones/phases.py:186-212 | a string label looks up a label, an integral number (booleans included) looks up an index, and `None`, tuples and callables find no state |
| `Phases.NewStateMachine` | lemoneval/backbones/phases.py:171-174 | the setup method is registered under `'$start'` and index 0, and nothing else |
| `Phases.AddState` | lemoneval/backbones/phases.py:195-204 | `add_state` registers the method under its label and the next index, leaves every other entry alone, and counts one more state |
| `Phases.BuildMachineStep` | lemoneval/backbones/phases.py:195-204 | building a machine with one more state is adding that state to the smaller machine |
| `Phases.IndexedStep` | lemoneval/backbones/phases.py:202-203 | adding a state keeps the index keys exactly 0 for the setup method and `j + 1` for the `j`-th added state |
| `Phases.BuildMachineIndices` | lemoneval/backbones/phases.py:172-203 | in a built machine index 0 is the setup method, index `j + 1` the `j`-th added state, and no other index exists; `Phases.BuildMachine` is the machine after the decorator and each `add_state` in turn |
| `Phases.LabelledStep` | lemoneval/backbones/phases.py:201 | adding a state keeps every label reachable, the latest registration of a label winning |
| `Phases.BuildMachineLabels` | lemoneval/backbones/phases.py:172-201 | in a built machine every added label names the last state added under it, and `'$start'` names the setup method unless a state reused it |
| `Phases.CallMachine` | lemoneval/backbones/phases.py:176-188 | the label is stored on the session; an unknown label runs no state; a yielding call leaves a label that names a state; a call that changes the label and ends the session leaves `'$end'` |
| `Phases.MachineStartsAtStart` | lemoneval/backbones/phases.py:210 | a session without a label runs the setup method |
| `Phases.MachineTransitions` | lemoneval/backbones/phases.py:178-188 | the returned label is stored; `'$end'` ends the session with the state's result, a registered label yields it, and any other label raises `ValueError` |
| `Phases.SelfIsNotSpecial` | lemoneval/backbones/phases.py:178-188 | `'$self'` is not handled specially: a machine that never registered it raises `ValueError` on it, the label stored on the session |
| `Phases.MachineAfterEnd` | lemoneval/backbones/phases.py:211-216 | once at `'$end'`, a call runs no state and raises `AttributeError` chained to the `KeyError` |
| `Phases.NewLinearStages` | lemoneval/backbone/stages.py:17-19 | the setup method is the only stage and the wrapped method |
| `Phases.AddLinearStage` | lemoneval/backbone/stages.py:38-41 | `add_stage` appends the stage and leaves the wrapped method alone |
| `Phases.CallLinear` | lemoneval/backbone/stages.py:21-31 | the stages are never changed; a counter out of range raises `IndexError` before anything is stored; a new counter ends the session exactly when it equals the number of stages; a yielding call points the wrapped method at the stage the new counter selects |
| `Phases.LinearAgreesWithStages` | lemoneval/backbone/stages.py:21-31 | with a boolean flag from a valid counter, `linear_stages` steps exactly like both newer stage sequences |
| `Phases.LinearOvershoot` | lemoneval/backbone/stages.py:27-30 | a flag of 3 on the second-to-last stage stores a counter past the end and then raises `IndexError` |
| `Sessions.NewSession` | lemoneval/backbones/sessions.py:43-45 | a new session has nothing prepared and is neither started nor finished |
| `Sessions.PublicData` | lemoneval/backbones/sessions.py:133-140 | `public_data` is available exactly once the session has started, and is the last public data; otherwise `AttributeError` |
| `Sessions.SummaryData` | lemoneval/backbones/sessions.py:142-149 | `summary_data` is available exactly once the session has finished, and is the summary; otherwise `AttributeError` |
| `Sessions.ResumeSession` | lemoneval/backbones/sessions.py:74-91 | a finished session raises `StopIteration(summary)` again; otherwise the framework runs on the prepared arguments, a result becomes the public data, a `StopIteration` makes its value both public data and summary, another exception changes neither, and the prepared arguments are always cleared |
| `Sessions.Prepare` | lemoneval/backbones/sessions.py:99-106 | `prepare` stores the arguments and changes nothing else |
| `Sessions.Submit` | lemoneval/backbones/sessions.py:108-119 | `submit` on an unfinished session runs the framework on exactly the given arguments; a finished one raises `StopIteration(summary)` |
| `Sessions.ConsistentThroughout` | lemoneval/backbones/sessions.py:79-89 | a finished session's public data is its summary, so finishing implies having started, and `Session`, `prepare`, resuming and `submit` all keep that so (also lines 126-131) |
| `Sessions.FinishedIsFinal` | lemoneval/backbones/sessions.py:79-80 | once finished, any number of further submissions changes neither the framework's attributes nor the public data or summary, and each raises `StopIteration` with the same summary |
| `Sessions.StagedSessionFinishes` | lemoneval/backbones/sessions.py:108-119 | a fresh session over a stage sequence whose every stage advances finishes after exactly one submission per stage; `Sessions.StagedResume` is how such a session resumes, the stage counter kept among its attributes |
| `Sessions.StagedRun` | lemoneval/backbones/sessions.py:74-91 | from stage `c`, with one submission per remaining stage, the session finishes with the counter at the number of stages |
| `Sessions.NewOldSession` | lemoneval/backbone/session.py:8-10 | the older session starts with no prepared response, no public data and no summary |
| `Sessions.OldSubmitWith` | lemoneval/backbone/session.py:46-59 | a finished session raises `StopIteration(summary)` again; otherwise the prepared response is cleared, the framework runs, a result becomes the public data, a `StopIteration` makes its value both public data and summary, and another exception changes neither |
| `Sessions.OldSubmitAsWritten` | lemoneval/backbone/session.py:54 | as written, the response reaches `progress_session` as one positional argument |
| `Sessions.OldSubmit` | lemoneval/backbone/session.py:54 | as evidently intended, the response's items reach `progress_session` as keyword arguments, no response meaning none |
| `Sessions.OldNextAsWritten` | lemoneval/backbone/session.py:36-37 | as written, `next` submits the prepared response through `submit`, so it too reaches `progress_session` positionally, and the prepared response is cleared |
| `Sessions.OldNext` | lemoneval/backbone/session.py:36-37 | as evidently intended (the corrected `submit` of line 54): `next` passes the prepared response's items as keyword arguments and clears it; a finished session raises `StopIteration(summary)` again |
| `Sessions.PrepareThenNextAsWritten` | lemoneval/backbone/session.py:39-44 | the docstring's promise holds for the code as written: `prepare` followed by `next` steps like `submit`, and on an unfinished session leaves the same session |
| `Sessions.PrepareThenNext` | lemoneval/backbone/session.py:39-44 | `prepare` followed by `next` is `submit` of the same response |
| `Sessions.OldPrepare` | lemoneval/backbone/session.py:39-44 | `prepare` stores the response and changes nothing else |
| `Sessions.OldPublicDataAsWritten` | lemoneval/backbone/session.py:73-80 | as written, `public_data` before the session starts raises `NameError` (the `from e` names nothing) instead of `AttributeError` |
| `Sessions.OldSummaryDataAsWritten` | lemoneval/backbone/session.py:82-89 | as written, `summary_data` before the session ends raises `NameError` |
| `Sessions.OldPublicData` | lemoneval/backbone/session.py:73-80 | corrected: `public_data` is available exactly once started, otherwise `AttributeError` |
| `Sessions.OldSummaryData` | lemoneval/backbone/session.py:82-89 | corrected: `summary_data` is available exactly once finished, otherwise `AttributeError` |
| `Sessions.AccessorFinding` | lemoneval/backbone/session.py:80-89 | on a fresh session both accessors as written raise `NameError`, where the corrected ones agree with the newer session; when the data exists both versions agree |
| `Sessions.OldAgreesWithNew` | lemoneval/backbone/session.py:46-59 | the corrected older `submit` steps exactly like the newer one when the framework answers a keyword response alike through both entry points |
| `Sessions.BindChoose` | lemoneval/assembled/standard/multiplechoices.py:34 | binding `progress_session(session, *, choose=None)`: any extra positional argument and any keyword other than `choose` raise `TypeError`; a missing `choose` is `None` |
| `Sessions.ChoicesNeverStartAsWritten` | lemoneval/backbone/session.py:54 | as written, every `submit` and every `next` on a multiple-choice framework raises `TypeError` and the session never starts |
| `Sessions.ChoicesPlayWhenCorrected` | lemoneval/backbone/session.py:36-59 | corrected, a fresh multiple-choice session shows the question on `next`, finishes on the submitted choice with the full score or 0, and any later submission repeats that summary; `Sessions.ChoiceProgress` is the framework's `progress_session` behind either call convention, binding `choose` first |

## Left out

- `PyValues.Value` models a float as a real number: NaN and the infinities are not modelled, so `nan == nan` being false is outside the model.
- TestGraphProofs.RunTotal: the totality hypothesis asks every node to score a number on every numeric input, which no `//` or `%` node meets (a zero divisor raises `ZeroDivisionError`), so the run of a graph holding one is not characterised; `TestGraphProofs.TraverseTotal` has the same hypothesis.
- Scores are integers only. Floating-point and `Decimal` scores, true division, `pow` and the bitwise operator overloads of `core/testgraph.py` (including the `__lshift__`/`__rlshift__` pair that lacks its `other` parameter) are not modelled; `Ops.Op` is a closed set over integers.
- `TestTree.Other` constants (any non-number object) are refused by every score operator, although Python's `+` and `max` would accept, say, two strings; only numeric scoring is modelled.
- Text-file line iteration assumes universal-newline translation of `'\r'` has already happened (`PyText.Lines`).
- Several modules cannot be imported as written, and each is modelled standalone as if its imports resolved: `core/result.py:13`, `files/graph.py:7` and `prog/graph.py:7` import a `BaseNode` that `core/graph.py` does not define; `graph/parameter.py:5` and `graph/framework.py:4` import names `graph/base.py` does not define; `backbones/sessions.py:18` imports a `CallableWrapper` that `utils/decorators.py` does not define.
- `files/graph.py` calls `get_file_from_src` and `get_empty_file_location` (line 44), neither of which `files/sandbox.py` defines (its `TemporarySandbox` has only `get_file_location` and `copy_file`); the sandbox is opaque in `ProgramNodes`, and the file system, temporary directories and staging of files are not modelled.
- `backbone/validator.py` is not part of this model; `LegacyParameters` assumes its validators behave like those of `backbones/validators.py`.
- Randomness: the lottery node's draw is the `World.sample` oracle, and its threshold is a real number compared against it; the random placeholder `SimpleTest` of `core.bkup/testcase.py` (and its copy) is not modelled.
- External-process checkers (`ExternalChecker`, `FileCheckScript`), process execution, time limits and the executable and file helpers of `old/` and `core/files.py` are I/O and are not modelled.
- JSON serialisation and deserialisation (`utils/json.py`, `util/json.py`, `Session.to_json`/`from_json`, `serialized_args`, `serialized_dict`) rebuild objects by reflection and are not modelled.
- The module loader (`core/loader.py`), `core/testconfig.py` and `assembled/mathematics/arithmetic.py` (random number generation behind an undefined decorator) are not modelled.
- Python plumbing is not modelled: `_make_signature` (`backbones/frameworks.py:39-52`), `MethodType`/`__get__` binding, `update_wrapper`, the docstring rewriting of `_resumable_method`, every `__repr__`, `Reporter.export_file`, and the `__qualname__` default of a validator's name, which only feeds error messages.
- Error messages are not modelled: an error is its exception class and, where it matters, the exception it was raised from.
- `TestGraph.EvaluatorRun` and `TestGraph.EvaluatorRunAsWritten` carry no contract of their own; what they compute is stated by `TestGraphFacts.EvaluatorAgreesWithGrading`, `TestGraphFacts.EvaluatorAsWrittenRejectsOperators` and `TestGraphFacts.EvaluatorRefusesTestGraphNodes`.
- `Phases.RunStages` and `Sessions.RunSession` (several calls in a row) state only that they produce one step per call; what a run achieves is stated by `Phases.AdvancingStagesFinish`, `Sessions.StagedSessionFinishes` and `Sessions.FinishedIsFinal`.
- `Phases.CallStages` and `Phases.CallMachine` keep the stage counter (or the state label) beside the session's other attributes, where a stage method can neither read nor change it. In the source the counter lives on the session object and is read again after the stage has run (`backbones/phases.py` line 75, `backbones/stages.py` line 28), so a stage that assigned `session._stage_counter` itself would behave differently; the state label is overwritten by the state's returned label (`backbones/phases.py` line 178), so only a state that reads it could tell. No stage or state in the repository touches either attribute.
- `Phases.ParseInt` states only that `int(text)` fails with `ValueError`; which strings it accepts is pinned down by `Phases.ParseIntOfText` for the decimal text of an integer, not for every string Python accepts (underscores, surrounding whitespace, other digits).
- `Phases.KeyOf` does not state its behaviour on floats; a float label finds an index only when it is integral.

## Findings

| source | as written | input that shows it | evidently intended | confidence | as-written member | corrected member |
|---|---|---|---|---|---|---|
| lemoneval/core/checkscript.py:57-72 | `zip` consumes one extra token of the longer stream before the leftover check, so one surplus token goes unseen | output `"a\n\n"` against solution `"a\n"`: the token streams `a, \n, \n` and `a, \n` pass | the verdict of `files/checker.py`'s `zip_longest`: equal streams | not executed | `Checkers.StandardCheckAsWritten`, `Checkers.StandardAsWrittenAcceptsExtraLine` | `Checkers.StandardCheck`, `Checkers.ScriptAgreesWithChecker` |
| lemoneval/core/testcase.py:95-113 | `max`/`min` given one list spread it into the operation, and a one-element list leaves the builtin a single integer score, which raises `TypeError` | `TestCaseOperation.max([SimpleTestCase(3)])` | reduce over the list's one test case, scoring 3 | not executed | `TestCases.ExtremeAsWritten`, `TestCases.ExtremeOfOneAsWritten` | `TestCases.Extreme`, `TestCases.ExtremeReduces` |
| core.bkup/testcase.py:126-144 | the same spread of a one-element list leaves the builtin a single score, which raises `TypeError` when scored | `TestOperation.max([TestConstant(3)])` | reduce over the list's one test, scoring 3 | not executed | `TestTree.ExtremeAsWritten`, `TestTree.ExtremeOfOneAsWritten` | `TestTree.Extreme`, `TestTree.ExtremeReduces` |
| lemoneval/core/evaluator.py:40 | an operator node's operands are read from `node.children`, which `OperatorNode` does not have, so every operator raises `AttributeError` | any graph whose root is an operator node | read `node.dependencies`, scoring like the other traversals | not executed | `TestGraph.EvaluatorRunAsWritten`, `TestGraphFacts.EvaluatorAsWrittenRejectsOperators` | `TestGraph.EvaluatorRun`, `TestGraphFacts.EvaluatorAgreesWithGrading` |
| lemoneval/backbone/session.py:80-89 | `raise AttributeError(...) from e` names an unbound `e`, so the accessors raise `NameError` | `public_data` of a fresh session | `AttributeError`, as in the newer session | not executed | `Sessions.OldPublicDataAsWritten`, `Sessions.OldSummaryDataAsWritten`, `Sessions.AccessorFinding` | `Sessions.OldPublicData`, `Sessions.OldSummaryData` |
| lemoneval/backbone/session.py:54 | the response is passed as one positional argument, but `progress_session` takes only the keyword `choose` | `submit({"choose": 1})` on a multiple-choice framework raises `TypeError` | pass the response's items as keyword arguments | not executed | `Sessions.OldSubmitAsWritten`, `Sessions.OldNextAsWritten`, `Sessions.ChoicesNeverStartAsWritten` | `Sessions.OldSubmit`, `Sessions.OldNext`, `Sessions.ChoicesPlayWhenCorrected` |
| lemoneval/core/descriptors.py:19 | the error message for a non-class `value_type` formats an undefined name, so `NameError` is raised | `TypedDataDescriptor(value_type=5)` | `TypeError` | not executed | `Descriptors.NewDescriptorAsWritten`, `Descriptors.ConstructorFinding` | `Descriptors.NewDescriptor` |
| lemoneval/assembled/standard/multiplechoices.py:18 | `score` declares no default, so a framework built without it raises `ValueError` for the missing parameter | `FiveChoicesFramework(question=..., choices=..., answer=0)` | a default score of 10, as `test/test_multiplechoices.py:58-70` expects | not executed | `Assembled.ScoreHasNoDefaultAsWritten` | `Assembled.NewFiveChoicesFrameworkDefaulted`, `Assembled.DefaultScoreApplies` |

=== FILE: assembled.dfy ===
/** The ready-made frameworks: the multiple-choice framework and its
    five-choice subclass (`assembled/standard/multiplechoices.py`), and the
    older five-choice framework with one parameter per choice
    (`assembled/framework.py`). Both are built on the older parameter
    descriptors. */
module Assembled {
  import opened Outcomes
  import opened PyValues
  import opened Validators
  import opened Parameters
  import opened LegacyParameters
  import Frameworks

  // ---------------------------------------------------------------------
  // Multiple choices

  /** `positive_score(score)`: `True` for a positive score, and otherwise
      raises `ValueError`. */
  function PositiveScore(): Value -> Reply
  {
    v => match Positive(v) case Ok(b) => (if b then Answer(VBool(true)) else Fails(ValueError)) case Raise(e) => Fails(e.kind)
  }

  /** `lambda x: x > 0`. */
  function GreaterThanZero(): Value -> Reply
  {
    v => match Positive(v) case Ok(b) => Answer(VBool(b)) case Raise(e) => Fails(e.kind)
  }

  const QuestionParam := LegacyParam("question", IsA(StrType), [], Single)
  const ChoicesParam := LegacyParam("choices", IsA(StrType), [], Sequence(Lengths(0, Infinite)))
  const FiveChoicesParam := LegacyParam("choices", IsA(StrType), [], Sequence(Lengths(5, Finite(5))))
  const AnswerParam := LegacyParam("answer", IsA(IntType), [], Single)
  const ScoreParam := LegacyParam("score", IsA(IntType), [Predicate(PositiveScore())], Single)

  /** The class attributes are the descriptors their declarations build. */
  lemma MultipleChoicesDeclarations()
    ensures NewLegacyParameter(None, "question", IsA(StrType)) == QuestionParam
    ensures NewLegacySequence(None, "choices", IsA(StrType), VTuple([VInt(0)])) == Ok(ChoicesParam)
    ensures NewLegacySequence(None, "choices", IsA(StrType), VInt(5)) == Ok(FiveChoicesParam)
    ensures NewLegacyParameter(None, "answer", IsA(IntType)) == AnswerParam
    ensures LegacyAddValidators(NewLegacyParameter(None, "score", IsA(IntType)), [IsCallable(PositiveScore())]) ==
      (ScoreParam, None)
  {
    DefaultLengths();
    var given := [IsCallable(PositiveScore())];
    assert given[1..] == [];
    assert CallablePrefix(given) == 1 && given[..1] == given;
    assert ConvertAll(given) == [Predicate(PositiveScore())];
    var a := AddValidators([], given);
    assert a.failure.None?;
    assert a.validators == [Predicate(PositiveScore())];
    assert NewLegacyParameter(None, "score", IsA(IntType)).(validators := a.validators) == ScoreParam;
  }

  /** The class body of `MultipleChoicesFramework`, and of its five-choice
      subclass, which only redeclares `choices`. */
  const MultipleChoicesBody: Frameworks.ClassDict :=
    [("__module__", Frameworks.OtherEntry), ("__qualname__", Frameworks.OtherEntry), ("__doc__", Frameworks.OtherEntry),
     ("question", Frameworks.ParameterEntry), ("choices", Frameworks.ParameterEntry),
     ("answer", Frameworks.ParameterEntry), ("score", Frameworks.ParameterEntry),
     ("positive_score", Frameworks.OtherEntry), ("framework_validate", Frameworks.OtherEntry),
     ("progress_session", Frameworks.OtherEntry)]
  const FiveChoicesSubclassBody: Frameworks.ClassDict :=
    [("__module__", Frameworks.OtherEntry), ("__qualname__", Frameworks.OtherEntry), ("__doc__", Frameworks.OtherEntry),
     ("choices", Frameworks.ParameterEntry)]

  const MultipleChoicesNames: seq<string> := ["question", "choices", "answer", "score"]

  lemma MultipleChoicesNewNames()
    ensures Frameworks.NewNames([], MultipleChoicesBody) == MultipleChoicesNames
  {
    var b := MultipleChoicesBody;
    assert Frameworks.NewNames([], b[10..]) == [];
    assert Frameworks.NewNames([], b[9..]) == [];
    assert Frameworks.NewNames([], b[8..]) == [];
    assert Frameworks.NewNames([], b[7..]) == [];
    assert Frameworks.NewNames([], b[6..]) == ["score"];
    assert Frameworks.NewNames([], b[5..]) == ["answer", "score"];
    assert Frameworks.NewNames([], b[4..]) == ["choices", "answer", "score"];
    assert Frameworks.NewNames([], b[3..]) == MultipleChoicesNames;
    assert Frameworks.NewNames([], b[2..]) == MultipleChoicesNames;
    assert Frameworks.NewNames([], b[1..]) == MultipleChoicesNames;
  }

  lemma MultipleChoicesNoOffence()
    ensures forall i :: 0 <= i < |MultipleChoicesBody| ==> !Frameworks.Offends([], MultipleChoicesBody[i])
  {
    var b := MultipleChoicesBody;
    assert !Frameworks.Private("question") && !Frameworks.Private("choices");
    assert !Frameworks.Private("answer") && !Frameworks.Private("score");
    forall i | 0 <= i < |b| ensures !Frameworks.Offends([], b[i]) {
      if 3 <= i < 7 {
        assert b[i].0 == MultipleChoicesNames[i - 3];
      }
    }
  }

  /** `parameter_names` of `MultipleChoicesFramework`; no public name is
      private, and the dunder entries are no parameters. */
  lemma MultipleChoicesParameterNames()
    ensures Frameworks.ExtractParameterNames([], MultipleChoicesBody) == Ok(MultipleChoicesNames)
  {
    MultipleChoicesNoOffence();
    MultipleChoicesNewNames();
    assert [] + MultipleChoicesNames == MultipleChoicesNames;
  }

  /** The five-choice subclass keeps the four parameters in place:
      redeclaring `choices` does not move or repeat it. */
  lemma FiveChoicesParameterNames()
    ensures Frameworks.ExtractParameterNames(MultipleChoicesNames, FiveChoicesSubclassBody) == Ok(MultipleChoicesNames)
  {
    var f := FiveChoicesSubclassBody;
    assert "choices" in MultipleChoicesNames;
    forall i | 0 <= i < |f| ensures !Frameworks.Offends(MultipleChoicesNames, f[i]) {
      assert i < 3 ==> f[i].0 !in MultipleChoicesNames;
    }
    assert Frameworks.NewNames(MultipleChoicesNames, f[4..]) == [];
    assert Frameworks.NewNames(MultipleChoicesNames, f[3..]) == [];
    assert Frameworks.NewNames(MultipleChoicesNames, f[2..]) == [];
    assert Frameworks.NewNames(MultipleChoicesNames, f[1..]) == [];
    assert Frameworks.NewNames(MultipleChoicesNames, f) == [];
    assert MultipleChoicesNames + [] == MultipleChoicesNames;
  }

  /** `framework_validate()`: the answer must index the choices. */
  function MultipleChoicesValidate(s: Frameworks.Store): (r: Outcome<bool>)
    ensures r.Ok? ==> r.value
    ensures r.Ok? <==>
      "answer" in s && "choices" in s && Elements(s["choices"]).Some? &&
      InRange(s["answer"], |Elements(s["choices"]).value|) == Ok(true)
    ensures ("answer" in s && "choices" in s && Elements(s["choices"]).Some? &&
             InRange(s["answer"], |Elements(s["choices"]).value|) == Ok(false)) ==> r == Throw(ValueError)
  {
    if "answer" !in s || "choices" !in s then Throw(KeyError)
    else match Elements(s["choices"])
      case None => Throw(TypeError)
      case Some(items) =>
        var ok :- InRange(s["answer"], |items|);
        if ok then Ok(true) else Throw(ValueError)
  }

  /** `FiveChoicesFramework(**kwargs)` of the multiple-choice module. */
  function NewFiveChoicesFramework(kwargs: map<string, Value>): (r: Outcome<Frameworks.Store>)
    ensures r.Ok? ==> forall n :: n in MultipleChoicesNames ==> n in kwargs
  {
    Frameworks.Construct(MultipleChoicesNames, FiveChoicesParams,
                         LegacyAssign, MultipleChoicesValidate, kwargs)
  }

  /** What each parameter accepts, and what it stores. */
  lemma QuestionAccepts(store: Frameworks.Store, v: Value)
    requires "question" !in store
    ensures LegacyAssign(QuestionParam, store, v).Ok? <==> IsInstance(v, StrType)
    ensures IsInstance(v, StrType) ==> LegacyAssign(QuestionParam, store, v) == Ok(store["question" := v])
    ensures !IsInstance(v, StrType) ==> LegacyAssign(QuestionParam, store, v) == Throw(TypeError)
  {
  }

  lemma AnswerAccepts(store: Frameworks.Store, v: Value)
    requires "answer" !in store
    ensures LegacyAssign(AnswerParam, store, v).Ok? <==> IsInstance(v, IntType)
    ensures IsInstance(v, IntType) ==> LegacyAssign(AnswerParam, store, v) == Ok(store["answer" := v])
  {
  }

  lemma ScoreAccepts(store: Frameworks.Store, v: Value)
    requires "score" !in store
    ensures LegacyAssign(ScoreParam, store, v).Ok? <==> IsInstance(v, IntType) && IntOf(v) > 0
    ensures IsInstance(v, IntType) && IntOf(v) > 0 ==> LegacyAssign(ScoreParam, store, v) == Ok(store["score" := v])
    ensures IsInstance(v, IntType) && IntOf(v) <= 0 ==>
      LegacyAssign(ScoreParam, store, v) == Raise(Error(ValueError, Chained(ValueError)))
  {
    assert ScoreParam.validators[1..] == [];
  }

  /** Five strings, given as any iterable. */
  predicate FiveTexts(v: Value)
  {
    Elements(v).Some? && |Elements(v).value| == 5 &&
    forall i :: 0 <= i < 5 ==> IsInstance(Elements(v).value[i], StrType)
  }

  lemma ChoicesAccepts(store: Frameworks.Store, v: Value)
    requires "choices" !in store
    ensures LegacyAssign(FiveChoicesParam, store, v).Ok? <==> FiveTexts(v)
    ensures FiveTexts(v) ==> LegacyAssign(FiveChoicesParam, store, v) == Ok(store["choices" := VTuple(Elements(v).value)])
  {
    if Elements(v).Some? && |Elements(v).value| == 5 {
      var items := Elements(v).value;
      forall i | 0 <= i < 5 ensures CheckValue(FiveChoicesParam, items[i], Some(i)).Ok? <==> IsInstance(items[i], StrType) {
      }
    }
  }

  /** The five-choice framework is built exactly when the question is a
      string, the choices are five strings, the answer is an integer
      indexing them and the score a positive integer; the choices are kept
      as a tuple. */
  lemma FiveChoicesFrameworkValid(kwargs: map<string, Value>)
    ensures NewFiveChoicesFramework(kwargs).Ok? <==>
      "question" in kwargs && IsInstance(kwargs["question"], StrType) &&
      "choices" in kwargs && FiveTexts(kwargs["choices"]) &&
      "answer" in kwargs && IsInstance(kwargs["answer"], IntType) && 0 <= IntOf(kwargs["answer"]) < 5 &&
      "score" in kwargs && IsInstance(kwargs["score"], IntType) && IntOf(kwargs["score"]) > 0
    ensures NewFiveChoicesFramework(kwargs).Ok? ==>
      NewFiveChoicesFramework(kwargs).value ==
        map["question" := kwargs["question"], "choices" := VTuple(Elements(kwargs["choices"]).value),
            "answer" := kwargs["answer"], "score" := kwargs["score"]]
  {
    AssignQuestion(kwargs);
    var set_ := Frameworks.SetParameters(MultipleChoicesNames, FiveChoicesParams, LegacyAssign, kwargs, map[]);
    if set_.Ok? {
      var s := set_.value;
      assert Elements(s["choices"]) == Some(Elements(kwargs["choices"]).value);
    }
  }

  const FiveChoicesParams := [QuestionParam, FiveChoicesParam, AnswerParam, ScoreParam]

  /** The four parameters, assigned from the last one back: each stage
      succeeds exactly when its own argument and all later ones are
      acceptable, and stores them unchanged (the choices as a tuple). */
  lemma AssignScore(kwargs: map<string, Value>, s: Frameworks.Store)
    requires "score" !in s
    ensures var r := Frameworks.SetParameters(MultipleChoicesNames[3..], FiveChoicesParams[3..], LegacyAssign, kwargs, s);
      (r.Ok? <==> "score" in kwargs && IsInstance(kwargs["score"], IntType) && IntOf(kwargs["score"]) > 0) &&
      (r.Ok? ==> r.value == s["score" := kwargs["score"]])
  {
    var names, params := MultipleChoicesNames[3..], FiveChoicesParams[3..];
    assert names[0] == "score" && params[0] == ScoreParam && names[1..] == [];
    if "score" in kwargs {
      ScoreAccepts(s, kwargs["score"]);
    }
  }

  lemma AssignAnswer(kwargs: map<string, Value>, s: Frameworks.Store)
    requires "answer" !in s && "score" !in s
    ensures var r := Frameworks.SetParameters(MultipleChoicesNames[2..], FiveChoicesParams[2..], LegacyAssign, kwargs, s);
      (r.Ok? <==> "answer" in kwargs && IsInstance(kwargs["answer"], IntType) &&
                  "score" in kwargs && IsInstance(kwargs["score"], IntType) && IntOf(kwargs["score"]) > 0) &&
      (r.Ok? ==> r.value == s["answer" := kwargs["answer"]]["score" := kwargs["score"]])
  {
    var names, params := MultipleChoicesNames[2..], FiveChoicesParams[2..];
    assert names[0] == "answer" && params[0] == AnswerParam;
    assert names[1..] == MultipleChoicesNames[3..] && params[1..] == FiveChoicesParams[3..];
    if "answer" in kwargs {
      AnswerAccepts(s, kwargs["answer"]);
      if IsInstance(kwargs["answer"], IntType) {
        AssignScore(kwargs, s["answer" := kwargs["answer"]]);
      }
    }
  }

  lemma AssignChoices(kwargs: map<string, Value>, s: Frameworks.Store)
    requires "choices" !in s && "answer" !in s && "score" !in s
    ensures var r := Frameworks.SetParameters(MultipleChoicesNames[1..], FiveChoicesParams[1..], LegacyAssign, kwargs, s);
      (r.Ok? <==> "choices" in kwargs && FiveTexts(kwargs["choices"]) &&
                  "answer" in kwargs && IsInstance(kwargs["answer"], IntType) &&
                  "score" in kwargs && IsInstance(kwargs["score"], IntType) && IntOf(kwargs["score"]) > 0) &&
      (r.Ok? ==> r.value == s["choices" := VTuple(Elements(kwargs["choices"]).value)]
                             ["answer" := kwargs["answer"]]["score" := kwargs["score"]])
  {
    var names, params := MultipleChoicesNames[1..], FiveChoicesParams[1..];
    assert names[0] == "choices" && params[0] == FiveChoicesParam;
    assert names[1..] == MultipleChoicesNames[2..] && params[1..] == FiveChoicesParams[2..];
    if "choices" in kwargs {
      ChoicesAccepts(s, kwargs["choices"]);
      if FiveTexts(kwargs["choices"]) {
        AssignAnswer(kwargs, s["choices" := VTuple(Elements(kwargs["choices"]).value)]);
      }
    }
  }

  lemma AssignQuestion(kwargs: map<string, Value>)
    ensures var r := Frameworks.SetParameters(MultipleChoicesNames, FiveChoicesParams, LegacyAssign, kwargs, map[]);
      (r.Ok? <==> "question" in kwargs && IsInstance(kwargs["question"], StrType) &&
                  "choices" in kwargs && FiveTexts(kwargs["choices"]) &&
                  "answer" in kwargs && IsInstance(kwargs["answer"], IntType) &&
                  "score" in kwargs && IsInstance(kwargs["score"], IntType) && IntOf(kwargs["score"]) > 0) &&
      (r.Ok? ==> r.value == map["question" := kwargs["question"], "choices" := VTuple(Elements(kwargs["choices"]).value),
                                "answer" := kwargs["answer"], "score" := kwargs["score"]])
  {
    var names, params := MultipleChoicesNames, FiveChoicesParams;
    var s0: Frameworks.Store := map[];
    assert names[0] == "question" && params[0] == QuestionParam;
    if "question" in kwargs {
      QuestionAccepts(s0, kwargs["question"]);
      if IsInstance(kwargs["question"], StrType) {
        AssignChoices(kwargs, s0["question" := kwargs["question"]]);
      }
    }
  }

  /** The keywords the five-choice unit test builds its framework from: a
      question, five choices and an answer, all acceptable, and no score. */
  predicate AcceptableWithoutScore(kwargs: map<string, Value>)
  {
    "question" in kwargs && IsInstance(kwargs["question"], StrType) &&
    "choices" in kwargs && FiveTexts(kwargs["choices"]) &&
    "answer" in kwargs && IsInstance(kwargs["answer"], IntType) && 0 <= IntOf(kwargs["answer"]) < 5 &&
    "score" !in kwargs
  }

  /** As written, `score` declares no default, so leaving it out is refused
      although everything else is acceptable; the unit test expects the
      score to be 10. */
  lemma {:induction false} ScoreHasNoDefaultAsWritten(kwargs: map<string, Value>)
    requires AcceptableWithoutScore(kwargs)
    ensures NewFiveChoicesFramework(kwargs) == Raise(Error(ValueError, Missing("score")))
  {
    var names := MultipleChoicesNames;
    var params := [QuestionParam, FiveChoicesParam, AnswerParam, ScoreParam];
    var s0: Frameworks.Store := map[];
    QuestionAccepts(s0, kwargs["question"]);
    var s1 := s0["question" := kwargs["question"]];
    ChoicesAccepts(s1, kwargs["choices"]);
    var s2 := s1["choices" := VTuple(Elements(kwargs["choices"]).value)];
    AnswerAccepts(s2, kwargs["answer"]);
    var s3 := s2["answer" := kwargs["answer"]];
    assert Frameworks.SetParameters(names, params, LegacyAssign, kwargs, s0) ==
      Frameworks.SetParameters(names[1..], params[1..], LegacyAssign, kwargs, s1);
    assert Frameworks.SetParameters(names[1..], params[1..], LegacyAssign, kwargs, s1) ==
      Frameworks.SetParameters(names[2..], params[2..], LegacyAssign, kwargs, s2);
    assert Frameworks.SetParameters(names[2..], params[2..], LegacyAssign, kwargs, s2) ==
      Frameworks.SetParameters(names[3..], params[3..], LegacyAssign, kwargs, s3);
    assert names[3..][0] == "score";
  }

  /** The score the unit test expects when none is given. */
  const DefaultScore := 10

  /** `FiveChoicesFramework(**kwargs)` with `score` defaulting to 10, as the
      unit test evidently intends. */
  function NewFiveChoicesFrameworkDefaulted(kwargs: map<string, Value>): (r: Outcome<Frameworks.Store>)
    ensures "score" in kwargs ==> r == NewFiveChoicesFramework(kwargs)
  {
    NewFiveChoicesFramework(if "score" in kwargs then kwargs else kwargs["score" := VInt(DefaultScore)])
  }

  /** With the default, the test's keywords build the framework, and its
      score is 10. */
  lemma DefaultScoreApplies(kwargs: map<string, Value>)
    requires AcceptableWithoutScore(kwargs)
    ensures NewFiveChoicesFrameworkDefaulted(kwargs).Ok?
    ensures NewFiveChoicesFrameworkDefaulted(kwargs).value["score"] == VInt(DefaultScore)
    ensures NewFiveChoicesFrameworkDefaulted(kwargs).value["question"] == kwargs["question"]
    ensures NewFiveChoicesFrameworkDefaulted(kwargs).value["answer"] == kwargs["answer"]
  {
    var full := kwargs["score" := VInt(DefaultScore)];
    assert full["question"] == kwargs["question"] && full["choices"] == kwargs["choices"] && full["answer"] == kwargs["answer"];
    FiveChoicesFrameworkValid(full);
  }

  // ---------------------------------------------------------------------
  // The multiple-choice session

  /** The attributes `progress_session` keeps on the session. */
  datatype ChoiceSession = ChoiceSession(stage: Option<int>, chosen: Option<Value>)

  /** What a call hands back: the question on the first call; the verdict,
      raised as `StopIteration`, on the second; `None` afterwards. */
  datatype ChoiceStep =
    | Shown(question: Value, choices: Value)
    | Finished(correct: bool, score: int)
    | NothingReturned

  /** `progress_session(session, choose=choose)` of a built framework. */
  function ProgressSession(question: Value, choices: Value, answer: int, score: int,
                           session: ChoiceSession, choose: Value): (r: (ChoiceSession, ChoiceStep))
    ensures session.stage.None? ==> r == (session.(stage := Some(0)), Shown(question, choices))
    ensures session.stage == Some(0) ==>
      r.0 == ChoiceSession(Some(1), Some(choose)) &&
      r.1 == Finished(EqualsInt(choose, answer), if EqualsInt(choose, answer) then score else 0)
    ensures session.stage.Some? && session.stage != Some(0) ==> r == (session, NothingReturned)
  {
    match session.stage
    case None => (session.(stage := Some(0)), Shown(question, choices))
    case Some(k) =>
      if k == 0 then
        var correct := EqualsInt(choose, answer);
        (ChoiceSession(Some(1), Some(choose)), Finished(correct, if correct then score else 0))
      else (session, NothingReturned)
  }

  /** A fresh session shows the question, then judges one choice, then
      answers `None` for good; the score is the full score or nothing. */
  lemma ChoiceLifecycle(question: Value, choices: Value, answer: int, score: int, first: Value, second: Value,
                        third: Value)
    ensures var (s1, a1) := ProgressSession(question, choices, answer, score, ChoiceSession(None, None), first);
      var (s2, a2) := ProgressSession(question, choices, answer, score, s1, second);
      var (s3, a3) := ProgressSession(question, choices, answer, score, s2, third);
      a1 == Shown(question, choices) &&
      a2.Finished? && (a2.correct <==> EqualsInt(second, answer)) && a2.score in {0, score} &&
      a3 == NothingReturned && s3 == s2 && s2.chosen == Some(second)
  {
  }

  // ---------------------------------------------------------------------
  // The older five-choice framework

  function TextParam(name: string): LegacyParam
  {
    LegacyParam(name, IsA(StrType), [], Single)
  }
  const PositiveScoreParam := LegacyParam("score", IsA(IntType), [Predicate(GreaterThanZero())], Single)

  const FiveFieldNames: seq<string> :=
    ["question", "answer", "score", "choice_a", "choice_b", "choice_c", "choice_d", "choice_e"]

  /** `len(self.choices)`, the class-level list of the five choice
      descriptors. */
  const ChoiceCount: nat := 5

  /** `framework_validate()`: only the answer is checked here; the score has
      its own validator. */
  function FiveFieldsValidate(s: Frameworks.Store): (r: Outcome<bool>)
    ensures r.Ok? ==> r.value
    ensures r.Ok? <==> "answer" in s && InRange(s["answer"], ChoiceCount) == Ok(true)
    ensures "answer" in s && InRange(s["answer"], ChoiceCount) == Ok(false) ==> r == Throw(ValueError)
  {
    if "answer" !in s then Throw(KeyError)
    else
      var ok :- InRange(s["answer"], ChoiceCount);
      if ok then Ok(true) else Throw(ValueError)
  }

  function FiveFieldParams(): seq<LegacyParam>
  {
    [TextParam("question"), AnswerParam, PositiveScoreParam, TextParam("choice_a"), TextParam("choice_b"),
     TextParam("choice_c"), TextParam("choice_d"), TextParam("choice_e")]
  }

  /** `FiveChoicesFramework(**kwargs)` of `assembled/framework.py`. */
  function NewFiveFieldFramework(kwargs: map<string, Value>): (r: Outcome<Frameworks.Store>)
    ensures r.Ok? ==> forall n :: n in FiveFieldNames ==> n in kwargs
  {
    Frameworks.Construct(FiveFieldNames, FiveFieldParams(), LegacyAssign, FiveFieldsValidate, kwargs)
  }

  /** A non-positive score is refused by its validator, wrapped by the
      predicate validator into `ValueError`, before the answer is looked at. */
  lemma NonPositiveScoreRefused(store: Frameworks.Store, v: Value)
    requires "score" !in store && IsInstance(v, IntType) && IntOf(v) <= 0
    ensures LegacyAssign(PositiveScoreParam, store, v) == Raise(Error(ValueError, Chained(ValueError)))
  {
    assert PositiveScoreParam.validators[1..] == [];
  }

  /** The keyword arguments the older framework's parameters all accept. */
  predicate FiveFieldsWellTyped(kwargs: map<string, Value>)
  {
    (forall n :: n in FiveFieldNames ==> n in kwargs) &&
    (forall n :: n in FiveFieldNames && n != "answer" && n != "score" ==> IsInstance(kwargs[n], StrType)) &&
    IsInstance(kwargs["answer"], IntType) && IsInstance(kwargs["score"], IntType) && IntOf(kwargs["score"]) > 0
  }

  /** Parameter `k` stores its keyword argument unchanged. */
  lemma FiveFieldStep(kwargs: map<string, Value>, k: nat, s: Frameworks.Store)
    requires FiveFieldsWellTyped(kwargs) && k < |FiveFieldNames| && FiveFieldNames[k] !in s
    ensures LegacyAssign(FiveFieldParams()[k], s, kwargs[FiveFieldNames[k]]) ==
      Ok(s[FiveFieldNames[k] := kwargs[FiveFieldNames[k]]])
  {
    var n := FiveFieldNames[k];
    assert n in FiveFieldNames;
    var p := FiveFieldParams()[k];
    assert p.name == n;
    if k == 2 {
      assert p.validators[1..] == [];
    } else {
      assert p.validators == [];
    }
  }

  /** With every parameter well typed and present, the older framework
      stands or falls with its answer range. */
  lemma FiveFieldAnswerDecides(kwargs: map<string, Value>)
    requires FiveFieldsWellTyped(kwargs)
    ensures NewFiveFieldFramework(kwargs).Ok? <==> 0 <= IntOf(kwargs["answer"]) < ChoiceCount
  {
    var names, params := FiveFieldNames, FiveFieldParams();
    forall i, t | 0 <= i < |names| && names[i] !in t
      ensures LegacyAssign(params[i], t, kwargs[names[i]]) == Ok(t[names[i] := kwargs[names[i]]])
    {
      FiveFieldStep(kwargs, i, t);
    }
    assert Frameworks.NoDuplicates(names);
    Frameworks.AllStoredAsGiven(names, params, LegacyAssign, kwargs, map[]);
    assert names[1] == "answer";
  }
}

=== FILE: checkers.dfy ===
/** The output checkers: whole-file comparison, and word-by-word comparison
    over a stream holding each line's words followed by one `'\n'` token.
    `files/checker.py` compares the two streams with `zip_longest`;
    `core/checkscript.py` pairs them with `zip` and then looks for leftovers. */
module Checkers {
  import opened PyText

  /** The `'\n'` token closing every line of a word stream. */
  const EndOfLine: string := "\n"

  /** The stream of the given lines: each line's words, then `EndOfLine`. */
  function StreamOf(lines: seq<string>): seq<string>
  {
    if lines == [] then [] else Split(lines[0]) + [EndOfLine] + StreamOf(lines[1..])
  }

  /** `word_stream(f)` for a text file with contents `text`. */
  function WordStream(text: string): seq<string>
  {
    StreamOf(Lines(text))
  }

  /** The base check: the two files are byte-for-byte identical; the input
      file plays no part. */
  predicate SameContents(input: string, output: string, solution: string)
  {
    output == solution
  }

  /** `BaseChecker.__call__`: the full score when the check holds, else 0. */
  function Award(check: bool, fullScore: int): (r: int)
    ensures check ==> r == fullScore
    ensures !check ==> r == 0
  {
    if check then fullScore else 0
  }

  // ---------------------------------------------------------------------
  // files/checker.py: zip_longest

  /** `all(x == y for (x, y) in zip_longest(a, b))`: a missing token is padded
      with `None`, which equals no word. */
  function ZipLongestAll(a: seq<string>, b: seq<string>): (r: bool)
    ensures r <==> a == b
  {
    if a == [] && b == [] then true
    else if a == [] || b == [] then false
    else
      var rest := ZipLongestAll(a[1..], b[1..]);
      assert a == [a[0]] + a[1..] && b == [b[0]] + b[1..];
      a[0] == b[0] && rest
  }

  /** `WordChecker.check_answer`. */
  function WordCheck(output: string, solution: string): (r: bool)
    ensures r <==> WordStream(output) == WordStream(solution)
  {
    ZipLongestAll(WordStream(output), WordStream(solution))
  }

  // ---------------------------------------------------------------------
  // core/checkscript.py: zip, then a look at what is left

  /** The state of two generators after `any(x != y for (x, y) in zip(a, b))`:
      whether a differing pair was found, and what each generator still holds.
      `zip` draws from `a` before `b`, so when `b` runs out the token it has
      just drawn from `a` is lost. */
  datatype Drained = Drained(mismatch: bool, restA: seq<string>, restB: seq<string>)

  /** Drain `a` and `b` as `any` over their `zip` does: a mismatch is found
      exactly when the paired prefixes differ; otherwise the shorter stream
      is used up, and the longer one has lost one more token only when it
      is `a`. */
  function ZipAny(a: seq<string>, b: seq<string>): (d: Drained)
    ensures |d.restA| <= |a| && |d.restB| <= |b|
    ensures var m := if |a| <= |b| then |a| else |b|; d.mismatch <==> a[..m] != b[..m]
    ensures !d.mismatch && |a| <= |b| ==> d.restA == [] && d.restB == b[|a|..]
    ensures !d.mismatch && |a| > |b| ==> d.restA == a[|b| + 1..] && d.restB == []
  {
    if a == [] then Drained(false, [], b)
    else if b == [] then Drained(false, a[1..], [])
    else if a[0] != b[0] then
      var m := if |a| <= |b| then |a| else |b|;
      assert a[..m][0] != b[..m][0];
      Drained(true, a[1..], b[1..])
    else
      var m := if |a| <= |b| then |a| else |b|;
      assert a[..m] == [a[0]] + a[1..][..m - 1] && b[..m] == [b[0]] + b[1..][..m - 1];
      assert |a| > |b| ==> a[1..][|b| - 1 + 1..] == a[|b| + 1..];
      assert |a| <= |b| ==> b[1..][|a| - 1..] == b[|a|..];
      ZipAny(a[1..], b[1..])
  }

  /** The verdict of `StandardCheckScript.check_answer` on two streams as the
      code is written: no mismatch, and neither `next(stream_a)` nor
      `next(stream_b)` finds a token. */
  predicate ZipThenLeftovers(a: seq<string>, b: seq<string>)
  {
    var d := ZipAny(a, b);
    !d.mismatch && d.restA == [] && d.restB == []
  }

  /** What the drained generators amount to: the verdict holds exactly when
      the streams are equal or the output has one token more than the
      solution after a matching prefix. It follows from the contract of
      `ZipAny`. */
  lemma ZipThenLeftoversCharacterized(a: seq<string>, b: seq<string>)
    ensures ZipThenLeftovers(a, b) <==> a == b || (|a| == |b| + 1 && a[..|b|] == b)
  {
  }

  /** `StandardCheckScript.check_answer` as written. */
  function StandardCheckAsWritten(output: string, solution: string): (r: bool)
    ensures var a := WordStream(output); var b := WordStream(solution);
      r <==> a == b || (|a| == |b| + 1 && a[..|b|] == b)
  {
    ZipThenLeftoversCharacterized(WordStream(output), WordStream(solution));
    ZipThenLeftovers(WordStream(output), WordStream(solution))
  }

  /** Pairing without losing a token: what the leftover checks evidently
      meant. When either stream runs out, the other keeps all it has. */
  function ZipKeep(a: seq<string>, b: seq<string>): (d: Drained)
  {
    if a == [] || b == [] then Drained(false, a, b)
    else if a[0] != b[0] then Drained(true, a[1..], b[1..])
    else ZipKeep(a[1..], b[1..])
  }

  lemma {:induction false} ZipKeepCharacterized(a: seq<string>, b: seq<string>)
    ensures var d := ZipKeep(a, b); (!d.mismatch && d.restA == [] && d.restB == []) <==> a == b
  {
    if a != [] && b != [] {
      assert a == [a[0]] + a[1..] && b == [b[0]] + b[1..];
      if a[0] == b[0] {
        ZipKeepCharacterized(a[1..], b[1..]);
      }
    }
  }

  /** `StandardCheckScript.check_answer` with the leftover tokens kept: it
      agrees with `WordChecker.check_answer` on every pair of files. */
  function StandardCheck(output: string, solution: string): (r: bool)
    ensures r <==> WordCheck(output, solution)
  {
    var d := ZipKeep(WordStream(output), WordStream(solution));
    ZipKeepCharacterized(WordStream(output), WordStream(solution));
    !d.mismatch && d.restA == [] && d.restB == []
  }

  // ---------------------------------------------------------------------
  // What the word stream keeps and forgets

  /** No word of `str.split()` is the end-of-line token. */
  lemma WordIsNotEndOfLine(line: string, i: int)
    requires 0 <= i < |Split(line)|
    ensures Split(line)[i] != EndOfLine
  {
    var w := Split(line)[i];
    assert IsSpace(EndOfLine[0]);
    assert |w| > 0 && !IsSpace(w[0]);
  }

  /** Two lines' streams split up the same way: the end-of-line tokens mark
      where each line's words stop. */
  lemma SplitAtEndOfLine(w1: seq<string>, w2: seq<string>, r1: seq<string>, r2: seq<string>, l1: string, l2: string)
    requires w1 == Split(l1) && w2 == Split(l2)
    requires w1 + [EndOfLine] + r1 == w2 + [EndOfLine] + r2
    ensures w1 == w2 && r1 == r2
  {
    var s1 := w1 + [EndOfLine] + r1;
    var s2 := w2 + [EndOfLine] + r2;
    if |w1| < |w2| {
      assert s1[|w1|] == EndOfLine;
      assert s2[|w1|] == w2[|w1|];
      WordIsNotEndOfLine(l2, |w1|);
    } else if |w2| < |w1| {
      assert s2[|w2|] == EndOfLine;
      assert s1[|w2|] == w1[|w2|];
      WordIsNotEndOfLine(l1, |w2|);
    } else {
      assert w1 == s1[..|w1|] && w2 == s2[..|w2|];
      assert r1 == s1[|w1| + 1..] && r2 == s2[|w2| + 1..];
    }
  }

  /** Equal streams come from the same number of lines with the same words
      in each, and conversely. */
  lemma {:induction false} StreamOfEqual(xs: seq<string>, ys: seq<string>)
    ensures StreamOf(xs) == StreamOf(ys) <==>
      |xs| == |ys| && forall k :: 0 <= k < |xs| ==> Split(xs[k]) == Split(ys[k])
  {
    if xs == [] && ys == [] {
    } else if xs == [] {
      assert StreamOf(ys)[|Split(ys[0])|] == EndOfLine;
    } else if ys == [] {
      assert StreamOf(xs)[|Split(xs[0])|] == EndOfLine;
    } else {
      StreamOfEqual(xs[1..], ys[1..]);
      if StreamOf(xs) == StreamOf(ys) {
        SplitAtEndOfLine(Split(xs[0]), Split(ys[0]), StreamOf(xs[1..]), StreamOf(ys[1..]), xs[0], ys[0]);
        forall k | 0 <= k < |xs| ensures Split(xs[k]) == Split(ys[k]) {
          if k > 0 {
            assert xs[k] == xs[1..][k - 1] && ys[k] == ys[1..][k - 1];
          }
        }
      }
      if |xs| == |ys| && forall k :: 0 <= k < |xs| ==> Split(xs[k]) == Split(ys[k]) {
        forall k | 0 <= k < |xs| - 1 ensures Split(xs[1..][k]) == Split(ys[1..][k]) {
          assert xs[1..][k] == xs[k + 1] && ys[1..][k] == ys[k + 1];
        }
      }
    }
  }

  /** Two files pass the word check exactly when they have as many lines and
      each pair of lines has the same words in the same order: spacing inside
      and around a line does not matter, word order and line count do. */
  lemma WordCheckLineByLine(output: string, solution: string)
    ensures WordCheck(output, solution) <==>
      |Lines(output)| == |Lines(solution)| &&
      forall k :: 0 <= k < |Lines(output)| ==> Split(Lines(output)[k]) == Split(Lines(solution)[k])
  {
    StreamOfEqual(Lines(output), Lines(solution));
  }

  lemma WordCheckReflexive(output: string)
    ensures WordCheck(output, output) && StandardCheck(output, output)
  {
  }

  lemma WordCheckSymmetric(output: string, solution: string)
    ensures WordCheck(output, solution) <==> WordCheck(solution, output)
    ensures StandardCheck(output, solution) <==> StandardCheck(solution, output)
    ensures SameContents([], output, solution) <==> SameContents([], solution, output)
  {
  }

  /** Identical files pass the word check too. */
  lemma SameContentsPassesWordCheck(input: string, output: string, solution: string)
    requires SameContents(input, output, solution)
    ensures WordCheck(output, solution) && StandardCheck(output, solution)
  {
  }

  // ---------------------------------------------------------------------
  // Words and whitespace

  /** A non-empty run of non-whitespace characters. */
  predicate IsWord(w: string)
  {
    w != [] && NoSpace(w)
  }

  /** A line of two words, whatever whitespace separates them. */
  lemma TwoWordLine(a: string, sp: string, b: string)
    requires IsWord(a) && IsWord(b) && sp != [] && AllSpace(sp)
    ensures Split(a + sp + b + "\n") == [a, b]
  {
    assert AllSpace("\n");
    SplitWordThenSpaces(b, "\n", []);
    assert b + "\n" + [] == b + "\n";
    assert a + sp + b + "\n" == a + sp + (b + "\n");
    SplitWordThenSpaces(a, sp, b + "\n");
  }

  /** Two words, `sp`, a newline and a last word: two lines. */
  lemma TwoWordsThenWord(a: string, sp: string, b: string, c: string)
    requires IsWord(a) && IsWord(b) && c != [] && NoNewline(c) && NoNewline(sp)
    ensures Lines(a + sp + b + "\n" + c) == [a + sp + b + "\n", c]
  {
    NoSpaceNoNewline(a);
    NoSpaceNoNewline(b);
    NoNewlineJoin(a, sp);
    NoNewlineJoin(a + sp, b);
    TwoLines(a + sp + b, c);
  }

  /** Extra spaces inside and around lines do not matter. */
  lemma SpacingDoesNotMatter(a: string, b: string, c: string)
    requires IsWord(a) && IsWord(b) && IsWord(c)
    ensures var output, solution := a + "  " + b + "\n" + c, a + " " + b + "\n " + c;
      WordCheck(output, solution) && StandardCheck(output, solution)
  {
    var output, solution := a + "  " + b + "\n" + c, a + " " + b + "\n " + c;
    assert NoNewline("  ") && NoNewline(" ") && AllSpace("  ") && AllSpace(" ");
    NoSpaceNoNewline(c);
    NoNewlineJoin(" ", c);
    TwoWordsThenWord(a, "  ", b, c);
    assert solution == a + " " + b + "\n" + (" " + c);
    TwoWordsThenWord(a, " ", b, " " + c);
    TwoWordLine(a, "  ", b);
    TwoWordLine(a, " ", b);
    SplitAfterSpaces(" ", c);
    SplitWord(c);
    WordCheckLineByLine(output, solution);
  }

  /** Words joined by single spaces make one line, split back into them. */
  lemma SpacedWords(a: string, b: string)
    requires IsWord(a) && IsWord(b)
    ensures Lines(a + " " + b) == [a + " " + b] && NoNewline(a + " " + b)
    ensures Split(a + " " + b) == [a, b]
  {
    assert NoNewline(" ") && AllSpace(" ");
    NoSpaceNoNewline(a);
    NoSpaceNoNewline(b);
    NoNewlineJoin(a, " ");
    NoNewlineJoin(a + " ", b);
    LastLine(a + " " + b);
    SplitWordThenSpaces(a, " ", b);
    SplitWord(b);
  }

  lemma SpacedThreeWords(a: string, b: string, c: string)
    requires IsWord(a) && IsWord(b) && IsWord(c)
    ensures Lines(a + " " + b + " " + c) == [a + " " + b + " " + c]
    ensures Split(a + " " + b + " " + c) == [a, b, c]
  {
    SpacedWords(a, b);
    ThreeWordsOneLine(a + " " + b, c);
    ThreeWordsSplitAll(a, b, c);
  }

  lemma ThreeWordsSplitAll(a: string, b: string, c: string)
    requires IsWord(a) && IsWord(b) && IsWord(c)
    ensures Split(a + " " + b + " " + c) == [a, b, c]
  {
    SpacedWords(b, c);
    ThreeWordsSplit(a, b + " " + c);
    assert a + " " + b + " " + c == a + " " + (b + " " + c);
    assert [a] + [b, c] == [a, b, c];
  }

  lemma ThreeWordsOneLine(ab: string, c: string)
    requires ab != [] && NoNewline(ab) && IsWord(c)
    ensures Lines(ab + " " + c) == [ab + " " + c]
  {
    assert NoNewline(" ");
    NoSpaceNoNewline(c);
    NoNewlineJoin(ab, " ");
    NoNewlineJoin(ab + " ", c);
    LastLine(ab + " " + c);
  }

  lemma ThreeWordsSplit(a: string, bc: string)
    requires IsWord(a)
    ensures Split(a + " " + bc) == [a] + Split(bc)
  {
    assert AllSpace(" ");
    SplitWordThenSpaces(a, " ", bc);
  }

  /** A missing word does. */
  lemma MissingWordMatters(a: string, b: string, c: string)
    requires IsWord(a) && IsWord(b) && IsWord(c)
    ensures var output, solution := a + " " + b + " " + c, a + " " + b;
      !WordCheck(output, solution) && !StandardCheck(output, solution)
  {
    var output, solution := a + " " + b + " " + c, a + " " + b;
    SpacedThreeWords(a, b, c);
    SpacedWords(a, b);
    WordCheckLineByLine(output, solution);
    assert |Split(Lines(output)[0])| == 3 && |Split(Lines(solution)[0])| == 2;
  }

  /** The stream of an output with one blank line more than the solution is
      one end-of-line token longer. */
  lemma TrailingBlankLineStreams()
    ensures WordStream("a\n\n") == ["a", EndOfLine, EndOfLine]
    ensures WordStream("a\n") == ["a", EndOfLine]
  {
    assert NewlineIndex("a\n\n") == 1 by { assert "a\n\n"[1..] == "\n\n"; }
    assert "a\n\n"[..2] == "a\n" && "a\n\n"[2..] == "\n";
    assert Lines("\n") == ["\n"] by { assert NewlineIndex("\n") == 0; assert "\n"[..1] == "\n" && "\n"[1..] == []; }
    assert NewlineIndex("a\n") == 1 by { assert "a\n"[1..] == "\n"; }
    assert "a\n"[..2] == "a\n" && "a\n"[2..] == [];
    assert Split("a\n") == ["a"] by {
      assert Word("a\n") == "a" by { assert "a\n"[1..] == "\n"; }
      assert "a\n"[1..] == "\n" && "\n"[1..] == [];
    }
    assert Split("\n") == [] by { assert "\n"[1..] == []; }
  }

  /** The as-written leftover check accepts an output with an extra blank
      line, which the word checker and the corrected script reject. */
  lemma StandardAsWrittenAcceptsExtraLine()
    ensures StandardCheckAsWritten("a\n\n", "a\n")
    ensures !WordCheck("a\n\n", "a\n") && !StandardCheck("a\n\n", "a\n")
  {
    TrailingBlankLineStreams();
    var a := WordStream("a\n\n");
    var b := WordStream("a\n");
    assert a[..|b|] == b;
  }

  // ---------------------------------------------------------------------
  // Scoring

  /** The checker kinds: `BaseChecker` and `WordChecker`. */
  datatype Checker = BaseChecker | WordChecker

  /** `checker.check_answer(input, output, solution)` on file contents. */
  predicate CheckAnswer(c: Checker, input: string, output: string, solution: string)
  {
    match c
    case BaseChecker => SameContents(input, output, solution)
    case WordChecker => WordCheck(output, solution)
  }

  /** `checker(full_score, input, output, solution)`. */
  function CheckerScore(c: Checker, fullScore: int, input: string, output: string, solution: string): (r: int)
    ensures r == fullScore || r == 0
    ensures fullScore != 0 ==> (r == fullScore <==> CheckAnswer(c, input, output, solution))
  {
    Award(CheckAnswer(c, input, output, solution), fullScore)
  }

  /** The check-script kinds: `BaseCheckScript`, and `StandardCheckScript`
      both as written and corrected. */
  datatype CheckScript = BaseScript | StandardScriptAsWritten | StandardScript

  predicate ScriptAccepts(s: CheckScript, input: string, output: string, solution: string)
  {
    match s
    case BaseScript => SameContents(input, output, solution)
    case StandardScriptAsWritten => StandardCheckAsWritten(output, solution)
    case StandardScript => StandardCheck(output, solution)
  }

  /** The `(score, message)` pair `evaluate` returns. */
  datatype Verdict = Verdict(score: int, message: string)

  /** `BaseCheckScript.evaluate`. */
  function Evaluate(s: CheckScript, input: string, output: string, solution: string, scoreLimit: int): (v: Verdict)
    ensures v.message == "Correct" || v.message == "Incorrect"
    ensures v.message == "Correct" <==> ScriptAccepts(s, input, output, solution)
    ensures v.message == "Correct" ==> v.score == scoreLimit
    ensures v.message == "Incorrect" ==> v.score == 0
  {
    if ScriptAccepts(s, input, output, solution) then Verdict(scoreLimit, "Correct") else Verdict(0, "Incorrect")
  }

  /** The corrected standard script and the word checker give the same score
      on the same files. */
  lemma ScriptAgreesWithChecker(input: string, output: string, solution: string, full: int)
    ensures Evaluate(StandardScript, input, output, solution, full).score
      == CheckerScore(WordChecker, full, input, output, solution)
    ensures Evaluate(BaseScript, input, output, solution, full).score
      == CheckerScore(BaseChecker, full, input, output, solution)
  {
  }
}

=== FILE: descriptors.dfy ===
/** `TypedDataDescriptor` of `core/descriptors.py`: an attribute that only
    takes values of one class satisfying a predicate, stored in the host
    instance's dictionary and freely reassigned or deleted. */
module Descriptors {
  import opened Outcomes
  import opened PyValues
  import Validators

  /** The `value_type` argument: a class, or something else. */
  datatype TypeArg = AClass(t: PyType) | NotAClass

  /** The `predicate` argument: any falsy value (such as the default `None`)
      stands for "accept everything"; otherwise a callable, or not. */
  datatype PredicateArg = Falsy | CallablePredicate(f: Value -> Validators.Reply) | NotCallable

  /** A descriptor after `__set_name__(owner, name)`. */
  datatype Descriptor = Descriptor(name: string, valueType: PyType, test: Value -> Validators.Reply)

  /** `lambda x: True`. */
  function AcceptAll(): Value -> Validators.Reply
  {
    x => Validators.Answer(VBool(true))
  }

  function PredicateOf(check: PredicateArg): Value -> Validators.Reply
    requires !check.NotCallable?
  {
    if check.CallablePredicate? then check.f else AcceptAll()
  }

  /** `TypedDataDescriptor(value_type, check)` as written: the message
      for a `value_type` that is not a class formats an undefined name, so
      `NameError` is raised in place of the `TypeError` being built. */
  function NewDescriptorAsWritten(name: string, valueType: TypeArg, check: PredicateArg): (r: Outcome<Descriptor>)
    ensures valueType.NotAClass? ==> r == Throw(NameError)
    ensures valueType.AClass? && check.NotCallable? ==> r == Throw(TypeError)
    ensures r.Ok? <==> valueType.AClass? && !check.NotCallable?
    ensures r.Ok? ==> r.value == Descriptor(name, valueType.t, PredicateOf(check))
  {
    if valueType.NotAClass? then Throw(NameError)
    else if check.NotCallable? then Throw(TypeError)
    else Ok(Descriptor(name, valueType.t, PredicateOf(check)))
  }

  /** The constructor as evidently intended: both bad arguments raise
      `TypeError`, the class being checked first. */
  function NewDescriptor(name: string, valueType: TypeArg, check: PredicateArg): (r: Outcome<Descriptor>)
    ensures r.Raise? ==> r == Throw(TypeError)
    ensures r.Ok? <==> valueType.AClass? && !check.NotCallable?
    ensures r.Ok? ==> r.value == Descriptor(name, valueType.t, PredicateOf(check))
  {
    if valueType.NotAClass? || check.NotCallable? then Throw(TypeError)
    else Ok(Descriptor(name, valueType.t, PredicateOf(check)))
  }

  /** The two constructors part only on a non-class `value_type`. */
  lemma ConstructorFinding(name: string, check: PredicateArg)
    ensures NewDescriptorAsWritten(name, NotAClass, check) == Throw(NameError)
    ensures NewDescriptor(name, NotAClass, check) == Throw(TypeError)
    ensures forall t :: NewDescriptorAsWritten(name, AClass(t), check) == NewDescriptor(name, AClass(t), check)
  {
  }

  /** The host instance's `__dict__`. */
  type Store = map<string, Value>

  /** The descriptor takes `value`: of its class, and the predicate answers
      truthy. */
  predicate Admits(d: Descriptor, value: Value)
  {
    IsInstance(value, d.valueType) && d.test(value).Answer? && Truthy(d.test(value).value)
  }

  /** `instance.<name> = value`: the class is checked before the predicate;
      a falsy answer raises `ValueError` and the predicate's own exception
      passes through. */
  function Assign(d: Descriptor, store: Store, value: Value): (r: Outcome<Store>)
    ensures r.Ok? <==> Admits(d, value)
    ensures r.Ok? ==> r.value == store[d.name := value]
    ensures !IsInstance(value, d.valueType) ==> r == Throw(TypeError)
    ensures IsInstance(value, d.valueType) && d.test(value).Fails? ==> r == Throw(d.test(value).kind)
    ensures IsInstance(value, d.valueType) && d.test(value).Answer? && !Truthy(d.test(value).value) ==>
      r == Throw(ValueError)
  {
    if !IsInstance(value, d.valueType) then Throw(TypeError)
    else match d.test(value)
      case Fails(k) => Throw(k)
      case Answer(x) => if Truthy(x) then Ok(store[d.name := value]) else Throw(ValueError)
  }

  /** Unlike a framework parameter, the attribute may be reassigned: the
      last admitted value wins; and after deletion it is gone. */
  lemma ReassignAndDelete(d: Descriptor, store: Store, first: Value, second: Value)
    requires Admits(d, first) && Admits(d, second)
    ensures var s1 := Assign(d, store, first).value;
      Lookup(s1, d.name) == Ok(first) &&
      Assign(d, s1, second).Ok? && Lookup(Assign(d, s1, second).value, d.name) == Ok(second) &&
      Remove(s1, d.name).Ok? && Lookup(Remove(s1, d.name).value, d.name) == Throw(KeyError)
  {
  }

  /** Without a predicate the descriptor admits exactly the instances of its
      class. */
  lemma DefaultPredicateAdmitsInstances(name: string, t: PyType, value: Value)
    ensures NewDescriptor(name, AClass(t), Falsy).Ok?
    ensures Admits(NewDescriptor(name, AClass(t), Falsy).value, value) <==> IsInstance(value, t)
  {
  }
}

=== FILE: docstrings.dfy ===
/** The docstring trimmer that turns a framework's docstring into display
    text, following the recipe of PEP 257: tabs become spaces, the first line
    is stripped, the common indentation of the other lines is removed, and
    blank lines at either end are dropped. */
module Docstrings {
  import opened Outcomes
  import opened PyText

  /** A line Python's `if stripped:` treats as empty. */
  predicate Blank(l: string)
  {
    LStrip(l) == []
  }

  /** `len(line) - len(line.lstrip())`. */
  function Indentation(l: string): (n: nat)
    ensures n <= |l|
    ensures forall j :: 0 <= j < n ==> IsSpace(l[j])
    ensures n < |l| ==> !IsSpace(l[n])
  {
    |l| - |LStrip(l)|
  }

  /** The smallest indentation among the non-blank lines, or `None` where
      the source keeps its infinite starting value. */
  function MinIndent(ls: seq<string>): (r: Option<nat>)
    ensures r.None? <==> forall i :: 0 <= i < |ls| ==> Blank(ls[i])
    ensures r.Some? ==> forall i :: 0 <= i < |ls| && !Blank(ls[i]) ==> r.value <= Indentation(ls[i])
  {
    if ls == [] then None
    else
      var rest := MinIndent(ls[1..]);
      assert forall i :: 1 <= i < |ls| ==> ls[i] == ls[1..][i - 1];
      if Blank(ls[0]) then rest
      else if rest.None? || Indentation(ls[0]) <= rest.value then Some(Indentation(ls[0]))
      else rest
  }

  /** The minimum is attained: some non-blank line has exactly that
      indentation. */
  lemma {:induction false} MinIndentAttained(ls: seq<string>)
    requires MinIndent(ls).Some?
    ensures exists i :: 0 <= i < |ls| && !Blank(ls[i]) && Indentation(ls[i]) == MinIndent(ls).value
  {
    var rest := MinIndent(ls[1..]);
    if Blank(ls[0]) || (rest.Some? && Indentation(ls[0]) > rest.value) {
      MinIndentAttained(ls[1..]);
      var i :| 0 <= i < |ls[1..]| && !Blank(ls[1..][i]) && Indentation(ls[1..][i]) == rest.value;
      assert ls[i + 1] == ls[1..][i];
    } else {
      assert !Blank(ls[0]) && Indentation(ls[0]) == MinIndent(ls).value;
    }
  }

  /** `line[indent:].rstrip()` for every line. */
  function Dedent(ls: seq<string>, indent: nat): (r: seq<string>)
    ensures |r| == |ls|
    ensures forall i :: 0 <= i < |ls| ==> r[i] == RStrip(DropPrefix(ls[i], indent))
  {
    if ls == [] then [] else [RStrip(DropPrefix(ls[0], indent))] + Dedent(ls[1..], indent)
  }

  /** The `while trimmed and not trimmed[-1]: trimmed.pop()` loop. */
  function DropTrailingBlank(ls: seq<string>): (r: seq<string>)
    ensures |r| <= |ls| && r == ls[..|r|]
    ensures r == [] || r[|r| - 1] != []
    ensures forall j :: |r| <= j < |ls| ==> ls[j] == []
  {
    if ls == [] || ls[|ls| - 1] != [] then ls else DropTrailingBlank(ls[..|ls| - 1])
  }

  /** The `while trimmed and not trimmed[0]: trimmed.pop(0)` loop. */
  function DropLeadingBlank(ls: seq<string>): (r: seq<string>)
    ensures |r| <= |ls| && r == ls[|ls| - |r|..]
    ensures r == [] || r[0] != []
    ensures forall j :: 0 <= j < |ls| - |r| ==> ls[j] == []
  {
    if ls == [] || ls[0] != [] then ls else DropLeadingBlank(ls[1..])
  }

  /** The lines of the tab-expanded docstring. */
  function RawLines(docstring: string): (ls: seq<string>)
    ensures docstring != [] <==> |ls| > 0
  {
    var expanded := ExpandTabs(docstring, 4);
    assert docstring != [] ==> expanded != [] by {
      if docstring != [] { ExpandedNonEmpty(docstring, 4, 0); }
    }
    SplitLines(expanded)
  }

  lemma ExpandedNonEmpty(s: string, size: nat, col: nat)
    requires size > 0 && s != []
    ensures ExpandTabsFrom(s, size, col) != []
  {
    if s[0] == '\t' {
      assert |Spaces(size - col % size)| > 0;
    }
  }

  /** The list `trimmed` just before blank lines are dropped: the stripped
      first line, followed by the dedented other lines when at least one of
      them is not blank. */
  function Trimmed(docstring: string): (t: seq<string>)
    requires docstring != []
    ensures |t| > 0
  {
    var lines := RawLines(docstring);
    var indent := MinIndent(lines[1..]);
    [Strip(lines[0])] + (if indent.Some? then Dedent(lines[1..], indent.value) else [])
  }

  /** Both `while` loops: blank lines dropped from the end, then from the
      start. */
  function StripBlankEnds(ls: seq<string>): (r: seq<string>)
    ensures r == [] || (r[0] != [] && r[|r| - 1] != [])
  {
    DropLeadingBlank(DropTrailingBlank(ls))
  }

  /** The lines of the trimmed docstring, before they are joined. */
  function TrimLines(docstring: Option<string>): (r: seq<string>)
    ensures docstring.None? || docstring.value == [] ==> r == []
    ensures r == [] || (r[0] != [] && r[|r| - 1] != [])
  {
    if docstring.None? || docstring.value == [] then [] else StripBlankEnds(Trimmed(docstring.value))
  }

  /** `trim(docstring)`; `None` stands for a missing docstring. */
  function Trim(docstring: Option<string>): (r: string)
    ensures docstring.None? || docstring.value == [] ==> r == []
  {
    Join(TrimLines(docstring), "\n")
  }

  // ---------------------------------------------------------------------
  // Dropping blank lines

  /** What is kept is the run `ls[a..b]`, and everything dropped on either
      side of it is empty. */
  lemma StripBlankEndsBounds(ls: seq<string>) returns (a: nat, b: nat)
    ensures a <= b <= |ls| && StripBlankEnds(ls) == ls[a..b]
    ensures forall j :: 0 <= j < a ==> ls[j] == []
    ensures forall j :: b <= j < |ls| ==> ls[j] == []
  {
    var u := DropTrailingBlank(ls);
    var r := DropLeadingBlank(u);
    a, b := |u| - |r|, |u|;
    assert r == ls[a..b];
    assert forall j :: 0 <= j < a ==> ls[j] == u[j];
  }

  /** What is kept is one contiguous run of the list, and everything dropped
      on either side of it is empty. */
  lemma StripBlankEndsIsRun(ls: seq<string>)
    ensures exists a, b :: (0 <= a <= b <= |ls| && StripBlankEnds(ls) == ls[a..b]
      && (forall j :: 0 <= j < a ==> ls[j] == [])
      && (forall j :: b <= j < |ls| ==> ls[j] == []))
  {
    var a, b := StripBlankEndsBounds(ls);
  }

  /** The trimmed lines are a contiguous run of `trimmed` with only empty
      lines dropped around them. */
  lemma TrimLinesAreRun(docstring: string)
    requires docstring != []
    ensures exists a, b :: (0 <= a <= b <= |Trimmed(docstring)|
      && TrimLines(Some(docstring)) == Trimmed(docstring)[a..b]
      && (forall j :: 0 <= j < a ==> Trimmed(docstring)[j] == [])
      && (forall j :: b <= j < |Trimmed(docstring)| ==> Trimmed(docstring)[j] == []))
  {
    StripBlankEndsIsRun(Trimmed(docstring));
  }

  // ---------------------------------------------------------------------
  // What the trimmed lines look like

  predicate NoTab(s: string)
  {
    forall j :: 0 <= j < |s| ==> s[j] != '\t'
  }

  /** A line of the output: no tab, no line boundary inside it and no
      whitespace at its end. */
  predicate CleanLine(l: string)
  {
    NoTab(l) && NoBoundary(l) && (l == [] || !IsSpace(l[|l| - 1]))
  }

  /** A line of the tab-expanded docstring. */
  predicate RawLine(l: string)
  {
    NoTab(l) && NoBoundary(l)
  }

  lemma SliceNoTab(s: string, a: nat, b: nat)
    requires NoTab(s) && a <= b <= |s|
    ensures NoTab(s[a..b])
  {
    assert forall j :: 0 <= j < b - a ==> s[a..b][j] == s[a + j];
  }

  /** How `splitlines` takes the first line off. */
  lemma SplitLinesFirst(s: string) returns (next: nat)
    requires s != [] && BoundaryIndex(s) < |s|
    ensures BoundaryIndex(s) < next <= |s|
    ensures SplitLines(s) == [s[..BoundaryIndex(s)]] + SplitLines(s[next..])
  {
    var i := BoundaryIndex(s);
    next := if s[i] == '\r' && i + 1 < |s| && s[i + 1] == '\n' then i + 2 else i + 1;
  }

  lemma {:induction false} SplitLinesKeepNoTab(s: string)
    requires NoTab(s)
    ensures forall k :: 0 <= k < |SplitLines(s)| ==> RawLine(SplitLines(s)[k])
    decreases |s|
  {
    if s != [] && BoundaryIndex(s) < |s| {
      var next := SplitLinesFirst(s);
      SliceNoTab(s, next, |s|);
      SliceNoTab(s, 0, BoundaryIndex(s));
      assert s[next..|s|] == s[next..];
      assert s[0..BoundaryIndex(s)] == s[..BoundaryIndex(s)];
      SplitLinesKeepNoTab(s[next..]);
    } else if s != [] {
      assert SplitLines(s) == [s];
    }
  }

  lemma RawLinesRaw(docstring: string)
    ensures forall k :: 0 <= k < |RawLines(docstring)| ==> RawLine(RawLines(docstring)[k])
  {
    SplitLinesKeepNoTab(ExpandTabs(docstring, 4));
  }

  /** A right-stripped piece `l[a..a + |r|]` of a raw line is clean. */
  lemma PieceIsClean(l: string, a: nat, r: string)
    requires RawLine(l)
    requires a + |r| <= |l| && r == l[a..a + |r|]
    requires r == [] || !IsSpace(r[|r| - 1])
    ensures CleanLine(r)
  {
    assert forall j :: 0 <= j < |r| ==> r[j] == l[a + j];
  }

  lemma StrippedClean(l: string)
    requires RawLine(l)
    ensures CleanLine(Strip(l))
  {
    var first := LStrip(l);
    var r := RStrip(first);
    assert r == l[|l| - |first|..|l| - |first| + |r|];
    PieceIsClean(l, |l| - |first|, r);
  }

  lemma DedentedClean(l: string, indent: nat)
    requires RawLine(l)
    ensures CleanLine(RStrip(DropPrefix(l, indent)))
  {
    var r := RStrip(DropPrefix(l, indent));
    if indent <= |l| {
      assert r == l[indent..indent + |r|];
      PieceIsClean(l, indent, r);
    } else {
      PieceIsClean(l, 0, r);
    }
  }

  lemma {:induction false} DedentAllClean(ls: seq<string>, indent: nat)
    requires forall k :: 0 <= k < |ls| ==> RawLine(ls[k])
    ensures forall k :: 0 <= k < |Dedent(ls, indent)| ==> CleanLine(Dedent(ls, indent)[k])
  {
    forall k | 0 <= k < |ls|
      ensures CleanLine(Dedent(ls, indent)[k])
    {
      DedentedClean(ls[k], indent);
    }
  }

  lemma ConsClean(x: string, d: seq<string>)
    requires CleanLine(x)
    requires forall k :: 0 <= k < |d| ==> CleanLine(d[k])
    ensures forall k :: 0 <= k < |[x] + d| ==> CleanLine(([x] + d)[k])
  {
    assert forall k :: 1 <= k < |[x] + d| ==> ([x] + d)[k] == d[k - 1];
  }

  lemma TailRaw(lines: seq<string>)
    requires |lines| > 0
    requires forall k :: 0 <= k < |lines| ==> RawLine(lines[k])
    ensures forall k :: 0 <= k < |lines[1..]| ==> RawLine(lines[1..][k])
  {
    assert forall k :: 0 <= k < |lines[1..]| ==> lines[1..][k] == lines[k + 1];
  }

  /** Every line of `trimmed` is clean. */
  lemma TrimmedClean(docstring: string)
    requires docstring != []
    ensures forall k :: 0 <= k < |Trimmed(docstring)| ==> CleanLine(Trimmed(docstring)[k])
  {
    var lines := RawLines(docstring);
    RawLinesRaw(docstring);
    StrippedClean(lines[0]);
    var indent := MinIndent(lines[1..]);
    if indent.Some? {
      TailRaw(lines);
      DedentAllClean(lines[1..], indent.value);
      ConsClean(Strip(lines[0]), Dedent(lines[1..], indent.value));
    } else {
      ConsClean(Strip(lines[0]), []);
    }
  }

  lemma StripKeepsClean(t: seq<string>)
    requires forall k :: 0 <= k < |t| ==> CleanLine(t[k])
    ensures forall k :: 0 <= k < |StripBlankEnds(t)| ==> CleanLine(StripBlankEnds(t)[k])
  {
    var a, b := StripBlankEndsBounds(t);
    assert forall k :: 0 <= k < b - a ==> t[a..b][k] == t[a + k];
  }

  /** Every line of the trimmed docstring is clean, and the first and the
      last are not empty. */
  lemma TrimLinesClean(docstring: Option<string>)
    ensures forall k :: 0 <= k < |TrimLines(docstring)| ==> CleanLine(TrimLines(docstring)[k])
    ensures TrimLines(docstring) == [] || (TrimLines(docstring)[0] != [] && TrimLines(docstring)[|TrimLines(docstring)| - 1] != [])
  {
    if docstring.Some? && docstring.value != [] {
      TrimmedClean(docstring.value);
      StripKeepsClean(Trimmed(docstring.value));
    }
  }

  // ---------------------------------------------------------------------
  // The indentation removed

  lemma DedentLine(l: string, indent: nat)
    requires !Blank(l) && indent <= Indentation(l)
    ensures indent <= |l|
    ensures forall j :: 0 <= j < indent ==> IsSpace(l[j])
    ensures RStrip(DropPrefix(l, indent)) == RStrip(l[indent..])
  {
  }

  /** Dedenting by the minimum indentation: every non-blank line loses
      exactly `indent` leading whitespace characters, and at least one line
      is then flush left. */
  lemma {:induction false} DedentByMinimum(ls: seq<string>)
    requires MinIndent(ls).Some?
    ensures var indent := MinIndent(ls).value;
      (forall k :: 0 <= k < |ls| && !Blank(ls[k]) ==>
        (indent <= |ls[k]|
        && (forall j :: 0 <= j < indent ==> IsSpace(ls[k][j]))
        && Dedent(ls, indent)[k] == RStrip(ls[k][indent..])))
      && (exists k :: 0 <= k < |ls| && Dedent(ls, indent)[k] != [] && !IsSpace(Dedent(ls, indent)[k][0]))
  {
    var indent := MinIndent(ls).value;
    var d := Dedent(ls, indent);
    forall k | 0 <= k < |ls| && !Blank(ls[k])
      ensures indent <= |ls[k]|
      ensures forall j :: 0 <= j < indent ==> IsSpace(ls[k][j])
      ensures d[k] == RStrip(ls[k][indent..])
    {
      DedentLine(ls[k], indent);
    }
    MinIndentAttained(ls);
    var i :| 0 <= i < |ls| && !Blank(ls[i]) && Indentation(ls[i]) == indent;
    FlushLeft(ls[i], indent);
    assert d[i] != [] && !IsSpace(d[i][0]);
  }

  lemma FlushLeft(l: string, indent: nat)
    requires !Blank(l) && Indentation(l) == indent
    ensures RStrip(DropPrefix(l, indent)) != [] && !IsSpace(RStrip(DropPrefix(l, indent))[0])
  {
    var d := l[indent..];
    assert d[0] == l[indent];
    var r := RStrip(d);
    assert r != [];
    assert r[0] == d[0];
  }

  /** The same at the level of the docstring: the lines after the first
      lose exactly their common indentation, and at least one of them
      becomes flush left. */
  lemma DedentRemovesCommonIndent(docstring: string)
    requires docstring != []
    requires MinIndent(RawLines(docstring)[1..]).Some?
    ensures var lines := RawLines(docstring);
      var indent := MinIndent(lines[1..]).value;
      Trimmed(docstring) == [Strip(lines[0])] + Dedent(lines[1..], indent)
      && (forall k :: 0 <= k < |lines| - 1 && !Blank(lines[1..][k]) ==>
        (indent <= |lines[1..][k]|
        && (forall j :: 0 <= j < indent ==> IsSpace(lines[1..][k][j]))
        && Dedent(lines[1..], indent)[k] == RStrip(lines[1..][k][indent..])))
      && (exists k :: 0 <= k < |lines| - 1 && Dedent(lines[1..], indent)[k] != [] && !IsSpace(Dedent(lines[1..], indent)[k][0]))
  {
    DedentByMinimum(RawLines(docstring)[1..]);
  }

  // ---------------------------------------------------------------------
  // Splitting the output again gives back its lines

  lemma {:induction false} BoundaryAfterLine(l: string, rest: string)
    requires NoBoundary(l)
    ensures BoundaryIndex(l + "\n" + rest) == |l|
    decreases |l|
  {
    if l != [] {
      assert (l + "\n" + rest)[1..] == l[1..] + "\n" + rest;
      BoundaryAfterLine(l[1..], rest);
    }
  }

  lemma SplitSingle(l: string)
    requires NoBoundary(l) && l != []
    ensures SplitLines(l) == [l]
  {
    assert BoundaryIndex(l) == |l|;
  }

  lemma SplitCons(l: string, rest: string)
    requires NoBoundary(l)
    ensures SplitLines(l + "\n" + rest) == [l] + SplitLines(rest)
  {
    var s := l + "\n" + rest;
    BoundaryAfterLine(l, rest);
    assert s[|l|] == '\n';
    assert s[..|l|] == l;
    assert s[|l| + 1..] == rest;
  }

  lemma {:induction false} SplitJoin(ls: seq<string>)
    requires forall k :: 0 <= k < |ls| ==> NoBoundary(ls[k])
    requires ls == [] || ls[|ls| - 1] != []
    ensures SplitLines(Join(ls, "\n")) == ls
  {
    if |ls| == 1 {
      SplitSingle(ls[0]);
    } else if |ls| > 1 {
      var rest := ls[1..];
      SplitCons(ls[0], Join(rest, "\n"));
      SplitJoin(rest);
      assert ls == [ls[0]] + rest;
    }
  }

  /** `trim(d).splitlines()` gives back the trimmed lines. */
  lemma TrimSplitsBack(docstring: Option<string>)
    ensures SplitLines(Trim(docstring)) == TrimLines(docstring)
  {
    TrimLinesClean(docstring);
    SplitJoin(TrimLines(docstring));
  }

  lemma {:induction false} JoinNoTab(ls: seq<string>)
    requires forall k :: 0 <= k < |ls| ==> NoTab(ls[k])
    ensures NoTab(Join(ls, "\n"))
  {
    if |ls| > 1 {
      JoinNoTab(ls[1..]);
      var rest := Join(ls[1..], "\n");
      var s := ls[0] + "\n" + rest;
      forall j | 0 <= j < |s|
        ensures s[j] != '\t'
      {
        if j > |ls[0]| {
          assert s[j] == rest[j - |ls[0]| - 1];
        }
      }
    }
  }

  /** The trimmed docstring contains no tab. */
  lemma TrimHasNoTab(docstring: Option<string>)
    ensures NoTab(Trim(docstring))
  {
    TrimLinesClean(docstring);
    JoinNoTab(TrimLines(docstring));
  }

  // ---------------------------------------------------------------------
  // Trimming twice

  lemma {:induction false} ExpandNoTab(s: string, col: nat)
    requires NoTab(s)
    ensures ExpandTabsFrom(s, 4, col) == s
    decreases |s|
  {
    if s != [] {
      assert NoTab(s[1..]) by {
        assert forall j :: 0 <= j < |s| - 1 ==> s[1..][j] == s[j + 1];
      }
      ExpandNoTab(s[1..], 0);
      ExpandNoTab(s[1..], col + 1);
    }
  }

  /** `n` spaces followed by the character `x`. */
  function Indented(n: nat, x: char): (l: string)
    ensures |l| == n + 1 && l[n] == x
  {
    Spaces(n) + [x]
  }

  lemma LStripDropSpace(l: string)
    requires l != [] && l[0] == ' '
    ensures LStrip(l) == LStrip(l[1..])
  {
    assert IsSpace(l[0]);
  }

  /** Stripping skips a run of leading spaces. */
  lemma {:induction false} LStripLeadingSpaces(l: string, n: nat)
    requires n <= |l| && forall j :: 0 <= j < n ==> l[j] == ' '
    ensures LStrip(l) == LStrip(l[n..])
    decreases n
  {
    if n > 0 {
      LStripDropSpace(l);
      assert l[1..][n - 1..] == l[n..];
      LStripLeadingSpaces(l[1..], n - 1);
    }
  }

  lemma LStripIndented(n: nat, x: char)
    requires !IsSpace(x)
    ensures LStrip(Indented(n, x)) == [x]
  {
    var l := Indented(n, x);
    LStripLeadingSpaces(l, n);
    assert l[n..] == [x];
  }

  lemma IndentedRaw(n: nat, x: char)
    requires !IsSpace(x)
    ensures RawLine(Indented(n, x))
  {
    var l := Indented(n, x);
    forall j | 0 <= j < |l|
      ensures l[j] != '\t' && !IsLineBoundary(l[j])
    {
      if j < n {
        assert l[j] == ' ';
      }
    }
  }

  lemma IndentedFacts(n: nat, x: char)
    requires !IsSpace(x)
    ensures RawLine(Indented(n, x))
    ensures !Blank(Indented(n, x)) && Indentation(Indented(n, x)) == n
    ensures Strip(Indented(0, x)) == [x]
  {
    IndentedRaw(n, x);
    LStripIndented(n, x);
    LStripIndented(0, x);
  }

  lemma DedentIndented(n: nat, k: nat, x: char)
    requires !IsSpace(x)
    ensures RStrip(DropPrefix(Indented(n + k, x), n)) == Indented(k, x)
  {
    assert Indented(n + k, x)[n..] == Indented(k, x);
  }

  lemma NoTabConcat(s: string, t: string)
    requires NoTab(s) && NoTab(t)
    ensures NoTab(s + t)
  {
    assert forall j :: |s| <= j < |s + t| ==> (s + t)[j] == t[j - |s|];
  }

  /** Joined raw lines come back as they were, the last one not empty. */
  lemma RawLinesOfJoin(ls: seq<string>)
    requires forall k :: 0 <= k < |ls| ==> RawLine(ls[k])
    requires ls == [] || ls[|ls| - 1] != []
    ensures RawLines(Join(ls, "\n")) == ls
  {
    JoinNoTab(ls);
    ExpandNoTab(Join(ls, "\n"), 0);
    SplitJoin(ls);
  }

  lemma JoinThree(a: string, b: string, c: string)
    ensures Join([a, b, c], "\n") == a + "\n" + b + "\n" + c
  {
    assert [a, b, c][1..] == [b, c];
    assert [b, c][1..] == [c];
  }

  lemma JoinTwo(a: string, b: string)
    ensures Join([a, b], "\n") == a + "\n" + b
  {
    assert [a, b][1..] == [b];
  }

  lemma MinIndentSingle(a: string)
    requires !Blank(a)
    ensures MinIndent([a]) == Some(Indentation(a))
  {
    assert [a][1..] == [];
  }

  lemma MinIndentPair(a: string, b: string)
    requires !Blank(a) && !Blank(b) && Indentation(a) <= Indentation(b)
    ensures MinIndent([a, b]) == Some(Indentation(a))
  {
    assert [a, b][1..] == [b];
    MinIndentSingle(b);
  }

  lemma FirstIndentOf(n: nat, k: nat, x: char, y: char)
    requires !IsSpace(x) && !IsSpace(y)
    ensures MinIndent([Indented(n, x), Indented(n + k, y)]) == Some(n)
  {
    IndentedFacts(n, x);
    IndentedFacts(n + k, y);
    MinIndentPair(Indented(n, x), Indented(n + k, y));
  }

  lemma DedentPair(a: string, b: string, n: nat)
    ensures Dedent([a, b], n) == [RStrip(DropPrefix(a, n)), RStrip(DropPrefix(b, n))]
  {
  }

  lemma FirstDedentOf(n: nat, k: nat, x: char, y: char)
    requires !IsSpace(x) && !IsSpace(y)
    ensures Dedent([Indented(n, x), Indented(n + k, y)], n) == [Indented(0, x), Indented(k, y)]
  {
    DedentPair(Indented(n, x), Indented(n + k, y), n);
    DedentIndented(n, 0, x);
    assert n + 0 == n;
    DedentIndented(n, k, y);
  }

  lemma FirstRawLines(n: nat, k: nat, x: char, y: char)
    requires !IsSpace(x) && !IsSpace(y)
    ensures RawLines("\n" + Indented(n, x) + "\n" + Indented(n + k, y)) == ["", Indented(n, x), Indented(n + k, y)]
  {
    IndentedRaw(n, x);
    IndentedRaw(n + k, y);
    JoinThree("", Indented(n, x), Indented(n + k, y));
    assert "" + "\n" + Indented(n, x) == "\n" + Indented(n, x);
    RawLinesOfJoin(["", Indented(n, x), Indented(n + k, y)]);
  }

  lemma FirstTrimmedOf(n: nat, k: nat, x: char, y: char)
    requires !IsSpace(x) && !IsSpace(y)
    ensures Trimmed("\n" + Indented(n, x) + "\n" + Indented(n + k, y)) == ["", Indented(0, x), Indented(k, y)]
  {
    var d := "\n" + Indented(n, x) + "\n" + Indented(n + k, y);
    FirstRawLines(n, k, x, y);
    var lines := RawLines(d);
    assert lines[1..] == [Indented(n, x), Indented(n + k, y)];
    assert Strip(lines[0]) == "";
    FirstIndentOf(n, k, x, y);
    FirstDedentOf(n, k, x, y);
  }

  lemma DropBlankFirst(a: string, b: string)
    requires a != [] && b != []
    ensures StripBlankEnds(["", a, b]) == [a, b]
  {
    assert DropTrailingBlank(["", a, b]) == ["", a, b];
    assert ["", a, b][1..] == [a, b];
    assert DropLeadingBlank(["", a, b]) == DropLeadingBlank([a, b]);
  }

  lemma DropBlankNone(a: string, b: string)
    requires a != [] && b != []
    ensures StripBlankEnds([a, b]) == [a, b]
  {
  }

  /** The first pass: an empty first line, then a line indented by `n` and
      one indented by `n + k`. */
  lemma TrimOfTrimmed(d: string, t: seq<string>)
    requires d != [] && Trimmed(d) == t
    ensures Trim(Some(d)) == Join(StripBlankEnds(t), "\n")
  {
  }

  lemma FirstPass(n: nat, k: nat, x: char, y: char)
    requires !IsSpace(x) && !IsSpace(y)
    ensures Trim(Some("\n" + Indented(n, x) + "\n" + Indented(n + k, y))) == Indented(0, x) + "\n" + Indented(k, y)
  {
    FirstTrimmedOf(n, k, x, y);
    TrimOfTrimmed("\n" + Indented(n, x) + "\n" + Indented(n + k, y), ["", Indented(0, x), Indented(k, y)]);
    DropBlankFirst(Indented(0, x), Indented(k, y));
    JoinTwo(Indented(0, x), Indented(k, y));
  }

  lemma SecondRawLines(k: nat, x: char, y: char)
    requires !IsSpace(x) && !IsSpace(y)
    ensures RawLines(Indented(0, x) + "\n" + Indented(k, y)) == [Indented(0, x), Indented(k, y)]
  {
    IndentedRaw(0, x);
    IndentedRaw(k, y);
    JoinTwo(Indented(0, x), Indented(k, y));
    RawLinesOfJoin([Indented(0, x), Indented(k, y)]);
  }

  lemma SecondDedentOf(k: nat, y: char)
    requires !IsSpace(y)
    ensures Dedent([Indented(k, y)], k) == [Indented(0, y)]
  {
    DedentIndented(k, 0, y);
    assert k + 0 == k;
  }

  lemma SecondIndentOf(k: nat, y: char)
    requires !IsSpace(y)
    ensures MinIndent([Indented(k, y)]) == Some(k)
  {
    IndentedFacts(k, y);
    MinIndentSingle(Indented(k, y));
  }

  lemma SecondStripped(x: char)
    requires !IsSpace(x)
    ensures Strip(Indented(0, x)) == Indented(0, x)
  {
    IndentedFacts(0, x);
  }

  lemma SecondTrimmedOf(k: nat, x: char, y: char)
    requires !IsSpace(x) && !IsSpace(y)
    ensures Trimmed(Indented(0, x) + "\n" + Indented(k, y)) == [Indented(0, x), Indented(0, y)]
  {
    SecondRawLines(k, x, y);
    var lines := RawLines(Indented(0, x) + "\n" + Indented(k, y));
    assert lines[1..] == [Indented(k, y)];
    SecondStripped(x);
    SecondIndentOf(k, y);
    SecondDedentOf(k, y);
  }

  /** The second pass, over the output of the first. */
  lemma SecondPass(k: nat, x: char, y: char)
    requires !IsSpace(x) && !IsSpace(y)
    ensures Trim(Some(Indented(0, x) + "\n" + Indented(k, y))) == Indented(0, x) + "\n" + Indented(0, y)
  {
    SecondTrimmedOf(k, x, y);
    TrimOfTrimmed(Indented(0, x) + "\n" + Indented(k, y), [Indented(0, x), Indented(0, y)]);
    DropBlankNone(Indented(0, x), Indented(0, y));
    JoinTwo(Indented(0, x), Indented(0, y));
  }

  /** Trimming is not idempotent: the first line never counts towards the
      indentation, so once a dedented line has become the first line, a
      second pass strips whatever indentation the next line still had. */
  lemma {:induction false} TrimNotIdempotent(n: nat, k: nat, x: char, y: char)
    requires !IsSpace(x) && !IsSpace(y) && k > 0
    ensures var d := Some("\n" + Indented(n, x) + "\n" + Indented(n + k, y));
      Trim(Some(Trim(d))) != Trim(d)
  {
    FirstPass(n, k, x, y);
    SecondPass(k, x, y);
    var once := Indented(0, x) + "\n" + Indented(k, y);
    var twice := Indented(0, x) + "\n" + Indented(0, y);
    assert |once| != |twice|;
  }

  lemma ConcreteLines()
    ensures "\n" + Indented(4, 'a') + "\n" + Indented(4 + 2, 'b') == "\n    a\n      b"
    ensures Indented(0, 'a') + "\n" + Indented(2, 'b') == "a\n  b"
    ensures Indented(0, 'a') + "\n" + Indented(0, 'b') == "a\nb"
  {
  }

  /** The same on concrete text: `"\n    a\n      b"` trims to `"a\n  b"`,
      which trims again to `"a\nb"`. */
  lemma TrimTwiceDiffers(d: string, once: string)
    requires d == "\n    a\n      b" && once == "a\n  b"
    ensures Trim(Some(d)) == once
    ensures Trim(Some(once)) == "a\nb"
  {
    var n, k, x, y := 4, 2, 'a', 'b';
    FirstPass(n, k, x, y);
    SecondPass(k, x, y);
    ConcreteLines();
  }
}

=== FILE: exercises.dfy ===
/** The field-based exercises of `graph/`: typed field descriptors
    (`graph/base.py`, `graph/field.py`), the metaclass that lists a class
    body's fields, keyword-only construction followed by a self-check, the
    five-choice exercise (`graph/exercise.py`, and the same fields and check
    in `graph/framework.py`) and the typed parameters of `graph/parameter.py`. */
module Exercises {
  import opened Outcomes
  import opened PyValues

  // ---------------------------------------------------------------------
  // Fields

  /** `BaseField`, `TextField` or `IntegerField`. */
  datatype FieldKind = AnyField | TextField | IntegerField

  /** `check_valid(value)`: only the type is looked at. */
  predicate Accepts(kind: FieldKind, value: Value)
  {
    match kind
    case AnyField => true
    case TextField => IsInstance(value, StrType)
    case IntegerField => IsInstance(value, IntType)
  }

  /** A field after `__set_name__`. */
  datatype Field = Field(name: string, kind: FieldKind)

  /** `__set_name__(owner, name)`: only an exercise class may own a field. */
  function NameField(ownerIsExercise: bool, kind: FieldKind, name: string): (r: Outcome<Field>)
    ensures r.Ok? <==> ownerIsExercise
    ensures r.Ok? ==> r.value == Field(name, kind)
    ensures r.Raise? ==> r == Throw(TypeError)
  {
    if ownerIsExercise then Ok(Field(name, kind)) else Throw(TypeError)
  }

  /** The instance's `__dict__`. */
  type Store = map<string, Value>

  /** `instance.<field> = value`: a value the field does not accept raises
      `ValueError` (not `TypeError`) and stores nothing; reassignment is
      allowed. */
  function FieldAssign(f: Field, store: Store, value: Value): (r: Outcome<Store>)
    ensures r.Ok? <==> Accepts(f.kind, value)
    ensures r.Ok? ==> r.value == store[f.name := value]
    ensures r.Raise? ==> r == Throw(ValueError)
  {
    if Accepts(f.kind, value) then Ok(store[f.name := value]) else Throw(ValueError)
  }

  /** Reassigning replaces, and a rejected value keeps the old one. */
  lemma FieldReassign(f: Field, store: Store, first: Value, second: Value)
    requires Accepts(f.kind, first)
    ensures var s1 := FieldAssign(f, store, first).value;
      Lookup(s1, f.name) == Ok(first) &&
      (Accepts(f.kind, second) ==> Lookup(FieldAssign(f, s1, second).value, f.name) == Ok(second)) &&
      (!Accepts(f.kind, second) ==> FieldAssign(f, s1, second).Raise? && Lookup(s1, f.name) == Ok(first))
  {
  }

  // ---------------------------------------------------------------------
  // Exercise classes

  /** An entry of a class body: a field descriptor or any other attribute. */
  datatype Attribute = FieldAttr(kind: FieldKind) | OtherAttr

  /** A class body in declaration order, as the metaclass sees it. */
  type Body = seq<(string, Attribute)>

  /** `_field_names`: the names bound to fields in this body, in order. */
  function FieldNames(body: Body): (names: seq<string>)
    ensures |names| <= |body|
  {
    if body == [] then []
    else
      var rest := FieldNames(body[1..]);
      if body[0].1.FieldAttr? then [body[0].0] + rest else rest
  }

  /** A name is listed exactly when the body binds it to a field. */
  lemma {:induction false} FieldNamesMembers(body: Body, n: string)
    ensures n in FieldNames(body) <==> exists i :: 0 <= i < |body| && body[i].0 == n && body[i].1.FieldAttr?
  {
    if body != [] {
      FieldNamesMembers(body[1..], n);
      assert forall i :: 1 <= i < |body| ==> body[1..][i - 1] == body[i];
      if n !in FieldNames(body) {
        forall i | 1 <= i < |body| ensures !(body[i].0 == n && body[i].1.FieldAttr?) {
          assert body[1..][i - 1] == body[i];
        }
      }
    }
  }

  /** Field collection keeps declaration order across a split of the body. */
  lemma {:induction false} FieldNamesAppend(a: Body, b: Body)
    ensures FieldNames(a + b) == FieldNames(a) + FieldNames(b)
  {
    if a == [] {
      assert a + b == b;
    } else {
      assert (a + b)[0] == a[0];
      assert (a + b)[1..] == a[1..] + b;
      FieldNamesAppend(a[1..], b);
    }
  }

  /** The kind of the field declared under `name`. */
  function KindOf(body: Body, name: string): (k: FieldKind)
    requires name in FieldNames(body)
  {
    if body[0].0 == name && body[0].1.FieldAttr? then body[0].1.kind
    else KindOf(body[1..], name)
  }

  /** Every stored attribute is a field its value is acceptable to. */
  predicate WellTyped(body: Body, store: Store)
  {
    forall n :: n in store ==> n in FieldNames(body) && Accepts(KindOf(body, n), store[n])
  }

  /** The keyword arguments have distinct names, as a call's keywords do. */
  predicate DistinctNames(kwargs: seq<(string, Value)>)
  {
    forall i, j :: 0 <= i < j < |kwargs| ==> kwargs[i].0 != kwargs[j].0
  }

  /** The keyword arguments, in order, each name a field of the body whose
      field accepts the value. */
  predicate AllAcceptable(body: Body, kwargs: seq<(string, Value)>)
  {
    forall i :: 0 <= i < |kwargs| ==> kwargs[i].0 in FieldNames(body) && Accepts(KindOf(body, kwargs[i].0), kwargs[i].1)
  }

  /** The loop of `__init__`: each keyword in order is looked up among the
      field names (`ValueError` when unknown) and assigned through its field. */
  function AssignAll(body: Body, store: Store, kwargs: seq<(string, Value)>): (r: Outcome<Store>)
    ensures r.Ok? <==> AllAcceptable(body, kwargs)
    ensures r.Raise? ==> r == Throw(ValueError)
    decreases |kwargs|
  {
    if kwargs == [] then Ok(store)
    else
      var (name, value) := kwargs[0];
      assert forall i :: 1 <= i < |kwargs| ==> kwargs[1..][i - 1] == kwargs[i];
      if name !in FieldNames(body) then Throw(ValueError)
      else
        var next :- FieldAssign(Field(name, KindOf(body, name)), store, value);
        AssignAll(body, next, kwargs[1..])
  }

  /** The names the keywords give. */
  function NamesOf(kwargs: seq<(string, Value)>): set<string>
  {
    set i | 0 <= i < |kwargs| :: kwargs[i].0
  }

  /** A successful run stores each keyword's value under its name, adds no
      other name, and keeps every other stored attribute. */
  lemma {:induction false} AssignAllStores(body: Body, store: Store, kwargs: seq<(string, Value)>)
    requires DistinctNames(kwargs) && AllAcceptable(body, kwargs)
    ensures AssignAll(body, store, kwargs).Ok?
    ensures AssignAll(body, store, kwargs).value.Keys == store.Keys + NamesOf(kwargs)
    ensures forall i :: 0 <= i < |kwargs| ==> AssignAll(body, store, kwargs).value[kwargs[i].0] == kwargs[i].1
    ensures forall n :: n in store && n !in NamesOf(kwargs) ==> AssignAll(body, store, kwargs).value[n] == store[n]
    decreases |kwargs|
  {
    if kwargs != [] {
      var (name, value) := kwargs[0];
      var tail := kwargs[1..];
      assert forall i :: 1 <= i < |kwargs| ==> tail[i - 1] == kwargs[i];
      assert kwargs[0].0 in FieldNames(body) && Accepts(KindOf(body, kwargs[0].0), kwargs[0].1);
      var next := store[name := value];
      assert AssignAll(body, store, kwargs) == AssignAll(body, next, tail);
      AssignAllStores(body, next, tail);
      assert NamesOf(kwargs) == {name} + NamesOf(tail) by {
        forall n | n in NamesOf(kwargs) ensures n in {name} + NamesOf(tail) {
          var i :| 0 <= i < |kwargs| && kwargs[i].0 == n;
          if i > 0 { assert tail[i - 1].0 == n; }
        }
      }
      assert name !in NamesOf(tail) by {
        forall i | 0 <= i < |tail| ensures tail[i].0 != name {
          assert tail[i] == kwargs[i + 1];
        }
      }
    }
  }

  /** The fields only store values they accept. */
  lemma {:induction false} AssignAllWellTyped(body: Body, store: Store, kwargs: seq<(string, Value)>)
    requires WellTyped(body, store) && AssignAll(body, store, kwargs).Ok?
    ensures WellTyped(body, AssignAll(body, store, kwargs).value)
    decreases |kwargs|
  {
    if kwargs != [] {
      var (name, value) := kwargs[0];
      assert forall i :: 1 <= i < |kwargs| ==> kwargs[1..][i - 1] == kwargs[i];
      assert kwargs[0].0 in FieldNames(body) && Accepts(KindOf(body, kwargs[0].0), kwargs[0].1);
      AssignAllWellTyped(body, store[name := value], kwargs[1..]);
    }
  }

  /** The `selfcheck_valid` a class defines: none (`BaseExercise`), or the
      five-choice check. */
  datatype SelfCheck = NoCheck | FiveChoicesCheck

  /** An exercise class: its body and its self-check. */
  datatype ExerciseClass = ExerciseClass(body: Body, check: SelfCheck)

  /** `len(self.choices)`. */
  const ChoiceCount: nat := 5

  /** The fields of the five-choice exercise, in declaration order, with the
      plain `choices` list after them. */
  function FiveChoicesBody(): Body
  {
    [("question", FieldAttr(TextField)), ("answer", FieldAttr(IntegerField)), ("score", FieldAttr(IntegerField)),
     ("choice_a", FieldAttr(TextField)), ("choice_b", FieldAttr(TextField)), ("choice_c", FieldAttr(TextField)),
     ("choice_d", FieldAttr(TextField)), ("choice_e", FieldAttr(TextField)), ("choices", OtherAttr)]
  }

  function FiveChoices(): ExerciseClass
  {
    ExerciseClass(FiveChoicesBody(), FiveChoicesCheck)
  }

  /** The names, kinds and order of the five-choice fields. */
  lemma FiveChoicesFields()
    ensures FieldNames(FiveChoicesBody()) ==
      ["question", "answer", "score", "choice_a", "choice_b", "choice_c", "choice_d", "choice_e"]
  {
    var b := FiveChoicesBody();
    var names := ["question", "answer", "score", "choice_a", "choice_b", "choice_c", "choice_d", "choice_e"];
    assert b[8..][1..] == [];
    assert FieldNames(b[8..]) == names[8..];
    FieldStep(b, names, 7);
    FieldStep(b, names, 6);
    FieldStep(b, names, 5);
    FieldStep(b, names, 4);
    FieldStep(b, names, 3);
    FieldStep(b, names, 2);
    FieldStep(b, names, 1);
    FieldStep(b, names, 0);
    assert b[0..] == b && names[0..] == names;
  }

  /** A field at position `i` puts its name in front of the names after it. */
  lemma FieldStep(b: Body, names: seq<string>, i: nat)
    requires i < |b| && i < |names| && b[i].1.FieldAttr? && b[i].0 == names[i]
    requires FieldNames(b[i + 1..]) == names[i + 1..]
    ensures FieldNames(b[i..]) == names[i..]
  {
    assert b[i..][1..] == b[i + 1..];
    assert [names[i]] + names[i + 1..] == names[i..];
  }

  /** The two integer fields the self-check reads. */
  lemma FiveChoicesIntegerFields()
    ensures "answer" in FieldNames(FiveChoicesBody()) && KindOf(FiveChoicesBody(), "answer") == IntegerField
    ensures "score" in FieldNames(FiveChoicesBody()) && KindOf(FiveChoicesBody(), "score") == IntegerField
  {
    var b := FiveChoicesBody();
    assert "score" in FieldNames(b[2..]);
    assert b[1..][1..] == b[2..];
    assert KindOf(b, "score") == KindOf(b[1..], "score") == KindOf(b[2..], "score");
  }

  /** `selfcheck_valid()`: reading an unset field raises `KeyError`; the
      answer is checked before the score, each failure raising `ValueError`. */
  function RunSelfCheck(check: SelfCheck, store: Store): (r: Outcome<bool>)
    ensures r.Ok? ==> r.value
    ensures check.NoCheck? ==> r.Ok?
    ensures check.FiveChoicesCheck? && "answer" !in store ==> r == Throw(KeyError)
    ensures check.FiveChoicesCheck? && "answer" in store && InRange(store["answer"], ChoiceCount) == Ok(false) ==>
      r == Throw(ValueError)
    ensures check.FiveChoicesCheck? ==>
      (r.Ok? <==> "answer" in store && InRange(store["answer"], ChoiceCount) == Ok(true) &&
                  "score" in store && Positive(store["score"]) == Ok(true))
  {
    match check
    case NoCheck => Ok(true)
    case FiveChoicesCheck =>
      if "answer" !in store then Throw(KeyError)
      else
        var inRange :- InRange(store["answer"], ChoiceCount);
        if !inRange then Throw(ValueError)
        else if "score" !in store then Throw(KeyError)
        else
          var positive :- Positive(store["score"]);
          if !positive then Throw(ValueError) else Ok(true)
  }

  /** `cls(*positional, **kwargs)`: positional arguments raise `ValueError`;
      the keywords are assigned in order; then the self-check runs once, on
      the assigned fields. */
  function Construct(cls: ExerciseClass, positional: nat, kwargs: seq<(string, Value)>): (r: Outcome<Store>)
    ensures positional > 0 ==> r == Throw(ValueError)
    ensures positional == 0 && !AllAcceptable(cls.body, kwargs) ==> r == Throw(ValueError)
    ensures r.Ok? ==> positional == 0 && AssignAll(cls.body, map[], kwargs) == r
    ensures positional == 0 && AllAcceptable(cls.body, kwargs) ==>
      (var check := RunSelfCheck(cls.check, AssignAll(cls.body, map[], kwargs).value);
       (r.Ok? <==> check.Ok?) && (r.Raise? ==> r.error == check.error))
  {
    if positional > 0 then Throw(ValueError)
    else
      var s :- AssignAll(cls.body, map[], kwargs);
      var _ :- RunSelfCheck(cls.check, s);
      Ok(s)
  }

  /** The value the keywords give to `name`, if any. */
  function Given(kwargs: seq<(string, Value)>, name: string): (v: Option<Value>)
    ensures v.Some? <==> name in NamesOf(kwargs)
    ensures v.Some? ==> exists i :: 0 <= i < |kwargs| && kwargs[i] == (name, v.value)
  {
    if kwargs == [] then None
    else if kwargs[0].0 == name then Some(kwargs[0].1)
    else
      var rest := Given(kwargs[1..], name);
      assert forall i :: 1 <= i < |kwargs| ==> kwargs[1..][i - 1] == kwargs[i];
      assert name in NamesOf(kwargs) ==> name in NamesOf(kwargs[1..]) by {
        if name in NamesOf(kwargs) {
          var i :| 0 <= i < |kwargs| && kwargs[i].0 == name;
          assert kwargs[1..][i - 1].0 == name;
        }
      }
      rest
  }

  /** An integer given for an integer field. */
  predicate GivenInt(kwargs: seq<(string, Value)>, name: string)
  {
    Given(kwargs, name).Some? && IsInstance(Given(kwargs, name).value, IntType)
  }

  /** A five-choice exercise is built exactly when nothing is positional,
      every keyword names one of its fields with a value of the field's
      type, and an answer in `0 .. 4` and a positive score are given. It
      then holds exactly the given fields; omitted ones stay unset. */
  lemma {:induction false} FiveChoicesValid(positional: nat, kwargs: seq<(string, Value)>)
    requires DistinctNames(kwargs)
    ensures Construct(FiveChoices(), positional, kwargs).Ok? <==>
      (positional == 0 && AllAcceptable(FiveChoicesBody(), kwargs) &&
       GivenInt(kwargs, "answer") && 0 <= IntOf(Given(kwargs, "answer").value) < ChoiceCount &&
       GivenInt(kwargs, "score") && IntOf(Given(kwargs, "score").value) > 0)
    ensures Construct(FiveChoices(), positional, kwargs).Ok? ==>
      Construct(FiveChoices(), positional, kwargs).value.Keys == NamesOf(kwargs)
  {
    var b := FiveChoicesBody();
    if positional == 0 && AllAcceptable(b, kwargs) {
      AssignAllStores(b, map[], kwargs);
      var s := AssignAll(b, map[], kwargs).value;
      FiveChoicesIntegerFields();
      GivenIsStored(kwargs, s, "answer");
      GivenIsStored(kwargs, s, "score");
      GivenIsAccepted(b, kwargs, "answer");
      GivenIsAccepted(b, kwargs, "score");
    }
  }

  lemma GivenIsAccepted(body: Body, kwargs: seq<(string, Value)>, name: string)
    requires AllAcceptable(body, kwargs) && name in FieldNames(body)
    ensures Given(kwargs, name).Some? ==> Accepts(KindOf(body, name), Given(kwargs, name).value)
  {
    if Given(kwargs, name).Some? {
      var i :| 0 <= i < |kwargs| && kwargs[i] == (name, Given(kwargs, name).value);
      assert Accepts(KindOf(body, kwargs[i].0), kwargs[i].1);
    }
  }

  lemma GivenIsStored(kwargs: seq<(string, Value)>, s: Store, name: string)
    requires DistinctNames(kwargs)
    requires s.Keys == NamesOf(kwargs)
    requires forall i :: 0 <= i < |kwargs| ==> s[kwargs[i].0] == kwargs[i].1
    ensures name in s <==> Given(kwargs, name).Some?
    ensures name in s ==> s[name] == Given(kwargs, name).value
  {
    if Given(kwargs, name).Some? {
      var i :| 0 <= i < |kwargs| && kwargs[i] == (name, Given(kwargs, name).value);
    }
  }

  /** The answer is checked first: an out-of-range answer is a `ValueError`
      even when no score was given. */
  lemma AnswerCheckedFirst(answer: int)
    requires !(0 <= answer < ChoiceCount)
    ensures Construct(FiveChoices(), 0, [("answer", VInt(answer))]) == Throw(ValueError)
  {
    var b := FiveChoicesBody();
    FiveChoicesIntegerFields();
    AssignSingle(b, "answer", VInt(answer));
    var s := map["answer" := VInt(answer)];
    assert "answer" in s && s["answer"] == VInt(answer);
    assert RunSelfCheck(FiveChoicesCheck, s) == Throw(ValueError);
  }

  /** A single keyword naming a field that accepts its value is stored. */
  lemma AssignSingle(body: Body, name: string, value: Value)
    requires name in FieldNames(body) && Accepts(KindOf(body, name), value)
    ensures AssignAll(body, map[], [(name, value)]) == Ok(map[name := value])
  {
    var kwargs := [(name, value)];
    assert AllAcceptable(body, kwargs);
    assert kwargs[1..] == [];
  }

  /** A wrongly typed field value surfaces as `ValueError`. */
  lemma WrongTypeIsValueError(text: string)
    ensures Construct(FiveChoices(), 0, [("answer", VStr(text))]) == Throw(ValueError)
  {
    var kwargs := [("answer", VStr(text))];
    FiveChoicesIntegerFields();
    assert !Accepts(KindOf(FiveChoicesBody(), kwargs[0].0), kwargs[0].1);
  }

  // ---------------------------------------------------------------------
  // Typed parameters of graph/parameter.py

  datatype GraphParameter = TextParameter | NumberParameter | IntegerParameter | PositiveIntegerParameter

  /** `parameter_validate(value)`: a type check raising `TypeError`, and for
      the positive-integer parameter then a sign check raising `ValueError`. */
  function ParameterValidate(p: GraphParameter, value: Value): (r: Outcome<()>)
    ensures p.TextParameter? ==> (r.Ok? <==> IsInstance(value, StrType))
    ensures p.NumberParameter? ==> (r.Ok? <==> IsInstance(value, RealType))
    ensures p.IntegerParameter? ==> (r.Ok? <==> IsInstance(value, IntType))
    ensures p.PositiveIntegerParameter? ==> (r.Ok? <==> IsInstance(value, IntType) && IntOf(value) > 0)
    ensures p.PositiveIntegerParameter? && IsInstance(value, IntType) && r.Raise? ==> r == Throw(ValueError)
    ensures !p.PositiveIntegerParameter? ==> r.Raise? ==> r == Throw(TypeError)
  {
    match p
    case TextParameter => if IsInstance(value, StrType) then Ok(()) else Throw(TypeError)
    case NumberParameter => if IsInstance(value, RealType) then Ok(()) else Throw(TypeError)
    case IntegerParameter => if IsInstance(value, IntType) then Ok(()) else Throw(TypeError)
    case PositiveIntegerParameter =>
      if !IsInstance(value, IntType) then Throw(TypeError)
      else if !(IntOf(value) > 0) then Throw(ValueError) else Ok(())
  }

  /** The positive-integer parameter is the integer one plus a sign check:
      it raises the integer parameter's `TypeError` and accepts only what
      that one accepts. */
  lemma PositiveRefinesInteger(value: Value)
    ensures ParameterValidate(IntegerParameter, value).Raise? ==>
      ParameterValidate(PositiveIntegerParameter, value) == ParameterValidate(IntegerParameter, value)
    ensures ParameterValidate(PositiveIntegerParameter, value).Ok? ==> ParameterValidate(IntegerParameter, value).Ok?
    ensures ParameterValidate(PositiveIntegerParameter, VBool(true)).Ok?
    ensures ParameterValidate(PositiveIntegerParameter, VBool(false)) == Throw(ValueError)
  {
  }
}

=== FILE: frameworks.dfy ===
/** The framework classes of `backbones/frameworks.py` and
    `backbone/framework.py`: the metaclass that accumulates parameter names
    along the class hierarchy, and construction, which assigns every named
    parameter from the keyword arguments and then validates the whole. The
    two generations share this logic; they differ only in the parameter
    descriptors they assign through. */
module Frameworks {
  import opened Outcomes
  import opened PyValues

  /** A class-body entry, as `isinstance(descriptor, BaseParameter)` sees it. */
  datatype Entry = ParameterEntry | OtherEntry

  /** A class body in declaration order. */
  type ClassDict = seq<(string, Entry)>

  predicate Private(name: string)
  {
    |name| > 0 && name[0] == '_'
  }

  /** The entry stops class creation: an inherited parameter rebound to
      something else, or a new parameter with a private name. */
  predicate Offends(inherited: seq<string>, e: (string, Entry))
  {
    if e.0 in inherited then e.1.OtherEntry? else e.1.ParameterEntry? && Private(e.0)
  }

  /** The error an offending entry raises. */
  function OffenceKind(inherited: seq<string>, e: (string, Entry)): Kind
  {
    if e.0 in inherited then TypeError else NameError
  }

  /** The parameters the body introduces, in declaration order. */
  function NewNames(inherited: seq<string>, body: ClassDict): (names: seq<string>)
    ensures forall n :: n in names ==> n !in inherited
  {
    if body == [] then []
    else (if body[0].0 !in inherited && body[0].1.ParameterEntry? then [body[0].0] else []) + NewNames(inherited, body[1..])
  }

  /** A name is new exactly when the body binds it to a parameter and it
      is not inherited. */
  lemma {:induction false} NewNamesMembers(inherited: seq<string>, body: ClassDict, n: string)
    ensures n in NewNames(inherited, body) <==>
      n !in inherited && exists i :: 0 <= i < |body| && body[i] == (n, ParameterEntry)
  {
    if body != [] {
      NewNamesMembers(inherited, body[1..], n);
      if exists i :: 0 <= i < |body| && body[i] == (n, ParameterEntry) {
        var i :| 0 <= i < |body| && body[i] == (n, ParameterEntry);
        if i > 0 { assert body[1..][i - 1] == body[i]; }
      }
      if exists i :: 0 <= i < |body[1..]| && body[1..][i] == (n, ParameterEntry) {
        var i :| 0 <= i < |body[1..]| && body[1..][i] == (n, ParameterEntry);
        assert body[i + 1] == body[1..][i];
      }
    }
  }

  /** The first offending entry, if any. */
  predicate FirstOffence(inherited: seq<string>, body: ClassDict, i: nat)
  {
    i < |body| && Offends(inherited, body[i]) && forall j :: 0 <= j < i ==> !Offends(inherited, body[j])
  }

  /** The loop of `_extract_parameter_names` over the class body. */
  function CollectNames(inherited: seq<string>, body: ClassDict): (r: Outcome<seq<string>>)
    ensures r.Ok? <==> forall i :: 0 <= i < |body| ==> !Offends(inherited, body[i])
    ensures r.Ok? ==> r.value == NewNames(inherited, body)
  {
    if body == [] then Ok([])
    else if Offends(inherited, body[0]) then Throw(OffenceKind(inherited, body[0]))
    else
      var rest := CollectNames(inherited, body[1..]);
      assert forall i :: 1 <= i < |body| ==> body[1..][i - 1] == body[i];
      match rest
      case Raise(e) => Raise(e)
      case Ok(names) =>
        Ok((if body[0].0 !in inherited && body[0].1.ParameterEntry? then [body[0].0] else []) + names)
  }

  /** The loop stops at the first offending entry and raises its error. */
  lemma {:induction false} CollectStopsAtFirstOffence(inherited: seq<string>, body: ClassDict)
    requires CollectNames(inherited, body).Raise?
    ensures exists i: nat :: (i < |body| && FirstOffence(inherited, body, i) &&
                              CollectNames(inherited, body) == Throw(OffenceKind(inherited, body[i])))
  {
    if Offends(inherited, body[0]) {
      assert FirstOffence(inherited, body, 0);
    } else {
      CollectStopsAtFirstOffence(inherited, body[1..]);
      var k: nat :| k < |body[1..]| && FirstOffence(inherited, body[1..], k) &&
        CollectNames(inherited, body[1..]) == Throw(OffenceKind(inherited, body[1..][k]));
      assert body[k + 1] == body[1..][k];
      assert forall j :: 1 <= j < k + 1 ==> body[j] == body[1..][j - 1];
      assert FirstOffence(inherited, body, k + 1);
    }
  }

  /** `cls.parameter_names` after class creation: the inherited names, then
      the new ones. */
  function ExtractParameterNames(inherited: seq<string>, body: ClassDict): (r: Outcome<seq<string>>)
    ensures r.Ok? <==> forall i :: 0 <= i < |body| ==> !Offends(inherited, body[i])
    ensures r.Ok? ==> r.value == inherited + NewNames(inherited, body)
  {
    var names :- CollectNames(inherited, body);
    Ok(inherited + names)
  }

  /** Class creation fails with the error of the first offending entry:
      `TypeError` for an inherited parameter overridden by a plain
      attribute, `NameError` for a private parameter name. */
  lemma RaisesFirstOffence(inherited: seq<string>, body: ClassDict)
    requires ExtractParameterNames(inherited, body).Raise?
    ensures exists i: nat :: (i < |body| && FirstOffence(inherited, body, i) &&
                              ExtractParameterNames(inherited, body) == Throw(OffenceKind(inherited, body[i])))
  {
    CollectStopsAtFirstOffence(inherited, body);
  }

  predicate NoDuplicates(names: seq<string>)
  {
    forall i, j :: 0 <= i < j < |names| ==> names[i] != names[j]
  }

  /** The keys of a class body are distinct, as a dictionary's are. */
  predicate DistinctKeys(body: ClassDict)
  {
    forall i, j :: 0 <= i < j < |body| ==> body[i].0 != body[j].0
  }

  lemma {:induction false} NewNamesDistinct(inherited: seq<string>, body: ClassDict)
    requires DistinctKeys(body)
    ensures NoDuplicates(NewNames(inherited, body))
  {
    if body != [] {
      var tail := body[1..];
      assert DistinctKeys(tail) by {
        forall i, j | 0 <= i < j < |tail| ensures tail[i].0 != tail[j].0 {
          assert tail[i] == body[i + 1] && tail[j] == body[j + 1];
        }
      }
      NewNamesDistinct(inherited, tail);
      if body[0].0 in NewNames(inherited, tail) {
        NewNamesMembers(inherited, tail, body[0].0);
        assert false;
      }
      var head := if body[0].0 !in inherited && body[0].1.ParameterEntry? then [body[0].0] else [];
      var rest := NewNames(inherited, tail);
      forall i, j | 0 <= i < j < |head + rest| ensures (head + rest)[i] != (head + rest)[j] {
        if i < |head| { assert (head + rest)[j] == rest[j - |head|]; }
      }
    }
  }

  /** Parameter names never repeat down a class hierarchy, and a parameter
      redeclared in a subclass keeps its inherited place. */
  lemma NamesStayDistinct(inherited: seq<string>, body: ClassDict)
    requires NoDuplicates(inherited) && DistinctKeys(body)
    requires ExtractParameterNames(inherited, body).Ok?
    ensures NoDuplicates(ExtractParameterNames(inherited, body).value)
    ensures (forall i :: 0 <= i < |body| && body[i].1.ParameterEntry? ==> body[i].0 in inherited) ==>
      ExtractParameterNames(inherited, body).value == inherited
  {
    var added := NewNames(inherited, body);
    NewNamesDistinct(inherited, body);
    var all := inherited + added;
    forall i, j | 0 <= i < j < |all| ensures all[i] != all[j] {
      if i < |inherited| && j >= |inherited| {
        assert all[j] == added[j - |inherited|];
        assert added[j - |inherited|] in added;
      } else if i >= |inherited| {
        assert all[i] == added[i - |inherited|] && all[j] == added[j - |inherited|];
      }
    }
    if forall i :: 0 <= i < |body| && body[i].1.ParameterEntry? ==> body[i].0 in inherited {
      if added != [] {
        NewNamesMembers(inherited, body, added[0]);
        assert false;
      }
      assert all == inherited;
    }
  }

  // ---------------------------------------------------------------------
  // Construction

  /** The instance's `__dict__`. */
  type Store = map<string, Value>

  /** `_validate_and_set_parameters(kwargs)`: for each name in order, a
      missing keyword raises `ValueError` (a declared default does not
      help); otherwise the value goes through that parameter's descriptor,
      whose error propagates. `params[i]` is the descriptor `names[i]`
      resolves to. */
  function SetParameters<P>(names: seq<string>, params: seq<P>, assign: (P, Store, Value) -> Outcome<Store>,
                            kwargs: map<string, Value>, store: Store): (r: Outcome<Store>)
    requires |params| == |names|
    ensures r.Ok? ==> forall i :: 0 <= i < |names| ==> names[i] in kwargs
    ensures names != [] && names[0] !in kwargs ==> r == Raise(Error(ValueError, Missing(names[0])))
    decreases |names|
  {
    if names == [] then Ok(store)
    else if names[0] !in kwargs then Raise(Error(ValueError, Missing(names[0])))
    else
      var next :- assign(params[0], store, kwargs[names[0]]);
      var r := SetParameters(names[1..], params[1..], assign, kwargs, next);
      assert forall i :: 1 <= i < |names| ==> names[1..][i - 1] == names[i];
      r
  }

  /** Assigning a run of names is assigning its front part and then the
      rest, from where the front part left the instance. */
  lemma {:induction false} SetParametersSplit<P>(names: seq<string>, params: seq<P>,
                                                  assign: (P, Store, Value) -> Outcome<Store>,
                                                  kwargs: map<string, Value>, store: Store, k: nat)
    requires |params| == |names| && k <= |names|
    ensures SetParameters(names, params, assign, kwargs, store) ==
      match SetParameters(names[..k], params[..k], assign, kwargs, store)
      case Raise(e) => Raise(e)
      case Ok(s) => SetParameters(names[k..], params[k..], assign, kwargs, s)
    decreases k
  {
    if k > 0 {
      assert names[..k][1..] == names[1..][..k - 1] && params[..k][1..] == params[1..][..k - 1];
      assert names[k..] == names[1..][k - 1..] && params[k..] == params[1..][k - 1..];
      if names[0] in kwargs && assign(params[0], store, kwargs[names[0]]).Ok? {
        SetParametersSplit(names[1..], params[1..], assign, kwargs, assign(params[0], store, kwargs[names[0]]).value, k - 1);
      }
    }
  }

  /** When every parameter stores its keyword argument as given, on any
      instance that does not hold it yet, all of them end up stored. */
  lemma {:induction false} AllStoredAsGiven<P>(names: seq<string>, params: seq<P>,
                                              assign: (P, Store, Value) -> Outcome<Store>,
                                              kwargs: map<string, Value>, store: Store)
    requires |params| == |names| && NoDuplicates(names)
    requires forall i :: 0 <= i < |names| ==> names[i] in kwargs && names[i] !in store
    requires forall i, t :: 0 <= i < |names| && names[i] !in t ==>
      assign(params[i], t, kwargs[names[i]]) == Ok(t[names[i] := kwargs[names[i]]])
    ensures var r := SetParameters(names, params, assign, kwargs, store);
      r.Ok? && (forall i :: 0 <= i < |names| ==> names[i] in r.value && r.value[names[i]] == kwargs[names[i]]) &&
      forall n :: n in store ==> n in r.value && r.value[n] == store[n]
    decreases |names|
  {
    if names != [] {
      var next := store[names[0] := kwargs[names[0]]];
      assert assign(params[0], store, kwargs[names[0]]) == Ok(next);
      var tail, rest := names[1..], params[1..];
      forall i | 0 <= i < |tail| ensures tail[i] in kwargs && tail[i] !in next {
        assert tail[i] == names[i + 1];
      }
      forall i, t | 0 <= i < |tail| && tail[i] !in t
        ensures assign(rest[i], t, kwargs[tail[i]]) == Ok(t[tail[i] := kwargs[tail[i]]])
      {
        assert tail[i] == names[i + 1] && rest[i] == params[i + 1];
      }
      AllStoredAsGiven(tail, rest, assign, kwargs, next);
      var r := SetParameters(tail, rest, assign, kwargs, next);
      assert SetParameters(names, params, assign, kwargs, store) == r;
      assert names[0] in next;
      forall i | 0 <= i < |names| ensures names[i] in r.value && r.value[names[i]] == kwargs[names[i]] {
        if i > 0 {
          assert names[i] == tail[i - 1];
        }
      }
    }
  }

  /** The error for a missing parameter names the first one missing, in
      `parameter_names` order, provided the ones before it were assigned. */
  lemma FirstMissingRaises<P>(names: seq<string>, params: seq<P>, assign: (P, Store, Value) -> Outcome<Store>,
                              kwargs: map<string, Value>, store: Store, k: nat)
    requires |params| == |names| && k < |names| && names[k] !in kwargs
    requires SetParameters(names[..k], params[..k], assign, kwargs, store).Ok?
    ensures SetParameters(names, params, assign, kwargs, store) == Raise(Error(ValueError, Missing(names[k])))
  {
    SetParametersSplit(names, params, assign, kwargs, store, k);
    assert names[k..][0] == names[k];
  }

  /** Keyword arguments that name no parameter are ignored. */
  lemma {:induction false} ExtrasIgnored<P>(names: seq<string>, params: seq<P>, assign: (P, Store, Value) -> Outcome<Store>,
                                            kwargs: map<string, Value>, more: map<string, Value>, store: Store)
    requires |params| == |names|
    requires forall n :: n in more ==> n !in names
    ensures SetParameters(names, params, assign, kwargs + more, store) ==
      SetParameters(names, params, assign, kwargs - more.Keys, store)
    decreases |names|
  {
    if names != [] {
      assert names[0] !in more;
      assert names[0] in kwargs + more <==> names[0] in kwargs - more.Keys;
      if names[0] in kwargs {
        assert (kwargs + more)[names[0]] == (kwargs - more.Keys)[names[0]];
        var next := assign(params[0], store, kwargs[names[0]]);
        if next.Ok? {
          forall n | n in more ensures n !in names[1..] {
            assert n !in names;
          }
          ExtrasIgnored(names[1..], params[1..], assign, kwargs, more, next.value);
        }
      }
    }
  }

  /** `Framework(**kwargs)`: every parameter assigned, then
      `framework_validate`, which sees only a fully assigned instance. */
  function Construct<P>(names: seq<string>, params: seq<P>, assign: (P, Store, Value) -> Outcome<Store>,
                        validate: Store -> Outcome<bool>, kwargs: map<string, Value>): (r: Outcome<Store>)
    requires |params| == |names|
    ensures var set_ := SetParameters(names, params, assign, kwargs, map[]);
      (r.Ok? <==> set_.Ok? && validate(set_.value).Ok?) &&
      (r.Ok? ==> r == set_) &&
      (set_.Raise? ==> r == set_) &&
      (set_.Ok? && validate(set_.value).Raise? ==> r.error == validate(set_.value).error)
  {
    var s :- SetParameters(names, params, assign, kwargs, map[]);
    var _ :- validate(s);
    Ok(s)
  }

  /** The base class's `framework_validate` accepts everything. */
  function NoValidation(s: Store): (r: Outcome<bool>)
    ensures r == Ok(true)
  {
    Ok(true)
  }
}

=== FILE: graph.dfy ===
/** Test graphs and their memoised scoring.

A grading rubric is a graph of nodes: constants, operators that combine the
scores of their dependencies, random "lottery" nodes and tests that look at
the submitted data. Scoring walks the graph depth first from a root, keeps a
memo from node to score in which `None` marks a node still in progress, and
raises `ValueError` on re-entering such a node.

Three generations of the scorer are modelled through one traversal and a
`Dialect` that decides how a node's dependencies are found and how a node is
scored:
  - `Linked`: `GradingResult` (core/testgraph.py) and `BaseResult`
    (core/result.py) read `node.dependencies` and call
    `node.evaluate(data, history)`;
  - `EvaluatorAsWritten`: `BaseEvaluator.run` (core/evaluator.py) exactly as
    written, reading the missing attribute `node.children` of an operator;
  - `Evaluator`: the same evaluator with `children` read as the operator's
    dependencies. */
module TestGraph {
  import opened Outcomes
  import opened Ops
  import PyValues
  import ProgramNodes

  type NodeId = nat

  /** The node kinds of core/testgraph.py and core/graph.py.
      - `Constant`: `ConstantNode`;
      - `Operator`: `OperatorNode`, combining its dependencies' scores in order;
      - `Lottery`: `LotteryNode` / `RandomScoreNode`, full score when the random
        sample falls below the threshold;
      - `PredicateTest`: testgraph's `SimpleTestNode`, a predicate on `data[test_id]`
        (whether its result is truthy, or the exception it raises);
      - `EqualityTest`: graph.py's `SimpleTestNode`, `data[question_id] == solution`;
      - `ProgramLeaf`: prog/graph.py's `EvaluateProgramNode`, with the check
        script's verdict for each score;
      - `FileLeaf`: files/graph.py's `FunctionalFileTestNode`, with the
        checker's verdict for each score;
      - `Abstract`: a node whose class leaves `evaluate` to the base class;
      - `NotANode`: an object that is no test node at all.
      `PredicateTest` and the two program leaves derive from testgraph's
      `BaseNode`; the other kinds exist in core/graph.py as well. */
  datatype Node =
    | Constant(value: Score)
    | Operator(op: Op, deps: seq<NodeId>)
    | Lottery(score: int, threshold: real)
    | PredicateTest(score: int, testId: string, accepts: PyValues.Value -> Outcome<bool>)
    | EqualityTest(score: int, questionId: string, solution: PyValues.Value)
    | ProgramLeaf(program: ProgramNodes.ProgramNode, checkScript: int -> Outcome<int>)
    | FileLeaf(file: ProgramNodes.FileNode, checker: int -> Outcome<int>)
    | Abstract
    | NotANode

  type Graph = map<NodeId, Node>

  /** The external data handed to a run: `None` or a dictionary. */
  type Data = Option<map<string, PyValues.Value>>

  /** What a run consumes from outside besides the data: the value
      `random.random()` yields when a given lottery node is scored, and what
      calling each callable of the data on the sandbox's files does. */
  datatype World = World(sample: NodeId -> real, calls: map<string, ProgramNodes.Behaviour>)

  datatype Env = Env(data: Data, world: World)

  /** What calling `data[key]` does for every key of the data: a key that
      holds no callable raises `TypeError` when called. */
  function CallsOf(env: Env): (r: ProgramNodes.Data)
    ensures r.None? <==> env.data.None?
    ensures r.Some? ==> r.value.Keys == env.data.value.Keys
    ensures r.Some? ==> forall k :: k in r.value ==>
      r.value[k] == if k in env.world.calls then env.world.calls[k] else ProgramNodes.Raised(TypeError)
  {
    if env.data.None? then None
    else Some(map k | k in env.data.value :: if k in env.world.calls then env.world.calls[k] else ProgramNodes.Raised(TypeError))
  }

  /** A leaf's integer verdict as a node score; errors pass through. */
  function AsScore(o: Outcome<int>): (r: Outcome<Score>)
    ensures r.Ok? <==> o.Ok?
    ensures r.Ok? ==> r.value == Num(o.value)
    ensures r.Raise? ==> r.error == o.error
  {
    match o
    case Ok(v) => Ok(Num(v))
    case Raise(e) => Raise(e)
  }

  /** The kinds that exist only in core/testgraph.py and the modules built on
      it, which `BaseEvaluator` does not recognise. */
  predicate TestGraphOnly(n: Node)
  {
    n.PredicateTest? || n.ProgramLeaf? || n.FileLeaf?
  }

  datatype Dialect = Linked | EvaluatorAsWritten | Evaluator

  /** The memo (`computed_node_scores`) and the nodes scored so far, in the
      order their scores were computed. */
  datatype State = State(memo: map<NodeId, Score>, log: seq<NodeId>)

  /** The node's dependencies as the object graph holds them. */
  function Children(n: Node): seq<NodeId>
  {
    if n.Operator? then n.deps else []
  }

  /** Every dependency of every node is itself a node of the graph. */
  ghost predicate Closed(g: Graph)
  {
    forall v, w :: v in g && w in Children(g[v]) ==> w in g
  }

  const CycleError := Error(ValueError, CycleFound)

  /** `history[precursor]` for each dependency, in order. */
  function History(memo: map<NodeId, Score>, deps: seq<NodeId>): (r: Outcome<seq<Score>>)
    ensures r.Ok? <==> forall i :: 0 <= i < |deps| ==> deps[i] in memo
    ensures r.Ok? ==> |r.value| == |deps| && forall i :: 0 <= i < |deps| ==> r.value[i] == memo[deps[i]]
    ensures r.Raise? ==> r.error == Error(KeyError, Plain)
  {
    if deps == [] then Ok([])
    else if deps[0] !in memo then Raise(Error(KeyError, Plain))
    else
      match History(memo, deps[1..])
      case Ok(rest) => Ok([memo[deps[0]]] + rest)
      case Raise(e) => Raise(e)
  }

  /** `node.evaluate(data)` for a node that does not look at other scores. */
  function Score(n: Node, env: Env, u: NodeId): (r: Outcome<Score>)
    requires !n.Operator? && !n.NotANode?
    ensures n.Constant? ==> r == Ok(n.value)
    ensures n.Lottery? ==> r.Ok? && (r.value == Num(n.score) || r.value == Num(0))
    ensures n.Lottery? ==> (r == Ok(Num(n.score)) <==> env.world.sample(u) < n.threshold || n.score == 0)
    ensures n.PredicateTest? ==>
      (r.Ok? <==> env.data.Some? && (n.testId in env.data.value ==> n.accepts(env.data.value[n.testId]).Ok?))
    ensures n.PredicateTest? && r.Ok? ==>
      r.value == Num(if n.testId in env.data.value && n.accepts(env.data.value[n.testId]) == Ok(true) then n.score else 0)
    ensures n.PredicateTest? && env.data.Some? && n.testId in env.data.value && n.accepts(env.data.value[n.testId]).Raise? ==>
      r == Raise(n.accepts(env.data.value[n.testId]).error)
    ensures n.EqualityTest? ==> (r.Ok? <==> env.data.Some? && n.questionId in env.data.value)
    ensures n.EqualityTest? && r.Ok? ==>
      r.value == Num(if PyValues.Equal(env.data.value[n.questionId], n.solution) then n.score else 0)
    ensures n.ProgramLeaf? ==> r == AsScore(ProgramNodes.EvaluateProgramNode(n.program, CallsOf(env), n.checkScript).result)
    ensures n.FileLeaf? ==> r == AsScore(ProgramNodes.EvaluateFileNode(n.file, CallsOf(env), n.checker).result)
    ensures n.Abstract? ==> r == Throw(NotImplementedError)
  {
    match n
    case Constant(v) => Ok(v)
    case Lottery(score, threshold) =>
      if env.world.sample(u) < threshold then Ok(Num(score)) else Ok(Num(0))
    case PredicateTest(score, key, p) =>
      if env.data.None? then Throw(TypeError)           // `key in None`
      else if key !in env.data.value then Ok(Num(0))
      else
        (match p(env.data.value[key])
         case Raise(e) => Raise(e)
         case Ok(holds) => Ok(Num(if holds then score else 0)))
    case EqualityTest(score, key, solution) =>
      if env.data.None? then Throw(TypeError)           // `None[key]`
      else if key !in env.data.value then Raise(Error(KeyError, Missing(key)))
      else if PyValues.Equal(env.data.value[key], solution) then Ok(Num(score))
      else Ok(Num(0))
    case ProgramLeaf(p, check) => AsScore(ProgramNodes.EvaluateProgramNode(p, CallsOf(env), check).result)
    case FileLeaf(f, check) => AsScore(ProgramNodes.EvaluateFileNode(f, CallsOf(env), check).result)
    case Abstract => Throw(NotImplementedError)
  }

  /** The dependencies the dialect traverses before scoring `n`. A file
      leaf never calls the base constructor, so it has no `dependencies`
      attribute; a program leaf sets it to the empty list. */
  function DepsOf(d: Dialect, n: Node): (r: Outcome<seq<NodeId>>)
    ensures r.Ok? ==> r.value == Children(n)
    ensures r.Raise? ==> r.error == Error(AttributeError, Plain)
    ensures r.Raise? <==> (d == Linked && (n.NotANode? || n.FileLeaf?)) || (d == EvaluatorAsWritten && n.Operator?)
  {
    match n
    case Operator(_, deps) => if d == EvaluatorAsWritten then Throw(AttributeError) else Ok(deps)
    case NotANode => if d == Linked then Throw(AttributeError) else Ok([])
    case FileLeaf(_, _) => if d == Linked then Throw(AttributeError) else Ok([])
    case _ => Ok([])
  }

  /** The score the dialect records for `n` once its dependencies are done. */
  function EvalNode(d: Dialect, n: Node, env: Env, u: NodeId, memo: map<NodeId, Score>): (r: Outcome<Score>)
    ensures n.Operator? && d != EvaluatorAsWritten && (forall w :: w in n.deps ==> w in memo) ==>
      r == ApplyScores(n.op, seq(|n.deps|, i requires 0 <= i < |n.deps| => memo[n.deps[i]]))
    ensures (n.NotANode? || TestGraphOnly(n)) && d != Linked ==> r == Raise(Error(ValueError, InvalidNode))
    ensures !n.Operator? && !n.NotANode? && (d == Linked || !TestGraphOnly(n)) ==> r == Score(n, env, u)
  {
    match n
    case Operator(op, deps) =>
      if d == EvaluatorAsWritten then Throw(AttributeError)
      else
        var scores :- History(memo, deps);
        assert scores == seq(|deps|, i requires 0 <= i < |deps| => memo[deps[i]]);
        ApplyScores(op, scores)
    case NotANode =>
      if d == Linked then Throw(AttributeError) else Raise(Error(ValueError, InvalidNode))
    case _ =>
      if d != Linked && TestGraphOnly(n) then Raise(Error(ValueError, InvalidNode)) else Score(n, env, u)
  }

  lemma MissingGrowth(keys: set<NodeId>, big: set<NodeId>, small: set<NodeId>)
    requires small <= big
    ensures |keys - big| <= |keys - small|
  {
    assert keys - big <= keys - small;
    SubsetCardinality(keys - big, keys - small);
  }

  lemma {:induction false} SubsetCardinality<T>(a: set<T>, b: set<T>)
    requires a <= b
    ensures |a| <= |b|
    decreases |b|
  {
    if a != {} {
      var x :| x in a;
      SubsetCardinality(a - {x}, b - {x});
    }
  }

  /** `traverse(node)`: look the node up in the memo, otherwise mark it in
      progress, traverse its dependencies in order, score it and record the
      score. */
  function Traverse(d: Dialect, g: Graph, env: Env, u: NodeId, st: State): (r: Outcome<State>)
    requires Closed(g) && u in g && st.memo.Keys <= g.Keys
    ensures u in st.memo ==> r == (if st.memo[u] == NoneVal then Raise(CycleError) else Ok(st))
    ensures r.Ok? ==> st.memo.Keys <= r.value.memo.Keys <= g.Keys && u in r.value.memo
    ensures r.Ok? ==> st.log <= r.value.log && forall v :: v in st.memo ==> r.value.memo[v] == st.memo[v]
    ensures r.Ok? && u !in st.memo ==> |r.value.log| > 0 && r.value.log[|r.value.log| - 1] == u
    decreases |g.Keys - st.memo.Keys|, 0
  {
    if u in st.memo then
      if st.memo[u] == NoneVal then Raise(CycleError) else Ok(st)
    else
      var marked := State(st.memo[u := NoneVal], st.log);
      assert g.Keys - marked.memo.Keys == (g.Keys - st.memo.Keys) - {u};
      var deps :- DepsOf(d, g[u]);
      var done :- TraverseAll(d, g, env, deps, marked);
      var score :- EvalNode(d, g[u], env, u, done.memo);
      Ok(State(done.memo[u := score], done.log + [u]))
  }

  /** `for precursor in deps: traverse(precursor)`. */
  function TraverseAll(d: Dialect, g: Graph, env: Env, deps: seq<NodeId>, st: State): (r: Outcome<State>)
    requires Closed(g) && st.memo.Keys <= g.Keys
    requires forall w :: w in deps ==> w in g
    ensures r.Ok? ==> st.memo.Keys <= r.value.memo.Keys <= g.Keys
    ensures r.Ok? ==> forall w :: w in deps ==> w in r.value.memo
    ensures r.Ok? ==> st.log <= r.value.log && forall v :: v in st.memo ==> r.value.memo[v] == st.memo[v]
    decreases |g.Keys - st.memo.Keys|, 1, |deps|
  {
    if deps == [] then Ok(st)
    else
      var first :- Traverse(d, g, env, deps[0], st);
      MissingGrowth(g.Keys, first.memo.Keys, st.memo.Keys);
      TraverseAll(d, g, env, deps[1..], first)
  }

  /** The outcome of a successful run: every recorded score, the root's
      score, and the nodes in the order they were scored. */
  datatype Grading = Grading(scores: map<NodeId, Score>, finalScore: Score, evaluated: seq<NodeId>)

  /** Traverse from `root` with a fresh memo and read the root's score. */
  function Run(d: Dialect, g: Graph, root: NodeId, env: Env): (r: Outcome<Grading>)
    requires Closed(g) && root in g
    ensures r.Ok? ==> root in r.value.scores && r.value.finalScore == r.value.scores[root]
    ensures r.Ok? ==> r.value.scores.Keys <= g.Keys
  {
    var st :- Traverse(d, g, env, root, State(map[], []));
    Ok(Grading(st.memo, st.memo[root], st.log))
  }

  /** `GradingResult(graph, data)` of core/testgraph.py: the data is used as
      given. */
  function GradingResult(g: Graph, root: NodeId, data: Data, world: World): (r: Outcome<Grading>)
    requires Closed(g) && root in g
    ensures r.Ok? ==> root in r.value.scores && r.value.finalScore == r.value.scores[root]
    ensures r.Ok? ==> r.value.scores.Keys <= g.Keys
  {
    Run(Linked, g, root, Env(data, world))
  }

  /** `data if data else {}`: `None` and the empty dictionary both become `{}`. */
  function NormalizeData(data: Data): (r: Data)
    ensures r.Some?
    ensures data.Some? ==> r == data
    ensures data.None? ==> r == Some(map[])
  {
    if data.Some? then data else Some(map[])
  }

  /** `BaseResult(graph, data)` of core/result.py. */
  function BaseResult(g: Graph, root: NodeId, data: Data, world: World): (r: Outcome<Grading>)
    requires Closed(g) && root in g
    ensures r.Ok? ==> root in r.value.scores && r.value.finalScore == r.value.scores[root]
    ensures r.Ok? ==> r.value.scores.Keys <= g.Keys
  {
    Run(Linked, g, root, Env(NormalizeData(data), world))
  }

  /** `BaseEvaluator(graph).run(data)` of core/evaluator.py, as written. */
  function EvaluatorRunAsWritten(g: Graph, root: NodeId, data: Data, world: World): (r: Outcome<Score>)
    requires Closed(g) && root in g
  {
    var res :- Run(EvaluatorAsWritten, g, root, Env(data, world));
    Ok(res.finalScore)
  }

  /** `BaseEvaluator(graph).run(data)` with an operator's children taken to be
      its dependencies. */
  function EvaluatorRun(g: Graph, root: NodeId, data: Data, world: World): (r: Outcome<Score>)
    requires Closed(g) && root in g
  {
    var res :- Run(Evaluator, g, root, Env(data, world));
    Ok(res.finalScore)
  }

  // ---------------------------------------------------------------------
  // Building operator nodes

  /** An argument handed to `OperatorNode(op, *args)`: an existing node, an
      integer, or anything else. */
  datatype Operand = NodeArg(id: NodeId) | IntArg(n: int) | OtherArg

  /** Every node id in use is below `next`. */
  ghost predicate FreshFrom(g: Graph, next: NodeId)
  {
    forall v :: v in g ==> v < next
  }

  /** The dependencies `OperatorNode.__init__` builds from `args`, with each
      integer wrapped in a new `ConstantNode` stored at the next free id. */
  function WrapOperands(g: Graph, args: seq<Operand>, next: NodeId): (r: Outcome<(Graph, seq<NodeId>)>)
    requires FreshFrom(g, next)
    ensures r.Ok? <==> forall i :: 0 <= i < |args| ==> !args[i].OtherArg?
    ensures r.Raise? ==> r.error == Error(TypeError, Plain)
    ensures r.Ok? ==> var (g', deps) := r.value;
      && |deps| == |args|
      && g.Keys <= g'.Keys
      && (forall v :: v in g ==> g'[v] == g[v])
      && (forall v :: v in g' && v !in g ==> v >= next && g'[v].Constant?)
      && (forall i :: 0 <= i < |args| && args[i].NodeArg? ==> deps[i] == args[i].id)
      && (forall i :: 0 <= i < |args| && args[i].IntArg? ==>
            deps[i] in g' && deps[i] !in g && g'[deps[i]] == Constant(Num(args[i].n)))
    decreases |args|
  {
    if args == [] then Ok((g, []))
    else
      match args[0]
      case OtherArg => Throw(TypeError)
      case NodeArg(id) =>
        var (g', rest) :- WrapOperands(g, args[1..], next);
        Ok((g', [id] + rest))
      case IntArg(n) =>
        var g1 := g[next := Constant(Num(n))];
        var (g', rest) :- WrapOperands(g1, args[1..], next + 1);
        Ok((g', [next] + rest))
  }

  /** `OperatorNode(op, *args)`, stored at id `next` (so constants go from `next + 1`). */
  function MakeOperator(g: Graph, op: Op, args: seq<Operand>, next: NodeId): (r: Outcome<Graph>)
    requires FreshFrom(g, next)
    ensures r.Ok? <==> forall i :: 0 <= i < |args| ==> !args[i].OtherArg?
    ensures r.Raise? ==> r.error == Error(TypeError, Plain)
    ensures r.Ok? ==>
      && next in r.value && next !in g && r.value[next].Operator?
      && r.value[next].op == op
      && |r.value[next].deps| == |args|
      && (forall v :: v in g ==> v in r.value && r.value[v] == g[v])
      && (forall i :: 0 <= i < |args| && args[i].NodeArg? ==> r.value[next].deps[i] == args[i].id)
      && (forall i :: 0 <= i < |args| && args[i].IntArg? ==>
            var c := r.value[next].deps[i]; c in r.value && c !in g && r.value[c] == Constant(Num(args[i].n)))
  {
    var (g', deps) :- WrapOperands(g, args, next + 1);
    Ok(g'[next := Operator(op, deps)])
  }

  /** `arg` sits at position `i` of the dependencies of `g'[at]`: the node
      itself, or a new constant holding the integer. */
  ghost predicate Holds(g: Graph, g': Graph, at: NodeId, i: nat, arg: Operand)
    requires at in g' && g'[at].Operator? && i < |g'[at].deps|
  {
    var c := g'[at].deps[i];
    && (arg.NodeArg? ==> c == arg.id)
    && (arg.IntArg? ==> c in g' && c !in g && g'[c] == Constant(Num(arg.n)))
  }

  /** `node <op> other`: the node itself comes first. */
  function Forward(g: Graph, op: Op, self: NodeId, other: Operand, next: NodeId): (r: Outcome<Graph>)
    requires FreshFrom(g, next)
    ensures r.Ok? <==> !other.OtherArg?
    ensures r.Raise? ==> r.error == Error(TypeError, Plain)
    ensures r.Ok? ==>
      && next in r.value && r.value[next].Operator? && r.value[next].op == op
      && |r.value[next].deps| == 2 && r.value[next].deps[0] == self
      && Holds(g, r.value, next, 1, other)
  {
    var args := [NodeArg(self), other];
    assert args[0] == NodeArg(self) && args[1] == other;
    MakeOperator(g, op, args, next)
  }

  /** `other <op> node` dispatched to the node's reflected method: the other
      operand comes first. */
  function Reflected(g: Graph, op: Op, self: NodeId, other: Operand, next: NodeId): (r: Outcome<Graph>)
    requires FreshFrom(g, next)
    ensures r.Ok? <==> !other.OtherArg?
    ensures r.Raise? ==> r.error == Error(TypeError, Plain)
    ensures r.Ok? ==>
      && next in r.value && r.value[next].Operator? && r.value[next].op == op
      && |r.value[next].deps| == 2 && r.value[next].deps[1] == self
      && Holds(g, r.value, next, 0, other)
  {
    var args := [other, NodeArg(self)];
    assert args[0] == other && args[1] == NodeArg(self);
    MakeOperator(g, op, args, next)
  }

  /** `-node`, `+node`, `abs(node)`. */
  function Unary(g: Graph, op: Op, self: NodeId, next: NodeId): (r: Outcome<Graph>)
    requires FreshFrom(g, next)
    ensures r.Ok? && next !in g && next in r.value && r.value[next] == Operator(op, [self])
    ensures r.Ok? ==> forall v :: v in g ==> v in r.value && r.value[v] == g[v]
  {
    var r := MakeOperator(g, op, [NodeArg(self)], next);
    assert r.Ok? && r.value[next].deps == [self];
    r
  }
}

=== FILE: graph_facts.dfy ===
/** How the three scorers relate, and what they do on a few small graphs. */
module TestGraphFacts {
  import opened Outcomes
  import opened Ops
  import opened TestGraph
  import opened TestGraphProofs
  import PyValues
  import ProgramNodes

  /** Every node of the graph is of a kind core/graph.py also defines: no
      foreign object and none of the testgraph-only kinds. */
  ghost predicate CoreNodes(g: Graph)
  {
    forall v :: v in g ==> !g[v].NotANode? && !TestGraphOnly(g[v])
  }

  /** `BaseEvaluator.run` as written dies on its first operator: the root
      being an operator is enough, and a run that does succeed scored no
      operator at all. */
  lemma EvaluatorAsWrittenRejectsOperators(g: Graph, root: NodeId, data: Data, world: World)
    requires Closed(g) && root in g
    ensures g[root].Operator? ==> EvaluatorRunAsWritten(g, root, data, world) == Throw(AttributeError)
    ensures Run(EvaluatorAsWritten, g, root, Env(data, world)).Ok? ==>
      forall v :: v in Run(EvaluatorAsWritten, g, root, Env(data, world)).value.scores ==> !g[v].Operator?
  {
    RunSound(EvaluatorAsWritten, g, root, Env(data, world));
  }

  /** With operator children read as dependencies, the evaluator traverses
      exactly like `GradingResult` on any graph made only of test nodes. */
  lemma {:induction false} TraverseAgree(g: Graph, env: Env, u: NodeId, st: State)
    requires Closed(g) && u in g && st.memo.Keys <= g.Keys && CoreNodes(g)
    ensures Traverse(Evaluator, g, env, u, st) == Traverse(Linked, g, env, u, st)
    decreases |g.Keys - st.memo.Keys|, 0
  {
    if u !in st.memo {
      var marked := State(st.memo[u := NoneVal], st.log);
      MarkShrinks(g, st.memo, u);
      TraverseAllAgree(g, env, Children(g[u]), marked);
      TraverseUnfold(Evaluator, g, env, u, st);
      TraverseUnfold(Linked, g, env, u, st);
      var done := TraverseAll(Linked, g, env, Children(g[u]), marked);
      if done.Ok? {
        assert EvalNode(Evaluator, g[u], env, u, done.value.memo) == EvalNode(Linked, g[u], env, u, done.value.memo);
      }
    }
  }

  lemma {:induction false} TraverseAllAgree(g: Graph, env: Env, deps: seq<NodeId>, st: State)
    requires Closed(g) && st.memo.Keys <= g.Keys && CoreNodes(g)
    requires forall w :: w in deps ==> w in g
    ensures TraverseAll(Evaluator, g, env, deps, st) == TraverseAll(Linked, g, env, deps, st)
    decreases |g.Keys - st.memo.Keys|, 1, |deps|
  {
    if deps != [] {
      TraverseAgree(g, env, deps[0], st);
      var first := Traverse(Linked, g, env, deps[0], st);
      if first.Ok? {
        MissingGrowth(g.Keys, first.value.memo.Keys, st.memo.Keys);
        TraverseAllAgree(g, env, deps[1..], first.value);
      }
    }
  }

  /** The corrected evaluator and `GradingResult` give the same final score,
      or raise the same error, on the same data. */
  lemma EvaluatorAgreesWithGrading(g: Graph, root: NodeId, data: Data, world: World)
    requires Closed(g) && root in g && CoreNodes(g)
    ensures EvaluatorRun(g, root, data, world).Ok? <==> GradingResult(g, root, data, world).Ok?
    ensures EvaluatorRun(g, root, data, world).Ok? ==>
      EvaluatorRun(g, root, data, world).value == GradingResult(g, root, data, world).value.finalScore
    ensures EvaluatorRun(g, root, data, world).Raise? ==>
      EvaluatorRun(g, root, data, world).error == GradingResult(g, root, data, world).error
  {
    TraverseAgree(g, Env(data, world), root, State(map[], []));
  }

  // ---------------------------------------------------------------------
  // Small graphs

  /** Scoring a fresh node without dependencies. */
  lemma LeafStep(d: Dialect, g: Graph, env: Env, u: NodeId, st: State)
    requires Closed(g) && u in g && st.memo.Keys <= g.Keys && u !in st.memo
    requires Children(g[u]) == [] && DepsOf(d, g[u]).Ok?
    ensures var e := EvalNode(d, g[u], env, u, st.memo[u := NoneVal]);
      Traverse(d, g, env, u, st) == if e.Ok? then Ok(State(st.memo[u := e.value], st.log + [u])) else Raise(e.error)
  {
    TraverseUnfold(d, g, env, u, st);
    var marked := State(st.memo[u := NoneVal], st.log);
    assert TraverseAll(d, g, env, [], marked) == Ok(marked);
    var e := EvalNode(d, g[u], env, u, st.memo[u := NoneVal]);
    if e.Ok? {
      assert st.memo[u := NoneVal][u := e.value] == st.memo[u := e.value];
    }
  }

  /** Scoring a fresh node whose dependencies traverse to `done`. */
  lemma NodeStep(d: Dialect, g: Graph, env: Env, u: NodeId, st: State, done: State, score: Score)
    requires Closed(g) && u in g && st.memo.Keys <= g.Keys && u !in st.memo && DepsOf(d, g[u]).Ok?
    requires TraverseAll(d, g, env, Children(g[u]), State(st.memo[u := NoneVal], st.log)) == Ok(done)
    requires EvalNode(d, g[u], env, u, done.memo) == Ok(score)
    ensures Traverse(d, g, env, u, st) == Ok(State(done.memo[u := score], done.log + [u]))
  {
    TraverseUnfold(d, g, env, u, st);
  }

  /** A sum over one constant node listed twice. */
  function SharedSum(k: int): Graph
  {
    map[0 := Operator(Sum, [1, 1]), 1 := Constant(Num(k))]
  }

  lemma SharedChildStep(k: int, env: Env)
    ensures Closed(SharedSum(k))
    ensures TraverseAll(Linked, SharedSum(k), env, Children(SharedSum(k)[0]), State(map[][0 := NoneVal], []))
      == Ok(State(map[0 := NoneVal, 1 := Num(k)], [1]))
  {
    var g := SharedSum(k);
    var m0 := map[0 := NoneVal];
    var m1 := map[0 := NoneVal, 1 := Num(k)];
    assert map[][0 := NoneVal] == m0;
    LeafStep(Linked, g, env, 1, State(m0, []));
    assert m0[1 := Num(k)] == m1;
    var nil: seq<NodeId> := [];
    assert nil + [1] == [1];
    assert Traverse(Linked, g, env, 1, State(m0, [])) == Ok(State(m1, [1]));
    assert [1, 1][1..] == [1];
    assert TraverseAll(Linked, g, env, [1], State(m1, [1])) == Ok(State(m1, [1]));
  }

  lemma SharedSumStep(k: int, env: Env)
    ensures EvalNode(Linked, SharedSum(k)[0], env, 0, map[0 := NoneVal, 1 := Num(k)]) == Ok(Num(2 * k))
  {
    var m1 := map[0 := NoneVal, 1 := Num(k)];
    var h := History(m1, [1, 1]);
    assert h.Ok? && |h.value| == 2 && h.value[0] == Num(k) && h.value[1] == Num(k);
    assert h.value == [Num(k), Num(k)];
    PairScores(k);
  }

  lemma PairScores(k: int)
    ensures ApplyScores(Sum, [Num(k), Num(k)]) == Ok(Num(2 * k))
  {
    assert Numbers([Num(k), Num(k)]) == [k, k];
    SumOfPair(k, k);
  }

  lemma SharedTraverse(k: int, env: Env)
    ensures Closed(SharedSum(k))
    ensures Traverse(Linked, SharedSum(k), env, 0, State(map[], [])) == Ok(State(map[0 := Num(2 * k), 1 := Num(k)], [1, 0]))
  {
    var done := State(map[0 := NoneVal, 1 := Num(k)], [1]);
    SharedChildStep(k, env);
    SharedSumStep(k, env);
    NodeStep(Linked, SharedSum(k), env, 0, State(map[], []), done, Num(2 * k));
    SharedRecord(k);
  }

  lemma SharedRecord(k: int)
    ensures map[0 := NoneVal, 1 := Num(k)][0 := Num(2 * k)] == map[0 := Num(2 * k), 1 := Num(k)]
    ensures [1] + [0] == [1, 0]
  {
    assert map[0 := NoneVal, 1 := Num(k)][0 := Num(2 * k)] == map[0 := Num(2 * k), 1 := Num(k)];
  }

  /** Example: `Sum` over a node listed twice: the shared node is scored once, before
      its parent, and its score is counted twice. */
  lemma SharedNodeScoredOnce(k: int, world: World)
    ensures Closed(SharedSum(k))
    ensures GradingResult(SharedSum(k), 0, None, world)
      == Ok(Grading(map[0 := Num(2 * k), 1 := Num(k)], Num(2 * k), [1, 0]))
  {
    SharedTraverse(k, Env(None, world));
  }

  /** A sum over a constant `None` listed twice. */
  const NoneSum: Graph := map[0 := Operator(Sum, [1, 1]), 1 := Constant(NoneVal)]

  lemma NoneChildStep(env: Env)
    ensures Closed(NoneSum)
    ensures TraverseAll(Linked, NoneSum, env, [1, 1], State(map[0 := NoneVal], [])) == Raise(CycleError)
  {
    var g := NoneSum;
    var m0 := map[0 := NoneVal];
    var m1 := map[0 := NoneVal, 1 := NoneVal];
    LeafStep(Linked, g, env, 1, State(m0, []));
    assert m0[1 := NoneVal] == m1;
    var nil: seq<NodeId> := [];
    assert nil + [1] == [1];
    assert Traverse(Linked, g, env, 1, State(m0, [])) == Ok(State(m1, [1]));
    assert [1, 1][1..] == [1];
    assert TraverseAll(Linked, g, env, [1], State(m1, [1])) == Raise(CycleError);
  }

  /** Example: a constant whose value is `None` looks exactly like a node in progress:
      reaching it a second time raises the cycle error although the graph
      has no cycle. */
  lemma NoneScoreLooksLikeCycle(world: World)
    ensures Closed(NoneSum) && !CycleReachable(NoneSum, 0)
    ensures GradingResult(NoneSum, 0, None, world) == Raise(CycleError)
  {
    var env := Env(None, world);
    NoneChildStep(env);
    TraverseUnfold(Linked, NoneSum, env, 0, State(map[], []));
    assert map[][0 := NoneVal] == map[0 := NoneVal];
    RankedAcyclic(NoneSum, 0, v => if v == 0 then 1 else 0);
  }

  /** A single test on key `"q1"`. */
  function KeyTest(accepts: PyValues.Value -> Outcome<bool>): Graph
  {
    map[0 := PredicateTest(5, "q1", accepts)]
  }

  /** Example: a test on the data with no data given: `GradingResult` evaluates
      `key in None` and raises, while `BaseResult` first replaces the
      missing data by `{}` and scores 0. */
  lemma MissingDataExample(world: World, accepts: PyValues.Value -> Outcome<bool>)
    ensures Closed(KeyTest(accepts))
    ensures GradingResult(KeyTest(accepts), 0, None, world) == Throw(TypeError)
    ensures BaseResult(KeyTest(accepts), 0, None, world) == Ok(Grading(map[0 := Num(0)], Num(0), [0]))
  {
    var g := KeyTest(accepts);
    LeafStep(Linked, g, Env(None, world), 0, State(map[], []));
    LeafStep(Linked, g, Env(Some(map[]), world), 0, State(map[], []));
    assert map[][0 := Num(0)] == map[0 := Num(0)];
    var nil: seq<NodeId> := [];
    assert nil + [0] == [0];
  }

  // ---------------------------------------------------------------------
  // Data normalisation, testgraph-only kinds and failing leaves

  /** `BaseResult` is `GradingResult` on normalised data: on missing data it
      grades against `{}`, and on any given dictionary it grades exactly
      like `GradingResult`. */
  lemma BaseResultNormalises(g: Graph, root: NodeId, data: Data, world: World)
    requires Closed(g) && root in g
    ensures data.None? ==> BaseResult(g, root, data, world) == GradingResult(g, root, Some(map[]), world)
    ensures data.Some? ==> BaseResult(g, root, data, world) == GradingResult(g, root, data, world)
  {
  }

  /** Neither evaluator recognises the kinds core/graph.py does not define:
      a run rooted at one raises `ValueError`, and a run that succeeds scored
      none of them. */
  lemma EvaluatorRefusesTestGraphNodes(d: Dialect, g: Graph, root: NodeId, env: Env)
    requires Closed(g) && root in g && d != Linked
    ensures TestGraphOnly(g[root]) ==> Run(d, g, root, env) == Raise(Error(ValueError, InvalidNode))
    ensures Run(d, g, root, env).Ok? ==>
      forall v :: v in Run(d, g, root, env).value.scores ==> !TestGraphOnly(g[v])
  {
    RunSound(d, g, root, env);
    if TestGraphOnly(g[root]) {
      LeafStep(d, g, env, root, State(map[], []));
    }
  }

  /** A file leaf never gets a `dependencies` attribute, so grading a graph
      rooted at one fails while traversing, before anything is scored,
      whatever the data. */
  lemma FileLeafBreaksTraversal(g: Graph, root: NodeId, data: Data, world: World)
    requires Closed(g) && root in g && g[root].FileLeaf?
    ensures GradingResult(g, root, data, world) == Throw(AttributeError)
    ensures BaseResult(g, root, data, world) == Throw(AttributeError)
  {
    TraverseUnfold(Linked, g, Env(data, world), root, State(map[], []));
    TraverseUnfold(Linked, g, Env(NormalizeData(data), world), root, State(map[], []));
  }

  /** An operator over a single leaf. */
  function OverLeaf(op: Op, leaf: Node): Graph
  {
    map[0 := Operator(op, [1]), 1 := leaf]
  }

  /** A leaf that raises inside an operator: the operator is never applied
      and the leaf's error is the result of the whole grading, whatever the
      operator. */
  lemma FailingLeafPropagates(op: Op, leaf: Node, data: Data, world: World)
    requires Children(leaf) == [] && DepsOf(Linked, leaf).Ok? && !leaf.Operator? && !leaf.NotANode?
    requires TestGraph.Score(leaf, Env(data, world), 1).Raise?
    ensures Closed(OverLeaf(op, leaf))
    ensures GradingResult(OverLeaf(op, leaf), 0, data, world) == Raise(TestGraph.Score(leaf, Env(data, world), 1).error)
  {
    var g := OverLeaf(op, leaf);
    var env := Env(data, world);
    var m0 := map[0 := NoneVal];
    assert map[][0 := NoneVal] == m0;
    LeafStep(Linked, g, env, 1, State(m0, []));
    assert TraverseAll(Linked, g, env, [1], State(m0, [])) == Raise(TestGraph.Score(leaf, env, 1).error);
    TraverseUnfold(Linked, g, env, 0, State(map[], []));
  }

  /** An exception of a test's predicate is not caught: it ends the whole
      grading, whatever operator sits above the test. */
  lemma PredicateErrorPropagates(op: Op, score: int, key: string, p: PyValues.Value -> Outcome<bool>,
                                 d: map<string, PyValues.Value>, world: World)
    requires key in d && p(d[key]).Raise?
    ensures Closed(OverLeaf(op, PredicateTest(score, key, p)))
    ensures GradingResult(OverLeaf(op, PredicateTest(score, key, p)), 0, Some(d), world) == Raise(p(d[key]).error)
  {
    FailingLeafPropagates(op, PredicateTest(score, key, p), Some(d), world);
  }

  /** A program leaf inside a sum with no data at all: the leaf's `TypeError`
      is the result, while `BaseResult` grades against `{}` and the leaf's
      missing program id raises `KeyError`. */
  lemma ProgramLeafFailsInSum(p: ProgramNodes.ProgramNode, check: int -> Outcome<int>, world: World)
    ensures Closed(OverLeaf(Sum, ProgramLeaf(p, check)))
    ensures GradingResult(OverLeaf(Sum, ProgramLeaf(p, check)), 0, None, world) == Throw(TypeError)
    ensures BaseResult(OverLeaf(Sum, ProgramLeaf(p, check)), 0, None, world) == Throw(KeyError)
  {
    FailingLeafPropagates(Sum, ProgramLeaf(p, check), None, world);
    FailingLeafPropagates(Sum, ProgramLeaf(p, check), Some(map[]), world);
  }
}

=== FILE: graph_proofs.dfy ===
/** What the memoised traversal guarantees.

A successful run scores every node at most once, scores each node only after
all of its dependencies, records for every node exactly what its `evaluate`
returns on the final memo, and never succeeds when a cycle is reachable from
the root. Conversely, on a graph whose nodes all score without raising, the
run succeeds exactly when no cycle is reachable, and otherwise fails with the
cycle error. */
module TestGraphProofs {
  import opened Outcomes
  import opened Ops
  import opened TestGraph

  predicate NoDup<T(==)>(s: seq<T>)
  {
    forall i, j :: 0 <= i < j < |s| ==> s[i] != s[j]
  }

  /** Every logged node is a node of the graph whose dependencies were all
      logged before it. */
  ghost predicate DepsFirst(g: Graph, log: seq<NodeId>)
  {
    forall i :: 0 <= i < |log| ==>
      log[i] in g && forall w :: w in Children(g[log[i]]) ==> w in log[..i]
  }

  /** The `i`-th logged node was scored after its dependencies, and its
      recorded score is what the dialect computes for it from the memo. */
  ghost predicate Settled(d: Dialect, g: Graph, env: Env, st: State, i: nat)
    requires i < |st.log|
  {
    var v := st.log[i];
    && v in g && v in st.memo
    && DepsOf(d, g[v]).Ok?
    && (forall w :: w in Children(g[v]) ==> w in st.log[..i])
    && EvalNode(d, g[v], env, v, st.memo) == Ok(st.memo[v])
  }

  /** The traversal invariant: the memo holds exactly the nodes on the
      current DFS stack (marked `None`) and the nodes already scored, each
      scored once and settled. */
  ghost predicate Inv(d: Dialect, g: Graph, env: Env, st: State, stack: set<NodeId>)
  {
    && NoDup(st.log)
    && (forall v :: v in st.memo <==> v in stack || v in st.log)
    && (forall v :: v in stack ==> v !in st.log && v in st.memo && st.memo[v] == NoneVal)
    && (forall i :: 0 <= i < |st.log| ==> Settled(d, g, env, st, i))
  }

  /** A node's score depends on the memo only through its dependencies' entries. */
  lemma EvalFrame(d: Dialect, n: Node, env: Env, u: NodeId, m1: map<NodeId, Score>, m2: map<NodeId, Score>)
    requires forall w :: w in Children(n) ==> (w in m1 <==> w in m2) && (w in m1 ==> m1[w] == m2[w])
    ensures EvalNode(d, n, env, u, m1) == EvalNode(d, n, env, u, m2)
  {
    if n.Operator? && d != EvaluatorAsWritten {
      assert forall i :: 0 <= i < |n.deps| ==> n.deps[i] in Children(n);
      var h1 := History(m1, n.deps);
      var h2 := History(m2, n.deps);
      assert h1.Ok? <==> h2.Ok?;
      if h1.Ok? {
        assert h1.value == h2.value;
        assert EvalNode(d, n, env, u, m1) == ApplyScores(n.op, h1.value);
        assert EvalNode(d, n, env, u, m2) == ApplyScores(n.op, h2.value);
      }
    }
  }

  /** Marking a fresh node in progress keeps the invariant, with the node
      pushed on the stack. */
  lemma MarkPreserves(d: Dialect, g: Graph, env: Env, st: State, stack: set<NodeId>, u: NodeId)
    requires Inv(d, g, env, st, stack) && u !in st.memo
    ensures Inv(d, g, env, State(st.memo[u := NoneVal], st.log), stack + {u})
  {
    var marked := State(st.memo[u := NoneVal], st.log);
    forall i | 0 <= i < |st.log| ensures Settled(d, g, env, marked, i) {
      assert Settled(d, g, env, st, i);
      var v := st.log[i];
      forall w | w in Children(g[v]) ensures w != u && w in st.memo {
        assert w in st.log[..i];
      }
      EvalFrame(d, g[v], env, v, st.memo, marked.memo);
    }
  }

  /** Recording the score of the node on top of the stack, after all its
      dependencies were scored, pops it and keeps the invariant. */
  lemma RecordPreserves(d: Dialect, g: Graph, env: Env, done: State, stack: set<NodeId>, u: NodeId, score: Score)
    requires Inv(d, g, env, done, stack + {u}) && u !in stack
    requires u in g && DepsOf(d, g[u]).Ok?
    requires forall w :: w in Children(g[u]) ==> w in done.log
    requires EvalNode(d, g[u], env, u, done.memo) == Ok(score)
    ensures Inv(d, g, env, State(done.memo[u := score], done.log + [u]), stack)
    ensures forall v :: v in done.memo && v != u ==> v in done.memo[u := score] && done.memo[u := score][v] == done.memo[v]
  {
    var fin := State(done.memo[u := score], done.log + [u]);
    RecordShape(done.memo, done.log, stack, u, score);
    forall i | 0 <= i < |fin.log| ensures Settled(d, g, env, fin, i) {
      if i < |done.log| {
        RecordKeepsSettled(d, g, env, done, u, score, i);
      } else {
        RecordSettlesTop(d, g, env, done, u, score);
      }
    }
  }

  /** The bookkeeping part of `RecordPreserves`: the log stays free of
      duplicates and the memo still holds exactly the stack and the log. */
  lemma RecordShape(memo: map<NodeId, Score>, log: seq<NodeId>, stack: set<NodeId>, u: NodeId, score: Score)
    requires NoDup(log) && u !in stack
    requires forall v :: v in memo <==> v in stack + {u} || v in log
    requires forall v :: v in stack + {u} ==> v !in log && v in memo && memo[v] == NoneVal
    ensures u !in log
    ensures NoDup(log + [u])
    ensures forall v :: v in memo[u := score] <==> v in stack || v in log + [u]
    ensures forall v :: v in stack ==> v !in log + [u] && v in memo[u := score] && memo[u := score][v] == NoneVal
  {
  }

  /** A node scored before `u` stays settled once `u`'s score is recorded. */
  lemma RecordKeepsSettled(d: Dialect, g: Graph, env: Env, done: State, u: NodeId, score: Score, i: nat)
    requires i < |done.log| && Settled(d, g, env, done, i) && u !in done.log
    ensures Settled(d, g, env, State(done.memo[u := score], done.log + [u]), i)
  {
    var fin := State(done.memo[u := score], done.log + [u]);
    var v := done.log[i];
    assert fin.log[..i] == done.log[..i];
    forall w | w in Children(g[v]) ensures w != u {
      assert w in done.log[..i];
    }
    EvalFrame(d, g[v], env, v, done.memo, fin.memo);
  }

  /** `u` itself is settled once its score is recorded. */
  lemma RecordSettlesTop(d: Dialect, g: Graph, env: Env, done: State, u: NodeId, score: Score)
    requires u in g && DepsOf(d, g[u]).Ok?
    requires forall w :: w in Children(g[u]) ==> w in done.log && w != u
    requires EvalNode(d, g[u], env, u, done.memo) == Ok(score)
    ensures Settled(d, g, env, State(done.memo[u := score], done.log + [u]), |done.log|)
  {
    var fin := State(done.memo[u := score], done.log + [u]);
    assert fin.log[..|done.log|] == done.log;
    EvalFrame(d, g[u], env, u, done.memo, fin.memo);
  }

  /** Marking a node absent from the memo leaves one node fewer unmarked. */
  lemma MarkShrinks(g: Graph, memo: map<NodeId, Score>, u: NodeId)
    requires u in g && u !in memo
    ensures |g.Keys - memo[u := NoneVal].Keys| < |g.Keys - memo.Keys|
  {
    assert g.Keys - memo[u := NoneVal].Keys == (g.Keys - memo.Keys) - {u};
  }

  /** One step of `traverse` on a node not yet in the memo. */
  lemma TraverseUnfold(d: Dialect, g: Graph, env: Env, u: NodeId, st: State)
    requires Closed(g) && u in g && st.memo.Keys <= g.Keys && u !in st.memo
    ensures
      var marked := State(st.memo[u := NoneVal], st.log);
      var all := TraverseAll(d, g, env, Children(g[u]), marked);
      Traverse(d, g, env, u, st) ==
        if DepsOf(d, g[u]).Raise? then Raise(DepsOf(d, g[u]).error)
        else if all.Raise? then Raise(all.error)
        else if EvalNode(d, g[u], env, u, all.value.memo).Raise? then Raise(EvalNode(d, g[u], env, u, all.value.memo).error)
        else Ok(State(all.value.memo[u := EvalNode(d, g[u], env, u, all.value.memo).value], all.value.log + [u]))
  {
  }

  /** Recording a number for a fresh node keeps every logged score numeric. */
  lemma PopAllNum(done: State, u: NodeId, score: Score)
    requires AllNum(done) && u !in done.log && score.Num?
    ensures AllNum(State(done.memo[u := score], done.log + [u]))
  {
  }

  /** What the invariant says about a node already in the memo. */
  lemma InvMemo(d: Dialect, g: Graph, env: Env, st: State, stack: set<NodeId>, u: NodeId)
    requires Inv(d, g, env, st, stack)
    ensures u in stack ==> u in st.memo && st.memo[u] == NoneVal
    ensures u in st.memo && st.memo[u] != NoneVal ==> u in st.log
  {
  }

  /** A successful `traverse(u)` keeps the invariant and leaves `u` scored. */
  lemma {:induction false} TraverseSound(d: Dialect, g: Graph, env: Env, u: NodeId, st: State, stack: set<NodeId>)
    requires Closed(g) && u in g && st.memo.Keys <= g.Keys
    requires Inv(d, g, env, st, stack)
    ensures Traverse(d, g, env, u, st).Ok? ==>
      var st' := Traverse(d, g, env, u, st).value;
      Inv(d, g, env, st', stack) && u in st'.log
    decreases |g.Keys - st.memo.Keys|, 0
  {
    InvMemo(d, g, env, st, stack, u);
    if u in st.memo || Traverse(d, g, env, u, st).Raise? {
      return;
    }
    var marked := State(st.memo[u := NoneVal], st.log);
    MarkShrinks(g, st.memo, u);
    MarkPreserves(d, g, env, st, stack, u);
    TraverseUnfold(d, g, env, u, st);
    TraverseAllSound(d, g, env, Children(g[u]), marked, stack + {u});
    var done := TraverseAll(d, g, env, Children(g[u]), marked).value;
    RecordPreserves(d, g, env, done, stack, u, EvalNode(d, g[u], env, u, done.memo).value);
  }

  lemma {:induction false} TraverseAllSound(d: Dialect, g: Graph, env: Env, deps: seq<NodeId>, st: State, stack: set<NodeId>)
    requires Closed(g) && st.memo.Keys <= g.Keys
    requires forall w :: w in deps ==> w in g
    requires Inv(d, g, env, st, stack)
    ensures TraverseAll(d, g, env, deps, st).Ok? ==>
      var st' := TraverseAll(d, g, env, deps, st).value;
      Inv(d, g, env, st', stack) && forall w :: w in deps ==> w in st'.log
    decreases |g.Keys - st.memo.Keys|, 1, |deps|
  {
    if deps == [] || TraverseAll(d, g, env, deps, st).Raise? {
      return;
    }
    TraverseSound(d, g, env, deps[0], st, stack);
    var first := Traverse(d, g, env, deps[0], st).value;
    MissingGrowth(g.Keys, first.memo.Keys, st.memo.Keys);
    TraverseAllSound(d, g, env, deps[1..], first, stack);
    var last := TraverseAll(d, g, env, deps[1..], first).value;
    assert deps[0] in last.log;
    assert forall w :: w in deps ==> w == deps[0] || w in deps[1..];
  }

  lemma EmptyInv(d: Dialect, g: Graph, env: Env)
    ensures Inv(d, g, env, State(map[], []), {})
  {
  }

  /** A successful run scores each node at most once and only after its
      dependencies, records for every node what it evaluates to on the final
      scores, holds an entry for exactly the scored nodes, and scores the root
      last. */
  lemma RunSound(d: Dialect, g: Graph, root: NodeId, env: Env)
    requires Closed(g) && root in g
    ensures Run(d, g, root, env).Ok? ==>
      var res := Run(d, g, root, env).value;
      && NoDup(res.evaluated)
      && (forall v :: v in res.scores <==> v in res.evaluated)
      && DepsFirst(g, res.evaluated)
      && (forall v :: v in res.scores ==> v in g && EvalNode(d, g[v], env, v, res.scores) == Ok(res.scores[v]))
      && |res.evaluated| > 0 && res.evaluated[|res.evaluated| - 1] == root
  {
    var st0 := State(map[], []);
    EmptyInv(d, g, env);
    TraverseSound(d, g, env, root, st0, {});
    var r := Traverse(d, g, env, root, st0);
    if r.Ok? {
      InvConsequences(d, g, env, r.value);
    }
  }

  /** The invariant with an empty stack, spelled out. */
  lemma InvConsequences(d: Dialect, g: Graph, env: Env, st: State)
    requires Inv(d, g, env, st, {})
    ensures NoDup(st.log)
    ensures forall v :: v in st.memo <==> v in st.log
    ensures DepsFirst(g, st.log)
    ensures forall v :: v in st.memo ==> v in g && EvalNode(d, g[v], env, v, st.memo) == Ok(st.memo[v])
  {
    forall i | 0 <= i < |st.log| ensures st.log[i] in g && forall w :: w in Children(g[st.log[i]]) ==> w in st.log[..i] {
      assert Settled(d, g, env, st, i);
    }
    forall v | v in st.memo ensures v in g && EvalNode(d, g[v], env, v, st.memo) == Ok(st.memo[v]) {
      var i :| 0 <= i < |st.log| && st.log[i] == v;
      assert Settled(d, g, env, st, i);
    }
  }

  // ---------------------------------------------------------------------
  // Paths and cycles

  ghost predicate IsPath(g: Graph, p: seq<NodeId>)
  {
    && |p| > 0
    && (forall i :: 0 <= i < |p| ==> p[i] in g)
    && (forall i :: 0 <= i < |p| - 1 ==> p[i + 1] in Children(g[p[i]]))
  }

  /** Some path from `root` visits a node twice. */
  ghost predicate CycleReachable(g: Graph, root: NodeId)
  {
    exists p :: IsPath(g, p) && p[0] == root && exists i, j :: 0 <= i < j < |p| && p[i] == p[j]
  }

  function IndexOf(log: seq<NodeId>, v: NodeId): (k: nat)
    requires v in log
    ensures k < |log| && log[k] == v
    ensures forall j :: 0 <= j < k ==> log[j] != v
  {
    if log[0] == v then 0 else 1 + IndexOf(log[1..], v)
  }

  /** Along a path from a logged node, every node is logged, and strictly
      earlier than its predecessor on the path. */
  lemma {:induction false} PathDescends(g: Graph, log: seq<NodeId>, p: seq<NodeId>, k: nat)
    requires NoDup(log) && DepsFirst(g, log)
    requires IsPath(g, p) && p[0] in log && k < |p|
    ensures p[k] in log
    ensures 0 < k ==> p[k - 1] in log && IndexOf(log, p[k]) < IndexOf(log, p[k - 1])
  {
    if 0 < k {
      PathDescends(g, log, p, k - 1);
      var i := IndexOf(log, p[k - 1]);
      assert p[k] in Children(g[log[i]]);
      assert p[k] in log[..i];
      var j :| 0 <= j < i && log[j] == p[k];
    }
  }

  lemma {:induction false} PathStrictlyDescends(g: Graph, log: seq<NodeId>, p: seq<NodeId>, i: nat, j: nat)
    requires NoDup(log) && DepsFirst(g, log)
    requires IsPath(g, p) && p[0] in log && i < j < |p|
    ensures p[i] in log && p[j] in log && IndexOf(log, p[j]) < IndexOf(log, p[i])
    decreases j - i
  {
    PathDescends(g, log, p, j);
    if i + 1 < j {
      PathStrictlyDescends(g, log, p, i, j - 1);
    }
  }

  /** A successful run has scored every node reachable from the root. */
  lemma RunScoresReachable(d: Dialect, g: Graph, root: NodeId, env: Env, p: seq<NodeId>)
    requires Closed(g) && root in g
    requires IsPath(g, p) && p[0] == root
    ensures Run(d, g, root, env).Ok? ==> p[|p| - 1] in Run(d, g, root, env).value.scores
  {
    RunSound(d, g, root, env);
    var r := Run(d, g, root, env);
    if r.Ok? {
      PathDescends(g, r.value.evaluated, p, |p| - 1);
    }
  }

  /** A run never succeeds when a cycle is reachable from the root. */
  lemma RunOkAcyclic(d: Dialect, g: Graph, root: NodeId, env: Env)
    requires Closed(g) && root in g
    ensures Run(d, g, root, env).Ok? ==> !CycleReachable(g, root)
  {
    RunSound(d, g, root, env);
    var r := Run(d, g, root, env);
    if r.Ok? && CycleReachable(g, root) {
      var log := r.value.evaluated;
      var p, i, j :| IsPath(g, p) && p[0] == root && 0 <= i < j < |p| && p[i] == p[j];
      PathStrictlyDescends(g, log, p, i, j);
      assert false;
    }
  }

  /** No cycle is reachable if ranks strictly fall along every dependency edge. */
  lemma RankedAcyclic(g: Graph, root: NodeId, rank: NodeId -> nat)
    requires forall v, w :: v in g && w in Children(g[v]) ==> rank(w) < rank(v)
    ensures !CycleReachable(g, root)
  {
    if CycleReachable(g, root) {
      var p, i, j :| IsPath(g, p) && p[0] == root && 0 <= i < j < |p| && p[i] == p[j];
      RankFalls(g, p, rank, i, j);
      assert false;
    }
  }

  lemma {:induction false} RankFalls(g: Graph, p: seq<NodeId>, rank: NodeId -> nat, i: nat, j: nat)
    requires forall v, w :: v in g && w in Children(g[v]) ==> rank(w) < rank(v)
    requires IsPath(g, p) && i < j < |p|
    ensures rank(p[j]) < rank(p[i])
    decreases j - i
  {
    assert p[j] in Children(g[p[j - 1]]);
    if i + 1 < j {
      RankFalls(g, p, rank, i, j - 1);
    }
  }

  // ---------------------------------------------------------------------
  // Graphs whose nodes never raise

  predicate NumericOn(m: map<NodeId, Score>, ws: seq<NodeId>)
  {
    forall w :: w in ws ==> w in m && m[w].Num?
  }

  /** Every node finds its dependencies and, given numeric scores for them,
      scores a number without raising. (In particular no constant holds `None`.) */
  ghost predicate Total(d: Dialect, g: Graph, env: Env)
  {
    forall v :: v in g ==>
      && DepsOf(d, g[v]).Ok?
      && forall m :: NumericOn(m, Children(g[v])) ==>
           EvalNode(d, g[v], env, v, m).Ok? && EvalNode(d, g[v], env, v, m).value.Num?
  }

  ghost predicate AllNum(st: State)
  {
    forall v :: v in st.log ==> v in st.memo && st.memo[v].Num?
  }

  /** On a total graph the only error a traversal can raise is the cycle
      error, and every node it scores gets a number. */
  lemma {:induction false} TraverseTotal(d: Dialect, g: Graph, env: Env, u: NodeId, st: State, stack: set<NodeId>)
    requires Closed(g) && u in g && st.memo.Keys <= g.Keys
    requires Inv(d, g, env, st, stack) && AllNum(st) && Total(d, g, env)
    ensures Traverse(d, g, env, u, st).Ok? ==> AllNum(Traverse(d, g, env, u, st).value)
    ensures Traverse(d, g, env, u, st).Raise? ==> Traverse(d, g, env, u, st).error == CycleError
    decreases |g.Keys - st.memo.Keys|, 0
  {
    if u in st.memo {
      return;
    }
    var marked := State(st.memo[u := NoneVal], st.log);
    MarkShrinks(g, st.memo, u);
    MarkPreserves(d, g, env, st, stack, u);
    TraverseUnfold(d, g, env, u, st);
    TraverseAllTotal(d, g, env, Children(g[u]), marked, stack + {u});
    TraverseAllSound(d, g, env, Children(g[u]), marked, stack + {u});
    var ra := TraverseAll(d, g, env, Children(g[u]), marked);
    if ra.Ok? {
      var done := ra.value;
      assert NumericOn(done.memo, Children(g[u]));
      var score := EvalNode(d, g[u], env, u, done.memo);
      InvMemo(d, g, env, done, stack + {u}, u);
      PopAllNum(done, u, score.value);
    }
  }

  lemma {:induction false} TraverseAllTotal(d: Dialect, g: Graph, env: Env, deps: seq<NodeId>, st: State, stack: set<NodeId>)
    requires Closed(g) && st.memo.Keys <= g.Keys
    requires forall w :: w in deps ==> w in g
    requires Inv(d, g, env, st, stack) && AllNum(st) && Total(d, g, env)
    ensures TraverseAll(d, g, env, deps, st).Ok? ==> AllNum(TraverseAll(d, g, env, deps, st).value)
    ensures TraverseAll(d, g, env, deps, st).Raise? ==> TraverseAll(d, g, env, deps, st).error == CycleError
    decreases |g.Keys - st.memo.Keys|, 1, |deps|
  {
    if deps == [] {
      return;
    }
    TraverseTotal(d, g, env, deps[0], st, stack);
    TraverseSound(d, g, env, deps[0], st, stack);
    var r1 := Traverse(d, g, env, deps[0], st);
    if r1.Ok? {
      MissingGrowth(g.Keys, r1.value.memo.Keys, st.memo.Keys);
      TraverseAllTotal(d, g, env, deps[1..], r1.value, stack);
    }
  }

  ghost function Elems(p: seq<NodeId>): set<NodeId>
  {
    set v | v in p
  }

  lemma PathExtend(g: Graph, q: seq<NodeId>, w: NodeId)
    requires IsPath(g, q) && w in g && w in Children(g[q[|q| - 1]])
    ensures IsPath(g, q + [w]) && (q + [w])[0] == q[0]
  {
  }

  /** With no cycle reachable from the root, a traversal along a path from
      the root never meets a node in progress, so on a total graph it succeeds. */
  lemma {:induction false} TraverseAcyclic(d: Dialect, g: Graph, env: Env, root: NodeId, path: seq<NodeId>, u: NodeId, st: State)
    requires Closed(g) && u in g && st.memo.Keys <= g.Keys && Total(d, g, env)
    requires IsPath(g, path + [u]) && (path + [u])[0] == root && !CycleReachable(g, root)
    requires Inv(d, g, env, st, Elems(path)) && AllNum(st)
    ensures Traverse(d, g, env, u, st).Ok?
    decreases |g.Keys - st.memo.Keys|, 0
  {
    NotOnPath(g, root, path, u);
    InvMemo(d, g, env, st, Elems(path), u);
    if u in st.memo {
      return;
    }
    MarkShrinks(g, st.memo, u);
    PrepareAcyclic(d, g, env, root, path, u, st);
    TraverseAllAcyclic(d, g, env, root, path + [u], Children(g[u]), State(st.memo[u := NoneVal], st.log));
    FinishTotal(d, g, env, u, st, Elems(path));
  }

  /** Marking `u` sets up the traversal of its dependencies one step down the path. */
  lemma PrepareAcyclic(d: Dialect, g: Graph, env: Env, root: NodeId, path: seq<NodeId>, u: NodeId, st: State)
    requires Closed(g) && u in g && st.memo.Keys <= g.Keys && u !in st.memo
    requires IsPath(g, path + [u]) && (path + [u])[0] == root
    requires Inv(d, g, env, st, Elems(path)) && AllNum(st)
    ensures var marked := State(st.memo[u := NoneVal], st.log);
      && marked.memo.Keys <= g.Keys
      && IsPath(g, path + [u]) && (path + [u])[0] == root
      && (forall w :: w in Children(g[u]) ==> w in Children(g[(path + [u])[|path + [u]| - 1]]))
      && Inv(d, g, env, marked, Elems(path + [u])) && Inv(d, g, env, marked, Elems(path) + {u})
      && AllNum(marked)
  {
    MarkPreserves(d, g, env, st, Elems(path), u);
    assert Elems(path) + {u} == Elems(path + [u]);
  }

  /** On a total graph, once the dependencies of a fresh node are traversed
      successfully, the node itself scores without raising. */
  lemma FinishTotal(d: Dialect, g: Graph, env: Env, u: NodeId, st: State, stack: set<NodeId>)
    requires Closed(g) && u in g && st.memo.Keys <= g.Keys && u !in st.memo && Total(d, g, env)
    requires Inv(d, g, env, State(st.memo[u := NoneVal], st.log), stack + {u}) && AllNum(st)
    requires TraverseAll(d, g, env, Children(g[u]), State(st.memo[u := NoneVal], st.log)).Ok?
    ensures Traverse(d, g, env, u, st).Ok?
  {
    var marked := State(st.memo[u := NoneVal], st.log);
    TraverseAllTotal(d, g, env, Children(g[u]), marked, stack + {u});
    TraverseAllSound(d, g, env, Children(g[u]), marked, stack + {u});
    var done := TraverseAll(d, g, env, Children(g[u]), marked).value;
    assert NumericOn(done.memo, Children(g[u]));
    TraverseUnfold(d, g, env, u, st);
  }

  /** On a path from the root of a graph with no reachable cycle, the last
      node does not occur earlier. */
  lemma NotOnPath(g: Graph, root: NodeId, path: seq<NodeId>, u: NodeId)
    requires IsPath(g, path + [u]) && (path + [u])[0] == root && !CycleReachable(g, root)
    ensures u !in path
  {
    var p := path + [u];
    forall i | 0 <= i < |path| ensures path[i] != u {
      assert p[i] == path[i] && p[|path|] == u;
    }
  }

  lemma {:induction false} TraverseAllAcyclic(d: Dialect, g: Graph, env: Env, root: NodeId, path: seq<NodeId>, deps: seq<NodeId>, st: State)
    requires Closed(g) && st.memo.Keys <= g.Keys && Total(d, g, env)
    requires IsPath(g, path) && path[0] == root && !CycleReachable(g, root)
    requires forall w :: w in deps ==> w in Children(g[path[|path| - 1]])
    requires Inv(d, g, env, st, Elems(path)) && AllNum(st)
    ensures forall w :: w in deps ==> w in g
    ensures TraverseAll(d, g, env, deps, st).Ok?
    decreases |g.Keys - st.memo.Keys|, 1, |deps|
  {
    var last := path[|path| - 1];
    assert last in g;
    assert forall w :: w in deps ==> w in Children(g[last]) && w in g;
    if deps == [] {
      return;
    }
    assert deps[0] in Children(g[last]);
    PathExtend(g, path, deps[0]);
    TraverseAcyclic(d, g, env, root, path, deps[0], st);
    TraverseTotal(d, g, env, deps[0], st, Elems(path));
    TraverseSound(d, g, env, deps[0], st, Elems(path));
    var first := Traverse(d, g, env, deps[0], st).value;
    MissingGrowth(g.Keys, first.memo.Keys, st.memo.Keys);
    TraverseAllAcyclic(d, g, env, root, path, deps[1..], first);
  }

  /** On a graph whose nodes never raise, a run succeeds exactly when no
      cycle is reachable from the root, fails with the cycle error otherwise,
      and a successful run ends with a numeric final score. */
  lemma RunTotal(d: Dialect, g: Graph, root: NodeId, env: Env)
    requires Closed(g) && root in g && Total(d, g, env)
    ensures Run(d, g, root, env).Ok? <==> !CycleReachable(g, root)
    ensures Run(d, g, root, env).Raise? ==> Run(d, g, root, env).error == CycleError
    ensures Run(d, g, root, env).Ok? ==> Run(d, g, root, env).value.finalScore.Num?
  {
    var st0 := State(map[], []);
    EmptyInv(d, g, env);
    TraverseTotal(d, g, env, root, st0, {});
    TraverseSound(d, g, env, root, st0, {});
    RunOkAcyclic(d, g, root, env);
    if !CycleReachable(g, root) {
      assert [] + [root] == [root];
      assert Elems([]) == {};
      TraverseAcyclic(d, g, env, root, [], root, st0);
    }
  }
}

=== FILE: legacy_parameters.dfy ===
/** The older parameter descriptors of `backbone/parameter.py`. They store
    and refuse reassignment like the newer ones, but use `dtype` without
    checking that it is a class, and let a validator's own exception through
    unwrapped. */
module LegacyParameters {
  import opened Outcomes
  import opened PyValues
  import opened Validators
  import Parameters

  /** The `dtype` keyword, `object` by default, used as given. */
  datatype Dtype = IsA(t: PyType) | NotAType

  datatype LegacyParam = LegacyParam(name: string, dtype: Dtype, validators: seq<Validator>,
                                     shape: Parameters.Shape)

  /** `Parameter(dtype=dtype, name=declared)` set as class attribute
      `attribute`. */
  function NewLegacyParameter(declared: Option<string>, attribute: string, dtype: Dtype): (p: LegacyParam)
    ensures p.name == Parameters.ResolvedName(declared, attribute) && p.dtype == dtype
    ensures p.validators == [] && p.shape == Parameters.Single
  {
    LegacyParam(Parameters.ResolvedName(declared, attribute), dtype, [], Parameters.Single)
  }

  /** The older `_resolve_lengths`: the same bounds, except that a `length`
      without `len` re-raises its own `TypeError` rather than a new one. */
  function LegacyResolveLengths(length: Value): (r: Outcome<Parameters.Lengths>)
    ensures !IsInstance(length, IntType) && Elements(length).None? ==> r == Throw(TypeError)
    ensures (IsInstance(length, IntType) || Elements(length).Some?) ==> r == Parameters.ResolveLengths(length)
    ensures r.Ok? <==> Parameters.ResolveLengths(length).Ok?
  {
    if !IsInstance(length, IntType) && Elements(length).None? then Throw(TypeError)
    else Parameters.ResolveLengths(length)
  }

  /** `SequenceParameter(length=length, dtype=dtype, name=declared)`: the
      length is resolved first. */
  function NewLegacySequence(declared: Option<string>, attribute: string, dtype: Dtype,
                             length: Value): (r: Outcome<LegacyParam>)
    ensures r.Ok? <==> LegacyResolveLengths(length).Ok?
    ensures r.Raise? ==> r == LegacyResolveLengths(length).PropagateFailure()
    ensures r.Ok? ==>
      r.value == NewLegacyParameter(declared, attribute, dtype).(shape := Parameters.Sequence(LegacyResolveLengths(length).value))
  {
    var l :- LegacyResolveLengths(length);
    Ok(NewLegacyParameter(declared, attribute, dtype).(shape := Parameters.Sequence(l)))
  }

  /** `add_validators(*given)`: the same attachment loop as the newer
      parameter, over the validator classes of `backbone/validator.py`, taken
      to behave as those of `backbones/validators.py`. */
  function LegacyAddValidators(p: LegacyParam, given: seq<Candidate>): (r: (LegacyParam, Option<Error>))
    ensures r.0 == p.(validators := AddValidators(p.validators, given).validators)
    ensures r.1 == AddValidators(p.validators, given).failure
    ensures r.1.None? ==> |r.0.validators| == |p.validators| + |given|
  {
    var a := AddValidators(p.validators, given);
    (p.(validators := a.validators), a.failure)
  }

  /** `isinstance(value, dtype)`, which raises `TypeError` when `dtype` is
      not a class. */
  function InstanceCheck(dtype: Dtype, value: Value): (r: Outcome<bool>)
    ensures dtype.NotAType? ==> r == Throw(TypeError)
    ensures dtype.IsA? ==> r == Ok(IsInstance(value, dtype.t))
  {
    match dtype
    case NotAType => Throw(TypeError)
    case IsA(t) => Ok(IsInstance(value, t))
  }

  /** One value against the type and then each validator: a wrong type is
      `TypeError`, a falsy validator `ValueError` (both naming `index` when
      given), and a validator's exception passes through. */
  function CheckValue(p: LegacyParam, value: Value, index: Option<nat>): (r: Outcome<bool>)
    ensures r.Ok? ==> r.value
    ensures r.Ok? <==>
      (p.dtype.IsA? && IsInstance(value, p.dtype.t) &&
       forall i :: 0 <= i < |p.validators| ==> Passes(p.validators[i], value, p.name))
    ensures p.dtype.IsA? && !IsInstance(value, p.dtype.t) ==>
      r == Raise(Error(TypeError, if index.Some? then AtIndex(index.value) else Plain))
  {
    var detail := if index.Some? then AtIndex(index.value) else Plain;
    var isInstance :- InstanceCheck(p.dtype, value);
    if !isInstance then Raise(Error(TypeError, detail))
    else
      var passed :- CheckAll(p.validators, value, p.name, false);
      if passed then Ok(true) else Raise(Error(ValueError, detail))
  }

  function CheckItems(p: LegacyParam, items: seq<Value>, from: nat): (r: Outcome<bool>)
    requires from <= |items|
    ensures r.Ok? <==> forall i :: from <= i < |items| ==> CheckValue(p, items[i], Some(i)).Ok?
    ensures r.Raise? ==>
      exists i :: (from <= i < |items| && (forall j :: from <= j < i ==> CheckValue(p, items[j], Some(j)).Ok?) &&
        CheckValue(p, items[i], Some(i)).Raise? &&
        r.error == CheckValue(p, items[i], Some(i)).error)
    decreases |items| - from
  {
    if from == |items| then Ok(true)
    else match CheckValue(p, items[from], Some(from))
      case Raise(e) => Raise(e)
      case Ok(_) => CheckItems(p, items, from + 1)
  }

  /** `parameter_validate(value)`. */
  function LegacyValidate(p: LegacyParam, value: Value): (r: Outcome<Value>)
    ensures p.shape.Single? ==> (r.Ok? <==> CheckValue(p, value, None).Ok?) && (r.Ok? ==> r.value == value)
    ensures p.shape.Sequence? && Elements(value).None? ==> r == Throw(TypeError)
    ensures (p.shape.Sequence? && Elements(value).Some? &&
             !Parameters.Within(p.shape.lengths, |Elements(value).value|)) ==> r == Throw(ValueError)
    ensures p.shape.Sequence? && r.Ok? ==> r.value == VTuple(Elements(value).value)
  {
    match p.shape
    case Single =>
      var _ :- CheckValue(p, value, None);
      Ok(value)
    case Sequence(l) =>
      match Elements(value)
      case None => Throw(TypeError)
      case Some(items) =>
        if !Parameters.Within(l, |items|) then Throw(ValueError)
        else
          var _ :- CheckItems(p, items, 0);
          Ok(VTuple(items))
  }

  /** `instance.<attr> = value`, as in the newer descriptor. */
  function LegacyAssign(p: LegacyParam, store: Parameters.Store, value: Value): (r: Outcome<Parameters.Store>)
    ensures p.name in store ==> r == Throw(AttributeError)
    ensures p.name !in store ==> (r.Ok? <==> LegacyValidate(p, value).Ok?)
    ensures r.Ok? ==> r.value == store[p.name := LegacyValidate(p, value).value]
  {
    if p.name in store then Throw(AttributeError)
    else
      var v :- LegacyValidate(p, value);
      Ok(store[p.name := v])
  }

  // ---------------------------------------------------------------------
  // The two generations side by side

  /** A newer descriptor configured like `lp`: `object` is no type
      restriction. */
  ghost predicate SameConfiguration(lp: LegacyParam, p: Parameters.Param)
  {
    lp.dtype.IsA? && lp.name == p.name && lp.validators == p.validators && lp.shape == p.shape &&
    (p.dtype == Some(lp.dtype.t) || (lp.dtype.t == ObjectType && p.dtype.None?))
  }

  lemma SameItemChecks(lp: LegacyParam, p: Parameters.Param, value: Value, index: Option<nat>)
    requires SameConfiguration(lp, p)
    ensures CheckValue(lp, value, index).Ok? <==> Parameters.ItemOk(p, value)
  {
  }

  /** Both generations accept exactly the same values and store the same
      thing; they differ only in which error they raise. */
  lemma SameAcceptance(lp: LegacyParam, p: Parameters.Param, value: Value)
    requires SameConfiguration(lp, p)
    ensures LegacyValidate(lp, value).Ok? <==> Parameters.Validate(p, value).Ok?
    ensures LegacyValidate(lp, value).Ok? ==> LegacyValidate(lp, value) == Parameters.Validate(p, value)
  {
    if p.shape.Sequence? && Elements(value).Some? {
      var items := Elements(value).value;
      forall i | 0 <= i < |items|
        ensures CheckValue(lp, items[i], Some(i)).Ok? <==> Parameters.ItemOk(p, items[i])
      {
        SameItemChecks(lp, p, items[i], Some(i));
      }
    } else if p.shape.Single? {
      SameItemChecks(lp, p, value, None);
    }
  }

  /** A `dtype` that is not a class makes every assignment of a single
      parameter raise `TypeError`, where the newer descriptor refuses it at
      construction. */
  lemma NotATypeRejectsAll(name: string, value: Value)
    ensures LegacyValidate(NewLegacyParameter(Some(name), name, NotAType), value) == Throw(TypeError)
    ensures Parameters.NewParameter(Some(name), name, Parameters.NotAType, None) == Throw(TypeError)
  {
  }
}

=== FILE: ops.dfy ===
/** The score-combining functions an operator node or a test-case operation
    may hold: the `operator` module's arithmetic, the builtins `max` and `min`,
    and the variadic `sum`, all over integer scores. */
module Ops {
  import opened Outcomes

  /** `Max` and `Min` are the builtins `max`/`min` called as `op(*scores)`;
      `MaxAll` and `MinAll` reduce over the whole argument tuple
      (`lambda *args: max(args)`), the way `sum` is wrapped. */
  datatype Op = Add | Sub | Mul | FloorDiv | Mod | Neg | Pos | Abs | Max | Min | MaxAll | MinAll | Sum

  /** A recorded score: a number, or Python's `None`. */
  datatype Score = NoneVal | Num(n: int)

  /** `op.__name__`, the name a test operation reports by default. */
  function OpName(op: Op): string
  {
    match op
    case Add => "add"
    case Sub => "sub"
    case Mul => "mul"
    case FloorDiv => "floordiv"
    case Mod => "mod"
    case Neg => "neg"
    case Pos => "pos"
    case Abs => "abs"
    case Max => "max"
    case Min => "min"
    case MaxAll => "<lambda>"
    case MinAll => "<lambda>"
    case Sum => "<lambda>"
  }

  predicate IsBinary(op: Op)
  {
    op == Add || op == Sub || op == Mul || op == FloorDiv || op == Mod
  }

  predicate IsUnary(op: Op)
  {
    op == Neg || op == Pos || op == Abs
  }

  function MaxOf(xs: seq<int>): (m: int)
    requires |xs| > 0
    ensures m in xs
    ensures forall i :: 0 <= i < |xs| ==> xs[i] <= m
  {
    if |xs| == 1 then xs[0]
    else
      var rest := MaxOf(xs[1..]);
      if xs[0] >= rest then xs[0] else rest
  }

  function MinOf(xs: seq<int>): (m: int)
    requires |xs| > 0
    ensures m in xs
    ensures forall i :: 0 <= i < |xs| ==> m <= xs[i]
  {
    if |xs| == 1 then xs[0]
    else
      var rest := MinOf(xs[1..]);
      if xs[0] <= rest then xs[0] else rest
  }

  function SumOf(xs: seq<int>): int
  {
    if xs == [] then 0 else xs[0] + SumOf(xs[1..])
  }

  lemma {:induction false} SumOfAppend(xs: seq<int>, ys: seq<int>)
    ensures SumOf(xs + ys) == SumOf(xs) + SumOf(ys)
  {
    if xs == [] {
      assert xs + ys == ys;
    } else {
      assert (xs + ys)[1..] == xs[1..] + ys;
      SumOfAppend(xs[1..], ys);
    }
  }

  /** Python's `a // b`: the quotient rounded towards negative infinity
      (Dafny's own `/` is Euclidean, which differs for a negative divisor). */
  function FloorQuotient(a: int, b: int): int
    requires b != 0
  {
    if b > 0 then a / b else (-a) / (-b)
  }

  /** Python's `a % b`: the remainder takes the sign of the divisor. */
  function FloorRemainder(a: int, b: int): int
    requires b != 0
  {
    a - b * FloorQuotient(a, b)
  }

  lemma FloorDivision(a: int, b: int)
    requires b != 0
    ensures a == b * FloorQuotient(a, b) + FloorRemainder(a, b)
    ensures b > 0 ==> 0 <= FloorRemainder(a, b) < b
    ensures b < 0 ==> b < FloorRemainder(a, b) <= 0
  {
    if b < 0 {
      var q := (-a) / (-b);
      assert -a == (-b) * q + (-a) % (-b);
      assert FloorRemainder(a, b) == -((-a) % (-b));
    }
  }

  /** `op(*args)` on integer arguments. Arithmetic operators take exactly
      two (or one) arguments; the builtin `max`/`min` called on a single
      integer try to iterate over it; division by zero raises. */
  function Apply(op: Op, args: seq<int>): (r: Outcome<int>)
    ensures IsBinary(op) && |args| != 2 ==> r == Throw(TypeError)
    ensures IsUnary(op) && |args| != 1 ==> r == Throw(TypeError)
    ensures (op == FloorDiv || op == Mod) && |args| == 2 ==> (r.Ok? <==> args[1] != 0)
    ensures (op == Max || op == Min) ==> (r.Ok? <==> |args| >= 2)
    ensures (op == MaxAll || op == MinAll) ==> (r.Ok? <==> |args| >= 1)
    ensures (op == MaxAll || op == MinAll) && args == [] ==> r == Throw(ValueError)
    ensures r.Ok? && (op == Max || op == MaxAll) ==>
      r.value in args && forall i :: 0 <= i < |args| ==> args[i] <= r.value
    ensures r.Ok? && (op == Min || op == MinAll) ==>
      r.value in args && forall i :: 0 <= i < |args| ==> r.value <= args[i]
    ensures op == Sum ==> r.Ok?
  {
    match op
    case Add => if |args| == 2 then Ok(args[0] + args[1]) else Throw(TypeError)
    case Sub => if |args| == 2 then Ok(args[0] - args[1]) else Throw(TypeError)
    case Mul => if |args| == 2 then Ok(args[0] * args[1]) else Throw(TypeError)
    case FloorDiv =>
      if |args| != 2 then Throw(TypeError)
      else if args[1] == 0 then Throw(ZeroDivisionError)
      else Ok(FloorQuotient(args[0], args[1]))
    case Mod =>
      if |args| != 2 then Throw(TypeError)
      else if args[1] == 0 then Throw(ZeroDivisionError)
      else Ok(FloorRemainder(args[0], args[1]))
    case Neg => if |args| == 1 then Ok(-args[0]) else Throw(TypeError)
    case Pos => if |args| == 1 then Ok(args[0]) else Throw(TypeError)
    case Abs => if |args| == 1 then Ok(if args[0] < 0 then -args[0] else args[0]) else Throw(TypeError)
    case Max => if |args| >= 2 then Ok(MaxOf(args)) else Throw(TypeError)
    case Min => if |args| >= 2 then Ok(MinOf(args)) else Throw(TypeError)
    case MaxAll => if |args| >= 1 then Ok(MaxOf(args)) else Throw(ValueError)
    case MinAll => if |args| >= 1 then Ok(MinOf(args)) else Throw(ValueError)
    case Sum => Ok(SumOf(args))
  }

  predicate AllNumbers(scores: seq<Score>)
  {
    forall i :: 0 <= i < |scores| ==> scores[i].Num?
  }

  function Numbers(scores: seq<Score>): (ns: seq<int>)
    requires AllNumbers(scores)
    ensures |ns| == |scores| && forall i :: 0 <= i < |ns| ==> Num(ns[i]) == scores[i]
  {
    if scores == [] then [] else [scores[0].n] + Numbers(scores[1..])
  }

  /** `op(*scores)` on recorded scores: any `None` among them makes the
      arithmetic or the comparison raise `TypeError`. */
  function ApplyScores(op: Op, scores: seq<Score>): (r: Outcome<Score>)
    ensures !AllNumbers(scores) ==> r == Throw(TypeError)
    ensures AllNumbers(scores) ==>
      (r.Ok? <==> Apply(op, Numbers(scores)).Ok?) &&
      (r.Ok? ==> r.value == Num(Apply(op, Numbers(scores)).value))
  {
    if !AllNumbers(scores) then Throw(TypeError)
    else
      match Apply(op, Numbers(scores))
      case Ok(n) => Ok(Num(n))
      case Raise(e) => Raise(e)
  }

  lemma SumOfPair(a: int, b: int)
    ensures Apply(Sum, [a, b]) == Ok(a + b)
  {
    assert [a, b][1..] == [b];
    assert [b][1..] == [];
    assert SumOf([b]) == b + SumOf([]);
    assert SumOf([a, b]) == a + SumOf([b]);
  }

  /** Example: each operator on a small operand list, and `Sum` on none. */
  lemma SumOfTwelve()
    ensures Apply(Sum, [5, 7]) == Ok(12)
    ensures Apply(MaxAll, [3, 9, 1]) == Ok(9)
    ensures Apply(MinAll, [3, 9, 1]) == Ok(1)
    ensures Apply(Sum, []) == Ok(0)
  {
    assert [5, 7][1..] == [7];
    assert [3, 9, 1][1..] == [9, 1];
    assert [9, 1][1..] == [1];
  }
}

=== FILE: outcomes.dfy ===
/** Python's exceptions as values.

An operation of the system either returns a value or raises; `Outcome` is the
sum of the two, so every error path of the source is an ordinary result here. */
module Outcomes {

  /** The exception classes the modelled code raises. `ProgramError` stands for
      whatever exception a candidate program raises (it is not one class). */
  datatype Kind =
    | TypeError
    | ValueError
    | KeyError
    | AttributeError
    | NameError
    | IndexError
    | AssertionError
    | NotImplementedError
    | ZeroDivisionError
    | StopIteration
    | ProgramError

  /** What the message of an exception singles out, where the source's
      callers can tell raised errors apart by it. */
  datatype Detail =
    | Plain
    | CycleFound                // "Test graph should not contain cycles."
    | InvalidNode               // "Test graph should not contain invalid nodes."
    | AtIndex(index: nat)       // the element of a sequence parameter that failed
    | ChainedAt(index: nat, cause: Kind)  // both of the above at once
    | Missing(name: string)     // a required parameter that was not given
    | Chained(cause: Kind)      // `raise ... from e` with `e` of this kind

  datatype Error = Error(kind: Kind, detail: Detail)

  datatype Option<+T> = None | Some(value: T)

  datatype Outcome<+T> = Ok(value: T) | Raise(error: Error) {
    predicate IsFailure() { Raise? }

    function PropagateFailure<U>(): Outcome<U>
      requires Raise?
    {
      Raise(error)
    }

    function Extract(): T
      requires Ok?
    {
      value
    }
  }

  function Throw<T>(kind: Kind): Outcome<T>
  {
    Raise(Error(kind, Plain))
  }
}

=== FILE: parameters.dfy ===
/** The parameter descriptors of exercise frameworks
    (`backbones/parameters.py`): a parameter validates a value once, stores
    it in the host's attribute dictionary, and refuses reassignment and
    deletion. A sequence parameter also bounds the number of items and
    validates each item. */
module Parameters {
  import opened Outcomes
  import opened PyValues
  import opened Validators

  /** An upper length bound; `Infinite` is `math.inf`. */
  datatype Bound = Finite(n: nat) | Infinite

  datatype Lengths = Lengths(lb: nat, ub: Bound)

  /** `lb_length <= n <= ub_length`. */
  predicate Within(l: Lengths, n: nat)
  {
    l.lb <= n && (l.ub.Finite? ==> n <= l.ub.n)
  }

  /** The bounds make sense: the lower one is at most the upper one. */
  predicate Ordered(l: Lengths)
  {
    l.ub.Finite? ==> l.lb <= l.ub.n
  }

  /** `length` is one or two integers, the first non-negative and the
      second no smaller. */
  predicate WellFormedBounds(items: seq<Value>)
  {
    1 <= |items| <= 2 && (forall i :: 0 <= i < |items| ==> IsInstance(items[i], IntType)) &&
    IntOf(items[0]) >= 0 && (|items| == 2 ==> IntOf(items[0]) <= IntOf(items[1]))
  }

  /** `SequenceParameter._resolve_lengths(length)`: an integer fixes the
      length; an iterable gives a lower and an optional upper bound. Failing
      to take `len` or `tuple` of `length` raises `TypeError` from the
      original error. */
  function ResolveLengths(length: Value): (r: Outcome<Lengths>)
    ensures r.Ok? ==> Ordered(r.value)
    ensures IsInstance(length, IntType) ==>
      (r.Ok? <==> IntOf(length) >= 0) &&
      (r.Ok? ==> r.value == Lengths(IntOf(length), Finite(IntOf(length)))) &&
      (r.Raise? ==> r == Throw(ValueError))
    ensures !IsInstance(length, IntType) && Elements(length).None? ==>
      r == Raise(Error(TypeError, Chained(TypeError)))
    ensures !IsInstance(length, IntType) && Elements(length).Some? ==>
      (r.Ok? <==> WellFormedBounds(Elements(length).value))
    ensures !IsInstance(length, IntType) && r.Ok? ==>
      var items := Elements(length).value;
      r.value.lb == IntOf(items[0]) &&
      (|items| == 1 ==> r.value.ub == Infinite) &&
      (|items| == 2 ==> r.value.ub == Finite(IntOf(items[1])))
  {
    if IsInstance(length, IntType) then
      var n := IntOf(length);
      if n < 0 then Throw(ValueError) else Ok(Lengths(n, Finite(n)))
    else match Elements(length)
      case None => Raise(Error(TypeError, Chained(TypeError)))
      case Some(items) =>
        if !(1 <= |items| <= 2) then Throw(ValueError)
        else if !(forall i :: 0 <= i < |items| ==> IsInstance(items[i], IntType)) then Throw(TypeError)
        else if IntOf(items[0]) < 0 then Throw(ValueError)
        else if |items| == 1 then Ok(Lengths(IntOf(items[0]), Infinite))
        else if IntOf(items[0]) > IntOf(items[1]) then Throw(ValueError)
        else Ok(Lengths(IntOf(items[0]), Finite(IntOf(items[1]))))
  }

  /** The default `length=(0,)`: any number of items. */
  lemma DefaultLengths()
    ensures ResolveLengths(VTuple([VInt(0)])) == Ok(Lengths(0, Infinite))
    ensures forall n: nat :: Within(Lengths(0, Infinite), n)
  {
  }

  /** Some lengths `_resolve_lengths` refuses, and with what. */
  lemma LengthErrors()
    ensures ResolveLengths(VInt(-1)) == Throw(ValueError)
    ensures ResolveLengths(VTuple([])) == Throw(ValueError)
    ensures ResolveLengths(VTuple([VInt(3), VInt(2)])) == Throw(ValueError)
    ensures ResolveLengths(VTuple([VStr("a")])) == Throw(TypeError)
    ensures ResolveLengths(VNone) == Raise(Error(TypeError, Chained(TypeError)))
    ensures ResolveLengths(VBool(true)) == Ok(Lengths(1, Finite(1)))
  {
    assert !IsInstance(VTuple([VStr("a")]), IntType);
    assert !IsInstance(VTuple([VStr("a")]).items[0], IntType);
  }

  /** The `dtype` keyword: left out, a class, or something that is not a
      class. */
  datatype DtypeArg = Omitted | GivenType(t: PyType) | NotAType

  datatype Shape = Single | Sequence(lengths: Lengths)

  /** A parameter descriptor after `__set_name__`. */
  datatype Param = Param(name: string, dtype: Option<PyType>, default: Option<Value>,
                         validators: seq<Validator>, shape: Shape)

  /** The name a descriptor ends up with: its own, unless that is missing
      or empty (both falsy), and otherwise the attribute's. */
  function ResolvedName(declared: Option<string>, attribute: string): (n: string)
    ensures declared.Some? && declared.value != "" ==> n == declared.value
    ensures (declared.None? || declared.value == "") ==> n == attribute
  {
    if declared.Some? && declared.value != "" then declared.value else attribute
  }

  /** `Parameter(name=..., dtype=..., default=...)` set as class attribute
      `attribute`. */
  function NewParameter(declared: Option<string>, attribute: string, dtype: DtypeArg,
                        default: Option<Value>): (r: Outcome<Param>)
    ensures r.Raise? <==> dtype.NotAType?
    ensures r.Raise? ==> r == Throw(TypeError)
    ensures r.Ok? ==>
      (r.value.name == ResolvedName(declared, attribute) && r.value.default == default &&
       r.value.validators == [] && r.value.shape == Single &&
       r.value.dtype == (if dtype.GivenType? then Some(dtype.t) else None))
  {
    match dtype
    case NotAType => Throw(TypeError)
    case Omitted => Ok(Param(ResolvedName(declared, attribute), None, default, [], Single))
    case GivenType(t) => Ok(Param(ResolvedName(declared, attribute), Some(t), default, [], Single))
  }

  /** `SequenceParameter(..., length=length)`: the `dtype` is checked before
      the length. */
  function NewSequenceParameter(declared: Option<string>, attribute: string, dtype: DtypeArg,
                                default: Option<Value>, length: Value): (r: Outcome<Param>)
    ensures dtype.NotAType? ==> r == Throw(TypeError)
    ensures !dtype.NotAType? ==> (r.Ok? <==> ResolveLengths(length).Ok?)
    ensures r.Ok? ==>
      (r.value.shape == Sequence(ResolveLengths(length).value) &&
       r.value == NewParameter(declared, attribute, dtype, default).value.(shape := r.value.shape))
  {
    var p :- NewParameter(declared, attribute, dtype, default);
    var l :- ResolveLengths(length);
    Ok(p.(shape := Sequence(l)))
  }

  /** `add_validators(*given)` on a parameter. */
  function AddParamValidators(p: Param, given: seq<Candidate>): (r: (Param, Option<Error>))
    ensures r.0 == p.(validators := AddValidators(p.validators, given).validators)
    ensures r.1 == AddValidators(p.validators, given).failure
  {
    var a := AddValidators(p.validators, given);
    (p.(validators := a.validators), a.failure)
  }

  // ---------------------------------------------------------------------
  // Validation

  predicate DtypeOk(p: Param, value: Value)
  {
    p.dtype.None? || IsInstance(value, p.dtype.value)
  }

  /** The item passes `p`'s type and validators. */
  predicate ItemOk(p: Param, value: Value)
  {
    DtypeOk(p, value) && forall i :: 0 <= i < |p.validators| ==> Passes(p.validators[i], value, p.name)
  }

  /** `check_dtype` then `check_with_validators`, both raising. */
  function CheckOne(p: Param, value: Value): (r: Outcome<bool>)
    ensures r.Ok? ==> r.value
    ensures r.Ok? <==> ItemOk(p, value)
    ensures !DtypeOk(p, value) ==> r == Throw(TypeError)
  {
    if !DtypeOk(p, value) then Throw(TypeError)
    else CheckAll(p.validators, value, p.name, true)
  }

  /** The items from index `from` on, each checked as by `CheckOne`; the
      first failure is raised again as `ValueError` naming its index. */
  function CheckItems(p: Param, items: seq<Value>, from: nat): (r: Outcome<bool>)
    requires from <= |items|
    ensures r.Ok? <==> forall i :: from <= i < |items| ==> ItemOk(p, items[i])
    ensures r.Raise? ==>
      exists i :: (from <= i < |items| && !ItemOk(p, items[i]) &&
        (forall j :: from <= j < i ==> ItemOk(p, items[j])) &&
        r.error == Error(ValueError, ChainedAt(i, CheckOne(p, items[i]).error.kind)))
    decreases |items| - from
  {
    if from == |items| then Ok(true)
    else match CheckOne(p, items[from])
      case Raise(e) => Raise(Error(ValueError, ChainedAt(from, e.kind)))
      case Ok(_) => CheckItems(p, items, from + 1)
  }

  /** `p.parameter_validate(value)`: the value to store, or the error. */
  function Validate(p: Param, value: Value): (r: Outcome<Value>)
    ensures p.shape.Single? ==> (r.Ok? <==> ItemOk(p, value)) && (r.Ok? ==> r.value == value)
    ensures p.shape.Single? && r.Raise? ==> r == CheckOne(p, value).PropagateFailure()
    ensures p.shape.Sequence? && Elements(value).None? ==> r == Raise(Error(TypeError, Chained(TypeError)))
    ensures p.shape.Sequence? && Elements(value).Some? && !Within(p.shape.lengths, |Elements(value).value|) ==>
      r == Throw(ValueError)
    ensures p.shape.Sequence? ==> (r.Ok? <==> SequenceOk(p, value))
    ensures p.shape.Sequence? && r.Ok? ==> r.value == VTuple(Elements(value).value)
  {
    match p.shape
    case Single =>
      var _ :- CheckOne(p, value);
      Ok(value)
    case Sequence(l) =>
      match Elements(value)
      case None => Raise(Error(TypeError, Chained(TypeError)))
      case Some(items) =>
        if !Within(l, |items|) then Throw(ValueError)
        else
          var _ :- CheckItems(p, items, 0);
          Ok(VTuple(items))
  }

  /** What a sequence parameter accepts, stated independently: a finite
      iterable of an allowed length whose every item passes. */
  predicate SequenceOk(p: Param, value: Value)
    requires p.shape.Sequence?
  {
    Elements(value).Some? && Within(p.shape.lengths, |Elements(value).value|) &&
    forall i :: 0 <= i < |Elements(value).value| ==> ItemOk(p, Elements(value).value[i])
  }

  /** A rejected sequence names the first item that failed. */
  lemma SequenceNamesFirstFailure(p: Param, value: Value)
    requires p.shape.Sequence? && Elements(value).Some? && Within(p.shape.lengths, |Elements(value).value|)
    requires Validate(p, value).Raise?
    ensures var items := Elements(value).value;
      exists i :: 0 <= i < |items| && !ItemOk(p, items[i]) && (forall j :: 0 <= j < i ==> ItemOk(p, items[j])) &&
        Validate(p, value).error == Error(ValueError, ChainedAt(i, CheckOne(p, items[i]).error.kind))
  {
  }

  // ---------------------------------------------------------------------
  // Storage in the host instance

  /** The host instance's `__dict__`. */
  type Store = map<string, Value>

  /** `instance.<attr> = value`. */
  function Assign(p: Param, store: Store, value: Value): (r: Outcome<Store>)
    ensures p.name in store ==> r == Throw(AttributeError)
    ensures p.name !in store ==> (r.Ok? <==> Validate(p, value).Ok?)
    ensures r.Ok? ==> r.value == store[p.name := Validate(p, value).value]
    ensures r.Raise? && p.name !in store ==> r == Validate(p, value).PropagateFailure()
  {
    if p.name in store then Throw(AttributeError)
    else
      var v :- Validate(p, value);
      Ok(store[p.name := v])
  }

  /** `del instance.<attr>` is never allowed. */
  function Delete(p: Param, store: Store): (r: Outcome<Store>)
    ensures r == Throw(AttributeError)
  {
    Throw(AttributeError)
  }

  /** A parameter is written once: after a successful assignment, reading
      gives the validated value, a second assignment raises
      `AttributeError` whatever its value, and no other entry changed. */
  lemma WriteOnce(p: Param, store: Store, value: Value, again: Value)
    requires Assign(p, store, value).Ok?
    ensures var s := Assign(p, store, value).value;
      Lookup(s, p.name) == Validate(p, value) &&
      Assign(p, s, again) == Throw(AttributeError) &&
      Lookup(store, p.name) == Throw(KeyError) &&
      forall k :: k in store ==> k in s && s[k] == store[k]
  {
  }

  /** A sequence parameter stores a tuple, whatever iterable it was given;
      a string becomes the tuple of its characters. */
  lemma StringBecomesTuple(p: Param)
    requires p.shape == Sequence(Lengths(0, Infinite)) && p.dtype == Some(StrType) && p.validators == []
    ensures Validate(p, VStr("ab")) == Ok(VTuple([VStr("a"), VStr("b")]))
  {
    var items := Elements(VStr("ab")).value;
    assert items == [VStr("a"), VStr("b")];
    assert ItemOk(p, items[0]) && ItemOk(p, items[1]);
  }
}

=== FILE: phases.dfy ===
/** The decorators that split a framework's `resume_session` into phases:
    the stage sequences of `backbones/phases.py` (copied verbatim as
    `utils/dispatches.py`) and `backbones/stages.py`, the state machine of
    `backbones/phases.py`, and the older `linear_stages` of
    `backbone/stages.py`. A phase method receives the session and the
    player's response; it may change the session, and it answers with a
    tag (the stage flag or the next state's label) and a result, raises
    `StopIteration(summary)`, or raises some other exception. */
module Phases {
  import opened Outcomes
  import opened PyValues
  import PyText

  /** What a phase method does when called. */
  datatype Returned<T, O> = Returned(tag: T, result: O) | Stopped(summary: O) | Threw(error: Error)

  /** A phase method: the session it sees and the response, to the session it
      leaves and what it returned. */
  type Method<!U, -I, T, O> = (U, I) -> (U, Returned<T, O>)

  /** What a call of the decorated `resume_session` hands back: a result to
      the player, the end of the session (`StopIteration(summary)`), or an
      exception. */
  datatype Step<O> = Yield(result: O) | Done(summary: O) | Failed(error: Error)

  /** After a call: the decorator's attribute on the session (`S`), the
      session as the phase method left it, and the step. */
  datatype Call<S, U, O> = Call(stored: S, session: U, step: Step<O>)

  /** `xs[i]` on a Python list of length `n`: negative indices count from the
      end; anything else out of range is `IndexError`. */
  function PyIndex(n: nat, i: int): (r: Option<nat>)
    ensures r.Some? <==> -(n as int) <= i < n
    ensures r.Some? ==> r.value < n && (if i >= 0 then r.value == i else r.value == n + i)
  {
    if 0 <= i < n then Some(i) else if -(n as int) <= i < 0 then Some((n + i) as nat) else None
  }

  // ---------------------------------------------------------------------
  // int()

  function DigitValue(c: char): (d: nat)
    requires '0' <= c <= '9'
    ensures d < 10
  {
    (c as int - '0' as int) as nat
  }

  predicate AllDigits(s: string)
  {
    forall i :: 0 <= i < |s| ==> '0' <= s[i] <= '9'
  }

  /** The number a run of decimal digits spells. */
  function DigitsValue(s: string): nat
    requires AllDigits(s)
  {
    if s == [] then 0 else DigitsValue(s[..|s| - 1]) * 10 + DigitValue(s[|s| - 1])
  }

  /** `int(text)` for ASCII decimal text: surrounding whitespace is ignored
      and an optional sign leads the digits. */
  function ParseInt(text: string): (r: Outcome<int>)
    ensures r.Raise? ==> r == Throw(ValueError)
  {
    var t := PyText.Strip(text);
    var negative := |t| > 0 && t[0] == '-';
    var digits := if |t| > 0 && (t[0] == '-' || t[0] == '+') then t[1..] else t;
    if digits == [] || !AllDigits(digits) then Throw(ValueError)
    else if negative then Ok(-(DigitsValue(digits) as int))
    else Ok(DigitsValue(digits))
  }

  /** `int(v)`: a `bool` is 0 or 1, a float is truncated toward zero, text
      is parsed, and anything else is `TypeError`. */
  function IntCast(v: Value): (r: Outcome<int>)
    ensures IsInstance(v, IntType) ==> r == Ok(IntOf(v))
    ensures v.VFloat? ==> r.Ok? && (if v.r >= 0.0 then r.value as real <= v.r < r.value as real + 1.0
                                    else r.value as real - 1.0 < v.r <= r.value as real)
    ensures v.VStr? ==> r == ParseInt(v.s)
    ensures v.VNone? || v.VTuple? || v.VFunc? ==> r == Throw(TypeError)
  {
    match v
    case VBool(b) => Ok(if b then 1 else 0)
    case VInt(i) => Ok(i)
    case VFloat(x) => Ok(if x >= 0.0 then x.Floor else -((-x).Floor))
    case VStr(s) => ParseInt(s)
    case _ => Throw(TypeError)
  }

  lemma {:induction false} DigitsOfNat(n: nat)
    ensures AllDigits(PyText.NatToString(n)) && DigitsValue(PyText.NatToString(n)) == n
  {
    var s := PyText.NatToString(n);
    if n >= 10 {
      DigitsOfNat(n / 10);
      var front := PyText.NatToString(n / 10);
      assert s == front + [PyText.DigitChar(n % 10)];
      assert s[..|s| - 1] == front;
    }
  }

  lemma NatTextHasNoSpace(n: nat)
    ensures forall i :: 0 <= i < |PyText.NatToString(n)| ==> !PyText.IsSpace(PyText.NatToString(n)[i])
  {
    DigitsOfNat(n);
  }

  /** `int(str(n)) == n`. */
  lemma ParseIntOfText(n: int)
    ensures IntCast(VStr(PyText.IntToString(n))) == Ok(n)
  {
    var t := PyText.IntToString(n);
    var m: nat := if n < 0 then -n else n;
    var digits := PyText.NatToString(m);
    DigitsOfNat(m);
    NatTextHasNoSpace(m);
    assert t == (if n < 0 then "-" else "") + digits;
    assert !PyText.IsSpace(t[0]) && !PyText.IsSpace(t[|t| - 1]);
    assert PyText.LStrip(t) == t;
    assert PyText.Strip(t) == t;
    if n >= 0 {
      PyText.NatToStringStartsWithDigit(m);
    } else {
      assert t[1..] == digits;
    }
  }

  // ---------------------------------------------------------------------
  // Stage sequences

  /** `backbones/phases.py` adds `int(bool(flag))` and turns an index one
      past the last stage into `AttributeError` chained to the `IndexError`;
      `backbones/stages.py` adds `int(flag)` and turns every `IndexError`
      into `AttributeError`. */
  datatype Dialect = PhasesModule | StagesModule

  function Increment(dialect: Dialect, flag: Value): (r: Outcome<int>)
    ensures dialect == PhasesModule ==> r == Ok(if Truthy(flag) then 1 else 0)
    ensures dialect == StagesModule ==> r == IntCast(flag)
  {
    match dialect
    case PhasesModule => Ok(if Truthy(flag) then 1 else 0)
    case StagesModule => IntCast(flag)
  }

  function MissingStage(dialect: Dialect, counter: int, count: nat): (e: Error)
    ensures e.kind == AttributeError <==> dialect == StagesModule || counter == count
    ensures e.kind != AttributeError ==> e == Error(IndexError, Plain)
  {
    match dialect
    case PhasesModule => if counter == count then Error(AttributeError, Chained(IndexError)) else Error(IndexError, Plain)
    case StagesModule => Error(AttributeError, Plain)
  }

  /** The decorated setup method; stages are appended with `add_stage`,
      which hands back the same decorator. */
  function NewStages<U, I, O>(setup: Method<U, I, Value, O>): (methods: seq<Method<U, I, Value, O>>)
    ensures |methods| == 1 && methods[0] == setup
  {
    [setup]
  }

  function AddStage<U, I, O>(methods: seq<Method<U, I, Value, O>>, extra: Method<U, I, Value, O>): (r: seq<Method<U, I, Value, O>>)
    ensures |r| == |methods| + 1 && r[..|methods|] == methods && r[|methods|] == extra
  {
    methods + [extra]
  }

  /** The counter a call starts from: the session's `_stage_counter`, or 0
      when it has none. */
  function CounterOf(counter: Option<int>): int
  {
    if counter.Some? then counter.value else 0
  }

  /** `resume_session(session, response)` under a stage sequence: the
      counter (zero if absent) is stored on the session and selects the
      stage; the stage's flag advances it; reaching the number of stages
      ends the session with the stage's result. */
  function CallStages<U, I, O>(dialect: Dialect, methods: seq<Method<U, I, Value, O>>, counter: Option<int>,
                               session: U, response: I): (r: Call<Option<int>, U, O>)
    ensures r.stored.Some?
    ensures PyIndex(|methods|, CounterOf(counter)).None? ==>
      r == Call(Some(CounterOf(counter)), session, Failed(MissingStage(dialect, CounterOf(counter), |methods|)))
    ensures r.step.Yield? ==> r.stored.value != |methods|
    ensures r.step.Done? && r.stored.value != CounterOf(counter) ==> r.stored.value == |methods|
  {
    var c := CounterOf(counter);
    match PyIndex(|methods|, c)
    case None => Call(Some(c), session, Failed(MissingStage(dialect, c, |methods|)))
    case Some(k) =>
      var (after, ret) := methods[k](session, response);
      match ret
      case Stopped(summary) => Call(Some(c), after, Done(summary))
      case Threw(e) => Call(Some(c), after, Failed(e))
      case Returned(flag, result) =>
        match Increment(dialect, flag)
        case Raise(e) => Call(Some(c), after, Failed(e))
        case Ok(inc) =>
          var next := c + inc;
          Call(Some(next), after, if next == |methods| then Done(result) else Yield(result))
  }

  /** The first call runs the setup method, exactly as a call at counter 0. */
  lemma FirstCallRunsSetup<U, I, O>(dialect: Dialect, methods: seq<Method<U, I, Value, O>>, session: U, response: I)
    requires |methods| > 0
    ensures CallStages(dialect, methods, None, session, response) == CallStages(dialect, methods, Some(0), session, response)
    ensures CallStages(dialect, methods, None, session, response).session == methods[0](session, response).0
  {
  }

  /** Under `backbones/phases.py` a stage that returns its flag moves the
      counter by one exactly when the flag is truthy, and ends the session
      exactly when the counter reaches the number of stages. */
  lemma PhasesAdvance<U, I, O>(methods: seq<Method<U, I, Value, O>>, c: int, session: U, response: I)
    requires 0 <= c < |methods| && methods[c](session, response).1.Returned?
    ensures var flag := methods[c](session, response).1.tag;
      var r := CallStages(PhasesModule, methods, Some(c), session, response);
      (r.stored == Some(c + 1) <==> Truthy(flag)) && (r.stored == Some(c) <==> !Truthy(flag)) &&
      (r.step.Done? <==> r.stored == Some(|methods|)) &&
      (r.step == Done(methods[c](session, response).1.result) || r.step == Yield(methods[c](session, response).1.result))
  {
  }

  /** The counter starts within the stages or one past them, and stays so. A
      call one past the last stage raises `AttributeError` without running
      any stage. */
  lemma PhasesCounterBounded<U, I, O>(methods: seq<Method<U, I, Value, O>>, counter: Option<int>, session: U, response: I)
    requires counter.None? || 0 <= counter.value <= |methods|
    ensures var r := CallStages(PhasesModule, methods, counter, session, response);
      0 <= r.stored.value <= |methods|
    ensures CounterOf(counter) == |methods| ==>
      CallStages(PhasesModule, methods, counter, session, response) ==
        Call(Some(|methods|), session, Failed(Error(AttributeError, Chained(IndexError))))
  {
  }

  /** Python's negative indexing reaches the counter too: a counter set to -1
      runs the last stage, and below minus the number of stages the call
      raises the bare `IndexError`. */
  lemma PhasesNegativeCounter<U, I, O>(methods: seq<Method<U, I, Value, O>>, session: U, response: I)
    requires |methods| > 0
    ensures CallStages(PhasesModule, methods, Some(-1), session, response).session ==
      methods[|methods| - 1](session, response).0
    ensures CallStages(PhasesModule, methods, Some(-|methods| - 1), session, response).step ==
      Failed(Error(IndexError, Plain))
  {
  }

  /** Under `backbones/stages.py` any counter out of the stages' range makes
      the call raise `AttributeError` without running a stage. */
  lemma StagesOutOfRange<U, I, O>(methods: seq<Method<U, I, Value, O>>, c: int, session: U, response: I)
    requires !(-|methods| <= c < |methods|)
    ensures CallStages(StagesModule, methods, Some(c), session, response) ==
      Call(Some(c), session, Failed(Error(AttributeError, Plain)))
  {
  }

  /** `int(flag)` need not be 0 or 1: an integer flag moves the counter by
      itself, and ends the session only on landing exactly on the end. */
  lemma StagesIntegerFlag<U, I, O>(methods: seq<Method<U, I, Value, O>>, c: int, session: U, response: I)
    requires 0 <= c < |methods| && methods[c](session, response).1.Returned?
    requires methods[c](session, response).1.tag.VInt?
    ensures var n := methods[c](session, response).1.tag.i;
      var r := CallStages(StagesModule, methods, Some(c), session, response);
      r.stored == Some(c + n) && (r.step.Done? <==> c + n == |methods|)
  {
  }

  /** The two stage sequences agree whenever every flag is a `bool`. */
  lemma DialectsAgreeOnBooleans<U, I, O>(methods: seq<Method<U, I, Value, O>>, counter: Option<int>, session: U, response: I)
    requires forall k :: 0 <= k < |methods| ==>
      (methods[k](session, response).1.Returned? ==> methods[k](session, response).1.tag.VBool?)
    requires PyIndex(|methods|, CounterOf(counter)).Some?
    ensures CallStages(PhasesModule, methods, counter, session, response) ==
      CallStages(StagesModule, methods, counter, session, response)
  {
  }

  /** Several calls in a row: the stored attribute and the session each
      call leaves, and every call's step. */
  datatype Run<S, U, O> = Run(stored: S, session: U, steps: seq<Step<O>>)

  function RunStages<U, I, O>(dialect: Dialect, methods: seq<Method<U, I, Value, O>>, counter: Option<int>,
                              session: U, responses: seq<I>): (r: Run<Option<int>, U, O>)
    ensures |r.steps| == |responses|
    decreases |responses|
  {
    if responses == [] then Run(counter, session, [])
    else
      var first := CallStages(dialect, methods, counter, session, responses[0]);
      var rest := RunStages(dialect, methods, first.stored, first.session, responses[1..]);
      Run(rest.stored, rest.session, [first.step] + rest.steps)
  }

  /** Every stage, whatever the session and response, returns a truthy flag. */
  ghost predicate AlwaysAdvances<U(!new), I(!new), O>(methods: seq<Method<U, I, Value, O>>)
  {
    forall k, u, i :: 0 <= k < |methods| ==>
      methods[k](u, i).1.Returned? && Truthy(methods[k](u, i).1.tag)
  }

  /** When every stage advances, the stages run once each: from counter `c`
      the session yields until the last stage, which ends it. */
  lemma {:induction false} AdvancingStagesFinish<U(!new), I(!new), O>(methods: seq<Method<U, I, Value, O>>, c: nat,
                                                         session: U, responses: seq<I>)
    requires AlwaysAdvances(methods) && c < |methods| && |responses| == |methods| - c
    ensures var r := RunStages(PhasesModule, methods, Some(c), session, responses);
      r.stored == Some(|methods|) && r.steps[|r.steps| - 1].Done? &&
      forall j :: 0 <= j < |r.steps| - 1 ==> r.steps[j].Yield?
    decreases |methods| - c
  {
    var first := CallStages(PhasesModule, methods, Some(c), session, responses[0]);
    assert methods[c](session, responses[0]).1.Returned? && Truthy(methods[c](session, responses[0]).1.tag);
    assert first.stored == Some(c + 1);
    var rest := RunStages(PhasesModule, methods, first.stored, first.session, responses[1..]);
    if c + 1 < |methods| {
      AdvancingStagesFinish(methods, c + 1, first.session, responses[1..]);
      assert first.step.Yield?;
      var steps := [first.step] + rest.steps;
      assert forall j :: 1 <= j < |steps| ==> steps[j] == rest.steps[j - 1];
    } else {
      assert first.step.Done?;
    }
  }

  // ---------------------------------------------------------------------
  // The state machine

  /** The keys of the state table: labels and insertion indices. */
  datatype Key = KStr(s: string) | KInt(i: int)

  /** The key a label value finds in the table, if any: text finds a label,
      an integral number an index (`True == 1`, `1.0 == 1`); nothing else
      equals any key. */
  function KeyOf(tag: Value): (k: Option<Key>)
    ensures tag.VStr? ==> k == Some(KStr(tag.s))
    ensures IsInstance(tag, IntType) ==> k == Some(KInt(IntOf(tag)))
    ensures tag.VNone? || tag.VTuple? || tag.VFunc? ==> k == None
  {
    match tag
    case VStr(s) => Some(KStr(s))
    case VBool(b) => Some(KInt(if b then 1 else 0))
    case VInt(i) => Some(KInt(i))
    case VFloat(x) => if x == x.Floor as real then Some(KInt(x.Floor)) else None
    case _ => None
  }

  const StartLabel := "$start"
  const EndLabel := "$end"

  datatype StateMachine<!U, -I, O> = StateMachine(methods: map<Key, Method<U, I, Value, O>>, count: nat)

  /** The decorated setup method is the state `'$start'`, alias 0. */
  function NewStateMachine<U, I, O>(setup: Method<U, I, Value, O>): (m: StateMachine<U, I, O>)
    ensures m.methods.Keys == {KStr(StartLabel), KInt(0)} && m.count == 1
    ensures m.methods[KStr(StartLabel)] == setup && m.methods[KInt(0)] == setup
  {
    StateMachine(map[KStr(StartLabel) := setup, KInt(0) := setup], 1)
  }

  /** `add_state(label=label)(extra)`: the state is found under its label
      and under the next index; a repeated label is overwritten. */
  function AddState<U, I, O>(m: StateMachine<U, I, O>, name: string, extra: Method<U, I, Value, O>): (r: StateMachine<U, I, O>)
    ensures r.count == m.count + 1
    ensures r.methods.Keys == m.methods.Keys + {KStr(name), KInt(m.count)}
    ensures r.methods[KStr(name)] == extra && r.methods[KInt(m.count)] == extra
    ensures forall k :: k in m.methods && k != KStr(name) && k != KInt(m.count) ==> r.methods[k] == m.methods[k]
  {
    StateMachine(m.methods[KStr(name) := extra][KInt(m.count) := extra], m.count + 1)
  }

  /** A machine built from its setup method and its added states, in order. */
  function BuildMachine<U, I, O>(setup: Method<U, I, Value, O>, states: seq<(string, Method<U, I, Value, O>)>): StateMachine<U, I, O>
    decreases |states|
  {
    if states == [] then NewStateMachine(setup)
    else AddState(BuildMachine(setup, states[..|states| - 1]), states[|states| - 1].0, states[|states| - 1].1)
  }

  lemma BuildMachineStep<U, I, O>(setup: Method<U, I, Value, O>, states: seq<(string, Method<U, I, Value, O>)>)
    requires states != []
    ensures BuildMachine(setup, states) ==
      AddState(BuildMachine(setup, states[..|states| - 1]), states[|states| - 1].0, states[|states| - 1].1)
  {
  }

  /** The index keys of `m` are exactly 0 for the setup method and `j + 1`
      for the `j`-th added state. */
  ghost predicate Indexed<U, I, O>(m: StateMachine<U, I, O>, setup: Method<U, I, Value, O>, states: seq<(string, Method<U, I, Value, O>)>)
  {
    m.count == |states| + 1
    && KInt(0) in m.methods && m.methods[KInt(0)] == setup
    && (forall k :: 1 <= k <= |states| ==> KInt(k) in m.methods && m.methods[KInt(k)] == states[k - 1].1)
    && (forall i :: KInt(i) in m.methods ==> 0 <= i <= |states|)
  }

  lemma IndexedStep<U, I, O>(before: StateMachine<U, I, O>, setup: Method<U, I, Value, O>, states: seq<(string, Method<U, I, Value, O>)>)
    requires states != [] && Indexed(before, setup, states[..|states| - 1])
    ensures Indexed(AddState(before, states[|states| - 1].0, states[|states| - 1].1), setup, states)
  {
    var front := states[..|states| - 1];
    var last := states[|states| - 1];
    var m := AddState(before, last.0, last.1);
    assert before.count == |states|;
    assert KInt(0) != KInt(before.count) && KInt(0) != KStr(last.0) && KInt(0) in before.methods;
    forall k | 1 <= k <= |states|
      ensures KInt(k) in m.methods && m.methods[KInt(k)] == states[k - 1].1
    {
      if k < before.count {
        assert front[k - 1] == states[k - 1];
        assert KInt(k) in before.methods && KInt(k) != KInt(before.count) && KInt(k) != KStr(last.0);
      } else {
        assert states[k - 1] == last;
      }
    }
    forall i | KInt(i) in m.methods
      ensures 0 <= i <= |states|
    {
      if KInt(i) !in before.methods {
        assert KInt(i) == KInt(before.count);
      }
    }
  }

  /** A built machine is indexed by its states in the order they were
      added. */
  lemma {:induction false} BuildMachineIndices<U, I, O>(setup: Method<U, I, Value, O>, states: seq<(string, Method<U, I, Value, O>)>)
    ensures Indexed(BuildMachine(setup, states), setup, states)
    decreases |states|
  {
    if states != [] {
      BuildMachineIndices(setup, states[..|states| - 1]);
      BuildMachineStep(setup, states);
      IndexedStep(BuildMachine(setup, states[..|states| - 1]), setup, states);
    }
  }

  /** Every added label is registered, under the state added last with that
      label; `'$start'` keeps the setup method unless a state reuses it. */
  ghost predicate Labelled<U, I, O>(m: StateMachine<U, I, O>, setup: Method<U, I, Value, O>, states: seq<(string, Method<U, I, Value, O>)>)
  {
    (forall j :: 0 <= j < |states| ==> KStr(states[j].0) in m.methods)
    && (forall j :: 0 <= j < |states| && (forall i :: j < i < |states| ==> states[i].0 != states[j].0) ==>
      m.methods[KStr(states[j].0)] == states[j].1)
    && ((forall i :: 0 <= i < |states| ==> states[i].0 != StartLabel) ==>
      KStr(StartLabel) in m.methods && m.methods[KStr(StartLabel)] == setup)
  }

  lemma LabelledStep<U, I, O>(before: StateMachine<U, I, O>, setup: Method<U, I, Value, O>, states: seq<(string, Method<U, I, Value, O>)>)
    requires states != [] && Labelled(before, setup, states[..|states| - 1])
    ensures Labelled(AddState(before, states[|states| - 1].0, states[|states| - 1].1), setup, states)
  {
    var front := states[..|states| - 1];
    assert forall j :: 0 <= j < |front| ==> front[j] == states[j];
  }

  lemma {:induction false} BuildMachineLabels<U, I, O>(setup: Method<U, I, Value, O>, states: seq<(string, Method<U, I, Value, O>)>)
    ensures Labelled(BuildMachine(setup, states), setup, states)
    decreases |states|
  {
    if states != [] {
      BuildMachineLabels(setup, states[..|states| - 1]);
      BuildMachineStep(setup, states);
      LabelledStep(BuildMachine(setup, states[..|states| - 1]), setup, states);
    }
  }

  /** The label a call starts from: the session's `_state_label`, or
      `'$start'` when it has none. */
  function LabelOf(current: Option<Value>): Value
  {
    if current.Some? then current.value else VStr(StartLabel)
  }

  /** `resume_session(session, response)` under a state machine: the label
      (`'$start'` if absent) is stored and selects the state; the label the
      state returns is stored, ends the session when it is `'$end'`, and must
      otherwise name a state. */
  function CallMachine<U, I, O>(m: StateMachine<U, I, O>, current: Option<Value>, session: U, response: I): (r: Call<Option<Value>, U, O>)
    ensures r.stored.Some?
    ensures var l := LabelOf(current);
      (KeyOf(l).None? || KeyOf(l).value !in m.methods) ==>
        r == Call(Some(l), session, Failed(if l == VStr(EndLabel) then Error(AttributeError, Chained(KeyError)) else Error(KeyError, Plain)))
    ensures r.step.Yield? ==> KeyOf(r.stored.value).Some? && KeyOf(r.stored.value).value in m.methods
    ensures r.step.Done? && r.stored != Some(LabelOf(current)) ==> r.stored == Some(VStr(EndLabel))
  {
    var l := LabelOf(current);
    match KeyOf(l)
    case None => Call(Some(l), session, Failed(Error(KeyError, Plain)))
    case Some(k) =>
      if k !in m.methods then
        Call(Some(l), session, Failed(if l == VStr(EndLabel) then Error(AttributeError, Chained(KeyError)) else Error(KeyError, Plain)))
      else
        var (after, ret) := m.methods[k](session, response);
        match ret
        case Stopped(summary) => Call(Some(l), after, Done(summary))
        case Threw(e) => Call(Some(l), after, Failed(e))
        case Returned(next, result) =>
          if next == VStr(EndLabel) then Call(Some(next), after, Done(result))
          else if KeyOf(next).None? || KeyOf(next).value !in m.methods then Call(Some(next), after, Failed(Error(ValueError, Plain)))
          else Call(Some(next), after, Yield(result))
  }

  /** A fresh session runs the `'$start'` state. */
  lemma MachineStartsAtStart<U, I, O>(setup: Method<U, I, Value, O>, session: U, response: I)
    ensures CallMachine(NewStateMachine(setup), None, session, response).session == setup(session, response).0
  {
  }

  /** What a state's returned label does: `'$end'` ends the session with the
      result; a registered label yields it; any other label, `'$self'`
      included unless registered, raises `ValueError` once it is stored. */
  lemma MachineTransitions<U, I, O>(m: StateMachine<U, I, O>, current: Option<Value>, session: U, response: I)
    requires KeyOf(LabelOf(current)).Some? && KeyOf(LabelOf(current)).value in m.methods
    requires m.methods[KeyOf(LabelOf(current)).value](session, response).1.Returned?
    ensures var ret := m.methods[KeyOf(LabelOf(current)).value](session, response).1;
      var r := CallMachine(m, current, session, response);
      r.stored == Some(ret.tag) &&
      (ret.tag == VStr(EndLabel) ==> r.step == Done(ret.result)) &&
      (ret.tag != VStr(EndLabel) && KeyOf(ret.tag).Some? && KeyOf(ret.tag).value in m.methods ==> r.step == Yield(ret.result)) &&
      (ret.tag != VStr(EndLabel) && (KeyOf(ret.tag).None? || KeyOf(ret.tag).value !in m.methods) ==>
         r.step == Failed(Error(ValueError, Plain)))
  {
  }

  /** `'$self'` is an ordinary label: a machine that never registered it
      rejects it like any unknown label. */
  lemma SelfIsNotSpecial<U, I, O>(setup: Method<U, I, Value, O>, session: U, response: I)
    requires setup(session, response).1.Returned? && setup(session, response).1.tag == VStr("$self")
    ensures CallMachine(NewStateMachine(setup), None, session, response) ==
      Call(Some(VStr("$self")), setup(session, response).0, Failed(Error(ValueError, Plain)))
  {
    assert KStr("$self") != KStr(StartLabel);
  }

  /** After `'$end'` (never registered) every further call raises
      `AttributeError` without running a state. */
  lemma MachineAfterEnd<U, I, O>(m: StateMachine<U, I, O>, session: U, response: I)
    requires KStr(EndLabel) !in m.methods
    ensures CallMachine(m, Some(VStr(EndLabel)), session, response) ==
      Call(Some(VStr(EndLabel)), session, Failed(Error(AttributeError, Chained(KeyError))))
  {
  }

  // ---------------------------------------------------------------------
  // linear_stages

  /** The older decorator also keeps `__wrapped__`, the stage it expects to
      run next; it lives on the decorator and so is shared by all sessions. */
  datatype LinearStages<!U, -I, O> = LinearStages(methods: seq<Method<U, I, Value, O>>, wrapped: Method<U, I, Value, O>)

  function NewLinearStages<U, I, O>(setup: Method<U, I, Value, O>): (d: LinearStages<U, I, O>)
    ensures d.methods == [setup] && d.wrapped == setup
  {
    LinearStages([setup], setup)
  }

  function AddLinearStage<U, I, O>(d: LinearStages<U, I, O>, extra: Method<U, I, Value, O>): (r: LinearStages<U, I, O>)
    ensures r.methods == AddStage(d.methods, extra) && r.wrapped == d.wrapped
  {
    d.(methods := d.methods + [extra])
  }

  /** `resume_session(session, response)` under `linear_stages`: the counter
      is read (zero if absent) but stored only after the stage returns, as
      the counter plus `int(flag)`; unless that ends the session,
      `__wrapped__` becomes the stage it selects, which raises `IndexError`
      past the end after the counter is stored. */
  function CallLinear<U, I, O>(d: LinearStages<U, I, O>, counter: Option<int>, session: U, response: I): (r: (LinearStages<U, I, O>, Call<Option<int>, U, O>))
    ensures r.0.methods == d.methods
    ensures PyIndex(|d.methods|, CounterOf(counter)).None? ==> r == (d, Call(counter, session, Failed(Error(IndexError, Plain))))
    ensures r.1.stored != counter ==> r.1.stored.Some? && (r.1.stored.value == |d.methods| <==> r.1.step.Done?)
    ensures r.1.step.Yield? ==>
      (r.1.stored.Some? && PyIndex(|d.methods|, r.1.stored.value).Some? &&
       r.0.wrapped == d.methods[PyIndex(|d.methods|, r.1.stored.value).value])
  {
    var c := CounterOf(counter);
    match PyIndex(|d.methods|, c)
    case None => (d, Call(counter, session, Failed(Error(IndexError, Plain))))
    case Some(k) =>
      var (after, ret) := d.methods[k](session, response);
      match ret
      case Stopped(summary) => (d, Call(counter, after, Done(summary)))
      case Threw(e) => (d, Call(counter, after, Failed(e)))
      case Returned(flag, output) =>
        match IntCast(flag)
        case Raise(e) => (d, Call(counter, after, Failed(e)))
        case Ok(inc) =>
          var next := c + inc;
          if next == |d.methods| then (d, Call(Some(next), after, Done(output)))
          else match PyIndex(|d.methods|, next)
            case None => (d, Call(Some(next), after, Failed(Error(IndexError, Plain))))
            case Some(j) => (d.(wrapped := d.methods[j]), Call(Some(next), after, Yield(output)))
  }

  /** With `bool` flags, `linear_stages` walks the same counter as the newer
      stage sequences, and yields or ends the session alike. */
  lemma LinearAgreesWithStages<U, I, O>(d: LinearStages<U, I, O>, c: nat, session: U, response: I)
    requires c < |d.methods| && d.methods[c](session, response).1.Returned?
    requires d.methods[c](session, response).1.tag.VBool?
    ensures CallLinear(d, Some(c), session, response).1 == CallStages(StagesModule, d.methods, Some(c), session, response)
    ensures CallLinear(d, Some(c), session, response).1 == CallStages(PhasesModule, d.methods, Some(c), session, response)
  {
  }

  /** An integer flag can carry `linear_stages` past the end: a flag of 3 on
      the second-to-last stage stores a counter beyond the stages and raises
      `IndexError` in place of handing back the stage's output. */
  lemma LinearOvershoot<U, I, O>(d: LinearStages<U, I, O>, session: U, response: I)
    requires |d.methods| >= 2
    requires d.methods[|d.methods| - 2](session, response).1.Returned?
    requires d.methods[|d.methods| - 2](session, response).1.tag == VInt(3)
    ensures CallLinear(d, Some(|d.methods| - 2), session, response).1 ==
      Call(Some(|d.methods| + 1), d.methods[|d.methods| - 2](session, response).0, Failed(Error(IndexError, Plain)))
  {
  }
}

=== FILE: program_nodes.dfy ===
/** The two program-running leaves: `FunctionalFileTestNode`, which calls a
    function from the data and forgives its failures, and
    `EvaluateProgramNode`, which runs a program from the data and lets its
    failures through. The sandbox and the file system are opaque: the node
    sees only what the candidate did and what the checker says. */
module ProgramNodes {
  import opened Outcomes
  import PyValues

  /** What calling the candidate on the sandbox's input and output files
      did: it raised an exception of some kind, or returned a value. */
  datatype Behaviour = Raised(kind: Kind) | Returned(value: PyValues.Value)

  /** The external `data` dictionary, mapping ids to candidates, or `None`. */
  type Data = Option<map<string, Behaviour>>

  /** The sandbox and checking steps an evaluation goes through, in order. */
  datatype Step = StageInput | PrepareOutput | CallCandidate | StageSolution | CallChecker

  /** The score an evaluation ends with (or the error it raises), and the
      steps it took. */
  datatype Evaluation = Evaluation(result: Outcome<int>, steps: seq<Step>)

  /** `os.path.isabs` for a POSIX path. */
  predicate IsAbs(path: string)
  {
    |path| > 0 && path[0] == '/'
  }

  /** The constructor's two assertions. */
  predicate PathsUsable(inputPath: string, solutionPath: string, onDisk: string -> bool)
  {
    IsAbs(inputPath) && onDisk(inputPath) && IsAbs(solutionPath) && onDisk(solutionPath)
  }

  // ---------------------------------------------------------------------
  // files/graph.py

  datatype FileNode = FileNode(score: int, funcId: string, inputPath: string, solutionPath: string)

  /** `FunctionalFileTestNode(...)`, with `onDisk` standing for
      `os.path.exists`. */
  function NewFileNode(score: int, funcId: string, inputPath: string, solutionPath: string,
                       onDisk: string -> bool): (r: Outcome<FileNode>)
    ensures r.Ok? <==> PathsUsable(inputPath, solutionPath, onDisk)
    ensures r.Ok? ==> r.value == FileNode(score, funcId, inputPath, solutionPath)
    ensures r.Raise? ==> r.error == Error(AssertionError, Plain)
  {
    if PathsUsable(inputPath, solutionPath, onDisk) then Ok(FileNode(score, funcId, inputPath, solutionPath))
    else Throw(AssertionError)
  }

  /** `FunctionalFileTestNode.evaluate(data)`; `checker` gives the checker's
      result (or its error) for the node's score. */
  function EvaluateFileNode(node: FileNode, data: Data, checker: int -> Outcome<int>): (e: Evaluation)
    ensures |e.steps| >= 2 && e.steps[..2] == [StageInput, PrepareOutput]
    ensures (data.None? || node.funcId !in data.value) ==>
      e.result == Ok(0) && CallCandidate !in e.steps
    ensures data.Some? && node.funcId in data.value && data.value[node.funcId].Raised? ==>
      e.result == Ok(0) && CallChecker !in e.steps && StageSolution !in e.steps
    ensures data.Some? && node.funcId in data.value && data.value[node.funcId].Returned? ==>
      e.result == checker(node.score)
    ensures StageSolution in e.steps <==> CallChecker in e.steps
    ensures CallChecker in e.steps <==>
      data.Some? && node.funcId in data.value && data.value[node.funcId].Returned?
  {
    var setup := [StageInput, PrepareOutput];
    if data.Some? && node.funcId in data.value then
      match data.value[node.funcId]
      case Raised(_) => Evaluation(Ok(0), setup + [CallCandidate])
      case Returned(_) => Evaluation(checker(node.score), setup + [CallCandidate, StageSolution, CallChecker])
    else Evaluation(Ok(0), setup)
  }

  // ---------------------------------------------------------------------
  // prog/graph.py

  datatype ProgramNode = ProgramNode(score: int, programId: string, inputPath: string, solutionPath: string,
                                     dependencies: seq<nat>)

  /** `EvaluateProgramNode(...)`: a leaf, with no dependencies. */
  function NewProgramNode(score: int, programId: string, inputPath: string, solutionPath: string,
                          onDisk: string -> bool): (r: Outcome<ProgramNode>)
    ensures r.Ok? <==> PathsUsable(inputPath, solutionPath, onDisk)
    ensures r.Ok? ==> r.value.dependencies == [] && r.value.score == score && r.value.programId == programId
    ensures r.Ok? ==> r.value.inputPath == inputPath && r.value.solutionPath == solutionPath
    ensures r.Raise? ==> r.error == Error(AssertionError, Plain)
  {
    if PathsUsable(inputPath, solutionPath, onDisk) then Ok(ProgramNode(score, programId, inputPath, solutionPath, []))
    else Throw(AssertionError)
  }

  /** `EvaluateProgramNode.evaluate(data)`; `checkScript` gives the check
      script's result for the node's score. Indexing `None` raises
      `TypeError`, a missing id raises `KeyError`, and the program's own
      exception is not caught. */
  function EvaluateProgramNode(node: ProgramNode, data: Data, checkScript: int -> Outcome<int>): (e: Evaluation)
    ensures |e.steps| >= 2 && e.steps[..2] == [StageInput, PrepareOutput]
    ensures data.None? ==> e.result == Throw(TypeError) && CallCandidate !in e.steps
    ensures data.Some? && node.programId !in data.value ==>
      e.result == Throw(KeyError) && CallCandidate !in e.steps
    ensures data.Some? && node.programId in data.value ==> CallCandidate in e.steps
    ensures data.Some? && node.programId in data.value && data.value[node.programId].Raised? ==>
      e.result == Throw(data.value[node.programId].kind)
    ensures data.Some? && node.programId in data.value && data.value[node.programId].Returned? ==>
      e.result == if PyValues.Truthy(data.value[node.programId].value) then checkScript(node.score) else Ok(0)
    ensures CallChecker in e.steps <==>
      data.Some? && node.programId in data.value && data.value[node.programId].Returned? &&
      PyValues.Truthy(data.value[node.programId].value)
  {
    var setup := [StageInput, PrepareOutput];
    if data.None? then Evaluation(Throw(TypeError), setup)
    else if node.programId !in data.value then Evaluation(Throw(KeyError), setup)
    else
      match data.value[node.programId]
      case Raised(k) => Evaluation(Throw(k), setup + [CallCandidate])
      case Returned(v) =>
        if PyValues.Truthy(v) then Evaluation(checkScript(node.score), setup + [CallCandidate, StageSolution, CallChecker])
        else Evaluation(Ok(0), setup + [CallCandidate])
  }

  // ---------------------------------------------------------------------
  // The two leaves side by side

  /** The file node and the program node built from the same arguments. */
  predicate SameTest(f: FileNode, p: ProgramNode)
  {
    f.score == p.score && f.funcId == p.programId && f.inputPath == p.inputPath && f.solutionPath == p.solutionPath
  }

  /** On a candidate that returns a truthy value both leaves score exactly
      what the checker says, after the same steps. */
  lemma LeavesAgreeOnSuccess(f: FileNode, p: ProgramNode, data: Data, check: int -> Outcome<int>)
    requires SameTest(f, p) && data.Some? && f.funcId in data.value
    requires data.value[f.funcId].Returned? && PyValues.Truthy(data.value[f.funcId].value)
    ensures EvaluateFileNode(f, data, check) == EvaluateProgramNode(p, data, check)
    ensures EvaluateFileNode(f, data, check).result == check(f.score)
  {
  }

  /** Where they part: the file node scores 0 for a missing candidate and for
      one that raises, where the program node raises; and it checks the
      output of a candidate returning a falsy value, which the program node
      scores 0 without checking. */
  lemma LeavesDifferOnFailure(f: FileNode, p: ProgramNode, data: Data, check: int -> Outcome<int>)
    requires SameTest(f, p)
    ensures (data.None? || f.funcId !in data.value) ==>
      EvaluateFileNode(f, data, check).result == Ok(0) && EvaluateProgramNode(p, data, check).result.Raise?
    ensures data.Some? && f.funcId in data.value && data.value[f.funcId].Raised? ==>
      EvaluateFileNode(f, data, check).result == Ok(0) &&
      EvaluateProgramNode(p, data, check).result == Throw(data.value[f.funcId].kind)
    ensures (data.Some? && f.funcId in data.value && data.value[f.funcId].Returned? &&
             !PyValues.Truthy(data.value[f.funcId].value)) ==>
      EvaluateFileNode(f, data, check).result == check(f.score) &&
      EvaluateProgramNode(p, data, check).result == Ok(0)
  {
  }
}

=== FILE: pytext.dfy ===
/** The pieces of Python's string handling the checkers and the docstring
    trimmer rely on: whitespace, `str.split()`, text-file line iteration,
    `str.splitlines()`, the `strip` family, `expandtabs` and `join`. */
module PyText {

  /** `c.isspace()`: the characters Python treats as whitespace. */
  predicate IsSpace(c: char)
  {
    c == ' ' || c == '\t' || c == '\n' || c == '\r' || c == '\U{B}' || c == '\U{C}'
    || c == '\U{1C}' || c == '\U{1D}' || c == '\U{1E}' || c == '\U{1F}'
    || c == '\U{85}' || c == '\U{A0}' || c == '\U{1680}'
    || ('\U{2000}' <= c <= '\U{200A}')
    || c == '\U{2028}' || c == '\U{2029}' || c == '\U{202F}' || c == '\U{205F}' || c == '\U{3000}'
  }

  /** The characters at which `str.splitlines()` ends a line. */
  predicate IsLineBoundary(c: char)
  {
    c == '\n' || c == '\r' || c == '\U{B}' || c == '\U{C}'
    || c == '\U{1C}' || c == '\U{1D}' || c == '\U{1E}'
    || c == '\U{85}' || c == '\U{2028}' || c == '\U{2029}'
  }

  lemma LineBoundaryIsSpace(c: char)
    requires IsLineBoundary(c)
    ensures IsSpace(c)
  {
  }

  predicate NoSpace(w: string)
  {
    forall i :: 0 <= i < |w| ==> !IsSpace(w[i])
  }

  function Concat<T>(xss: seq<seq<T>>): (r: seq<T>)
    ensures |xss| == 1 ==> r == xss[0]
  {
    if xss == [] then [] else xss[0] + Concat(xss[1..])
  }

  lemma {:induction false} ConcatAppend<T>(xss: seq<seq<T>>, yss: seq<seq<T>>)
    ensures Concat(xss + yss) == Concat(xss) + Concat(yss)
  {
    if xss == [] {
      assert xss + yss == yss;
    } else {
      assert (xss + yss)[0] == xss[0];
      assert (xss + yss)[1..] == xss[1..] + yss;
      ConcatAppend(xss[1..], yss);
    }
  }

  // ---------------------------------------------------------------------
  // str.split() with no separator

  /** The longest prefix of `s` without whitespace. */
  function Word(s: string): (w: string)
    ensures |w| <= |s| && w == s[..|w|]
    ensures NoSpace(w)
    ensures |w| < |s| ==> IsSpace(s[|w|])
  {
    if s == [] || IsSpace(s[0]) then [] else [s[0]] + Word(s[1..])
  }

  /** `s.split()`: the maximal runs of non-whitespace characters, in order. */
  function Split(s: string): (ws: seq<string>)
    ensures forall i :: 0 <= i < |ws| ==> |ws[i]| > 0 && NoSpace(ws[i])
    decreases |s|
  {
    if s == [] then []
    else if IsSpace(s[0]) then Split(s[1..])
    else
      var w := Word(s);
      [w] + Split(s[|w|..])
  }

  // ---------------------------------------------------------------------
  // `for line in f` on a text file

  /** Index of the first `'\n'` in `s`, or `|s|` if there is none. */
  function NewlineIndex(s: string): (i: nat)
    ensures i <= |s|
    ensures forall j :: 0 <= j < i ==> s[j] != '\n'
    ensures i < |s| ==> s[i] == '\n'
  {
    if s == [] then 0 else if s[0] == '\n' then 0 else 1 + NewlineIndex(s[1..])
  }

  /** The lines a text file yields when iterated: each ends just after a
      `'\n'`, except that a last line without one is yielded as it is. An
      empty file yields no line. (Universal-newline translation of `'\r'` is
      taken to have happened already.) */
  function Lines(s: string): (ls: seq<string>)
    ensures Concat(ls) == s
    ensures forall k :: 0 <= k < |ls| ==> |ls[k]| > 0
    ensures forall k :: 0 <= k < |ls| - 1 ==> ls[k][|ls[k]| - 1] == '\n'
    ensures forall k, j :: 0 <= k < |ls| && 0 <= j < |ls[k]| - 1 ==> ls[k][j] != '\n'
    decreases |s|
  {
    if s == [] then []
    else
      var i := NewlineIndex(s);
      if i == |s| then [s]
      else
        var rest := Lines(s[i + 1..]);
        assert s == s[..i + 1] + s[i + 1..];
        [s[..i + 1]] + rest
  }

  /** `str.split()` skips a leading whitespace character. */
  lemma SplitAfterSpace(c: char, s: string)
    requires IsSpace(c)
    ensures Split([c] + s) == Split(s)
  {
    assert ([c] + s)[1..] == s;
  }

  lemma {:induction false} WordOfJoin(w: string, s: string)
    requires NoSpace(w) && (s == [] || IsSpace(s[0]))
    ensures Word(w + s) == w
    decreases |w|
  {
    if w == [] {
      assert w + s == s;
    } else {
      assert (w + s)[1..] == w[1..] + s;
      WordOfJoin(w[1..], s);
      assert [w[0]] + w[1..] == w;
    }
  }

  /** `str.split()` on a word followed by whitespace or the end of the
      string yields that word first. */
  lemma SplitAfterWord(w: string, s: string)
    requires w != [] && NoSpace(w) && (s == [] || IsSpace(s[0]))
    ensures Split(w + s) == [w] + Split(s)
  {
    WordOfJoin(w, s);
    assert (w + s)[|w|..] == s;
  }

  predicate AllSpace(s: string)
  {
    forall i :: 0 <= i < |s| ==> IsSpace(s[i])
  }

  /** `str.split()` skips any run of leading whitespace. */
  lemma {:induction false} SplitAfterSpaces(sp: string, s: string)
    requires AllSpace(sp)
    ensures Split(sp + s) == Split(s)
    decreases |sp|
  {
    if sp == [] {
      assert sp + s == s;
    } else {
      assert sp + s == [sp[0]] + (sp[1..] + s);
      SplitAfterSpace(sp[0], sp[1..] + s);
      SplitAfterSpaces(sp[1..], s);
    }
  }

  /** A word, then whitespace, then the rest: the word comes first. */
  lemma SplitWordThenSpaces(w: string, sp: string, s: string)
    requires w != [] && NoSpace(w) && sp != [] && AllSpace(sp)
    ensures Split(w + sp + s) == [w] + Split(s)
  {
    assert w + sp + s == w + (sp + s);
    assert (sp + s)[0] == sp[0];
    SplitAfterWord(w, sp + s);
    SplitAfterSpaces(sp, s);
  }

  lemma SplitWord(w: string)
    requires w != [] && NoSpace(w)
    ensures Split(w) == [w]
  {
    SplitAfterWord(w, []);
    assert w + [] == w;
  }

  predicate NoNewline(l: string)
  {
    forall j :: 0 <= j < |l| ==> l[j] != '\n'
  }

  lemma {:induction false} NewlineAfter(l: string, s: string)
    requires NoNewline(l) && (s == [] || s[0] == '\n')
    ensures NewlineIndex(l + s) == |l|
    decreases |l|
  {
    if l == [] {
      assert l + s == s;
    } else {
      assert (l + s)[1..] == l[1..] + s;
      NewlineAfter(l[1..], s);
    }
  }

  /** A text ending in a line without `'\n'` yields that line last, as it
      is; a line ending in `'\n'` is yielded with it. */
  lemma LastLine(l: string)
    requires l != [] && NoNewline(l)
    ensures Lines(l) == [l]
  {
    NewlineAfter(l, []);
    assert l + [] == l;
  }

  lemma NoNewlineJoin(x: string, y: string)
    requires NoNewline(x) && NoNewline(y)
    ensures NoNewline(x + y)
  {
    forall j | 0 <= j < |x + y| ensures (x + y)[j] != '\n' {
      if j < |x| {
        assert (x + y)[j] == x[j];
      } else {
        assert (x + y)[j] == y[j - |x|];
      }
    }
  }

  lemma NoSpaceNoNewline(w: string)
    requires NoSpace(w)
    ensures NoNewline(w)
  {
    forall j | 0 <= j < |w| ensures w[j] != '\n' {
      assert !IsSpace(w[j]);
    }
  }

  /** Two lines, the first ended by `'\n'` and the last not. */
  lemma TwoLines(l1: string, l2: string)
    requires NoNewline(l1) && l2 != [] && NoNewline(l2)
    ensures Lines(l1 + "\n" + l2) == [l1 + "\n", l2]
  {
    LineThenRest(l1, l2);
    LastLine(l2);
  }

  lemma LineThenRest(l: string, rest: string)
    requires NoNewline(l)
    ensures Lines(l + "\n" + rest) == [l + "\n"] + Lines(rest)
  {
    var s := l + "\n" + rest;
    assert s == l + ("\n" + rest);
    NewlineAfter(l, "\n" + rest);
    assert s[..|l| + 1] == l + "\n" && s[|l| + 1..] == rest;
  }

  // ---------------------------------------------------------------------
  // str.splitlines()

  /** Index of the first line boundary in `s`, or `|s|`. */
  function BoundaryIndex(s: string): (i: nat)
    ensures i <= |s|
    ensures forall j :: 0 <= j < i ==> !IsLineBoundary(s[j])
    ensures i < |s| ==> IsLineBoundary(s[i])
  {
    if s == [] then 0 else if IsLineBoundary(s[0]) then 0 else 1 + BoundaryIndex(s[1..])
  }

  predicate NoBoundary(l: string)
  {
    forall j :: 0 <= j < |l| ==> !IsLineBoundary(l[j])
  }

  /** `s.splitlines()`: lines without their terminators; `"\r\n"` ends a single
      line, and a terminator at the very end does not start another line. */
  function SplitLines(s: string): (ls: seq<string>)
    ensures s != [] <==> |ls| > 0
    ensures forall k :: 0 <= k < |ls| ==> NoBoundary(ls[k])
    decreases |s|
  {
    if s == [] then []
    else
      var i := BoundaryIndex(s);
      if i == |s| then [s]
      else if s[i] == '\r' && i + 1 < |s| && s[i + 1] == '\n' then [s[..i]] + SplitLines(s[i + 2..])
      else [s[..i]] + SplitLines(s[i + 1..])
  }

  // ---------------------------------------------------------------------
  // strip, lstrip, rstrip

  function LStrip(s: string): (r: string)
    ensures |r| <= |s| && r == s[|s| - |r|..]
    ensures r == [] || !IsSpace(r[0])
    ensures forall j :: 0 <= j < |s| - |r| ==> IsSpace(s[j])
  {
    if s == [] || !IsSpace(s[0]) then s else LStrip(s[1..])
  }

  function RStrip(s: string): (r: string)
    ensures |r| <= |s| && r == s[..|r|]
    ensures r == [] || !IsSpace(r[|r| - 1])
    ensures forall j :: |r| <= j < |s| ==> IsSpace(s[j])
  {
    if s == [] || !IsSpace(s[|s| - 1]) then s else RStrip(s[..|s| - 1])
  }

  function Strip(s: string): string
  {
    RStrip(LStrip(s))
  }

  /** `s[k:]` with Python's clamping of an index past the end. */
  function DropPrefix(s: string, k: nat): (r: string)
    ensures k <= |s| ==> r == s[k..]
    ensures k > |s| ==> r == []
  {
    if k <= |s| then s[k..] else []
  }

  // ---------------------------------------------------------------------
  // expandtabs and join

  function Spaces(n: nat): (r: string)
    ensures |r| == n && forall j :: 0 <= j < n ==> r[j] == ' '
  {
    if n == 0 then [] else [' '] + Spaces(n - 1)
  }

  /** `s.expandtabs(size)` continued from column `col`: a tab becomes the
      spaces up to the next multiple of `size`, and `'\n'` or `'\r'` resets the
      column. */
  function ExpandTabsFrom(s: string, size: nat, col: nat): (r: string)
    requires size > 0
    ensures forall j :: 0 <= j < |r| ==> r[j] != '\t'
    decreases |s|
  {
    if s == [] then []
    else if s[0] == '\t' then
      var pad := size - col % size;
      Spaces(pad) + ExpandTabsFrom(s[1..], size, col + pad)
    else if s[0] == '\n' || s[0] == '\r' then [s[0]] + ExpandTabsFrom(s[1..], size, 0)
    else [s[0]] + ExpandTabsFrom(s[1..], size, col + 1)
  }

  function ExpandTabs(s: string, size: nat): string
    requires size > 0
  {
    ExpandTabsFrom(s, size, 0)
  }

  /** `sep.join(parts)`. */
  function Join(parts: seq<string>, sep: string): (r: string)
    ensures parts == [] ==> r == []
    ensures |parts| == 1 ==> r == parts[0]
  {
    if parts == [] then []
    else if |parts| == 1 then parts[0]
    else parts[0] + sep + Join(parts[1..], sep)
  }

  // ---------------------------------------------------------------------
  // str() of an integer

  function DigitChar(d: nat): char
    requires d < 10
  {
    ['0', '1', '2', '3', '4', '5', '6', '7', '8', '9'][d]
  }

  function NatToString(n: nat): (r: string)
    ensures |r| > 0
  {
    if n < 10 then [DigitChar(n)] else NatToString(n / 10) + [DigitChar(n % 10)]
  }

  /** `str(n)`: decimal digits, with a leading `'-'` for a negative number. */
  function IntToString(n: int): (r: string)
    ensures |r| > 0
    ensures (r[0] == '-') <==> n < 0
  {
    if n < 0 then "-" + NatToString(-n)
    else
      var r := NatToString(n);
      assert r[0] != '-' by { NatToStringStartsWithDigit(n); }
      r
  }

  lemma NatToStringStartsWithDigit(n: nat)
    ensures '0' <= NatToString(n)[0] <= '9'
  {
    if n >= 10 {
      NatToStringStartsWithDigit(n / 10);
    }
  }
}

=== FILE: pyvalues.dfy ===
/** The dynamically typed values the parameter, field and descriptor code
    inspects with `isinstance`, and Python's truthiness and `==` on them. */
module PyValues {
  import Outcomes

  /** A Python value. `VFunc(id)` is a callable object; its behaviour, when it
      matters, is supplied separately under the same identity. */
  datatype Value =
    | VNone
    | VBool(b: bool)
    | VInt(i: int)
    | VFloat(r: real)
    | VStr(s: string)
    | VTuple(items: seq<Value>)
    | VFunc(id: nat)

  /** The classes the source passes to `isinstance`. */
  datatype PyType = BoolType | IntType | FloatType | RealType | StrType | TupleType | ObjectType

  /** `isinstance(v, t)`: `bool` is a subclass of `int`, and `numbers.Real`
      covers `int`, `bool` and `float`. */
  predicate IsInstance(v: Value, t: PyType)
  {
    match t
    case BoolType => v.VBool?
    case IntType => v.VBool? || v.VInt?
    case FloatType => v.VFloat?
    case RealType => v.VBool? || v.VInt? || v.VFloat?
    case StrType => v.VStr?
    case TupleType => v.VTuple?
    case ObjectType => true
  }

  /** `bool(v)`. */
  predicate Truthy(v: Value)
  {
    match v
    case VNone => false
    case VBool(b) => b
    case VInt(i) => i != 0
    case VFloat(r) => r != 0.0
    case VStr(s) => |s| > 0
    case VTuple(items) => |items| > 0
    case VFunc(_) => true
  }

  /** The integer an `int` (or `bool`) value stands for. */
  function IntOf(v: Value): int
    requires IsInstance(v, IntType)
  {
    if v.VBool? then (if v.b then 1 else 0) else v.i
  }

  /** `v == n` for an integer `n`: numbers compare by value, every other
      value is unequal to an integer. */
  predicate EqualsInt(v: Value, n: int)
  {
    match v
    case VBool(b) => (if b then 1 else 0) == n
    case VInt(i) => i == n
    case VFloat(r) => r == n as real
    case _ => false
  }

  /** `0 <= x < n` on a Python value: numbers compare by value, anything
      else raises `TypeError`. */
  function InRange(x: Value, n: int): (r: Outcomes.Outcome<bool>)
    ensures r.Ok? <==> IsInstance(x, RealType)
    ensures r.Raise? ==> r == Outcomes.Throw(Outcomes.TypeError)
    ensures IsInstance(x, IntType) ==> r == Outcomes.Ok(0 <= IntOf(x) < n)
  {
    if !IsInstance(x, RealType) then Outcomes.Throw(Outcomes.TypeError)
    else Outcomes.Ok(0.0 <= NumberOf(x) < n as real)
  }

  /** `x > 0` on a Python value. */
  function Positive(x: Value): (r: Outcomes.Outcome<bool>)
    ensures r.Ok? <==> IsInstance(x, RealType)
    ensures r.Raise? ==> r == Outcomes.Throw(Outcomes.TypeError)
    ensures IsInstance(x, IntType) ==> r == Outcomes.Ok(IntOf(x) > 0)
  {
    if !IsInstance(x, RealType) then Outcomes.Throw(Outcomes.TypeError)
    else Outcomes.Ok(NumberOf(x) > 0.0)
  }

  /** `len(v)` and `tuple(v)` succeed exactly for the finite iterables, here
      tuples and strings (a string iterates over one-character strings). */
  function Elements(v: Value): Outcomes.Option<seq<Value>>
  {
    match v
    case VTuple(items) => Outcomes.Some(items)
    case VStr(s) => Outcomes.Some(seq(|s|, i requires 0 <= i < |s| => VStr([s[i]])))
    case _ => Outcomes.None
  }

  /** The number a `bool`, `int` or `float` stands for. */
  function NumberOf(v: Value): real
    requires IsInstance(v, RealType)
  {
    match v
    case VBool(b) => if b then 1.0 else 0.0
    case VInt(i) => i as real
    case VFloat(r) => r
  }

  /** Python's `a == b`: numbers of any numeric class compare by value,
      tuples element by element, and everything else structurally. */
  predicate Equal(a: Value, b: Value)
    decreases a
  {
    if IsInstance(a, RealType) && IsInstance(b, RealType) then NumberOf(a) == NumberOf(b)
    else if a.VTuple? && b.VTuple? then
      |a.items| == |b.items| && forall i :: 0 <= i < |a.items| ==> Equal(a.items[i], b.items[i])
    else a == b
  }

  lemma {:induction false} EqualReflexive(a: Value)
    ensures Equal(a, a)
    decreases a
  {
    if a.VTuple? {
      forall i | 0 <= i < |a.items| ensures Equal(a.items[i], a.items[i]) {
        EqualReflexive(a.items[i]);
      }
    }
  }

  lemma {:induction false} EqualSymmetric(a: Value, b: Value)
    requires Equal(a, b)
    ensures Equal(b, a)
    decreases a
  {
    if a.VTuple? && b.VTuple? && !IsInstance(a, RealType) {
      forall i | 0 <= i < |b.items| ensures Equal(b.items[i], a.items[i]) {
        EqualSymmetric(a.items[i], b.items[i]);
      }
    }
  }

  /** Comparing with an integer is Python's `==` against that integer. */
  lemma EqualsIntAgrees(v: Value, n: int)
    ensures EqualsInt(v, n) <==> Equal(v, VInt(n))
  {
  }

  lemma EqualAcrossNumbers()
    ensures Equal(VInt(1), VBool(true)) && Equal(VInt(2), VFloat(2.0))
    ensures !Equal(VInt(1), VStr("1"))
  {
  }

  // ---------------------------------------------------------------------
  // Instance dictionaries

  /** `instance.__dict__[name]`, as every descriptor's `__get__` reads its
      value: a missing entry is a `KeyError`. */
  function Lookup(dict: map<string, Value>, name: string): (r: Outcomes.Outcome<Value>)
    ensures r.Ok? <==> name in dict
    ensures r.Ok? ==> r.value == dict[name]
    ensures r.Raise? ==> r == Outcomes.Throw(Outcomes.KeyError)
  {
    if name in dict then Outcomes.Ok(dict[name]) else Outcomes.Throw(Outcomes.KeyError)
  }

  /** `del instance.__dict__[name]`: the entry goes, and a missing one is a
      `KeyError`. */
  function Remove(dict: map<string, Value>, name: string): (r: Outcomes.Outcome<map<string, Value>>)
    ensures r.Ok? <==> name in dict
    ensures r.Ok? ==> r.value == dict - {name} && name !in r.value
    ensures r.Raise? ==> r == Outcomes.Throw(Outcomes.KeyError)
  {
    if name in dict then Outcomes.Ok(dict - {name}) else Outcomes.Throw(Outcomes.KeyError)
  }
}

=== FILE: reports.dfy ===
/** The report trees of `core/report.py`: each reporter holds one message and
    the sub-reports made from it, in creation order; a `StringReporter`
    flattens the tree in pre-order, one indented line per reporter. */
module Reports {
  import opened Outcomes
  import PyText

  /** A reporter. `indent` is `Some(s)` for `StringReporter(indent=s)` and
      `None` for a plain `Reporter`. */
  datatype Report = Report(indent: Option<string>, message: string, subs: seq<Report>)

  /** `Reporter()`. */
  function NewReporter(): (r: Report)
    ensures r.indent.None? && r.message == "" && r.subs == []
  {
    Report(None, "", [])
  }

  /** `StringReporter(indent)`; the default indent is one tab. */
  function NewStringReporter(indent: string): (r: Report)
    ensures r.indent == Some(indent) && r.message == "" && r.subs == []
  {
    Report(Some(indent), "", [])
  }

  /** `r.write(text, append)`, with `text` already `str(message)`. */
  function Write(r: Report, text: string, append: bool): (w: Report)
    ensures w.indent == r.indent && w.subs == r.subs
    ensures append ==> w.message == r.message + text
    ensures !append ==> w.message == text
  {
    Report(r.indent, if append then r.message + text else text, r.subs)
  }

  /** What the reporter's factory makes: a reporter of the same kind (and,
      for a string reporter, the same indent) with nothing written. */
  function Fresh(r: Report): (c: Report)
    ensures c.indent == r.indent && c.message == "" && c.subs == []
  {
    Report(r.indent, "", [])
  }

  /** `child` becoming the last sub-report of `r`. Since `subreport()` hands
      out the child it appends, what is written to the child afterwards
      shows in the parent: the parent ends up holding the child as it is
      last left. */
  function Adopt(r: Report, child: Report): (w: Report)
    ensures w.indent == r.indent && w.message == r.message
    ensures w.subs == r.subs + [child]
  {
    Report(r.indent, r.message, r.subs + [child])
  }

  /** `r.subreport()`: one new, empty child after the existing ones. */
  function Subreport(r: Report): (w: Report)
    ensures w.indent == r.indent && w.message == r.message
    ensures |w.subs| == |r.subs| + 1 && w.subs[..|r.subs|] == r.subs
    ensures w.subs[|r.subs|] == Fresh(r)
  {
    Adopt(r, Fresh(r))
  }

  /** `out` is `r` with possibly more sub-reports after the existing ones. */
  predicate Extends(out: Report, r: Report)
  {
    out.indent == r.indent && out.message == r.message &&
    |out.subs| >= |r.subs| && out.subs[..|r.subs|] == r.subs
  }

  lemma ExtendsByAdopting(r: Report, child: Report)
    ensures Extends(Adopt(r, child), r) && |Adopt(r, child).subs| == |r.subs| + 1
  {
  }

  lemma ExtendsKeeps(out: Report, r: Report, k: nat)
    requires Extends(out, r) && k < |r.subs|
    ensures out.subs[k] == r.subs[k]
  {
    assert out.subs[..|r.subs|][k] == out.subs[k];
  }

  lemma ExtendsTransitive(a: Report, b: Report, c: Report)
    requires Extends(a, b) && Extends(b, c)
    ensures Extends(a, c)
  {
    assert a.subs[..|c.subs|] == a.subs[..|b.subs|][..|c.subs|];
  }

  /** Every reporter in the tree was made by its parent's factory. */
  predicate Uniform(r: Report)
    decreases r
  {
    forall i :: 0 <= i < |r.subs| ==> r.subs[i].indent == r.indent && Uniform(r.subs[i])
  }

  /** The number of reporters in the tree. */
  function Size(r: Report): nat
    decreases r
  {
    1 + SizeAll(r.subs)
  }

  function SizeAll(rs: seq<Report>): nat
    decreases rs
  {
    if rs == [] then 0 else Size(rs[0]) + SizeAll(rs[1..])
  }

  /** `s * n`. */
  function Repeat(s: string, n: nat): (r: string)
    ensures |r| == |s| * n
  {
    if n == 0 then [] else s + Repeat(s, n - 1)
  }

  /** The line one reporter contributes at depth `depth`. */
  function Chunk(indent: string, depth: nat, message: string): string
  {
    Repeat(indent, depth) + message + "\n"
  }

  /** `r.export(writer, depth)`, as the list of strings handed to `writer`.
      The base class raises `NotImplementedError`. */
  function Export(r: Report, depth: nat): (out: Outcome<seq<string>>)
    ensures r.indent.None? ==> out == Throw(NotImplementedError)
    ensures out.Ok? ==> |out.value| >= 1 && out.value[0] == Chunk(r.indent.value, depth, r.message)
    decreases r
  {
    if r.indent.None? then Throw(NotImplementedError)
    else
      var rest :- ExportAll(r.subs, depth + 1);
      Ok([Chunk(r.indent.value, depth, r.message)] + rest)
  }

  function ExportAll(rs: seq<Report>, depth: nat): (out: Outcome<seq<string>>)
    decreases rs
  {
    if rs == [] then Ok([])
    else
      var first :- Export(rs[0], depth);
      var rest :- ExportAll(rs[1..], depth);
      Ok(first + rest)
  }

  /** `r.export_string()`: the exported chunks joined together. */
  function ExportString(r: Report): (out: Outcome<string>)
    ensures out.Ok? <==> Export(r, 0).Ok?
    ensures out.Ok? ==> out.value == PyText.Concat(Export(r, 0).value)
  {
    var chunks :- Export(r, 0);
    Ok(PyText.Concat(chunks))
  }

  // ---------------------------------------------------------------------
  // What the flattening promises

  /** A string reporter whose tree was built by its factories exports one
      chunk per reporter. */
  lemma {:induction false} ExportCovers(r: Report, depth: nat)
    requires Uniform(r) && r.indent.Some?
    ensures Export(r, depth).Ok? && |Export(r, depth).value| == Size(r)
    decreases r, 1
  {
    ExportAllCovers(r.subs, r.indent.value, depth + 1);
  }

  lemma {:induction false} ExportAllCovers(rs: seq<Report>, indent: string, depth: nat)
    requires forall i :: 0 <= i < |rs| ==> rs[i].indent == Some(indent) && Uniform(rs[i])
    ensures ExportAll(rs, depth).Ok? && |ExportAll(rs, depth).value| == SizeAll(rs)
    decreases rs, 0
  {
    if rs != [] {
      ExportCovers(rs[0], depth);
      assert forall i :: 0 <= i < |rs[1..]| ==> rs[1..][i] == rs[i + 1];
      ExportAllCovers(rs[1..], indent, depth);
    }
  }

  lemma {:induction false} ExportAllAppend(rs: seq<Report>, c: Report, depth: nat)
    requires ExportAll(rs, depth).Ok? && Export(c, depth).Ok?
    ensures ExportAll(rs + [c], depth) == Ok(ExportAll(rs, depth).value + Export(c, depth).value)
  {
    if rs == [] {
      assert rs + [c] == [c];
      assert [c][1..] == [];
      assert ExportAll([c][1..], depth) == Ok([]);
      assert Export(c, depth).value + [] == Export(c, depth).value;
      assert ExportAll(rs, depth).value + Export(c, depth).value == Export(c, depth).value;
    } else {
      assert (rs + [c])[0] == rs[0];
      assert (rs + [c])[1..] == rs[1..] + [c];
      ExportAllAppend(rs[1..], c, depth);
      var first := Export(rs[0], depth).value;
      var rest := ExportAll(rs[1..], depth).value;
      assert first + (rest + Export(c, depth).value) == (first + rest) + Export(c, depth).value;
    }
  }

  /** Writing changes the writer's own line and nothing else. */
  lemma WriteChangesOneChunk(r: Report, text: string, append: bool, depth: nat)
    requires r.indent.Some? && Export(r, depth).Ok?
    ensures var w := Write(r, text, append);
      Export(w, depth).Ok? &&
      Export(w, depth).value == Export(r, depth).value[0 := Chunk(r.indent.value, depth, w.message)]
  {
  }

  /** A new sub-report adds one line, at the end, one level deeper and
      empty. */
  lemma SubreportAddsChunk(r: Report, depth: nat)
    requires r.indent.Some? && Export(r, depth).Ok?
    ensures Export(Subreport(r), depth) == Ok(Export(r, depth).value + [Chunk(r.indent.value, depth + 1, "")])
  {
    var line := Chunk(r.indent.value, depth + 1, "");
    FreshExport(r, depth + 1);
    ExportAllAppend(r.subs, Fresh(r), depth + 1);
    var head := [Chunk(r.indent.value, depth, r.message)];
    var rest := ExportAll(r.subs, depth + 1).value;
    assert Export(Subreport(r), depth) == Ok(head + (rest + [line]));
    assert head + (rest + [line]) == (head + rest) + [line];
  }

  lemma FreshExport(r: Report, depth: nat)
    requires r.indent.Some?
    ensures Export(Fresh(r), depth) == Ok([Chunk(r.indent.value, depth, "")])
  {
    var line := Chunk(r.indent.value, depth, "");
    assert ExportAll(Fresh(r).subs, depth + 1) == Ok([]);
    assert [line] + [] == [line];
  }

  /** The factories keep a tree uniform. */
  lemma SubreportUniform(r: Report, child: Report)
    requires Uniform(r) && Uniform(child) && child.indent == r.indent
    ensures Uniform(Adopt(r, child)) && Uniform(Subreport(r))
  {
  }

  /** Example, two levels deep: the root's line, then its child's one tab in. */
  lemma ExportExample()
    ensures ExportString(Adopt(Report(Some("\t"), "root", []), Report(Some("\t"), "leaf", []))) == Ok("root\n\tleaf\n")
  {
    var leaf := Report(Some("\t"), "leaf", []);
    var root := Adopt(Report(Some("\t"), "root", []), leaf);
    assert [leaf][1..] == [];
    assert Repeat("\t", 1) == "\t" by { assert Repeat("\t", 0) == []; }
    assert Chunk("\t", 1, "leaf") == "\tleaf\n";
    assert ["\tleaf\n"] + [] == ["\tleaf\n"];
    assert Export(leaf, 1) == Ok(["\tleaf\n"]);
    assert ExportAll([leaf], 1) == Ok(["\tleaf\n"]) by {
      assert ExportAll([leaf][1..], 1) == Ok([]);
      assert ["\tleaf\n"] + [] == ["\tleaf\n"];
    }
    assert Chunk("\t", 0, "root") == "root\n" by { assert Repeat("\t", 0) == []; }
    assert root.subs == [leaf];
    assert ["root\n"] + ["\tleaf\n"] == ["root\n", "\tleaf\n"];
    assert Export(root, 0) == Ok(["root\n", "\tleaf\n"]);
    assert PyText.Concat(["root\n", "\tleaf\n"]) == "root\n\tleaf\n" by {
      assert ["root\n", "\tleaf\n"][1..] == ["\tleaf\n"];
    }
  }
}

=== FILE: sessions.dfy ===
/** Sessions: one player's run through a framework. The newer session of
    `backbones/sessions.py` hands prepared positional and keyword arguments
    to the framework's `resume_session`; the older one of
    `backbone/session.py` hands a single response to `progress_session`.
    Both remember the last public data and, once the framework raises
    `StopIteration(summary)`, the summary, after which the session is over. */
module Sessions {
  import opened Outcomes
  import opened PyValues
  import Phases
  import Assembled

  /** Positional and keyword arguments of a call. */
  datatype Arguments = Arguments(positional: seq<Value>, keywords: map<string, Value>)

  const NoArguments := Arguments([], map[])

  /** The framework's `resume_session(session, *args, **kwargs)`: on the
      framework's attributes of the session (`U`), a step. */
  type Resume<!U, O> = (U, Arguments) -> (U, Phases.Step<O>)

  /** The newer session. `public` and `summary` stand for `_public` and
      `_summary`, absent until set. */
  datatype Session<U, O> = Session(attrs: U, prepared: Arguments, public: Option<O>, summary: Option<O>)

  predicate HasStarted<U, O>(s: Session<U, O>)
  {
    s.public.Some?
  }

  predicate HasFinished<U, O>(s: Session<U, O>)
  {
    s.summary.Some?
  }

  /** `Session(framework)`: nothing prepared, neither started nor finished. */
  function NewSession<U, O>(attrs: U): (s: Session<U, O>)
    ensures !HasStarted(s) && !HasFinished(s) && s.prepared == NoArguments && s.attrs == attrs
  {
    Session(attrs, NoArguments, None, None)
  }

  /** `public_data`. */
  function PublicData<U, O>(s: Session<U, O>): (r: Outcome<O>)
    ensures r.Ok? <==> HasStarted(s)
    ensures r.Ok? ==> Some(r.value) == s.public
    ensures r.Raise? ==> r == Throw(AttributeError)
  {
    if HasStarted(s) then Ok(s.public.value) else Throw(AttributeError)
  }

  /** `summary_data`. */
  function SummaryData<U, O>(s: Session<U, O>): (r: Outcome<O>)
    ensures r.Ok? <==> HasFinished(s)
    ensures r.Ok? ==> Some(r.value) == s.summary
    ensures r.Raise? ==> r == Throw(AttributeError)
  {
    if HasFinished(s) then Ok(s.summary.value) else Throw(AttributeError)
  }

  /** `_resume()`: a finished session raises `StopIteration(summary)` again
      without calling the framework; otherwise the framework runs on the
      prepared arguments, which are cleared however it ends. Its result
      becomes the public data; its `StopIteration` value becomes both the
      public data and the summary. */
  function ResumeSession<U, O>(s: Session<U, O>, resume: Resume<U, O>): (r: (Session<U, O>, Phases.Step<O>))
    ensures HasFinished(s) ==> r == (s, Phases.Done(s.summary.value))
    ensures !HasFinished(s) ==>
      r.0.prepared == NoArguments && r.0.attrs == resume(s.attrs, s.prepared).0 && r.1 == resume(s.attrs, s.prepared).1
    ensures r.1.Done? ==> r.0.summary == Some(r.1.summary) && (!HasFinished(s) ==> r.0.public == r.0.summary)
    ensures r.1.Yield? ==> r.0.public == Some(r.1.result) && r.0.summary == s.summary
    ensures r.1.Failed? ==> r == (s.(attrs := r.0.attrs, prepared := NoArguments), r.1)
  {
    if HasFinished(s) then (s, Phases.Done(s.summary.value))
    else
      var (after, step) := resume(s.attrs, s.prepared);
      match step
      case Yield(p) => (Session(after, NoArguments, Some(p), s.summary), step)
      case Done(v) => (Session(after, NoArguments, Some(v), Some(v)), step)
      case Failed(_) => (Session(after, NoArguments, s.public, s.summary), step)
  }

  /** `prepare(*args, **kwargs)`. */
  function Prepare<U, O>(s: Session<U, O>, args: Arguments): (r: Session<U, O>)
    ensures r.prepared == args && r.attrs == s.attrs && r.public == s.public && r.summary == s.summary
  {
    s.(prepared := args)
  }

  /** `submit(*args, **kwargs)`: prepare, then resume. */
  function Submit<U, O>(s: Session<U, O>, args: Arguments, resume: Resume<U, O>): (r: (Session<U, O>, Phases.Step<O>))
    ensures !HasFinished(s) ==> r.1 == resume(s.attrs, args).1 && r.0.attrs == resume(s.attrs, args).0
    ensures HasFinished(s) ==> r == (s.(prepared := args), Phases.Done(s.summary.value))
  {
    ResumeSession(Prepare(s, args), resume)
  }

  /** A summary is always the last public data: finishing implies having
      started. */
  ghost predicate Consistent<U, O>(s: Session<U, O>)
  {
    HasFinished(s) ==> s.public == s.summary
  }

  lemma ConsistentThroughout<U, O>(s: Session<U, O>, args: Arguments, resume: Resume<U, O>, attrs: U)
    requires Consistent(s)
    ensures Consistent(NewSession<U, O>(attrs))
    ensures Consistent(Prepare(s, args))
    ensures Consistent(ResumeSession(s, resume).0)
    ensures Consistent(Submit(s, args, resume).0)
    ensures HasFinished(s) ==> HasStarted(s)
  {
  }

  /** Submissions in a row. */
  function RunSession<U, O>(s: Session<U, O>, submissions: seq<Arguments>, resume: Resume<U, O>): (r: (Session<U, O>, seq<Phases.Step<O>>))
    ensures |r.1| == |submissions|
    decreases |submissions|
  {
    if submissions == [] then (s, [])
    else
      var (next, step) := Submit(s, submissions[0], resume);
      var (last, steps) := RunSession(next, submissions[1..], resume);
      (last, [step] + steps)
  }

  /** Once a session is over it stays over: every later submission raises
      `StopIteration` with the same summary and the framework is not called
      again. */
  lemma {:induction false} FinishedIsFinal<U, O>(s: Session<U, O>, submissions: seq<Arguments>, resume: Resume<U, O>)
    requires HasFinished(s)
    ensures var (last, steps) := RunSession(s, submissions, resume);
      last.attrs == s.attrs && last.public == s.public && last.summary == s.summary &&
      forall j :: 0 <= j < |steps| ==> steps[j] == Phases.Done(s.summary.value)
    decreases |submissions|
  {
    if submissions != [] {
      var (next, step) := Submit(s, submissions[0], resume);
      FinishedIsFinal(next, submissions[1..], resume);
      var (last, steps) := RunSession(next, submissions[1..], resume);
      assert forall j :: 1 <= j < |[step] + steps| ==> ([step] + steps)[j] == steps[j - 1];
    }
  }

  /** A session driven by a stage sequence (`backbones/phases.py`): the
      stage counter is one of the session's attributes. */
  function StagedResume<U, O>(methods: seq<Phases.Method<U, Arguments, Value, O>>): Resume<(Option<int>, U), O>
  {
    (attrs: (Option<int>, U), args: Arguments) =>
      var c := Phases.CallStages(Phases.PhasesModule, methods, attrs.0, attrs.1, args);
      ((c.stored, c.session), c.step)
  }

  /** With `n` stages that always advance, a fresh session yields the public
      data of `n - 1` submissions and finishes on the `n`-th, whose result is
      the summary. */
  lemma StagedSessionFinishes<U(!new), O>(methods: seq<Phases.Method<U, Arguments, Value, O>>, attrs: U,
                                          submissions: seq<Arguments>)
    requires Phases.AlwaysAdvances(methods) && |methods| > 0 && |submissions| == |methods|
    ensures var (last, steps) := RunSession(NewSession<(Option<int>, U), O>((None, attrs)), submissions, StagedResume(methods));
      HasFinished(last) && last.attrs.0 == Some(|methods|) && steps[|steps| - 1] == Phases.Done(last.summary.value) &&
      forall j :: 0 <= j < |steps| - 1 ==> steps[j].Yield?
  {
    StagedRun(methods, 0, NewSession<(Option<int>, U), O>((None, attrs)), submissions);
  }

  lemma {:induction false} StagedRun<U(!new), O>(methods: seq<Phases.Method<U, Arguments, Value, O>>, c: nat,
                                                 s: Session<(Option<int>, U), O>, submissions: seq<Arguments>)
    requires Phases.AlwaysAdvances(methods) && c < |methods| && |submissions| == |methods| - c
    requires !HasFinished(s) && Phases.CounterOf(s.attrs.0) == c
    ensures var (last, steps) := RunSession(s, submissions, StagedResume(methods));
      HasFinished(last) && last.attrs.0 == Some(|methods|) && steps[|steps| - 1] == Phases.Done(last.summary.value) &&
      forall j :: 0 <= j < |steps| - 1 ==> steps[j].Yield?
    decreases |methods| - c
  {
    var resume := StagedResume(methods);
    var args := submissions[0];
    assert methods[c](s.attrs.1, args).1.Returned? && Truthy(methods[c](s.attrs.1, args).1.tag);
    var (next, step) := Submit(s, args, resume);
    assert next.attrs.0 == Some(c + 1);
    if c + 1 < |methods| {
      assert step.Yield? && !HasFinished(next);
      StagedRun(methods, c + 1, next, submissions[1..]);
      var (last, steps) := RunSession(next, submissions[1..], resume);
      assert forall j :: 1 <= j < |[step] + steps| ==> ([step] + steps)[j] == steps[j - 1];
    } else {
      assert step.Done? && HasFinished(next);
      assert submissions[1..] == [];
    }
  }

  // ---------------------------------------------------------------------
  // The older session

  /** How the older session calls `progress_session`: as written it passes
      the response as one positional argument; the evident intent is to
      pass its items as keyword arguments (no response meaning none). */
  datatype OldCall = Positional(response: Option<map<string, Value>>) | Keywords(keywords: map<string, Value>)

  type Progress<!U, O> = (U, OldCall) -> (U, Phases.Step<O>)

  /** The older session: `_prepared` is one response, `None` at first. */
  datatype OldSession<U, O> = OldSession(attrs: U, prepared: Option<map<string, Value>>, public: Option<O>, summary: Option<O>)

  function NewOldSession<U, O>(attrs: U): (s: OldSession<U, O>)
    ensures s.prepared.None? && s.public.None? && s.summary.None? && s.attrs == attrs
  {
    OldSession(attrs, None, None, None)
  }

  /** `submit(response)` on a given call convention: a finished session
      raises `StopIteration(summary)` again; otherwise the prepared
      response is cleared before the framework runs. */
  function OldSubmitWith<U, O>(s: OldSession<U, O>, call: OldCall, progress: Progress<U, O>): (r: (OldSession<U, O>, Phases.Step<O>))
    ensures s.summary.Some? ==> r == (s, Phases.Done(s.summary.value))
    ensures s.summary.None? ==>
      r.0.prepared.None? && r.0.attrs == progress(s.attrs, call).0 && r.1 == progress(s.attrs, call).1
    ensures r.1.Done? ==> r.0.summary == Some(r.1.summary) && (s.summary.None? ==> r.0.public == r.0.summary)
    ensures r.1.Yield? ==> r.0.public == Some(r.1.result) && r.0.summary == s.summary
    ensures r.1.Failed? ==> r.0.public == s.public && r.0.summary == s.summary
  {
    if s.summary.Some? then (s, Phases.Done(s.summary.value))
    else
      var (after, step) := progress(s.attrs, call);
      match step
      case Yield(p) => (OldSession(after, None, Some(p), s.summary), step)
      case Done(v) => (OldSession(after, None, Some(v), Some(v)), step)
      case Failed(_) => (OldSession(after, None, s.public, s.summary), step)
  }

  /** `submit(response)` as written: `progress_session(self, response)`. */
  function OldSubmitAsWritten<U, O>(s: OldSession<U, O>, response: Option<map<string, Value>>, progress: Progress<U, O>): (r: (OldSession<U, O>, Phases.Step<O>))
    ensures s.summary.None? ==> r.1 == progress(s.attrs, Positional(response)).1
  {
    OldSubmitWith(s, Positional(response), progress)
  }

  /** `submit(response)` as evidently intended: the response's items are
      the keyword arguments of `progress_session`. */
  function OldSubmit<U, O>(s: OldSession<U, O>, response: Option<map<string, Value>>, progress: Progress<U, O>): (r: (OldSession<U, O>, Phases.Step<O>))
    ensures s.summary.None? ==> r.1 == progress(s.attrs, Keywords(if response.Some? then response.value else map[])).1
  {
    OldSubmitWith(s, Keywords(if response.Some? then response.value else map[]), progress)
  }

  /** `next(session)` as written: `submit(self._prepared)`, so the
      prepared response reaches `progress_session` positionally. */
  function OldNextAsWritten<U, O>(s: OldSession<U, O>, progress: Progress<U, O>): (r: (OldSession<U, O>, Phases.Step<O>))
    ensures s.summary.Some? ==> r == (s, Phases.Done(s.summary.value))
    ensures s.summary.None? ==> r.0.prepared.None?
    ensures s.summary.None? ==> r.1 == progress(s.attrs, Positional(s.prepared)).1
  {
    OldSubmitAsWritten(s, s.prepared, progress)
  }

  /** `next(session)` as evidently intended: submit the prepared response
      through the corrected `submit`. */
  function OldNext<U, O>(s: OldSession<U, O>, progress: Progress<U, O>): (r: (OldSession<U, O>, Phases.Step<O>))
    ensures s.summary.Some? ==> r == (s, Phases.Done(s.summary.value))
    ensures s.summary.None? ==> r.0.prepared.None?
    ensures s.summary.None? ==> r.1 == progress(s.attrs, Keywords(if s.prepared.Some? then s.prepared.value else map[])).1
  {
    OldSubmit(s, s.prepared, progress)
  }

  /** `prepare(response)` followed by `next(session)` steps exactly like
      `submit(response)`, and on an unfinished session leaves the same
      session behind. */
  lemma PrepareThenNext<U, O>(s: OldSession<U, O>, response: Option<map<string, Value>>, progress: Progress<U, O>)
    ensures OldNext(OldPrepare(s, response), progress).1 == OldSubmit(s, response, progress).1
    ensures s.summary.None? ==> OldNext(OldPrepare(s, response), progress) == OldSubmit(s, response, progress)
  {
  }

  /** The docstring's promise holds for the code as written too: `prepare`
      then `next` is `submit`, positional call and all. */
  lemma PrepareThenNextAsWritten<U, O>(s: OldSession<U, O>, response: Option<map<string, Value>>, progress: Progress<U, O>)
    ensures OldNextAsWritten(OldPrepare(s, response), progress).1 == OldSubmitAsWritten(s, response, progress).1
    ensures s.summary.None? ==> OldNextAsWritten(OldPrepare(s, response), progress) == OldSubmitAsWritten(s, response, progress)
  {
  }

  /** `prepare(response)`: keep one response for the next `next`. */
  function OldPrepare<U, O>(s: OldSession<U, O>, response: Option<map<string, Value>>): (r: OldSession<U, O>)
    ensures r.prepared == response && r.attrs == s.attrs && r.public == s.public && r.summary == s.summary
  {
    s.(prepared := response)
  }

  /** `public_data` as written: the error is raised `from e` with no `e` in
      scope, so `NameError` comes out instead of `AttributeError`. */
  function OldPublicDataAsWritten<U, O>(s: OldSession<U, O>): (r: Outcome<O>)
    ensures r.Ok? <==> s.public.Some?
    ensures r.Ok? ==> Some(r.value) == s.public
    ensures r.Raise? ==> r == Throw(NameError)
  {
    if s.public.Some? then Ok(s.public.value) else Throw(NameError)
  }

  function OldSummaryDataAsWritten<U, O>(s: OldSession<U, O>): (r: Outcome<O>)
    ensures r.Ok? <==> s.summary.Some?
    ensures r.Ok? ==> Some(r.value) == s.summary
    ensures r.Raise? ==> r == Throw(NameError)
  {
    if s.summary.Some? then Ok(s.summary.value) else Throw(NameError)
  }

  /** `public_data` and `summary_data` as evidently intended, raising
      `AttributeError` like the newer session. */
  function OldPublicData<U, O>(s: OldSession<U, O>): (r: Outcome<O>)
    ensures r.Ok? <==> s.public.Some?
    ensures r.Ok? ==> Some(r.value) == s.public
    ensures r.Raise? ==> r == Throw(AttributeError)
  {
    if s.public.Some? then Ok(s.public.value) else Throw(AttributeError)
  }

  function OldSummaryData<U, O>(s: OldSession<U, O>): (r: Outcome<O>)
    ensures r.Ok? <==> s.summary.Some?
    ensures r.Ok? ==> Some(r.value) == s.summary
    ensures r.Raise? ==> r == Throw(AttributeError)
  {
    if s.summary.Some? then Ok(s.summary.value) else Throw(AttributeError)
  }

  /** Before the first step the written accessors raise `NameError` where
      the newer session raises `AttributeError`; after it, all agree. */
  lemma AccessorFinding<U, O>(attrs: U, s: OldSession<U, O>)
    ensures OldPublicDataAsWritten(NewOldSession<U, O>(attrs)) == Throw(NameError)
    ensures OldSummaryDataAsWritten(NewOldSession<U, O>(attrs)) == Throw(NameError)
    ensures OldPublicData(NewOldSession<U, O>(attrs)) == PublicData(NewSession<U, O>(attrs))
    ensures OldSummaryData(NewOldSession<U, O>(attrs)) == SummaryData(NewSession<U, O>(attrs))
    ensures s.public.Some? ==> OldPublicDataAsWritten(s) == OldPublicData(s)
    ensures s.summary.Some? ==> OldSummaryDataAsWritten(s) == OldSummaryData(s)
  {
  }

  /** The corrected older session steps like the newer one when the
      framework answers a keyword response alike through both entry
      points. */
  lemma OldAgreesWithNew<U, O>(prior: OldSession<U, O>, s: Session<U, O>, response: map<string, Value>,
                               progress: Progress<U, O>, resume: Resume<U, O>)
    requires prior.attrs == s.attrs && prior.public == s.public && prior.summary == s.summary
    requires progress(s.attrs, Keywords(response)) == resume(s.attrs, Arguments([], response))
    ensures var (o2, ostep) := OldSubmit(prior, Some(response), progress);
      var (n2, nstep) := Submit(s, Arguments([], response), resume);
      ostep == nstep && o2.attrs == n2.attrs && o2.public == n2.public && o2.summary == n2.summary
  {
  }

  // ---------------------------------------------------------------------
  // The multiple-choice framework in a session

  /** Binding `progress_session(session, *, choose=None)`: no further
      positional argument, and no keyword but `choose`. */
  function BindChoose(call: OldCall): (r: Outcome<Value>)
    ensures call.Positional? ==> r == Throw(TypeError)
    ensures call.Keywords? ==> (r.Ok? <==> call.keywords.Keys <= {"choose"})
    ensures call.Keywords? && "choose" in call.keywords && r.Ok? ==> r.value == call.keywords["choose"]
    ensures call.Keywords? && "choose" !in call.keywords && r.Ok? ==> r.value == VNone
  {
    match call
    case Positional(_) => Throw(TypeError)
    case Keywords(k) =>
      if !(k.Keys <= {"choose"}) then Throw(TypeError)
      else Ok(if "choose" in k then k["choose"] else VNone)
  }

  /** `framework.progress_session` of a built multiple-choice framework:
      the verdict is the session's summary. */
  function ChoiceProgress(question: Value, choices: Value, answer: int, score: int): Progress<Assembled.ChoiceSession, Assembled.ChoiceStep>
  {
    (st: Assembled.ChoiceSession, call: OldCall) =>
      match BindChoose(call)
      case Raise(e) => (st, Phases.Failed(e))
      case Ok(choose) =>
        var (after, out) := Assembled.ProgressSession(question, choices, answer, score, st, choose);
        (after, if out.Finished? then Phases.Done(out) else Phases.Yield(out))
  }

  /** As written the older session can never run the multiple-choice
      framework: every `submit`, and every `next` (a `for` loop over it),
      raises `TypeError` and the session never starts. */
  lemma ChoicesNeverStartAsWritten(question: Value, choices: Value, answer: int, score: int,
                                   s: OldSession<Assembled.ChoiceSession, Assembled.ChoiceStep>,
                                   response: Option<map<string, Value>>)
    requires s.summary.None?
    ensures var (after, step) := OldSubmitAsWritten(s, response, ChoiceProgress(question, choices, answer, score));
      step == Phases.Failed(Error(TypeError, Plain)) && after.attrs == s.attrs && after.public == s.public
    ensures var (after, step) := OldNextAsWritten(s, ChoiceProgress(question, choices, answer, score));
      step == Phases.Failed(Error(TypeError, Plain)) && after.attrs == s.attrs && after.public == s.public
  {
    var progress := ChoiceProgress(question, choices, answer, score);
    assert BindChoose(Positional(response)) == Throw(TypeError);
    assert progress(s.attrs, Positional(response)) == (s.attrs, Phases.Failed(Error(TypeError, Plain)));
    assert BindChoose(Positional(s.prepared)) == Throw(TypeError);
    assert progress(s.attrs, Positional(s.prepared)) == (s.attrs, Phases.Failed(Error(TypeError, Plain)));
  }

  /** With the response passed as keywords, a fresh session shows the
      question on `next`, judges the submitted choice, and then stays over. */
  lemma ChoicesPlayWhenCorrected(question: Value, choices: Value, answer: int, score: int, choice: int,
                                 later: Option<map<string, Value>>)
    ensures var progress := ChoiceProgress(question, choices, answer, score);
      var (s1, first) := OldNext(NewOldSession(Assembled.ChoiceSession(None, None)), progress);
      var (s2, second) := OldSubmit(s1, Some(map["choose" := VInt(choice)]), progress);
      var (s3, third) := OldSubmit(s2, later, progress);
      first == Phases.Yield(Assembled.Shown(question, choices)) &&
      second == Phases.Done(Assembled.Finished(choice == answer, if choice == answer then score else 0)) &&
      OldSummaryData(s2) == Ok(Assembled.Finished(choice == answer, if choice == answer then score else 0)) &&
      third == second && s3 == s2
  {
    var progress := ChoiceProgress(question, choices, answer, score);
    var st0 := Assembled.ChoiceSession(None, None);
    var shown := Assembled.Shown(question, choices);
    assert BindChoose(Keywords(map[])) == Ok(VNone);
    assert progress(st0, Keywords(map[])) == (st0.(stage := Some(0)), Phases.Yield(shown));
    var (s1, first) := OldNext(NewOldSession(st0), progress);
    assert s1 == OldSession(st0.(stage := Some(0)), None, Some(shown), None);
    var k := map["choose" := VInt(choice)];
    assert k.Keys == {"choose"};
    assert BindChoose(Keywords(k)) == Ok(VInt(choice));
    var verdict := Assembled.Finished(choice == answer, if choice == answer then score else 0);
    assert EqualsInt(VInt(choice), answer) == (choice == answer);
    assert progress(s1.attrs, Keywords(k)) == (Assembled.ChoiceSession(Some(1), Some(VInt(choice))), Phases.Done(verdict));
    var (s2, second) := OldSubmit(s1, Some(k), progress);
    assert s2.summary == Some(verdict);
  }
}

=== FILE: testcases.dfy ===
/** The tree-shaped test cases of `core/testcase.py`: a test case scores a
    constant, or combines the scores of its expressions with an operator.
    There is no memo: every occurrence of a sub-case is scored again. */
module TestCases {
  import opened Outcomes
  import opened Ops

  /** An expression that is not a test case is passed to the operator as it
      is: an integer, or a value no operator accepts (`Foreign`, such as a
      list handed to `max` beside other arguments). */
  datatype Plain = Int(n: int) | Foreign

  datatype Case =
    | BaseCase                                   // `BaseTestCase`
    | SimpleCase(value: int)                     // `SimpleTestCase(value)`
    | CaseOperation(op: Op, exprs: seq<Atom>)    // `TestCaseOperation(op, *exprs)`

  datatype Atom = CaseAtom(c: Case) | PlainAtom(p: Plain)

  /** The `name` attribute: the class attribute `''`, or `op.__name__`. */
  function Name(c: Case): string
  {
    if c.CaseOperation? then OpName(c.op) else ""
  }

  predicate AllInt(ps: seq<Plain>)
  {
    forall i :: 0 <= i < |ps| ==> ps[i].Int?
  }

  function IntsOf(ps: seq<Plain>): (xs: seq<int>)
    requires AllInt(ps)
    ensures |xs| == |ps| && forall i :: 0 <= i < |xs| ==> ps[i] == Int(xs[i])
  {
    if ps == [] then [] else [ps[0].n] + IntsOf(ps[1..])
  }

  /** `op(*values)`: a foreign value among the arguments makes it raise
      `TypeError`. */
  function ApplyPlain(op: Op, ps: seq<Plain>): (r: Outcome<int>)
    ensures !AllInt(ps) ==> r == Throw(TypeError)
    ensures AllInt(ps) ==> r == Apply(op, IntsOf(ps))
  {
    if AllInt(ps) then Apply(op, IntsOf(ps)) else Throw(TypeError)
  }

  /** What scoring does: the result, and the test cases whose `get_score`
      ran, in call order. */
  datatype Run = Run(result: Outcome<int>, visited: seq<Case>)
  datatype AtomRun = AtomRun(result: Outcome<Plain>, visited: seq<Case>)
  datatype AtomsRun = AtomsRun(result: Outcome<seq<Plain>>, visited: seq<Case>)

  /** `c.get_score()`. */
  function Score(c: Case): (r: Run)
    ensures |r.visited| >= 1 && r.visited[0] == c
    ensures c.BaseCase? ==> r.result == Ok(0)
    ensures c.SimpleCase? ==> r.result == Ok(c.value)
    decreases c
  {
    match c
    case BaseCase => Run(Ok(0), [c])
    case SimpleCase(v) => Run(Ok(v), [c])
    case CaseOperation(op, exprs) =>
      var args := ScoreAtoms(exprs);
      Run(if args.result.Ok? then ApplyPlain(op, args.result.value) else Raise(args.result.error), [c] + args.visited)
  }

  /** One element of the list comprehension in `get_score`: a test case is
      scored, anything else is passed through unchanged. */
  function ScoreAtom(a: Atom): (r: AtomRun)
    ensures a.PlainAtom? ==> r.result == Ok(a.p) && r.visited == []
    ensures a.CaseAtom? ==> r.visited == Score(a.c).visited
    ensures a.CaseAtom? ==> (r.result.Ok? <==> Score(a.c).result.Ok?)
    ensures a.CaseAtom? && r.result.Ok? ==> r.result.value == Int(Score(a.c).result.value)
    ensures a.CaseAtom? && r.result.Raise? ==> r.result.error == Score(a.c).result.error
    decreases a
  {
    match a
    case PlainAtom(p) => AtomRun(Ok(p), [])
    case CaseAtom(c) =>
      var s := Score(c);
      AtomRun(if s.result.Ok? then Ok(Int(s.result.value)) else Raise(s.result.error), s.visited)
  }

  /** The whole comprehension: left to right, stopping at the first error. */
  function ScoreAtoms(atoms: seq<Atom>): (r: AtomsRun)
    ensures r.result.Ok? ==> |r.result.value| == |atoms|
    ensures r.result.Ok? ==> forall i :: 0 <= i < |atoms| ==> ScoreAtom(atoms[i]).result == Ok(r.result.value[i])
    ensures r.result.Raise? ==>
      exists i :: 0 <= i < |atoms| && ScoreAtom(atoms[i]).result == Raise(r.result.error)
    decreases atoms
  {
    if atoms == [] then AtomsRun(Ok([]), [])
    else
      var first := ScoreAtom(atoms[0]);
      if first.result.Raise? then AtomsRun(Raise(first.result.error), first.visited)
      else
        var rest := ScoreAtoms(atoms[1..]);
        if rest.result.Raise? then
          assert exists i :: 0 <= i < |atoms[1..]| && ScoreAtom(atoms[1..][i]).result == Raise(rest.result.error);
          AtomsRun(Raise(rest.result.error), first.visited + rest.visited)
        else
          AtomsRun(Ok([first.result.value] + rest.result.value), first.visited + rest.visited)
  }

  /** The integer each atom scores. */
  predicate ScoresTo(atoms: seq<Atom>, xs: seq<int>)
  {
    |atoms| == |xs| && forall i :: 0 <= i < |atoms| ==> ScoreAtom(atoms[i]).result == Ok(Int(xs[i]))
  }

  /** An operation scores `op` over its expressions' scores, in order. */
  lemma OperationScore(op: Op, atoms: seq<Atom>, xs: seq<int>)
    requires ScoresTo(atoms, xs)
    ensures Score(CaseOperation(op, atoms)).result == Apply(op, xs)
  {
    var r := ScoreAtoms(atoms);
    assert r.result.Ok?;
    assert IntsOf(r.result.value) == xs;
  }

  /** The first error an expression raises is the error of the whole. */
  lemma OperationPropagates(op: Op, atoms: seq<Atom>, i: nat)
    requires i < |atoms| && ScoreAtom(atoms[i]).result.Raise?
    requires forall j :: 0 <= j < i ==> ScoreAtom(atoms[j]).result.Ok?
    ensures Score(CaseOperation(op, atoms)).result == Raise(ScoreAtom(atoms[i]).result.error)
  {
    ScoreAtomsStops(atoms, i);
  }

  lemma {:induction false} ScoreAtomsStops(atoms: seq<Atom>, i: nat)
    requires i < |atoms| && ScoreAtom(atoms[i]).result.Raise?
    requires forall j :: 0 <= j < i ==> ScoreAtom(atoms[j]).result.Ok?
    ensures ScoreAtoms(atoms).result == Raise(ScoreAtom(atoms[i]).result.error)
  {
    if i > 0 {
      forall j | 0 <= j < i - 1 ensures ScoreAtom(atoms[1..][j]).result.Ok? {
        assert atoms[1..][j] == atoms[j + 1];
      }
      assert atoms[1..][i - 1] == atoms[i];
      ScoreAtomsStops(atoms[1..], i - 1);
    }
  }

  // ---------------------------------------------------------------------
  // Builders

  /** `self <op> other`: the test case first. */
  function Forward(op: Op, self: Case, other: Atom): (c: Case)
    ensures c.CaseOperation? && c.op == op && |c.exprs| == 2
    ensures c.exprs[0] == CaseAtom(self) && c.exprs[1] == other
  {
    CaseOperation(op, [CaseAtom(self), other])
  }

  /** `other <op> self`, through the reflected method: the other operand
      first. */
  function Reflected(op: Op, self: Case, other: Atom): (c: Case)
    ensures c.CaseOperation? && c.op == op && |c.exprs| == 2
    ensures c.exprs[0] == other && c.exprs[1] == CaseAtom(self)
  {
    CaseOperation(op, [other, CaseAtom(self)])
  }

  /** `-self`, `+self`, `abs(self)`. */
  function Unary(op: Op, self: Case): (c: Case)
    requires IsUnary(op)
    ensures c.CaseOperation? && c.op == op && c.exprs == [CaseAtom(self)]
  {
    CaseOperation(op, [CaseAtom(self)])
  }

  /** A two-operand operation scores `op` over its two operands' scores. */
  lemma PairScore(op: Op, a0: Atom, a1: Atom, x0: int, x1: int)
    requires ScoreAtom(a0).result == Ok(Int(x0)) && ScoreAtom(a1).result == Ok(Int(x1))
    ensures Score(CaseOperation(op, [a0, a1])).result == Apply(op, [x0, x1])
  {
    assert ScoresTo([a0, a1], [x0, x1]);
    OperationScore(op, [a0, a1], [x0, x1]);
  }

  /** `a - 3` puts the test case first and `3 - a` puts it second. */
  lemma ForwardAndReflected(a: Case, k: int, x: int)
    requires Score(a).result == Ok(x)
    ensures Score(Forward(Sub, a, PlainAtom(Int(k)))).result == Ok(x - k)
    ensures Score(Reflected(Sub, a, PlainAtom(Int(k)))).result == Ok(k - x)
  {
    assert ScoreAtom(CaseAtom(a)).result == Ok(Int(x));
    ForwardScore(a, k, x);
    ReflectedScore(a, k, x);
  }

  lemma ForwardScore(a: Case, k: int, x: int)
    requires ScoreAtom(CaseAtom(a)).result == Ok(Int(x))
    ensures Score(Forward(Sub, a, PlainAtom(Int(k)))).result == Ok(x - k)
  {
    PairScore(Sub, CaseAtom(a), PlainAtom(Int(k)), x, k);
    assert Forward(Sub, a, PlainAtom(Int(k))) == CaseOperation(Sub, [CaseAtom(a), PlainAtom(Int(k))]);
  }

  lemma ReflectedScore(a: Case, k: int, x: int)
    requires ScoreAtom(CaseAtom(a)).result == Ok(Int(x))
    ensures Score(Reflected(Sub, a, PlainAtom(Int(k)))).result == Ok(k - x)
  {
    PairScore(Sub, PlainAtom(Int(k)), CaseAtom(a), k, x);
    assert Reflected(Sub, a, PlainAtom(Int(k))) == CaseOperation(Sub, [PlainAtom(Int(k)), CaseAtom(a)]);
  }

  /** The first argument of `max(first, *rest)`: one expression, or an
      iterable of them to be spread out. */
  datatype First = One(atom: Atom) | Spread(atoms: seq<Atom>)

  /** `first` used as one argument: a spread list stays a list, which the
      builtins cannot compare with scores. */
  function AsArgument(first: First): Atom
  {
    if first.One? then first.atom else PlainAtom(Foreign)
  }

  /** `TestCaseOperation.max` (`largest`) and `.min` as written: with no
      `rest`, the builder spreads `first` into the builtin's arguments, and
      a `first` that is not iterable raises `TypeError`. */
  function ExtremeAsWritten(largest: bool, first: First, rest: seq<Atom>): (r: Outcome<Case>)
    ensures rest != [] ==> r == Ok(CaseOperation(if largest then Max else Min, [AsArgument(first)] + rest))
    ensures rest == [] && first.One? ==> r == Throw(TypeError)
    ensures rest == [] && first.Spread? ==> r == Ok(CaseOperation(if largest then Max else Min, first.atoms))
  {
    var op := if largest then Max else Min;
    if rest != [] then Ok(CaseOperation(op, [AsArgument(first)] + rest))
    else if first.Spread? then Ok(CaseOperation(op, first.atoms))
    else Throw(TypeError)
  }

  /** The same builders with a spread sequence reduced over as a whole, as
      the single-argument form evidently intends. */
  function Extreme(largest: bool, first: First, rest: seq<Atom>): (r: Outcome<Case>)
    ensures rest != [] ==> r == ExtremeAsWritten(largest, first, rest)
    ensures rest == [] && first.One? ==> r == Throw(TypeError)
    ensures rest == [] && first.Spread? ==> r == Ok(CaseOperation(if largest then MaxAll else MinAll, first.atoms))
  {
    if rest == [] && first.Spread? then Ok(CaseOperation(if largest then MaxAll else MinAll, first.atoms))
    else ExtremeAsWritten(largest, first, rest)
  }

  /** As written, `max` over a one-element sequence builds, but scoring it
      calls the builtin on a single integer, which raises `TypeError`; the
      corrected builder scores that element. */
  lemma ExtremeOfOneAsWritten(k: int)
    ensures ExtremeAsWritten(true, Spread([PlainAtom(Int(k))]), []).Ok?
    ensures Score(ExtremeAsWritten(true, Spread([PlainAtom(Int(k))]), []).value).result == Throw(TypeError)
    ensures Score(Extreme(true, Spread([PlainAtom(Int(k))]), []).value).result == Ok(k)
  {
    OperationScore(Max, [PlainAtom(Int(k))], [k]);
    OperationScore(MaxAll, [PlainAtom(Int(k))], [k]);
  }

  /** The corrected builders reduce over the whole sequence: the largest (or
      smallest) score when there is one, and `ValueError`, never 0, for an
      empty sequence. With two or more elements they agree with the
      builders as written. */
  lemma ExtremeReduces(largest: bool, atoms: seq<Atom>, xs: seq<int>)
    requires ScoresTo(atoms, xs)
    ensures Extreme(largest, Spread(atoms), []).Ok?
    ensures var r := Score(Extreme(largest, Spread(atoms), []).value).result;
      (xs == [] ==> r == Throw(ValueError)) &&
      (xs != [] ==> (r.Ok? && r.value in xs &&
                     forall i :: 0 <= i < |xs| ==> if largest then xs[i] <= r.value else r.value <= xs[i]))
    ensures |xs| >= 2 ==>
      Score(Extreme(largest, Spread(atoms), []).value).result ==
      Score(ExtremeAsWritten(largest, Spread(atoms), []).value).result
  {
    var all := if largest then MaxAll else MinAll;
    assert Extreme(largest, Spread(atoms), []) == Ok(CaseOperation(all, atoms));
    OperationScore(all, atoms, xs);
    ReducedExtreme(largest, xs);
    if |xs| >= 2 {
      var two := if largest then Max else Min;
      assert ExtremeAsWritten(largest, Spread(atoms), []) == Ok(CaseOperation(two, atoms));
      OperationScore(two, atoms, xs);
      SpreadExtreme(largest, xs);
    }
  }

  lemma ReducedExtreme(largest: bool, xs: seq<int>)
    ensures var r := Apply(if largest then MaxAll else MinAll, xs);
      (xs == [] ==> r == Throw(ValueError)) &&
      (xs != [] ==> (r.Ok? && r.value in xs &&
                     forall i :: 0 <= i < |xs| ==> if largest then xs[i] <= r.value else r.value <= xs[i]))
  {
  }

  lemma SpreadExtreme(largest: bool, xs: seq<int>)
    requires |xs| >= 2
    ensures Apply(if largest then MaxAll else MinAll, xs) == Apply(if largest then Max else Min, xs)
  {
  }

  /** `max(first, *rest)` with further arguments reduces over all of them. */
  lemma ExtremeOfSeveral(largest: bool, a: Atom, rest: seq<Atom>, xs: seq<int>)
    requires rest != [] && ScoresTo([a] + rest, xs)
    ensures var r := Score(Extreme(largest, One(a), rest).value).result;
      r.Ok? && r.value in xs && forall i :: 0 <= i < |xs| ==> if largest then xs[i] <= r.value else r.value <= xs[i]
  {
    OperationScore(if largest then Max else Min, [a] + rest, xs);
  }

  // ---------------------------------------------------------------------
  // No memo

  /** A sub-case used twice is scored twice: its `get_score` runs once for
      each occurrence. */
  lemma SharedCaseScoredTwice(op: Op, c: Case)
    requires Score(c).result.Ok?
    ensures var v := Score(CaseOperation(op, [CaseAtom(c), CaseAtom(c)])).visited;
      |v| == 1 + 2 * |Score(c).visited| && v[1] == c && v[1 + |Score(c).visited|] == c
  {
    var atoms := [CaseAtom(c), CaseAtom(c)];
    assert atoms[1..] == [CaseAtom(c)];
    assert atoms[1..][1..] == [];
    var v := Score(c).visited;
    assert ScoreAtoms([CaseAtom(c)]).visited == v + [];
    assert ScoreAtoms(atoms).visited == v + v;
  }
}

=== FILE: testtree.dfy ===
/** The older test structure of `core.bkup/testcase.py` (copied verbatim as
    `unused/core/testcase.py`): constants and operations over sub-tests,
    scored by plain structural recursion, each node writing one line into an
    optional reporter and each operation opening one sub-report per
    operand. */
module TestTree {
  import opened Outcomes
  import opened Ops
  import opened Reports
  import PyText

  /** A constant's value: an integer, or some other object (shown as
      `shown`) that the score operators reject. */
  datatype Constant = Number(n: int) | Other(shown: string)

  datatype Test =
    | BaseTest
    | TestConstant(value: Constant)
    | TestOperation(op: Op, name: string, exprs: seq<Test>)

  /** An operand as handed to a builder: a test, or a bare value. */
  datatype Arg = TestArg(test: Test) | ValueArg(value: Constant)

  /** `str(value)`. */
  function Shown(c: Constant): string
  {
    match c
    case Number(n) => PyText.IntToString(n)
    case Other(s) => s
  }

  /** A bare value is wrapped in `TestConstant`; a test is kept. */
  function Wrap(a: Arg): (t: Test)
    ensures a.TestArg? ==> t == a.test
    ensures a.ValueArg? ==> t == TestConstant(a.value)
  {
    match a
    case TestArg(t) => t
    case ValueArg(v) => TestConstant(v)
  }

  function WrapAll(args: seq<Arg>): (ts: seq<Test>)
    ensures |ts| == |args| && forall i :: 0 <= i < |args| ==> ts[i] == Wrap(args[i])
  {
    if args == [] then [] else [Wrap(args[0])] + WrapAll(args[1..])
  }

  /** `TestOperation(op, *args, name=name)`: the name defaults to
      `op.__name__`. */
  function MakeOperation(op: Op, args: seq<Arg>, name: Option<string>): (t: Test)
    ensures t.TestOperation? && t.op == op && |t.exprs| == |args|
    ensures forall i :: 0 <= i < |args| ==> t.exprs[i] == Wrap(args[i])
    ensures name.Some? ==> t.name == name.value
    ensures name.None? ==> t.name == OpName(op)
  {
    TestOperation(op, if name.Some? then name.value else OpName(op), WrapAll(args))
  }

  /** `self <op> other`: an operation named after the operator, the test
      first and the other operand, wrapped, second. */
  function Forward(op: Op, self: Test, other: Arg): (t: Test)
    ensures t == TestOperation(op, OpName(op), [self, Wrap(other)])
  {
    MakeOperation(op, [TestArg(self), other], None)
  }

  /** `other <op> self`, through the reflected method: the other operand,
      wrapped, first and the test second. */
  function Reflected(op: Op, self: Test, other: Arg): (t: Test)
    ensures t == TestOperation(op, OpName(op), [Wrap(other), self])
  {
    MakeOperation(op, [other, TestArg(self)], None)
  }

  /** `-self`, `+self` and `abs(self)`: an operation over the test
      alone. */
  function Unary(op: Op, self: Test): (t: Test)
    requires IsUnary(op)
    ensures t == TestOperation(op, OpName(op), [self])
  {
    MakeOperation(op, [TestArg(self)], None)
  }

  /** `op(*values)` on operand values: anything but integers is rejected. */
  function ApplyValues(op: Op, values: seq<Constant>): (r: Outcome<Constant>)
    ensures (exists i :: 0 <= i < |values| && values[i].Other?) ==> r == Throw(TypeError)
    ensures r.Ok? ==> r.value.Number?
  {
    if forall i :: 0 <= i < |values| ==> values[i].Number? then
      var xs := seq(|values|, i requires 0 <= i < |values| => values[i].n);
      match Apply(op, xs)
      case Ok(n) => Ok(Number(n))
      case Raise(e) => Raise(e)
    else Throw(TypeError)
  }

  /** The integers `values` holds, if it holds nothing else. */
  predicate AreNumbers(values: seq<Constant>, xs: seq<int>)
  {
    |values| == |xs| && forall i :: 0 <= i < |xs| ==> values[i] == Number(xs[i])
  }

  lemma ApplyNumbers(op: Op, values: seq<Constant>, xs: seq<int>)
    requires AreNumbers(values, xs)
    ensures ApplyValues(op, values) == match Apply(op, xs) case Ok(n) => Ok(Number(n)) case Raise(e) => Raise(e)
  {
    assert forall i :: 0 <= i < |values| ==> values[i].Number?;
    assert seq(|values|, i requires 0 <= i < |values| => values[i].n) == xs;
  }

  // ---------------------------------------------------------------------
  // Scoring, with and without a reporter

  datatype Eval = Eval(result: Outcome<Constant>, report: Option<Report>)
  datatype EvalAll = EvalAll(result: Outcome<seq<Constant>>, report: Option<Report>)

  /** `reporter.write(text)` when there is a reporter. */
  function Written(reporter: Option<Report>, text: string): (w: Option<Report>)
    ensures w.Some? <==> reporter.Some?
    ensures reporter.Some? ==> w.value == Write(reporter.value, text, false)
  {
    match reporter
    case None => None
    case Some(r) => Some(Write(r, text, false))
  }

  /** The reporter handed to an operand: `reporter.subreport()`'s new child,
      or `None`. */
  function ChildOf(reporter: Option<Report>): (c: Option<Report>)
    ensures c.Some? <==> reporter.Some?
    ensures reporter.Some? ==> c.value == Fresh(reporter.value)
  {
    match reporter
    case None => None
    case Some(r) => Some(Fresh(r))
  }

  /** The parent after the operand has written into its sub-report. */
  function AdoptChild(parent: Option<Report>, child: Option<Report>): Option<Report>
  {
    if parent.Some? && child.Some? then Some(Adopt(parent.value, child.value)) else parent
  }

  /** `t.evaluate(executable, check_script, reporter=reporter)`: the score,
      and the reporter as the evaluation leaves it. */
  function Evaluate(t: Test, reporter: Option<Report>): (e: Eval)
    ensures e.report.Some? <==> reporter.Some?
    ensures t.BaseTest? ==> e.result == Ok(Number(0)) && e.report == Written(reporter, "")
    ensures t.TestConstant? ==> e.result == Ok(t.value) && e.report == Written(reporter, Shown(t.value))
    ensures reporter.Some? ==> e.report.value.indent == reporter.value.indent
    ensures reporter.Some? && Uniform(reporter.value) ==> Uniform(e.report.value)
    ensures reporter.Some? && t.TestOperation? ==>
      e.report.value.message == "Operation \"" + t.name + "\"" &&
      Extends(e.report.value, Write(reporter.value, e.report.value.message, false))
    ensures reporter.Some? && t.TestOperation? && e.result.Ok? ==>
      |e.report.value.subs| == |reporter.value.subs| + |t.exprs|
    decreases t
  {
    match t
    case BaseTest => Eval(Ok(Number(0)), Written(reporter, ""))
    case TestConstant(v) => Eval(Ok(v), Written(reporter, Shown(v)))
    case TestOperation(op, name, exprs) =>
      var all := EvaluateAll(exprs, Written(reporter, "Operation \"" + name + "\""));
      match all.result
      case Raise(err) => Eval(Raise(err), all.report)
      case Ok(values) => Eval(ApplyValues(op, values), all.report)
  }

  /** The operands scored in order, each into its own new sub-report; the
      first failure stops the rest. */
  function EvaluateAll(exprs: seq<Test>, reporter: Option<Report>): (e: EvalAll)
    ensures e.report.Some? <==> reporter.Some?
    ensures e.result.Ok? ==> |e.result.value| == |exprs|
    ensures reporter.Some? ==> Extends(e.report.value, reporter.value)
    ensures reporter.Some? && Uniform(reporter.value) ==> Uniform(e.report.value)
    ensures reporter.Some? && e.result.Ok? ==> |e.report.value.subs| == |reporter.value.subs| + |exprs|
    ensures reporter.Some? && e.result.Raise? ==>
      |reporter.value.subs| < |e.report.value.subs| <= |reporter.value.subs| + |exprs|
    decreases exprs
  {
    if exprs == [] then EvalAll(Ok([]), reporter)
    else
      var first := Evaluate(exprs[0], ChildOf(reporter));
      var parent := AdoptChild(reporter, first.report);
      match first.result
      case Raise(err) => EvalAll(Raise(err), parent)
      case Ok(v) =>
        var rest := EvaluateAll(exprs[1..], parent);
        StepExtends(reporter, parent, rest.report);
        match rest.result
        case Raise(err) => EvalAll(Raise(err), rest.report)
        case Ok(vs) => EvalAll(Ok([v] + vs), rest.report)
  }

  /** The two steps of `EvaluateAll` compose. */
  lemma StepExtends(reporter: Option<Report>, parent: Option<Report>, out: Option<Report>)
    requires reporter.Some? ==>
      (parent.Some? && out.Some? && Extends(parent.value, reporter.value) && Extends(out.value, parent.value))
    ensures reporter.Some? ==> Extends(out.value, reporter.value)
  {
    if reporter.Some? {
      ExtendsTransitive(out.value, parent.value, reporter.value);
    }
  }

  /** The score of a test, without a reporter. */
  function ScoreOf(t: Test): Outcome<Constant>
  {
    Evaluate(t, None).result
  }

  // ---------------------------------------------------------------------
  // What scoring promises

  /** The reporter never changes the score. */
  lemma {:induction false} ScoreIgnoresReporter(t: Test, r: Report)
    ensures Evaluate(t, Some(r)).result == ScoreOf(t)
    decreases t, 1
  {
    match t
    case BaseTest =>
    case TestConstant(_) =>
    case TestOperation(op, name, exprs) =>
      AllIgnoresReporter(exprs, Write(r, "Operation \"" + name + "\"", false));
  }

  lemma {:induction false} AllIgnoresReporter(exprs: seq<Test>, r: Report)
    ensures EvaluateAll(exprs, Some(r)).result == EvaluateAll(exprs, None).result
    decreases exprs, 0
  {
    if exprs != [] {
      ScoreIgnoresReporter(exprs[0], Fresh(r));
      var first := Evaluate(exprs[0], Some(Fresh(r)));
      if first.result.Ok? {
        AllIgnoresReporter(exprs[1..], Adopt(r, first.report.value));
      }
    }
  }

  /** An operation scores its operator over its operands' scores, taken in
      order; the first operand to fail is the operation's failure. */
  lemma {:induction false} OperandsInOrder(exprs: seq<Test>)
    ensures EvaluateAll(exprs, None).result.Ok? <==> forall i :: 0 <= i < |exprs| ==> ScoreOf(exprs[i]).Ok?
    ensures EvaluateAll(exprs, None).result.Ok? ==>
      forall i :: 0 <= i < |exprs| ==> EvaluateAll(exprs, None).result.value[i] == ScoreOf(exprs[i]).value
    ensures EvaluateAll(exprs, None).result.Raise? ==>
      exists i :: 0 <= i < |exprs| && ScoreOf(exprs[i]) == Raise(EvaluateAll(exprs, None).result.error) &&
        forall j :: 0 <= j < i ==> ScoreOf(exprs[j]).Ok?
  {
    if exprs != [] {
      OperandsInOrder(exprs[1..]);
      var all := EvaluateAll(exprs, None);
      assert forall i :: 0 < i < |exprs| ==> exprs[1..][i - 1] == exprs[i];
      if ScoreOf(exprs[0]).Ok? && EvaluateAll(exprs[1..], None).result.Raise? {
        var k :| 0 <= k < |exprs[1..]| && ScoreOf(exprs[1..][k]) == Raise(EvaluateAll(exprs[1..], None).result.error) &&
          forall j :: 0 <= j < k ==> ScoreOf(exprs[1..][j]).Ok?;
        assert ScoreOf(exprs[k + 1]) == Raise(all.result.error);
        assert forall j :: 0 <= j < k + 1 ==> ScoreOf(exprs[j]).Ok? by {
          forall j | 0 < j < k + 1
            ensures ScoreOf(exprs[j]).Ok?
          {
            assert exprs[j] == exprs[1..][j - 1];
          }
        }
      }
    }
  }

  /** With every operand scoring an integer, the operation scores `op` over
      those integers. */
  lemma OperationScore(op: Op, name: string, exprs: seq<Test>, xs: seq<int>)
    requires |exprs| == |xs| && forall i :: 0 <= i < |exprs| ==> ScoreOf(exprs[i]) == Ok(Number(xs[i]))
    ensures ScoreOf(TestOperation(op, name, exprs)) ==
      match Apply(op, xs) case Ok(n) => Ok(Number(n)) case Raise(e) => Raise(e)
  {
    OperandsInOrder(exprs);
    ApplyNumbers(op, EvaluateAll(exprs, None).result.value, xs);
  }

  /** What each operand writes into a fresh reporter `c`. */
  function OperandReports(exprs: seq<Test>, c: Report): (rs: seq<Report>)
    ensures |rs| == |exprs|
  {
    if exprs == [] then [] else [Evaluate(exprs[0], Some(c)).report.value] + OperandReports(exprs[1..], c)
  }

  /** The new sub-reports are, in order, what each operand wrote into a
      fresh child of the reporter. */
  lemma {:induction false} SubreportsAreOperands(exprs: seq<Test>, r: Report)
    requires EvaluateAll(exprs, Some(r)).result.Ok?
    ensures EvaluateAll(exprs, Some(r)).report.value.subs == r.subs + OperandReports(exprs, Fresh(r))
    decreases exprs
  {
    if exprs == [] {
      assert r.subs + [] == r.subs;
    } else {
      var child := Evaluate(exprs[0], Some(Fresh(r))).report.value;
      var parent := Adopt(r, child);
      EvaluateAllStep(exprs, r);
      SubreportsAreOperands(exprs[1..], parent);
      SubreportsJoin(r.subs, child, OperandReports(exprs[1..], Fresh(r)));
      assert OperandReports(exprs, Fresh(r)) == [child] + OperandReports(exprs[1..], Fresh(r));
    }
  }

  lemma SubreportsJoin(subs: seq<Report>, child: Report, rest: seq<Report>)
    ensures (subs + [child]) + rest == subs + ([child] + rest)
  {
  }

  /** One successful step of `EvaluateAll` with a reporter: the first
      operand writes into a fresh child, which the reporter adopts before
      the rest are evaluated. */
  lemma EvaluateAllStep(exprs: seq<Test>, r: Report)
    requires exprs != [] && EvaluateAll(exprs, Some(r)).result.Ok?
    ensures var first := Evaluate(exprs[0], Some(Fresh(r)));
      var parent := Adopt(r, first.report.value);
      && first.result.Ok? && first.report.Some?
      && Fresh(parent) == Fresh(r)
      && EvaluateAll(exprs[1..], Some(parent)).result.Ok?
      && EvaluateAll(exprs, Some(r)).report == EvaluateAll(exprs[1..], Some(parent)).report
  {
    var first := Evaluate(exprs[0], Some(Fresh(r)));
    assert ChildOf(Some(r)) == Some(Fresh(r));
    assert first.result.Ok?;
  }

  // ---------------------------------------------------------------------
  // The builders

  /** `TestOperation.sum(*args)`, named `sum`. */
  function SumOp(args: seq<Arg>): (t: Test)
    ensures t == MakeOperation(Sum, args, Some("sum"))
  {
    MakeOperation(Sum, args, Some("sum"))
  }

  /** `sum` scores the arithmetic sum of its operands; with none, 0. */
  lemma SumScoresSum(args: seq<Arg>, xs: seq<int>)
    requires |args| == |xs| && forall i :: 0 <= i < |args| ==> ScoreOf(Wrap(args[i])) == Ok(Number(xs[i]))
    ensures ScoreOf(SumOp(args)) == Ok(Number(SumOf(xs)))
    ensures args == [] ==> ScoreOf(SumOp(args)) == Ok(Number(0))
  {
    var t := SumOp(args);
    assert t == TestOperation(Sum, "sum", t.exprs);
    forall i | 0 <= i < |t.exprs| ensures ScoreOf(t.exprs[i]) == Ok(Number(xs[i])) {
      assert t.exprs[i] == Wrap(args[i]);
    }
    OperationScore(Sum, "sum", t.exprs, xs);
    SumApplied(xs);
  }

  lemma SumApplied(xs: seq<int>)
    ensures Apply(Sum, xs) == Ok(SumOf(xs))
  {
  }

  /** The first argument of `max`/`min`: one operand, or an iterable whose
      items are spread (`shown` being how the iterable prints). */
  datatype First = One(arg: Arg) | Spread(items: seq<Arg>, shown: string)

  /** `first` passed on as one operand: an iterable is just a value. */
  function AsArgument(first: First): (a: Arg)
    ensures first.One? ==> a == first.arg
    ensures first.Spread? ==> a == ValueArg(Other(first.shown))
  {
    match first
    case One(a) => a
    case Spread(_, shown) => ValueArg(Other(shown))
  }

  /** `TestOperation.max(first, *rest)` / `min`, as written: with no `rest`
      the items of `first` become the operands of the builtin, which then
      compares a lone item against nothing; spreading an operand that is
      not iterable raises at construction. */
  function ExtremeAsWritten(largest: bool, first: First, rest: seq<Arg>): (r: Outcome<Test>)
    ensures rest != [] ==> r == Ok(MakeOperation(if largest then Max else Min, [AsArgument(first)] + rest,
                                                 Some(if largest then "max" else "min")))
    ensures rest == [] && first.One? ==> r == Throw(TypeError)
    ensures rest == [] && first.Spread? ==>
      r == Ok(MakeOperation(if largest then Max else Min, first.items, Some(if largest then "max" else "min")))
  {
    var op := if largest then Max else Min;
    var name := Some(if largest then "max" else "min");
    if rest != [] then Ok(MakeOperation(op, [AsArgument(first)] + rest, name))
    else match first
      case One(_) => Throw(TypeError)
      case Spread(items, _) => Ok(MakeOperation(op, items, name))
  }

  /** The builders as evidently intended: a single iterable is reduced over
      its items, however many there are. */
  function Extreme(largest: bool, first: First, rest: seq<Arg>): (r: Outcome<Test>)
    ensures rest != [] ==> r == ExtremeAsWritten(largest, first, rest)
    ensures rest == [] && first.One? ==> r == Throw(TypeError)
    ensures rest == [] && first.Spread? ==>
      r == Ok(MakeOperation(if largest then MaxAll else MinAll, first.items, Some(if largest then "max" else "min")))
  {
    var name := Some(if largest then "max" else "min");
    if rest != [] then ExtremeAsWritten(largest, first, rest)
    else match first
      case One(_) => Throw(TypeError)
      case Spread(items, _) => Ok(MakeOperation(if largest then MaxAll else MinAll, items, name))
  }

  /** The as-written `max([k])` fails when scored; the corrected one scores
      `k`. */
  lemma ExtremeOfOneAsWritten(k: int)
    ensures ExtremeAsWritten(true, Spread([ValueArg(Number(k))], "[k]"), []).Ok?
    ensures ScoreOf(ExtremeAsWritten(true, Spread([ValueArg(Number(k))], "[k]"), []).value) == Throw(TypeError)
    ensures ScoreOf(Extreme(true, Spread([ValueArg(Number(k))], "[k]"), []).value) == Ok(Number(k))
  {
    var items := [ValueArg(Number(k))];
    OperationScore(Max, "max", MakeOperation(Max, items, Some("max")).exprs, [k]);
    OperationScore(MaxAll, "max", MakeOperation(MaxAll, items, Some("max")).exprs, [k]);
  }

  /** The corrected builders reduce over the operands' scores: an empty
      iterable fails with `ValueError` (never scoring 0), and otherwise the
      result is the largest (smallest) score. */
  lemma ExtremeReduces(largest: bool, items: seq<Arg>, shown: string, xs: seq<int>)
    requires |items| == |xs| && forall i :: 0 <= i < |items| ==> ScoreOf(Wrap(items[i])) == Ok(Number(xs[i]))
    ensures Extreme(largest, Spread(items, shown), []).Ok?
    ensures var s := ScoreOf(Extreme(largest, Spread(items, shown), []).value);
      (xs == [] ==> s == Throw(ValueError)) &&
      (xs != [] ==> (s.Ok? && s.value.Number? && s.value.n in xs &&
        forall i :: 0 <= i < |xs| ==> (if largest then xs[i] <= s.value.n else s.value.n <= xs[i])))
  {
    var t := Extreme(largest, Spread(items, shown), []).value;
    OperationScore(t.op, t.name, t.exprs, xs);
  }

  /** The arithmetic builders, and `3 + a` building `add(3, a)`. */
  lemma ReflectedOrder(t: Test)
    ensures Forward(Add, t, ValueArg(Number(3))) == TestOperation(Add, "add", [t, TestConstant(Number(3))])
    ensures Reflected(Add, t, ValueArg(Number(3))) == TestOperation(Add, "add", [TestConstant(Number(3)), t])
    ensures Unary(Neg, t) == TestOperation(Neg, "neg", [t])
  {
    assert WrapAll([TestArg(t), ValueArg(Number(3))]) == [t, TestConstant(Number(3))];
    assert WrapAll([ValueArg(Number(3)), TestArg(t)]) == [TestConstant(Number(3)), t];
    assert WrapAll([TestArg(t)]) == [t];
  }

  /** Example: `2 - BaseTest()` scores 2, and a non-integer constant makes the
      operation fail. */
  lemma ScoreExamples()
    ensures ScoreOf(Reflected(Sub, BaseTest, ValueArg(Number(2)))) == Ok(Number(2))
    ensures ScoreOf(Forward(Add, BaseTest, ValueArg(Other("'x'")))) == Throw(TypeError)
  {
    var t := Reflected(Sub, BaseTest, ValueArg(Number(2)));
    assert t.exprs == [TestConstant(Number(2)), BaseTest];
    OperationScore(Sub, "sub", t.exprs, [2, 0]);
    var u := Forward(Add, BaseTest, ValueArg(Other("'x'")));
    assert u.exprs == [BaseTest, TestConstant(Other("'x'"))];
    OperandsInOrder(u.exprs);
    assert EvaluateAll(u.exprs, None).result.value[1] == Other("'x'");
  }
}

=== FILE: validators.dfy ===
/** The validators a parameter runs on each value assigned to it
    (`backbones/validators.py`), and how a parameter attaches and runs them
    (`ValidatorMixin` in `backbones/parameters.py`). */
module Validators {
  import opened Outcomes
  import opened PyValues

  /** What calling a user-supplied callable did: returned a value, or raised. */
  datatype Reply = Answer(value: Value) | Fails(kind: Kind)

  /** A validator: a `PredicateValidator` around a one-argument callable, or
      a `BaseValidator` subclass whose `__call__(value, target)` behaves as
      `check` says. */
  datatype Validator =
    | Predicate(test: Value -> Reply)
    | Custom(check: (Value, string) -> Reply)

  /** `BaseValidator()` itself: its `__call__` returns `None`. */
  function BaseValidator(): Validator
  {
    Custom((value, target) => Answer(VNone))
  }

  /** `validator(value, target)`, reduced to its truthiness. A predicate
      validator turns a falsy answer and any exception of the predicate into
      `ValueError` raised from the original; a custom validator's result and
      exceptions come through unchanged. */
  function Run(v: Validator, value: Value, target: string): (r: Outcome<bool>)
    ensures v.Predicate? ==> r != Ok(false)
    ensures v.Predicate? ==> (r == Ok(true) <==> v.test(value).Answer? && Truthy(v.test(value).value))
    ensures v.Predicate? && r.Raise? ==>
      r.error == Error(ValueError, Chained(if v.test(value).Fails? then v.test(value).kind else ValueError))
    ensures v.Custom? ==> (r.Ok? <==> v.check(value, target).Answer?)
    ensures v.Custom? && r.Ok? ==> r.value == Truthy(v.check(value, target).value)
    ensures v.Custom? && r.Raise? ==> r == Throw(v.check(value, target).kind)
  {
    match v
    case Predicate(test) =>
      (match test(value)
       case Answer(x) => if Truthy(x) then Ok(true) else Raise(Error(ValueError, Chained(ValueError)))
       case Fails(k) => Raise(Error(ValueError, Chained(k))))
    case Custom(check) =>
      (match check(value, target)
       case Answer(x) => Ok(Truthy(x))
       case Fails(k) => Throw(k))
  }

  /** The value passes validator `v`. */
  predicate Passes(v: Validator, value: Value, target: string)
  {
    Run(v, value, target) == Ok(true)
  }

  /** `check_with_validators(value, raise_error)`: the validators in order;
      the first one that raises stops the run with its exception, and the
      first one that answers falsy fails the value (raising `ValueError` when
      `raiseError`). */
  function CheckAll(vs: seq<Validator>, value: Value, target: string, raiseError: bool): (r: Outcome<bool>)
    ensures r == Ok(true) <==> forall i :: 0 <= i < |vs| ==> Passes(vs[i], value, target)
    ensures r == Ok(false) ==> !raiseError
    ensures r.Raise? ==> exists i :: 0 <= i < |vs| && !Passes(vs[i], value, target)
  {
    if vs == [] then Ok(true)
    else
      match Run(vs[0], value, target)
      case Raise(e) => Raise(e)
      case Ok(pass) =>
        if !pass then (if raiseError then Throw(ValueError) else Ok(false))
        else
          var rest := CheckAll(vs[1..], value, target, raiseError);
          assert forall i :: 1 <= i < |vs| ==> vs[1..][i - 1] == vs[i];
          rest
  }

  /** The first validator the value does not pass. */
  function FailingIndex(vs: seq<Validator>, value: Value, target: string): (i: nat)
    requires exists i :: 0 <= i < |vs| && !Passes(vs[i], value, target)
    ensures i < |vs| && !Passes(vs[i], value, target)
    ensures forall j :: 0 <= j < i ==> Passes(vs[j], value, target)
  {
    if !Passes(vs[0], value, target) then 0
    else
      assert exists i :: 0 <= i < |vs[1..]| && !Passes(vs[1..][i], value, target) by {
        var k :| 0 <= k < |vs| && !Passes(vs[k], value, target);
        assert vs[1..][k - 1] == vs[k];
      }
      1 + FailingIndex(vs[1..], value, target)
  }

  /** A failed run reports the first failing validator: its own exception
      when it raised, and otherwise `ValueError` (or `False`). */
  lemma {:induction false} CheckAllStopsAtFirst(vs: seq<Validator>, value: Value, target: string, raiseError: bool)
    requires exists i :: 0 <= i < |vs| && !Passes(vs[i], value, target)
    ensures var k := FailingIndex(vs, value, target);
      var r := Run(vs[k], value, target);
      CheckAll(vs, value, target, raiseError) ==
        if r.Raise? then r else if raiseError then Throw(ValueError) else Ok(false)
  {
    if Passes(vs[0], value, target) {
      assert exists i :: 0 <= i < |vs[1..]| && !Passes(vs[1..][i], value, target) by {
        var k :| 0 <= k < |vs| && !Passes(vs[k], value, target);
        assert vs[1..][k - 1] == vs[k];
      }
      CheckAllStopsAtFirst(vs[1..], value, target, raiseError);
    }
  }

  /** An argument of `add_validators`: a validator object, another callable,
      or something that is neither. */
  datatype Candidate = IsValidator(v: Validator) | IsCallable(f: Value -> Reply) | NotCallable

  function Convert(c: Candidate): Validator
    requires !c.NotCallable?
  {
    match c
    case IsValidator(v) => v
    case IsCallable(f) => Predicate(f)
  }

  /** How many of the candidates, from the front, are callable. */
  function CallablePrefix(given: seq<Candidate>): (k: nat)
    ensures k <= |given| && forall i :: 0 <= i < k ==> !given[i].NotCallable?
    ensures k < |given| ==> given[k].NotCallable?
  {
    if given == [] || given[0].NotCallable? then 0 else 1 + CallablePrefix(given[1..])
  }

  function ConvertAll(cs: seq<Candidate>): (vs: seq<Validator>)
    requires forall i :: 0 <= i < |cs| ==> !cs[i].NotCallable?
    ensures |vs| == |cs| && forall i :: 0 <= i < |cs| ==> vs[i] == Convert(cs[i])
  {
    if cs == [] then [] else [Convert(cs[0])] + ConvertAll(cs[1..])
  }

  /** The validators a parameter holds after `add_validators(*given)`, and
      the error it raised, if any. */
  datatype Attached = Attached(validators: seq<Validator>, failure: Option<Error>)

  /** The candidates are attached one at a time, so those before the first
      non-callable one stay attached when it raises `TypeError`. */
  function AddValidators(current: seq<Validator>, given: seq<Candidate>): (r: Attached)
    ensures r.failure.None? <==> forall i :: 0 <= i < |given| ==> !given[i].NotCallable?
    ensures r.failure.Some? ==> r.failure.value == Error(TypeError, Plain)
    ensures r.validators == current + ConvertAll(given[..CallablePrefix(given)])
    decreases given
  {
    if given == [] then Attached(current, None)
    else if given[0].NotCallable? then Attached(current, Some(Error(TypeError, Plain)))
    else
      var next := current + [Convert(given[0])];
      var rest := AddValidators(next, given[1..]);
      AttachOne(current, given);
      assert rest.failure.None? <==> forall i :: 0 <= i < |given| ==> !given[i].NotCallable? by {
        assert forall i :: 1 <= i < |given| ==> given[1..][i - 1] == given[i];
      }
      rest
  }

  lemma AttachOne(current: seq<Validator>, given: seq<Candidate>)
    requires given != [] && !given[0].NotCallable?
    ensures current + [Convert(given[0])] + ConvertAll(given[1..][..CallablePrefix(given[1..])]) ==
      current + ConvertAll(given[..CallablePrefix(given)])
  {
    var k := CallablePrefix(given[1..]);
    assert CallablePrefix(given) == k + 1;
    assert given[..k + 1][1..] == given[1..][..k];
    assert ConvertAll(given[..k + 1]) == [Convert(given[0])] + ConvertAll(given[1..][..k]);
  }

  /** `add_validator(v)` attaches one validator; on a plain callable it is
      then run as a predicate. */
  lemma AddOneCallable(current: seq<Validator>, f: Value -> Reply, value: Value, target: string)
    ensures AddValidators(current, [IsCallable(f)]) == Attached(current + [Predicate(f)], None)
    ensures Passes(Predicate(f), value, target) <==> f(value).Answer? && Truthy(f(value).value)
  {
    assert [IsCallable(f)][1..] == [];
  }

  /** The plain base validator never passes a value: its `__call__` returns
      `None`. */
  lemma BaseValidatorFails(value: Value, target: string)
    ensures Run(BaseValidator(), value, target) == Ok(false)
    ensures CheckAll([BaseValidator()], value, target, true) == Throw(ValueError)
  {
    assert [BaseValidator()][1..] == [];
  }
}
